=== FILE: README.md ===
# GLADtoText subword engine, modelled in Dafny

GLADtoText is a fastText-style text engine. It turns words into subword
features: character n-grams hashed into buckets, grammar units induced
from frequent substrings, and Soundex-like phonetic codes. It sums their
embedding rows, gated by a per-dimension attention vector, into one
representation, and trains a prototype classifier on top. Models are
saved in several binary formats:

- GALD: dense, unsupervised;
- GALS: supervised;
- GALC: compact, words only;
- GALT: tiny, sparse and int8-quantized;
- a versioned layout read by the Python binding.

This project models the engine's core as pure Dafny functions over
immutable datatypes, and proves properties of that model:

- **Feature extraction.** The two tokenizers (`Tokenizer`). The hashing
  character n-gram extractor (`CharNgram`) and the n-gram generator
  (`NGramGenerator`), which both visit the windows of `Spans`. 32-bit and
  64-bit FNV-1a hashing on wrapping bit-vectors (`Fnv`). The two phonetic
  coders (`Phonetic`, `PhoneticEncoder`). Grammar-unit induction on a
  counting trie (`GrammarUnits`).
- **The dictionary** (`Dictionaries`). Its four id ranges are placed by
  offsets. The model shows both the call order under which the ranges
  are disjoint and the orders under which they overlap.
- **Containers and aggregation.** Dense vectors and matrices (`Vectors`,
  `VectorSums`), the pruned sparse matrix (`SparseMatrices`), the
  embedding table (`EmbeddingTables`), the backbone sum (`Backbone`), the
  word encoder and the mean sentence encoder (`WordEncoders`,
  `MeanSentenceEncoders`), and the linear classifier (`LinearClassifiers`).
- **The classification head** (`ClassifierHeads`, `HeadTraining`,
  `Batches`, `HeadBatches`, `TopK`). This covers constructor checks,
  margin, softmax gradients and clipping, backpropagation into the
  backbone, batch averaging and top-k prediction.
- **Configuration.** Validation (`GlobalConfig`, `EncoderConfig`, with
  NaN in `Floats`) and the size estimates and presets (`LayerConfig`).
- **Corpus rules** shared by the trainers (`Corpus`). These are the label
  marker, label ids, vocabulary construction, line splitting and the CBOW
  context window. The tiny classifier's variants are in `TinyModel`.
- **Model files** as sequences of typed tokens (`Tokens`). Each writer is
  paired with its readers: `ModelFiles` (GALD, GALS), `VersionedFiles`
  (the Python layout), `CompactFiles` (GALC) and `TinyFiles` (GALT).
  The loaders build the Embeddings, VectorAttention and Classifier objects
  where the C++ does, so a size those constructors throw on fails the load.
- **The three predictors** (`Predictors`).

Floats are modelled as reals. `exp`, `log`, `sigmoid` and the random
number generator are parameters. Iteration orders of `unordered_map`s
are parameters wherever a result depends on them.

model/backbone.h:19-23 sums the gated rows without dividing by their
number. `Backbone.Forward` (see `Backbone.ForwardAt`) and the compact
predictor's `Predictors.Aggregate` (see `Predictors.AggregateSum`) are
sums.

## Model

| member | source | states |
|---|---|---|
| Ascii.ToLower | revisit/core/tokenizer/english_tokenizer.h:16-17 | an upper-case ASCII letter becomes its lower-case letter (code plus 32); every other character is left as it is, as in the C locale |
| Ascii.ToUpper | subwords/phonetic.h:16 | a lower-case ASCII letter becomes its upper-case letter (code minus 32); every other character is left as it is |
| Ascii.LowerAll | revisit/core/tokenizer/english_tokenizer.h:16-17 | every character is lower-cased in place |
| Fnv.Bytes | revisit/core/hashing/hash_function.h:14-15 | a string yields one byte per character, in order, each the character's low eight bits taken as unsigned |
| Fnv.Hash64Snoc | revisit/core/hashing/hash_function.h:13-17 | extending the input by one byte extends the hash by one round: XOR the zero-extended byte, then multiply by 1099511628211 modulo 2^64 |
| Fnv.Hash32Snoc | subwords/char_ngram.h:25-28 | the 32-bit variant: one more byte is one more round with prime 16777619 modulo 2^32 |
| Fnv.Fnv1a64 | revisit/core/hashing/hash_function.h:9-19 | the loop returns the left fold of the rounds over the string's bytes, starting from the offset basis |
| Fnv.EmptyHash | revisit/core/hashing/hash_function.h:10-13 | the empty string hashes to the offset basis 14695981039346656037, which is not zero |
| Fnv.HelloWorldDiffer | tests/test_hash.cc:11-16 | "hello" and "world" have different 64-bit hashes |
| Spans.AtStartMembers | core/ngram/ngram_generator.h:26 | the inner loop at start i visits a (start, length) pair exactly when it starts at i, its length lies in [min, max] and it fits in the string |
| Spans.WindowsMembers | core/ngram/ngram_generator.h:25-29 | the loops up to start u visit a pair exactly when it starts below u and fits with a length in [min, max] |
| Spans.AllWindowsExact | core/ngram/ngram_generator.h:25-29 | the full enumeration visits exactly the fitting pairs, in strictly increasing (start, length) order, hence each once |
| Spans.WindowsOrdered | subwords/char_ngram.h:24-35 | the visiting order is strictly increasing by start, then by length |
| Spans.WindowCount | subwords/char_ngram.h:24-35 | the enumeration has exactly as many entries as there are fitting pairs |
| Spans.EmptyRange | core/ngram/ngram_generator.h:26 | a length range with max below min visits nothing |
| CharNgram.Wrap | subwords/char_ngram.h:21 | the wrapped word is two characters longer, starts with '<', ends with '>' and holds the word in between |
| CharNgram.Reduce | subwords/char_ngram.h:32 | for a positive bucket the emitted value is the unsigned hash modulo the bucket, so it lies in [0, bucket); for any accepted bucket it fits in an int |
| CharNgram.SliceStep | subwords/char_ngram.h:26-28 | the incremental hash is sound: the hash of w[i..j+1) is one round applied to the hash of w[i..j) |
| CharNgram.FromStart | subwords/char_ngram.h:25-34 | the inner loop at start i emits the reduced hashes of the substrings at i whose lengths run from max(1, minn) up to maxn while they fit |
| CharNgram.ExtractBytes | subwords/char_ngram.h:24-35 | the outer loop appends, after whatever the vector held, one reduced hash per fitting window in (start, length) order |
| CharNgram.Extract | subwords/char_ngram.h:18-36 | extract appends to the caller's vector, never clearing it, the values of every n-gram of "<" + word + ">" |
| CharNgram.ExpectedValues | subwords/char_ngram.h:21-33 | there is one value per enumerated window; each window fits in "<word>" with a length in [max(1, minn), maxn], and its value is the 32-bit FNV-1a of its bytes reduced modulo the bucket, lying in [0, bucket) for a positive bucket |
| CharNgram.ExpectedCount | subwords/char_ngram.h:24-35 | the number of values is the number of (start, length) pairs with length in [max(1, minn), maxn] that fit in the wrapped word |
| CharNgram.EmptyWhenMinAboveMax | subwords/char_ngram.h:26-31 | minn above maxn emits nothing |
| CharNgram.Ids | subwords/char_ngram.h:24-35 | one bucket id per n-gram window |
| CharNgram.IdsAt | subwords/char_ngram.h:25-33 | the k-th id is the 32-bit FNV-1a hash of the k-th window's bytes, modulo the bucket |
| CharNgram.IdsAppend | subwords/char_ngram.h:24-35 | the ids of two window lists put together are the ids of each, in order |
| NGramGenerator.Wrapped | core/ngram/ngram_generator.h:16-20 | the wrapped word is '<', the word, then '>' |
| NGramGenerator.FromStart | core/ngram/ngram_generator.h:26-28 | the inner loop at start i emits wrapped[i..i+n) for n from min_n while n <= max_n and it fits |
| NGramGenerator.Generate | core/ngram/ngram_generator.h:12-30 | generate sets the wrapped word and replaces the list with the n-grams of every fitting window in (start, length) order |
| NGramGenerator.ExpectedExact | core/ngram/ngram_generator.h:25-29 | the k-th n-gram is wrapped[s..s+n) with min_n <= n <= max_n, and there is one n-gram per fitting window |
| NGramGenerator.CatTrigrams | revisit/tests/test_ngram.cc:16-26 | "cat" with lengths 3..3 gives exactly "<ca", "cat", "at>" |
| NGramGenerator.EmptyWordNoNgrams | core/ngram/ngram_generator.h:17-29 | the empty word with min_n >= 3 gives no n-grams, since "<>" has length 2 |
| Phonetic.Code | subwords/phonetic.h:19-29 | get_code maps every character to one of '0'..'6' |
| Phonetic.Digits | subwords/phonetic.h:34-42 | after n characters the loop has emitted at most n - 1 digits |
| Phonetic.Encode | subwords/phonetic.h:11-49 | the loop computes the reference code: the upper-cased first character followed by the digits the rule emits |
| Phonetic.DigitsAreDigits | subwords/phonetic.h:38-40 | every emitted digit lies in '1'..'6' |
| Phonetic.DigitsExtend | subwords/phonetic.h:32-42 | position n emits code(w[n]) exactly when that code is not '0' and differs from the code of the previous input character, vowels included |
| Phonetic.SpecShape | subwords/phonetic.h:12-41 | the code is empty exactly for the empty word; otherwise it starts with toupper(w[0]), is no longer than the word, and the rest are digits '1'..'6' |
| Phonetic.CodeIgnoresCase | subwords/phonetic.h:20 | characters equal after lower-casing get the same digit |
| Phonetic.CaseInsensitive | subwords/phonetic.h:16-20 | words that differ only in the case of ASCII letters get the same code |
| PhoneticEncoder.SameClasses | core/phonetic/phonetic_encoder.h:37-54 | the upper-case table puts every character in the same class as phoneticEncode's table |
| PhoneticEncoder.EncodeFromKeeps | core/phonetic/phonetic_encoder.h:22-31 | the loop keeps the code so far as a prefix, never exceeds 8 characters, emits only digits '1'..'6', and never repeats the remembered digit next to itself |
| PhoneticEncoder.Encode | core/phonetic/phonetic_encoder.h:9-34 | empty exactly for the empty word; otherwise starts with toupper(word[0]), has at most 8 characters, digits '1'..'6' with no two equal neighbours, and a first digit unlike the first letter's class |
| PhoneticEncoder.EncodeFromIgnoresCase | core/phonetic/phonetic_encoder.h:22-31 | the loop gives the same code on two words that differ only in letter case |
| PhoneticEncoder.CaseInsensitive | core/phonetic/phonetic_encoder.h:16-23 | "Hello", "hello" and "HELLO"-style case variants encode identically |
| PhoneticEncoder.Examples | tests/test_phonetic_encoder.cc:21-38 | "smith" and "smyth" both encode to "S53"; "hello" is "H4" and "world" is "W643", so they differ |
| Tokenizer.RunLen | revisit/core/tokenizer/english_tokenizer.h:15-21 | the length of the leading run: every character before it is kept, and the character at it (if any) is not |
| Tokenizer.ScanIsRuns | revisit/core/tokenizer/english_tokenizer.h:12-26 | the character-by-character scan appends exactly the maximal runs of kept characters, each folded (lower-cased for the English kind) |
| Tokenizer.Tokenize | main.cpp:76-84 | both tokenizers return the maximal runs of kept characters: non-space runs for `iss >> word`, lower-cased alphanumeric runs for the English tokenizer |
| Tokenizer.TokenizeInto | revisit/core/tokenizer/english_tokenizer.h:8-27 | the out-parameter overload clears the list and the loop leaves exactly the maximal runs in it |
| Tokenizer.RunsTokens | revisit/core/tokenizer/english_tokenizer.h:15-26 | every token is non-empty and consists only of lower-case letters and digits (or only of non-space characters) |
| Tokenizer.RunsConcat | revisit/core/tokenizer/english_tokenizer.h:15-26 | the tokens concatenated are the kept characters of the text, folded, in order |
| Tokenizer.NothingKept | revisit/core/tokenizer/english_tokenizer.h:18-26 | a text with no kept character gives no tokens |
| Tokenizer.RunsWord | revisit/core/tokenizer/english_tokenizer.h:15-21 | a run of kept characters followed by a separator becomes one token, then tokenizing continues after it |
| Tokenizer.RunsSeparator | revisit/core/tokenizer/english_tokenizer.h:18 | leading separators are skipped without producing a token |
| Tokenizer.EmptyText | revisit/tests/test_tokenizer.cc:26-33 | the empty text gives no tokens |
| Tokenizer.HelloCommaWorld | revisit/tests/test_tokenizer.cc:15-24 | "Hello, world!" gives ["hello", "world"] |
| Tokenizer.HelloSpacesWorld | revisit/tests/test_tokenizer.cc:35-44 | "hello    world" gives ["hello", "world"] |
| Tokenizer.MapAll | revisit/core/tokenizer/english_tokenizer.h:16-17 | folding keeps the length of the text |
| GrammarUnits.AddSubstring | subwords/grammar_units.h:24-33 | the trie gains the string's missing prefixes as nodes with count 0 and id -1; the string's own count goes up by one; every other count and every existing id stays |
| GrammarUnits.AddSubstringClosed | subwords/grammar_units.h:26-31 | walking the path keeps the trie closed under prefixes: every node's parent exists |
| GrammarUnits.AddAllCounts | subwords/grammar_units.h:24-33 | after adding a list of substrings, each path's count has grown by the number of times it was added; old ids are kept and new nodes have id -1 |
| GrammarUnits.Observe | subwords/grammar_units.h:63-71 | observe changes only the trie, keeping min/max length and the frequency threshold |
| GrammarUnits.ObservedShape | subwords/grammar_units.h:65-69 | the k-th substring observe adds is word[i..i+l) for the k-th fitting (i, l) in loop order, with minLen <= l <= maxLen |
| GrammarUnits.ObserveCounts | subwords/grammar_units.h:63-70 | observe raises each substring's count by its number of occurrences of an allowed length and nothing else; intermediate prefix nodes keep their count; ids are unchanged |
| GrammarUnits.ObservedLength | subwords/grammar_units.h:67 | only substrings whose length lies in [minLen, maxLen] are ever counted |
| GrammarUnits.DfsNext | subwords/grammar_units.h:43-55 | dfs moves next_id on by exactly the number of eligible visited nodes (non-root, count >= min_freq, id still -1) |
| GrammarUnits.DfsTrie | subwords/grammar_units.h:43-55 | dfs keeps every node and count, and changes ids only of eligible visited nodes |
| GrammarUnits.DfsVocab | subwords/grammar_units.h:45-48 | dfs adds exactly the eligible visited paths to the vocabulary and keeps the other entries |
| GrammarUnits.DfsIdOf | subwords/grammar_units.h:45-47 | an eligible visited path gets an id in [next_id at entry, next_id at exit), stored both in its node and in the vocabulary |
| GrammarUnits.DfsIdRange | subwords/grammar_units.h:45-47 | the same for every eligible visited path at once |
| GrammarUnits.DfsIdsDistinct | subwords/grammar_units.h:45-47 | no two eligible paths share an id |
| GrammarUnits.FirstIdSmallest | subwords/grammar_units.h:45-54 | a node visited first and eligible gets next_id itself, and every later eligible node a larger id |
| GrammarUnits.DfsDone | subwords/grammar_units.h:45 | after dfs no visited node is eligible any more (its id is no longer -1) |
| GrammarUnits.Finalize | subwords/grammar_units.h:73-76 | from a trie without ids and an empty vocabulary, finalize keeps exactly the non-empty paths with count >= min_freq, with ids in 0 .. n-1, all different |
| GrammarUnits.FinalizeTwice | subwords/grammar_units.h:45 | a second finalize adds nothing to the vocabulary: the id == -1 guard stops re-assignment |
| GrammarUnits.NothingEligible | subwords/grammar_units.h:45-48 | with no eligible node, dfs leaves the vocabulary as it was |
| GrammarUnits.CancelObserved | tests/test_grammar.cpp:6-8 | observe adds the ten substrings of "cancel" with lengths 3 to 6, by start then length |
| GrammarUnits.CancelCounts | tests/test_grammar.cpp:6-10 | after three observations of "cancel", each of the ten has count 3 and every other path 0 |
| GrammarUnits.CancelExample | tests/test_grammar.cpp:6-13 | finalize then collects exactly the ten substrings, with distinct ids below 10, in any visiting order |
| Dictionaries.GetWordId | core/dictionary.h:35-38 | in a consistent dictionary the result is -1 exactly for words never added; otherwise it is the word's position in id2word |
| Dictionaries.GetCharNgramId | core/dictionary.h:42-44 | once finalize has placed the buckets, a hash in [0, bucket_size) lands in [#words, #words + bucket_size), above every word id |
| Dictionaries.GetGrammarId | core/dictionary.h:57-60 | with the ranges laid out, -1 means exactly an unknown unit, and a known unit's id lies between the n-gram buckets and phonetic_offset |
| Dictionaries.GetPhoneticId | core/dictionary.h:73-76 | with the ranges laid out, a known unit's id lies in [phonetic_offset, totalSize); with a non-negative phonetic_offset, -1 means exactly an unknown unit |
| Dictionaries.TotalSize | core/dictionary.h:88-90 | with the buckets right after the words and the phonetic units right after the grammar units, totalSize is #words + bucket_size + #grammar + #phonetic |
| Dictionaries.AddWord | core/dictionary.h:25-33 | a known word returns its id and changes nothing; a new word gets id #words and is appended to id2word; other words' ids and all other fields are unchanged; the tables stay inverse |
| Dictionaries.DedupMembers | core/dictionary.h:25-33 | the first-appearance order lists exactly the words that occur |
| Dictionaries.DedupNoRepeats | core/dictionary.h:29-31 | a list without repeats is its own first-appearance order |
| Dictionaries.AddWordsValid | core/dictionary.h:25-33 | adding words keeps word2id and id2word inverse and touches no other field |
| Dictionaries.AddWordsOrder | core/dictionary.h:29-31 | from an empty dictionary, id2word lists the added words in order of first appearance |
| Dictionaries.AddWordsKnown | core/dictionary.h:35-38 | getWordId is -1 exactly for the words never added |
| Dictionaries.AddWordsIds | core/dictionary.h:25-38 | new words get consecutive ids 0, 1, 2, ... in first-appearance order, the tables are inverse, and unknown words give -1 |
| Dictionaries.AddWordTwice | core/dictionary.h:26-27 | addWord is idempotent: a second call returns the same id and the same dictionary |
| Dictionaries.LoadGrammarUnits | core/dictionary.h:48-55 | grammar_offset becomes #words + bucket_size as it is now; each unit's id is that offset plus its vocabulary id; units not in the vocabulary keep their ids; nothing else changes |
| Dictionaries.AddPhonetic | core/dictionary.h:64-71 | a known unit returns its id and changes nothing; a new unit gets phonetic_offset + #units and grows totalSize by one; other units keep their ids |
| Dictionaries.AddPhoneticTwice | core/dictionary.h:65-66 | addPhonetic is idempotent |
| Dictionaries.AddPhonetics | core/dictionary.h:64-71 | adding phonetic units changes no field but the phonetic table |
| Dictionaries.Finalize | core/dictionary.h:80-84 | bucket_offset becomes #words and phonetic_offset becomes #words + b + #grammar units; nothing else changes but bucket_size |
| Dictionaries.FinalizeTotal | core/dictionary.h:88-90 | after finalize(b), totalSize is #words + b + #grammar + #phonetic |
| Dictionaries.NgramIdsAfterWords | core/dictionary.h:42-44 | after finalize(b), a hash in [0, b) lands in [#words, #words + b), above every word id |
| Dictionaries.GrammarAfterFinalize | tests/unit/test_dictionary.cpp:14-25 | finalizing before loading puts each grammar id at #words + b + its vocabulary id, above every word and n-gram id |
| Dictionaries.DisjointIds | core/dictionary.h:35-90 | when the four ranges are laid out in order, a word id < an n-gram id < a grammar id < a phonetic id < totalSize |
| Dictionaries.AddPhoneticDisjoint | core/dictionary.h:64-71 | adding a phonetic unit to a laid-out dictionary keeps the ranges apart |
| Dictionaries.AddPhoneticsDisjoint | core/dictionary.h:64-71 | the same for any list of units |
| Dictionaries.FreezeDisjoint | core/dictionary.h:48-84 | words, then finalize, load grammar units, finalize again, then phonetic units: every kind of id lies in its own range |
| Dictionaries.GrammarFirstCollides | tiny_model.cpp:122-126 | loading grammar units before finalize: with one word and ten buckets, unit "ab" and n-gram bucket 0 share row 1, so the ranges overlap |
| Dictionaries.PhoneticFirstCollides | python_bindings.cpp:140-156 | adding phonetic units before finalize: the first unit gets row 0, the row of the first word |
| Dictionaries.FinalizeThenLoadCollides | tests/unit/test_dictionary.cpp:14-15 | finalize, then load: phonetic_offset was fixed before the grammar units arrived, so the first phonetic unit shares row 11 with the first grammar unit |
| Vectors.Zeros | core/vector.h:9 | a new vector of dimension n has n entries, all 0 |
| Vectors.Zero | core/vector.h:11-13 | zeroing keeps the length and makes every entry 0, the same as a fresh vector of that length |
| Vectors.Plus | core/vector.h:15-19 | add(other, s) keeps the receiver's length and adds s times the matching entry of other to each entry; other may be longer and its tail is ignored |
| Vectors.Scaled | core/vector.h:21-24 | scale(s) keeps the length and multiplies every entry by s |
| Vectors.PlusNoScale | core/vector.h:15-19 | adding with scale 0 leaves the vector unchanged |
| Vectors.PlusFromZeros | core/vector.h:15-19 | adding other with scale 1 to zeros of length n gives the first n entries of other |
| Vectors.ScaledTwice | core/vector.h:21-24 | scaling by a then by b is scaling by a*b, and scaling by 1 changes nothing |
| Vectors.DotSymmetric | core/vector.h:26-32 | the dot product of two vectors of one length does not depend on their order |
| Vectors.DotPrefix | core/vector.h:26-32 | dot only reads the other vector up to the receiver's length |
| Vectors.DotPlus | core/vector.h:15-32 | dot is linear in its receiver: (v + s*o) . u = v . u + (s*o) . u |
| Vectors.DotSum2 | core/vector.h:26-32 | the dot product of a sum of two vectors is the sum of their dot products |
| Vectors.DotScaled | core/vector.h:21-32 | scaling the receiver by s scales its dot product by s |
| Vectors.DotZeros | core/vector.h:26-32 | a zero vector has dot product 0 with anything |
| Vectors.DotLoop | core/vector.h:26-32 | the accumulation loop from sum 0, left to right, returns the recursive dot product |
| Vectors.Block | core/vector.h:40-46 | block i of a row-major table has cols entries, entry j being w[i*cols + j] |
| Vectors.AddRowTarget | core/vector.h:48-52 | after addRow(g, i, lr), row i is the old row i plus lr times g |
| Vectors.AddRowElsewhere | core/vector.h:48-52 | addRow(g, i, lr) leaves every weight outside row i's span unchanged |
| Vectors.AddRowOtherRow | core/vector.h:48-52 | addRow(g, i, lr) leaves every other row unchanged |
| Vectors.Row | core/vector.h:40-46 | a dense row has cols entries |
| Vectors.AddRow | core/vector.h:48-52 | addRow keeps the matrix's shape and buffer size |
| VectorSums.Total | model/backbone.h:16-23 | the sum of vectors from zeros has the requested dimension |
| VectorSums.TotalSnoc | model/backbone.h:19-23 | one more vector in the loop adds it, with scale 1, to the running total |
| VectorSums.TotalAt | compact_infer.cpp:90-99 | entry j of the total is the left-to-right sum of the vectors' entries j |
| VectorSums.TotalAppend | model/backbone.h:15-26 | summing a concatenation is the element-wise sum of the two partial totals |
| VectorSums.ColumnPermutation | compact_infer.cpp:90-99 | a column sum is the same for any reordering of the vectors (equal multisets) |
| VectorSums.TotalPermutation | model/backbone.h:15-26 | the total of the vectors does not depend on their order |
| VectorSums.TotalSingle | model/backbone.h:15-26 | the total of one vector is its first dim entries |
| VectorSums.Mean | core/encoder/mean_sentence_encoder.cc:17-35 | the mean of the rows has the requested dimension |
| VectorSums.MeanAt | core/encoder/mean_sentence_encoder.cc:17-35 | entry j of the mean is the rows' entry-j sum divided by their number, and 0 with no rows |
| VectorSums.MeanDoubled | core/encoder/mean_sentence_encoder.cc:17-35 | taking every row twice leaves the mean unchanged |
| SparseMatrices.Set | core/sparse_matrix.h:22-35 | afterwards get(i,j) is the value, or 0 when its magnitude is below 1e-6; every other entry reads as before; no empty row map is left stored; rows and cols are unchanged |
| SparseMatrices.Add | core/sparse_matrix.h:37-40 | afterwards get(i,j) is the old value plus v, or 0 when that sum is below 1e-6 in magnitude; every other entry reads as before; no empty row map is left stored |
| SparseMatrices.Row | core/sparse_matrix.h:42-51 | the dense row has cols entries |
| SparseMatrices.RowIsGet | core/sparse_matrix.h:42-51 | entry j of the dense row is get(i,j): the stored value, or 0 where nothing is stored |
| SparseMatrices.StepGet | core/sparse_matrix.h:54-57 | one step of addRow changes only entry (i,j), and only when the gradient magnitude exceeds 1e-6 |
| SparseMatrices.AddRowUpToGet | core/sparse_matrix.h:53-59 | after the first n steps of addRow, exactly entries (i,b) with b < n and a gradient above 1e-6 have been added to |
| SparseMatrices.AddRowGet | core/sparse_matrix.h:53-59 | after addRow(g,i,lr), entry (i,b) for b < cols with magnitude of g[b] above 1e-6 has had lr*g[b] added through set; every other entry of every row is unchanged |
| SparseMatrices.AddRowKeeps | core/sparse_matrix.h:53-59 | addRow never leaves an empty row map stored and never stores a column outside [0, cols) |
| SparseMatrices.AddRowRow | core/sparse_matrix.h:42-59 | the dense row i after addRow is the old row plus lr*g, cleaned, at every column whose gradient passes the threshold, and unchanged at the others |
| SparseMatrices.BytesAreEightPerEntry | core/sparse_matrix.h:62-68 | the bytes memoryUsage adds per row are 8 times that row's entry count, summed |
| SparseMatrices.MemoryUsage | core/sparse_matrix.h:62-77 | memoryUsage is sizeof(int)+sizeof(float) = 8 times nonZeroCount, whatever order the rows are visited in |
| SparseMatrices.CountRowsPermutation | core/sparse_matrix.h:71-77 | the entry count summed over the rows does not depend on the order in which the rows are visited |
| SparseMatrices.NonZeroCountAnyOrder | core/sparse_matrix.h:71-77 | nonZeroCount is the same for every visiting order of the stored rows, so the hash map's iteration order does not matter |
| SparseMatrices.Prune | core/sparse_matrix.h:87-106 | after prune(t) every stored value has magnitude at least t and no empty row map is stored; the shape is unchanged |
| SparseMatrices.PruneGet | core/sparse_matrix.h:87-106 | after prune(t) an entry reads back unchanged when its magnitude is at least t, and as 0 otherwise |
| SparseMatrices.PruneTwice | core/sparse_matrix.h:87-106 | pruning twice with the same threshold is the same as pruning once |
| SparseMatrices.Zero | core/sparse_matrix.h:118-120 | after zero every entry reads as 0 and nonZeroCount is 0 |
| SparseMatrices.Get | core/sparse_matrix.h:14-20 | a non-zero read comes from a stored entry holding that value, in a column below cols when every stored column is; anything not stored reads 0 |
| SparseMatrices.AddRowUpTo | core/sparse_matrix.h:54-58 | the first n steps of addRow keep the matrix's shape |
| SparseMatrices.AddRow | core/sparse_matrix.h:53-59 | addRow keeps the matrix's shape; AddRowGet gives each entry |
| EmbeddingTables.UniformWithin | revisit/core/embedding/embedding_table.cc:27-33 | a draw u in [0,1) mapped onto [-bound, bound] stays within [-bound, bound] |
| EmbeddingTables.Init | revisit/core/embedding/embedding_table.cc:7-34 | the constructed table holds bucket_count rows of dim floats and remembers both arguments |
| EmbeddingTables.InitBounds | revisit/core/embedding/embedding_table.cc:27-33 | every initial value lies in [-bound, bound], whatever the random draws in [0,1) were |
| EmbeddingTables.RowOffset | revisit/core/embedding/embedding_table.cc:41-53 | row b starts at an offset from which dim floats fit in the table, for 0 <= b < bucket_count |
| EmbeddingTables.Row | revisit/core/embedding/embedding_table.cc:41-53 | row b has dim floats, entry j being the table's float at the row's offset plus j |
| EmbeddingTables.AdjacentRows | revisit/core/embedding/embedding_table.cc:45 | adjacent rows start dim floats apart |
| EmbeddingTables.RowsDisjoint | revisit/core/embedding/embedding_table.cc:45 | two different rows never overlap: the lower one ends at or before the higher one starts |
| EmbeddingTables.MemoryBytesIsBlock | revisit/core/embedding/embedding_table.cc:63-66 | memory_bytes is sizeof(float) = 4 times the number of floats stored |
| EmbeddingTables.InitAccessors | revisit/core/embedding/embedding_table.cc:55-66 | bucket_count() and dim() return the constructor arguments, and memory_bytes is bucket_count*dim*4 |
| EmbeddingTables.TableExamples | tests/test_embedding.cc:4-20 | a 1000x50 table takes 200000 bytes, and rows 0 and 1 of a 100x10 table start 10 floats apart |
| Backbone.Gate | model/attention.h:15-22 | the gated vector has the input's length |
| Backbone.Contribs | model/backbone.h:19-23 | the list of contributions has one gated embedding row per id, in order, duplicates included |
| Backbone.ForwardLoop | model/backbone.h:15-26 | the accumulation loop from a zeroed h returns the sum of the gated rows |
| Backbone.ForwardAt | model/backbone.h:15-26 | entry j of forward is the sum, not the mean, of entry j of the gated rows of all ids, counted with multiplicity |
| Backbone.ForwardEmpty | model/backbone.h:16-17 | no ids give the zero vector of length dim |
| Backbone.ForwardAppend | model/backbone.h:19-23 | forward of a concatenation of id lists is the sum of the two forwards |
| Backbone.ForwardPermutation | model/backbone.h:19-23 | forward does not depend on the order of the ids |
| Backbone.ContribsPermutation | model/backbone.h:19-23 | reordering the ids reorders the gated rows, so the two multisets of rows are equal |
| Backbone.ForwardTwice | model/backbone.h:19-23 | an id listed twice contributes twice: forward([id,id]) is 2 times forward([id]) |
| Backbone.Contribution | model/backbone.h:20-22 | one id contributes a vector as wide as an embedding row |
| Backbone.Forward | model/backbone.h:15-26 | the backbone output has dim entries; ForwardAt and ForwardAppend give its contents |
| WordEncoders.Bucket | core/encoder/word_encoder.cc:47-48 | the row of an n-gram is its 64-bit FNV-1a hash modulo bucket_count, always in [0, bucket_count) |
| WordEncoders.GramRows | core/encoder/word_encoder.cc:46-56 | one embedding row per generated n-gram, in order, each the row of that n-gram's bucket |
| WordEncoders.WithPhonetic | core/encoder/word_encoder.cc:64-81 | with a phonetic encoder, gamma > 0 and a non-empty code, the encoding is the n-gram mean plus gamma times the row of the code's bucket |
| WordEncoders.WithoutPhonetic | core/encoder/word_encoder.cc:44-64 | with no phonetic encoder or gamma <= 0, the encoding is the mean of the n-gram rows, zeros when there are none |
| WordEncoders.EmptyToken | core/encoder/word_encoder.cc:40-69 | the empty token with min_n >= 3 has no n-grams and an empty code, so it encodes to the zero vector |
| WordEncoders.EncodeLoop | core/encoder/word_encoder.cc:29-82 | the loop as written (zero, add each row while counting, scale by 1/count when count > 0, add the phonetic row) returns the encoding |
| WordEncoders.GramMean | core/encoder/word_encoder.cc:44-62 | the mean of the n-gram rows has dim entries |
| WordEncoders.PhoneticRow | core/encoder/word_encoder.cc:69-76 | the phonetic code's row has dim entries |
| WordEncoders.Encode | core/encoder/word_encoder.cc:29-82 | a word vector has dim entries; WithPhonetic and WithoutPhonetic give its contents |
| MeanSentenceEncoders.EncodingsAt | core/encoder/mean_sentence_encoder.cc:22-23 | the k-th word encoding is the word encoder applied to the k-th token |
| MeanSentenceEncoders.EncodeLoop | core/encoder/mean_sentence_encoder.cc:13-35 | the loop as written (zero, add each word encoding, scale by 1/n) returns the mean encoding |
| MeanSentenceEncoders.EncodeAt | core/encoder/mean_sentence_encoder.cc:13-35 | entry j is (1/n) times the sum of the tokens' word encodings at j, and 0 when there are no tokens |
| MeanSentenceEncoders.NoTokens | core/encoder/mean_sentence_encoder.cc:17-19 | no tokens give the zero vector |
| MeanSentenceEncoders.SingleToken | tests/test_mean_sentence_encoder.cc:59-70 | a one-token sentence encodes as that token's word encoding |
| MeanSentenceEncoders.TokenPermutation | tests/test_mean_sentence_encoder.cc:84-97 | reordering the tokens does not change the encoding |
| MeanSentenceEncoders.Doubled | core/encoder/mean_sentence_encoder.cc:13-35 | a sentence repeated twice encodes the same as the sentence once |
| MeanSentenceEncoders.RepeatedToken | tests/test_mean_sentence_encoder.cc:99-112 | ["test","test"] encodes the same as ["test"], for any token |
| MeanSentenceEncoders.Encodings | core/encoder/mean_sentence_encoder.cc:22-23 | one word encoding per token, each of dim entries |
| MeanSentenceEncoders.Encode | core/encoder/mean_sentence_encoder.cc:13-35 | the sentence vector has dim entries; EncodeAt gives its contents |
| LinearClassifiers.Init | core/classifier/linear_classifier.cc:8-24 | a fresh classifier has num_classes rows of input_dim weights and every bias 0 |
| LinearClassifiers.InitBounds | core/classifier/linear_classifier.cc:15-20 | every initial weight lies in [-bound, bound] |
| LinearClassifiers.Forward | core/classifier/linear_classifier.cc:26-42 | one logit per class, logit c being bias[c] plus the dot product of row c with the input |
| LinearClassifiers.ForwardLoop | core/classifier/linear_classifier.cc:26-42 | the two nested loops as written compute exactly those logits |
| LinearClassifiers.FreshZeroInput | core/classifier/linear_classifier.cc:22-23 | with zero biases the zero input yields zero logits |
| LinearClassifiers.StepBias | core/classifier/linear_classifier.cc:73 | each bias moves by -lr*g[c] |
| LinearClassifiers.Update | core/classifier/linear_classifier.cc:56-74 | backward_sgd keeps the shape, steps each row c by -lr*g[c]*x and each bias by -lr*g[c] |
| LinearClassifiers.BackwardSgd | core/classifier/linear_classifier.cc:44-74 | the loop as written yields the stepped classifier and, only when dinput is requested, the input gradient computed from the weights before the step |
| LinearClassifiers.InputGradAt | core/classifier/linear_classifier.cc:51-66 | entry j of dinput is the sum over classes of the old W[c][j] times g[c] |
| LinearClassifiers.ZeroRate | core/classifier/linear_classifier.cc:69-73 | a zero learning rate leaves every weight and bias unchanged |
| LinearClassifiers.LogitChange | core/classifier/linear_classifier.cc:69-73 | one update on x moves logit c on the same x by exactly -lr*g[c]*(x.x + 1) |
| LinearClassifiers.LogitLoop | core/classifier/linear_classifier.cc:30-41 | the inner loop computes bias[c] plus the dot product of row c with the input |
| LinearClassifiers.StepRow | core/classifier/linear_classifier.cc:63-71 | a row after its SGD step keeps input_dim entries |
| LinearClassifiers.Grads | core/classifier/linear_classifier.cc:63-66 | the per-class input gradient is row c scaled by dlogits[c] |
| LinearClassifiers.InputGrad | core/classifier/linear_classifier.cc:51-66 | the input gradient has input_dim entries |
| ClassifierHeads.Clip | heads/classify.h:84 | std::max(lo, std::min(hi, x)) lies in [lo, hi], is x when x is already there, and the violated bound otherwise |
| ClassifierHeads.New | heads/classify.h:24-38 | construction succeeds exactly when classes > 0, d > 0 and a backbone is given; every failure is invalid_argument; a success has one d-wide prototype row per class and keeps lr and margin |
| ClassifierHeads.NewAsWritten | heads/classify.h:24-38 | the prototypes(classes, d) member initialiser runs before the checks, so a negative classes*d fails with length_error; otherwise it agrees with New |
| ClassifierHeads.NegativeClassesLengthError | heads/classify.h:24-38 | Classifier(-1, 8, bb) throws length_error from the allocation, not the invalid_argument the check was written to throw |
| ClassifierHeads.NewBounds | core/matrix.h:13-17 | every initial prototype entry lies in [-0.1, 0.1] |
| ClassifierHeads.RawScores | heads/classify.h:64-67 | score k is prototype row k dotted with h |
| ClassifierHeads.Scores | heads/classify.h:64-68 | the margin is taken off the true class's score only; every other score is its plain dot product |
| ClassifierHeads.MaxOf | heads/classify.h:71 | max_element is at least every score and is one of them |
| ClassifierHeads.DenomPositive | heads/classify.h:72-75 | with a positive exp the shifted softmax denominator of a non-empty score list is positive |
| ClassifierHeads.Loss | heads/classify.h:70-76 | with exp positive, exp(0) = 1 and log non-negative from 1 on, the loss -s[label] + max + log(denom) is non-negative, since the max-shifted denominator is at least 1 (ClassifierHeads.DenomAtLeastOne) |
| ClassifierHeads.Grad | heads/classify.h:79-84 | the per-class gradient pk - [k == label] is clipped into [-5, 5] |
| ClassifierHeads.ClipInactive | heads/classify.h:79-84 | each pk lies in (0, 1], so the unclipped gradient already lies in (-1, 1] and the clip to [-5, 5] never changes it |
| ClassifierHeads.WithVector | heads/classify.h:101-136 | trainExampleWithVector returns 0 and changes nothing for a label outside [0, num_classes); otherwise the head keeps its shape, lr and margin |
| ClassifierHeads.WithVectorRow | heads/classify.h:122-133 | entry j of prototype k after the update is the old entry plus h[j] times -lr*grad_k, every gradient taken from the scores before any update |
| ClassifierHeads.WithVectorLoop | heads/classify.h:101-136 | the loop as written, moving one row per class, yields that step |
| ClassifierHeads.ClassScores | heads/classify.h:279-282 | one (class, score) pair per class, in class order, the score being that prototype dotted with h |
| ClassifierHeads.PredictTopK | heads/classify.h:276-293 | a negative k fails, since resize to a negative size throws; any other k succeeds |
| ClassifierHeads.PredictTopKSpec | heads/classify.h:276-293 | for k >= 0: min(k, num_classes) pairs sorted by non-increasing score, each a class with its own score, and no class left out scores above a kept one |
| ClassifierHeads.InitRow | core/matrix.h:13-17 | a prototype row of the fresh matrix has dim entries |
| ClassifierHeads.Moved | heads/classify.h:87-89 | a prototype row moved by the update keeps its width |
| ClassifierHeads.MovedAt | heads/classify.h:87-89 | entry j of the moved row is the old entry plus h[j] times -lr·grad |
| ClassifierHeads.Grads | heads/classify.h:79-84 | one clipped gradient per class, each within [-5, 5] |
| ClassifierHeads.MovedRows | heads/classify.h:79-95 | every class row keeps dim entries after the update |
| HeadTraining.Activation | heads/classify.h:304-308 | the attention score w*e is clipped to [-10, 10] before the sigmoid: inside the bounds the sigmoid sees w*e, beyond them the bound |
| HeadTraining.AttDelta | heads/classify.h:313-314 | the attention delta grad_h[d]*e[d]*a*(1-a) is clipped into [-1, 1] |
| HeadTraining.EmbDelta | heads/classify.h:318-319 | the embedding delta, computed with the attention entry already moved, is clipped into [-1, 1] |
| HeadTraining.BackpropIdBounds | heads/classify.h:303-321 | one id moves each attention entry below dim and each entry of its own embedding row by at most 1, and leaves attention entries from dim on unchanged |
| HeadTraining.BackpropIdOtherRow | heads/classify.h:320 | one id writes only its own embedding row |
| HeadTraining.Backprop | heads/classify.h:296-323 | backprop over a list of ids keeps the backbone's shape |
| HeadTraining.NonNegative | heads/classify.h:300 | the kept ids are exactly the listed ids that are not negative |
| HeadTraining.BackpropSkipsNegative | heads/classify.h:299-300 | negative ids change nothing: backprop over the ids equals backprop over the non-negative ones |
| HeadTraining.BackpropOtherRow | heads/classify.h:299-321 | an embedding row whose id is not listed is never written |
| HeadTraining.ClassStep | heads/classify.h:86-94 | one class iteration moves row k only, leaves the other rows, and keeps the backbone's shape |
| HeadTraining.ClassLoopRows | heads/classify.h:79-95 | after the first k classes, exactly rows 0..k-1 have moved, each against its own gradient |
| HeadTraining.ClassLoopGradH | heads/classify.h:91-94 | iteration k backpropagates grad_h = the already updated row k times -lr*grad_k |
| HeadTraining.TrainExample | heads/classify.h:53-98 | a label outside [0, num_classes) or no ids return loss 0 and change neither head nor backbone; otherwise the head keeps its shape, lr and margin and the backbone its shape |
| HeadTraining.TrainExampleMatchesVector | heads/classify.h:53-136 | the backbone updates do not feed back into the prototypes: trainExample leaves the same prototypes and loss as trainExampleWithVector on forward(ids) |
| HeadTraining.TrainExampleOtherRow | heads/classify.h:53-98 | an embedding row whose id is not in the example is unchanged by trainExample |
| HeadTraining.ClassLoopRun | heads/classify.h:79-95 | the class loop as written computes the recursive class loop |
| HeadTraining.TrainExampleLoop | heads/classify.h:53-98 | trainExample as written (guards, forward, scores, loss, class loop) computes the reference definition |
| HeadTraining.BackpropWords | heads/classify.h:191-196 | backprop of one grad_h over each word's ids, skipping words without ids, keeps the backbone's shape |
| HeadTraining.WithSentence | heads/classify.h:138-199 | an invalid label or no words return 0 and change nothing; otherwise loss and prototypes are those of trainExampleWithVector on the encoder's output |
| HeadTraining.WithSentenceGradH | heads/classify.h:168-186 | entry j of the gradient for the sentence vector is the sum over classes of the updated row's entry j times -lr*grad_k |
| HeadTraining.BackpropId | heads/classify.h:302-321 | backprop for one id keeps the shapes of the attention weights and the embedding table |
| HeadTraining.GradH | heads/classify.h:92-93 | the gradient for h has dim entries |
| HeadTraining.ClassGradH | heads/classify.h:92-93 | one dim-entry gradient per class |
| HeadTraining.ClassLoop | heads/classify.h:79-95 | the loop over the classes keeps one dim-entry row per class and the backbone's shape |
| HeadTraining.ClassStepOtherRow | heads/classify.h:86-94 | one class step leaves every embedding row outside the ids as it was |
| HeadTraining.ClassLoopOtherRow | heads/classify.h:79-95 | the whole class loop leaves every embedding row outside the ids as it was |
| Batches.Chosen | heads/classify.h:212-218 | the positions trained are exactly those whose example passes the member's test, in increasing order |
| Batches.Run | heads/classify.h:209-218 | the loop trains at most once per example, and when it trains none the total stays 0 and the state is the one it started from; Batches.RunCount gives the count exactly |
| Batches.RunCount | heads/classify.h:209-218 | validExamples ends as the number of accepted examples |
| Batches.RunNoneChosen | heads/classify.h:209-218 | when no example is accepted, the loop trains nothing and the total stays 0 |
| Batches.RunAppend | heads/classify.h:212-218 | running the loop over two halves in turn gives the summed totals and counts and the second half's final state |
| Batches.RunPreserves | heads/classify.h:212-218 | an invariant of the state that every accepted training call keeps holds after the whole loop |
| Batches.MeanLoss | heads/classify.h:220 | with examples trained the result times their count is the total loss; with none it is 0 |
| Batches.Batch | heads/classify.h:202-221 | an empty batch or a label count that differs returns 0 and trains nothing; otherwise the result is the mean loss over the accepted examples only, 0 when none were accepted |
| Batches.BatchSingle | heads/classify.h:202-221 | a batch of one accepted example is that example's training call |
| Batches.BatchSplit | heads/classify.h:212-218 | a batch ends in the state of training its two halves one after the other |
| Batches.BatchLoop | heads/classify.h:202-221 | the indexed loop as written computes the batch result |
| HeadBatches.TrainBatch | heads/classify.h:202-221 | an empty batch or a label count that differs returns 0 and leaves head and backbone as they were; otherwise the head keeps its sizes, learning rate and margin and the backbone its shape (the loss is the mean of Batches.Batch) |
| HeadBatches.TrainBatchOtherRow | heads/classify.h:202-221 | an embedding row named by no example of the batch is unchanged |
| HeadBatches.TrainBatchSingle | heads/classify.h:202-221 | a batch of one example with ids and a valid label is one trainExample call, loss included |
| HeadBatches.Sentences | heads/classify.h:258-266 | sentence i pairs the i-th embedding list with the i-th word-id list |
| HeadBatches.TrainBatchWithVectors | heads/classify.h:224-243 | an empty batch or a label count that differs returns 0 and leaves the head as it was; otherwise the head keeps its sizes, learning rate and margin |
| HeadBatches.TrainBatchWithVectorsSingle | heads/classify.h:224-243 | a batch of one vector with a valid label is one trainExampleWithVector call |
| HeadBatches.TrainBatchWithSentences | heads/classify.h:246-273 | an empty batch or a label count that differs returns 0 and changes nothing; otherwise the head, the backbone and the encoder keep their shapes |
| HeadBatches.TrainBatchWithSentencesSingle | heads/classify.h:246-273 | a batch of one sentence with words and a valid label is one trainExampleWithSentence call followed by the encoder update |
| TopK.Insert | heads/classify.h:285-286 | inserting a pair adds exactly that pair: one more element, same multiset plus it |
| TopK.InsertSorted | heads/classify.h:285-286 | inserting into a list sorted by non-increasing score keeps it sorted |
| TopK.Sort | heads/classify.h:285-286 | the sort returns a permutation of its input sorted by non-increasing score |
| TopK.Top | heads/classify.h:288-290 | a negative k fails with length_error, since resize converts it to a huge size; any other k succeeds |
| TopK.TopSpec | heads/classify.h:284-292 | for k >= 0: min(k, n) pairs, sorted by non-increasing score, drawn from the input, and every pair left out scores at most every pair kept |
| TopK.SortedScoresUnique | heads/classify.h:285-286 | any two sorted permutations of one list have the same sequence of scores, so std::sort's unstable tie order never changes the scores returned |
| TopK.TopScoresDetermined | heads/classify.h:284-292 | the scores top-k returns are the first min(k, n) scores of any sorted permutation of the input |
| GlobalConfig.Validate | core/config.h:44-53 | a config that validates has dim in [1,1000], 1 <= char_ngram_min <= char_ngram_max <= 10 and epochs >= 1, and each of its three checked floats, when a number, in its range |
| GlobalConfig.ValidateExact | core/config.h:44-53 | with numeric floats, validate is true exactly on those ranges: learning rate in (0,1], l2_lambda >= 0, dropout in [0,1) |
| GlobalConfig.NaNPasses | core/config.h:48-51 | a NaN learning rate, l2_lambda or dropout rate fails none of the float comparisons, so it does not stop an otherwise valid config from validating |
| GlobalConfig.ValidateReads | core/config.h:44-53 | validate depends only on dim, the n-gram range, the learning rate, epochs, l2_lambda and dropout_rate |
| GlobalConfig.DefaultValid | core/config.h:6-41 | a default-constructed Config validates |
| EncoderConfig.Validate | core/config/model_config.cc:20-31 | validate returns normally exactly when bucket_count > 0, embedding_dim > 0, 0 < ngram_min <= ngram_max, num_heads > 0 and phonetic_gamma is not below 0; otherwise it throws invalid_argument, with the bucket_count message first |
| EncoderConfig.EqualLaws | core/config/model_config.cc:3-18 | operator== is symmetric, and reflexive exactly when no compared float is NaN |
| EncoderConfig.EqualTransitive | core/config/model_config.cc:3-18 | operator== is transitive |
| EncoderConfig.EqualIgnores | core/config/model_config.cc:3-18 | configs that differ only in use_phonetic, projection_mode and precision_mode compare equal |
| EncoderConfig.EqualValidate | core/config/model_config.cc:3-31 | configs that compare equal agree on validate: every checked field is compared |
| EncoderConfig.Defaults | core/config/model_config.h:21-45 | the defaults are bucket_count 200000, embedding_dim 256, n-grams 3..6, gamma 0.2, 4 heads and seed 42; two default configs compare equal and the default validates |
| LayerConfig.SizeT | core/model_config.h:36 | an int converted to size_t is kept when it is in range, and is below 2^64 in any case |
| LayerConfig.FloatBytes | core/model_config.h:36 | n * sizeof(float) in size_t is 4n when that fits |
| LayerConfig.Reduce | core/model_config.h:36-38 | quantization divides by 4 and then sparsity by 10, in integer division: both together give size/40, neither leaves the size, and the result never exceeds it |
| LayerConfig.ReduceOrder | core/model_config.h:36-38 | doing the two integer divisions in the other order gives the same size |
| LayerConfig.WordEmbeddingsSize | core/model_config.h:34-40 | 0 when word embeddings are off, and at most vocab_size*dim*4 otherwise |
| LayerConfig.CharNgramsSize | core/model_config.h:42-48 | 0 when char n-grams are off, and at most bucket_size*dim*4 otherwise |
| LayerConfig.GrammarSize | core/model_config.h:50-57 | 0 when grammar units are off, and at most 100*dim*4 otherwise |
| LayerConfig.PhoneticSize | core/model_config.h:59-66 | 0 when phonetic units are off, and at most 50*dim*4 otherwise |
| LayerConfig.VectorAttentionSize | core/model_config.h:68-73 | 0 when vector attention is off, and exactly dim*4 otherwise, whatever sparsity or quantization say |
| LayerConfig.SentenceEncoderSize | core/model_config.h:75-90 | nonzero only when both the sentence encoder and self-attention are on, and at most 3*dim*dim*4 |
| LayerConfig.ClassifierIgnoresSparsity | core/model_config.h:92-97 | the classifier estimate ignores the sparse-storage switch and is the quarter of num_classes*dim*4 under quantization |
| LayerConfig.AllLayersOff | core/model_config.h:99-107 | with every layer off, the total is the classifier's estimate alone |
| LayerConfig.WithDependencies | core/model_config.h:155-159 | after loading, a sentence encoder forces position encoding and self-attention on; nothing else changes, and nothing at all without a sentence encoder |
| LayerConfig.DependenciesSettle | core/model_config.h:155-159 | the rule is idempotent, and after it the sentence encoder's estimate is its Q, K, V size exactly when the encoder is on |
| LayerConfig.PresetLayers | core/model_config.h:265-326 | minimal() enables only word embeddings at dim 30; tiny() is full() with dim 30, sparse storage and pruning 1e-4; every preset already obeys the dependency rule |
| LayerConfig.MinimalSize | core/model_config.h:99-107 | the total estimate of minimal() is 121200 bytes |
| LayerConfig.CompactSize | core/model_config.h:99-107 | the total estimate of compact() is 24121200 bytes |
| LayerConfig.StandardSize | core/model_config.h:99-107 | the total estimate of standard() is 80410400 bytes |
| LayerConfig.FullSize | core/model_config.h:99-107 | the total estimate of full() is 80422400 bytes |
| LayerConfig.TinySize | core/model_config.h:99-107 | the total estimate of tiny() is 24124200 bytes |
| LayerConfig.ClassifierSize | core/model_config.h:92-97 | the classifier size is at most num_classes·dim floats |
| LayerConfig.TotalSize | core/model_config.h:99-107 | the total is a size_t, below 2^64 |
| Floats.SameLaws | core/config/model_config.cc:8 | float == is symmetric and holds between a value and itself exactly when it is not NaN |
| Tokens.FloatTokens | main.cpp:284-285 | a float buffer is written as one float token per entry, in order |
| Tokens.ReadInt | main.cpp:109-112 | reading an int succeeds exactly when the next token is an int, and consumes that one token |
| Tokens.ReadChars | main.cpp:119-121 | a negative length fails with length_error; a success returns exactly len characters from the next token and consumes it |
| Tokens.ReadString | main.cpp:119-121 | a string read consumes exactly the two tokens a writer of that string produces |
| Tokens.ReadFloats | main.cpp:142-143 | reading n floats fails for a negative n; a success returns n floats, the first n tokens being exactly those floats |
| Tokens.StringRoundTrip | main.cpp:277-279 | reading back a written string gives it and the tokens after it |
| Tokens.StringsRoundTrip | main.cpp:274-280 | reading back |ss| written strings gives ss and the tokens after them |
| Tokens.FloatsRoundTrip | main.cpp:284-285 | reading back |v| written floats gives v and the tokens after them |
| Tokens.FloatBlockRoundTrip | main.cpp:283-290 | a count-prefixed float block reads back as the same floats |
| Tokens.StringTokens | main.cpp:277-279 | a string is written as two tokens, its length then its characters |
| Tokens.StringsTokens | compact_model.cpp:124-128 | a run of strings without a count is two tokens per string |
| Tokens.ReadBool | python_bindings.cpp:20-25 | a bool reads exactly when the next token is one, consuming it |
| Tokens.ReadFloat | tiny_model.cpp:359-360 | a float reads exactly when the next token is one, consuming it |
| Tokens.ReadStrings | compact_infer.cpp:38-44 | reading n strings gives n of them, none for a negative n |
| Tokens.ReadFloatBlock | main.cpp:141-143 | a float block read starts with its count |
| Tokens.FloatsRead | compact_infer.cpp:59-66 | n floats can be read whenever the next n tokens are floats |
| ModelFiles.ReadHeader | inference.cpp:50-53 | the header reads exactly when the next four tokens are ints, and a read header is exactly those four tokens |
| ModelFiles.HeaderRoundTrip | main.cpp:266-271 | a written header (dim, minn, maxn, bucket) reads back with the tokens after it |
| ModelFiles.ReadList | inference.cpp:56-64 | a read list has as many strings as the count says (none for a negative count) |
| ModelFiles.ListRoundTrip | main.cpp:274-280 | a count-prefixed string list reads back as the same strings, in order |
| ModelFiles.WriteDense | main.cpp:265-290 | a GALD file starts with its magic, the header and the word count, and holds 8 + 2·words + emb + att tokens |
| ModelFiles.WriteSupervised | main.cpp:447-521 | a GALS file starts with its magic and header, then the sentence flag (1 exactly when an encoder is saved), then the word count |
| ModelFiles.Vocabulary | inference.cpp:57-79 | the loaded dictionary knows exactly the listed words, uses the file's bucket, and places the buckets after the words |
| ModelFiles.VocabularyIds | inference.cpp:57-79 | a list without repeats comes back with each word at its own position as its id |
| ModelFiles.Allocate | core/vector.h:9 | a vector of n floats is allocated exactly when n >= 0; a negative n fails with std::length_error, as Matrix (core/matrix.h:13) and Vector allocate |
| ModelFiles.ReadPrototypes | inference.cpp:97-101 | Classifier(labels.size(), dim) fails with length_error when labels·dim < 0 and otherwise with invalid_argument unless both are positive (heads/classify.h:24-34); when it is built, the prototype block is read as it stands |
| ModelFiles.ReadBody | inference.cpp:50-92 | a body that reads has the header's bucket, sizes that Embeddings(totalSize, dim) and VectorAttention(dim) accept, no labels unless supervised, and flag 0 unless a flag is read |
| ModelFiles.ReadMagic | inference.cpp:39-48 | a magic other than GALD or GALS fails; a read magic is GALS exactly when it reports supervised |
| ModelFiles.LoadPretrained | main.cpp:86-157 | a magic other than GALD or GALS fails; a success came from one of them, its dictionary uses the header's bucket, and dim >= 0 and totalSize·dim >= 0, since Embeddings and VectorAttention throw otherwise (main.cpp:139-146) |
| ModelFiles.Load | inference.cpp:32-105 | a magic other than GALD or GALS fails; supervised exactly when the magic is GALS; an unsupervised load has no labels and no prototypes; the encoder is never loaded; a load has dim >= 0 and totalSize·dim >= 0 (inference.cpp:82-89), and a supervised one at least one label and dim > 0 (inference.cpp:98) |
| ModelFiles.DenseBody | inference.cpp:39-92 | the body of a GALD file whose sizes fit reads back as its header, dictionary and both blocks, ending the file |
| ModelFiles.LoadDenseRoundTrip | inference.cpp:32-105 | loading a GALD file whose sizes the constructors accept gives back its header, its words as the dictionary, and both weight blocks |
| ModelFiles.PretrainedRoundTrip | main.cpp:86-157 | loadPretrainedModel reads a GALD file whose sizes fit back completely |
| ModelFiles.DenseSections | main.cpp:265-290 | each section of a GALD file reads back in turn and leaves exactly the following sections |
| ModelFiles.SupervisedMisread | inference.cpp:55-76 | the file the supervised trainer writes for one word and one label fails to load in both loaders |
| ModelFiles.MisreadSteps | main.cpp:455-465 | the sentence flag 0 is read as an empty word list, the word list as the labels, and the label list where floats belong |
| ModelFiles.ReadEncoder | main.cpp:495-521 | a read encoder section has three dim × dim matrices |
| ModelFiles.EncoderRoundTrip | main.cpp:495-521 | the encoder section written for square matrices reads back as them |
| ModelFiles.LoadFixed | main.cpp:447-521 | the corrected loader keeps the magic checks and supervised flag; an unsupervised load has no labels, prototypes or encoder; any loaded encoder is square; the constructor checks of Model::load (dim >= 0, totalSize·dim >= 0, and for GALS at least one label and dim > 0) hold of every load |
| ModelFiles.SupervisedBody | main.cpp:447-491 | the body of a GALS file whose embedding sizes fit reads back with its sentence flag, leaving the prototypes and the encoder |
| ModelFiles.LoadFixedSupervised | main.cpp:447-521 | the corrected loader reads back completely, encoder included, every GALS file with at least one label, dim > 0 and an embedding size that fits |
| ModelFiles.SupervisedSections | main.cpp:447-521 | each section of a GALS file reads back in turn and leaves exactly the following sections |
| ModelFiles.LoadFixedDense | inference.cpp:32-105 | on a GALD file the corrected loader agrees with Model::load |
| ModelFiles.LoadPretrainedFixed | main.cpp:86-157 | the corrected pretrained loader keeps the magic checks, the header's bucket and the Embeddings and VectorAttention size checks, and wherever the corrected load succeeds it returns that load's header, dictionary and blocks |
| ModelFiles.LoadPretrainedFixedRoundTrips | main.cpp:86-157 | the corrected pretrained loader reads both GALD and GALS files back when their embedding sizes fit |
| ModelFiles.NegativeDimAllocation | main.cpp:139-146 | with dim < 0, either totalSize·dim < 0 or dim itself is negative: one of the two allocations fails |
| ModelFiles.PretrainedLabelLengthRefused | main.cpp:127-133 | a GALS file whose first label length is negative is refused with length_error by the model of loadPretrainedModel, which reads the label where the C++ seeks past it (see "Left out") |
| ModelFiles.NegativeDimBody | inference.cpp:82-89 | the body of a GALD file with a negative dim fails with std::length_error at the Embeddings or VectorAttention allocation, after the magic is accepted |
| ModelFiles.NegativeDimRefused | inference.cpp:82-89 | all four loaders refuse a GALD file with a negative dim, with std::length_error |
| ModelFiles.NoLabelsRefused | inference.cpp:97-98 | Model::load refuses a GALS file with an empty label list and sizes that otherwise fit, with std::invalid_argument |
| ModelFiles.EmptyClassifierRefused | heads/classify.h:32-34 | the corrected loader refuses a GALS file with no labels or dim 0, with std::invalid_argument |
| VersionedFiles.ReadConfig | python_bindings.cpp:19-30 | a read configuration block is exactly the next ten tokens |
| VersionedFiles.ConfigRoundTrip | python_bindings.cpp:19-30 | six flags and four ints read back as the same configuration |
| VersionedFiles.UnitsTokens | python_bindings.cpp:114-141 | a unit list is three tokens per unit |
| VersionedFiles.ReadUnits | python_bindings.cpp:114-141 | reading n units gives n of them (none for a negative n) |
| VersionedFiles.UnitsRoundTrip | python_bindings.cpp:114-141 | written (name, id) units read back as the same list |
| VersionedFiles.VocabOf | python_bindings.cpp:116-126 | the grammar map holds exactly the names that appear in the list |
| VersionedFiles.UnitNames | python_bindings.cpp:131-140 | the phonetic names are the units' names, in file order |
| VersionedFiles.PyDictionary | python_bindings.cpp:104-156 | the loaded dictionary has the deduplicated words in order and the file's bucket; no grammar units leave the grammar map empty |
| VersionedFiles.ReadVersionedHeader | python_bindings.cpp:69-87 | the version is the first int when it is in 1..10 and 1 otherwise, and then that int is the dim |
| VersionedFiles.ReadMatrices | python_bindings.cpp:179-206 | read matrices with a non-negative dim are square |
| VersionedFiles.ReadPrelude | python_bindings.cpp:60-100 | a wrong magic fails; supervised exactly for GALS; the version is in 1..10 |
| VersionedFiles.ReadUnitSections | python_bindings.cpp:104-141 | the word list has as many words as its count says |
| VersionedFiles.ReadWeights | python_bindings.cpp:143-206 | an unsupervised read has no labels or prototypes; an encoder is read exactly when the flag asks for one; a read has dim >= 0 and vocabSize·dim >= 0, and a supervised one at least one label and dim > 0 |
| VersionedFiles.LoadModel | python_bindings.cpp:56-210 | load_model keeps the magic checks and supervised flag; an unsupervised model has no labels, prototypes or encoder; a load has dim >= 0 and totalSize·dim >= 0 (python_bindings.cpp:158-166), and a supervised one at least one label and dim > 0 (python_bindings.cpp:175) |
| VersionedFiles.WriteVersioned | python_bindings.cpp:60-65 | the layout load_model reads starts with the GALS magic for supervised and the GALD magic otherwise |
| VersionedFiles.VersionedHeaderRoundTrip | python_bindings.cpp:69-87 | a version tag, configuration and header, or a legacy header, read back as written |
| VersionedFiles.WriteVersionedSplit | python_bindings.cpp:56-210 | the layout is the magic, the version sections, the header, the mode ints and the rest, in that order |
| VersionedFiles.PreludeRoundTrip | python_bindings.cpp:60-100 | the magic, version, header, sentence flag and attention mode read back as written |
| VersionedFiles.UnitSectionsRoundTrip | python_bindings.cpp:104-141 | the words, grammar units and phonetic units read back as written |
| VersionedFiles.WeightsRoundTrip | python_bindings.cpp:143-206 | the labels, both weight blocks, the prototypes and the encoder read back as written when the sizes fit |
| VersionedFiles.LoadModelRoundTrip | python_bindings.cpp:56-210 | load_model reads back completely every readable file whose sizes the Embeddings, VectorAttention and, when supervised, Classifier constructors accept |
| VersionedFiles.NegativeDimWeights | python_bindings.cpp:158-169 | the weights of a readable file with a negative dim fail with std::length_error |
| VersionedFiles.LoadModelNegativeDim | python_bindings.cpp:158-169 | load_model refuses every readable file with a negative dim, with std::length_error |
| VersionedFiles.EmptyClassifierWeights | python_bindings.cpp:174-175 | the weights of a supervised file with no labels or dim 0 fail with std::invalid_argument once both allocations succeed |
| VersionedFiles.LoadModelEmptyClassifier | python_bindings.cpp:174-175 | load_model refuses such a file with std::invalid_argument |
| VersionedFiles.ModeRoundTrip | python_bindings.cpp:89-100 | the sentence flag is read for supervised files and the attention mode only from version 2 on |
| VersionedFiles.MatricesRoundTrip | python_bindings.cpp:179-206 | square query, key and value matrices read back as written |
| VersionedFiles.LegacySmallDimFails | python_bindings.cpp:72-87 | a legacy file whose dim is in 2..10 is taken for a versioned one and fails to load |
| VersionedFiles.LoadedHeader | python_bindings.cpp:69-87 | a loaded model's version and header are what the header reader makes of the tokens after the magic |
| VersionedFiles.LegacyDimOneShifts | python_bindings.cpp:72-87 | a legacy file of dim 1 that loads reports version 1 and takes minn as its dim |
| VersionedFiles.TrainerFileMisread | python_bindings.cpp:114-163 | the file the supervised trainer writes for one word and one label does not load |
| VersionedFiles.TrainerFilePrelude | python_bindings.cpp:69-100 | that file's prelude reads as a legacy supervised header with sentence flag 0 |
| VersionedFiles.TrainerFileUnits | python_bindings.cpp:114-141 | after its words, the label list and two counts read as one grammar pair and no phonetic units |
| VersionedFiles.TrainerVersionedLoads | python_bindings.cpp:102-163 | a supervised model with at least one label, dim > 0 and a non-negative vocabulary size, written with a version tag and empty grammar and phonetic sections, loads with its header, words, labels, weights and encoder, and load_model builds the dictionary from the words alone |
| CompactFiles.WriteCompact | compact_model.cpp:117-160 | a compact file starts with the GALC magic, the dim and the word count |
| CompactFiles.WordIndex | compact_infer.cpp:36-44 | word2id holds exactly the words read, each mapped to a position that holds that word |
| CompactFiles.WordIndexPositions | compact_infer.cpp:36-44 | words without repeats are each mapped to their own position |
| CompactFiles.LoadCompact | compact_infer.cpp:18-69 | a magic other than GALC fails; a load sizes the blocks nwords·dim, dim and nlabels·dim with the counts as read (a negative label count reads no labels, and its prototype block is then empty or refused), and every word id is below the word count |
| CompactFiles.NegativeLabelCount | compact_infer.cpp:47-67 | a label count of -1 with dim 1 reads no labels and then refuses the -1·dim prototype floats |
| CompactFiles.CompactSplit | compact_model.cpp:117-160 | the compact file is its three leading ints, the words, the labels and the count-less blocks |
| CompactFiles.CompactSections | compact_infer.cpp:36-66 | each section of a compact file reads back in turn, the block sizes following from the counts |
| CompactFiles.CompactRoundTrip | compact_infer.cpp:18-69 | loading a written compact model gives back its dim, word positions, labels and the three blocks |
| Corpus.LabelShape | main.cpp:354 | a token is a label marker exactly when it is longer than two characters and starts with "__" |
| Corpus.LabelList | main.cpp:345-362 | the label list has no repeats and holds exactly the marker tokens of the corpus |
| Corpus.LabelsStable | main.cpp:350-362 | reading more lines only appends labels: the earlier list is a prefix of the later one |
| Corpus.LabelsFirstSeen | main.cpp:354-358 | labels are numbered in order of first appearance: an earlier label occurs before the first occurrence of a later one |
| Corpus.LabelIndex | main.cpp:400-401 | label2id of a known label is its position; an unknown one reads as id 0, as operator[] inserts it |
| Corpus.LabelIndexAt | main.cpp:354-358 | each label's id is its position in the label list |
| Corpus.SplitLine | main.cpp:393-408 | the target of a line is a label id or -1 |
| Corpus.SplitLineIds | main.cpp:399-408 | when every token has ids, a line has ids exactly when it has a non-marker token |
| Corpus.SplitLineAppend | main.cpp:399-408 | splitting a line in two parts gives the later label if any, and the ids of both parts in order |
| Corpus.SplitLineLabel | main.cpp:399-402 | the target is -1 exactly when the line has no marker, and otherwise is the id of its last marker |
| Corpus.Counts | main.cpp:162-171 | a word's count is its number of occurrences when it is counted and 0 otherwise |
| Corpus.Kept | main.cpp:173-177 | the kept words are exactly the listed words counted at least minCount times, without repeats |
| Corpus.BuildVocabulary | main.cpp:159-180 | buildDictionary keeps word2id and id2word inverse and touches no other field; from an empty dictionary the vocabulary is the kept words in map order, and knows exactly the non-marker words counted at least minCount times |
| Corpus.VocabulariesDiffer | main.cpp:167 | a frequent token that starts with '_' but is no marker is dropped by buildDictionary and kept by trainSupervised |
| Corpus.CompactVocabularyWords | compact_model.cpp:45-65 | the compact vocabulary holds every non-marker token whatever its count, and its id space is the words alone |
| Corpus.CompactIds | compact_model.cpp:94-97 | a compact token gives its word id when the word is known and nothing otherwise |
| Corpus.NgramIds | main.cpp:192-196 | each n-gram hash becomes its bucket id, one for one |
| Corpus.SubwordIdsLayout | main.cpp:182-199 | a word's ids are its word id when known, then one bucket id per character n-gram window, each in the bucket range |
| Corpus.SubwordIds | main.cpp:182-199 | in a consistent dictionary a word gives its word id first when it is known, plus one id per character n-gram window of "<" + word + ">" with length in [max(1, minn), maxn] |
| Corpus.HashesInRange | main.cpp:192-196 | every n-gram hash lies in 0..bucket-1 |
| Corpus.Window | main.cpp:238-240 | the window positions are exactly lo..hi-1 except i, in increasing order |
| Corpus.Context | main.cpp:238-240 | every context position lies in the line |
| Corpus.ContextSpec | main.cpp:238-240 | the context of position i is every other position at most window away, in increasing order |
| Corpus.ContextIdsEmpty | main.cpp:237-244 | the context ids are empty exactly when no context token has an id |
| Corpus.ContextIdsNonEmpty | main.cpp:237-244 | the context of a position has ids exactly when some other token in the window has one |
| Corpus.CbowStep | main.cpp:240-251 | in a consistent dictionary an update happens exactly when the target is a known word and its context has ids; the target is then its word id and the context ids are not empty |
| TinyModel.Trunc | tiny_model.cpp:19 | static_cast<int> truncates toward zero: the result is the integer part of x, below it for x >= 0 and above it for x < 0 |
| TinyModel.Quantize | tiny_model.cpp:18-21 | a quantized value is clamped to -128..127 |
| TinyModel.QuantizeSmall | tiny_model.cpp:18-21 | a value smaller than the scale in magnitude quantizes to 0 |
| TinyModel.QuantizeMonotone | tiny_model.cpp:18-21 | quantization preserves order |
| TinyModel.QuantizeRoundTrip | tiny_model.cpp:18-25 | inside the int8 range, dequantizing a quantized value lands within one scale step of it |
| TinyModel.GrammarIds | tiny_model.cpp:230-241 | the grammar ids are exactly the non-negative grammar ids of the pieces at the given windows |
| TinyModel.TokenGrammarIdsSpec | tiny_model.cpp:230-241 | an id is among a token's grammar ids exactly when it is the grammar id of one of its substrings of length 3 to 6 |
| TinyModel.GrammarIdsTable | tiny_model.cpp:230-241 | the grammar ids depend on the grammar table alone |
| TinyModel.PrefixTables | tiny_model.cpp:212-241 | the ids before the phonetic one depend on the word, bucket and grammar tables alone |
| TinyModel.NgramIdsTable | tiny_model.cpp:220-227 | the n-gram ids depend on the bucket offset alone |
| TinyModel.SubwordIds | tiny_model.cpp:209-258 | only the phonetic table can change; without phonetic units nothing changes; with them the token's code is registered and its id is the last id |
| TinyModel.SubwordIdsOrder | tiny_model.cpp:209-258 | the ids are the word id when known, the n-gram ids, the grammar ids, then the phonetic id, in that order |
| TinyModel.SubwordIdsTwice | tiny_model.cpp:244-255 | asking again for the same token gives the same ids and leaves the dictionary as it is |
| TinyModel.SubwordIdsWordOnly | tiny_model.cpp:212-217 | with every feature off a token gives its word id when known and nothing otherwise, and the dictionary is unchanged |
| TinyModel.LineIds | tiny_model.cpp:168-180 | with phonetic units on, a line has ids exactly when it has a non-marker token |
| TinyModel.Words | tiny_model.cpp:92-108 | the observed words are exactly the non-marker tokens |
| TinyModel.Inducer | tiny_model.cpp:101-106 | the inducer observing them is GrammarUnitInducer(3, 6, 2) |
| TinyModel.Vocabulary | tiny_model.cpp:84-126 | the word tables stay inverse; the vocabulary knows exactly the non-marker tokens seen at least twice; each grammar unit shares the row of the n-gram bucket its id names |
| TinyModel.GrammarBeforeFinalize | tiny_model.cpp:119-126 | grammar units loaded before finalize keep the words and land on the rows of the buckets their ids name |
| TinyModel.EpochPrunes | tiny_model.cpp:189-192 | over n epochs, prune(1e-4) happens n / 10 times |
| TinyModel.PruneSchedule | tiny_model.cpp:189-205 | training prunes with 1e-4 epochs / 10 times, then once with 1e-3 |
| TinyModel.Epochs | tiny_model.cpp:159-200 | no epochs leave the state as it was; a run whose last epoch number is a multiple of ten ends with prune(1e-4) (TinyModel.EpochPrunes counts them) |
| TinyModel.Train | tiny_model.cpp:159-205 | training always ends with prune(1e-3), after the epochs (effect: TinyModel.TrainedEntries) |
| TinyModel.TrainedEntries | tiny_model.cpp:203-205 | after training, no stored row is empty and every stored entry is at least 1e-3 in magnitude |
| TinyModel.KeepAboveAbsorbs | core/sparse_matrix.h:87-98 | filtering a row at a lower then a higher threshold is filtering at the higher one |
| TinyModel.PruneAbsorbs | tiny_model.cpp:189-205 | pruning at 1e-4 and then at 1e-3 is the same as pruning at 1e-3 alone |
| TinyFiles.EnumeratesCard | tiny_model.cpp:362-366 | a sequence listing every key of a set once is as long as the set is large |
| TinyFiles.RowOrderCard | tiny_model.cpp:362-366 | the counted num_embeddings equals the number of stored rows the loop then writes |
| TinyFiles.PairTokens | tiny_model.cpp:374-380 | each entry is written as two tokens, column then int8 |
| TinyFiles.ReadByte | tiny_model.cpp:377-379 | an int8 reads exactly when the next token is one, consuming it |
| TinyFiles.ReadPairs | tiny_model.cpp:374-380 | a negative count fails; a read gives exactly count pairs |
| TinyFiles.PairsRoundTrip | tiny_model.cpp:374-380 | written (column, int8) pairs read back as the same entries |
| TinyFiles.QuantizeRow | tiny_model.cpp:374-380 | one quantized entry per column written |
| TinyFiles.EmbRowRoundTrip | tiny_model.cpp:368-380 | a row's id, entry count and entries read back as written |
| TinyFiles.CountedPairs | tiny_model.cpp:371-380 | a count followed by that many pairs reads back as the count and the pairs |
| TinyFiles.EmbRows | tiny_model.cpp:368-381 | one written row per stored row, in map order |
| TinyFiles.EmbRowsAt | tiny_model.cpp:368-381 | the k-th written row is the k-th stored row with its entries quantized in column order |
| TinyFiles.ReadRows | tiny_model.cpp:368-381 | a negative row count fails; a read gives exactly that many rows |
| TinyFiles.EmbRoundTrip | tiny_model.cpp:368-381 | all written embedding rows read back as written |
| TinyFiles.Count | tiny_model.cpp:394-399 | the prototype entry count is at most dim |
| TinyFiles.WrittenDims | tiny_model.cpp:402-408 | the written dimensions are exactly those below dim whose value exceeds 1e-6 in magnitude, in increasing order |
| TinyFiles.CountMatchesPairs | tiny_model.cpp:393-408 | the count written before a prototype row equals the number of pairs written after it |
| TinyFiles.ProtoEntries | tiny_model.cpp:402-408 | one entry per written dimension |
| TinyFiles.ProtoRowRoundTrip | tiny_model.cpp:393-408 | a prototype row's count and entries read back as written |
| TinyFiles.ProtoRows | tiny_model.cpp:393-409 | one written row per label |
| TinyFiles.ReadProtoRows | tiny_model.cpp:393-409 | a read gives one row per label |
| TinyFiles.ProtoRoundTrip | tiny_model.cpp:393-409 | all prototype rows read back as written |
| TinyFiles.WriteTiny | tiny_model.cpp:324-410 | a tiny file starts with the GALT magic and holds more than the eight head tokens |
| TinyFiles.ReadHead | tiny_model.cpp:328-338 | a magic other than GALT fails |
| TinyFiles.ReadTiny | tiny_model.cpp:324-410 | a magic other than GALT fails; a read has one prototype row per label |
| TinyFiles.HeadRoundTrip | tiny_model.cpp:328-338 | the magic, dim, minn, maxn, bucket and the three flags read back as written |
| TinyFiles.EmbSectionRoundTrip | tiny_model.cpp:358-381 | the embedding scale 0.01, the row count and the rows read back as written |
| TinyFiles.TailRoundTrip | tiny_model.cpp:383-409 | the attention weights, the prototype scale 0.01 and the prototype rows read back as written |
| TinyFiles.TinyRoundTrip | tiny_model.cpp:324-410 | a whole tiny file reads back: head, words, labels, quantized rows, attention, quantized prototypes |
| TinyFiles.EmbEntriesClose | tiny_model.cpp:368-380 | every stored embedding entry is written once, in its row, and dequantizes to within 0.01 of its value inside (-1.28, 1.28) |
| TinyFiles.ProtoEntriesSpec | tiny_model.cpp:393-408 | a prototype dimension is written exactly when its value exceeds 1e-6, and dequantizes to within 0.01 inside (-1.28, 1.28) |
| Predictors.TextIdsMembers | inference.cpp:141-149 | an id is among a text's ids exactly when it is among the ids of one of its tokens |
| Predictors.TextIdsEmpty | inference.cpp:145-151 | a text has no ids exactly when none of its tokens has any |
| Predictors.TextIdsBelow | inference.cpp:145-149 | when every token's ids lie below n, so do the text's |
| Predictors.Ranked | inference.cpp:156-168 | ranking fails exactly for a negative k, where resize cannot shrink the results |
| Predictors.RankedSpec | inference.cpp:156-168 | for k >= 0: min(k, #labels) pairs by non-increasing score, each a label with its own score, none left out scoring above one kept |
| Predictors.InferenceIdsInRange | inference.cpp:108-126 | every id a token yields indexes a row of the embedding table |
| Predictors.LabelScores | inference.cpp:158-161 | one score per label |
| Predictors.InferencePredictSpec | inference.cpp:134-170 | an unsupervised model or a text whose tokens have no ids gives nothing; otherwise every label is ranked by its prototype's dot product with the backbone sum of the text's ids |
| Predictors.InferencePredict | inference.cpp:134-170 | an unsupervised model gives nothing; only a negative k fails; a result has at most one pair per label, each for a label of the model (the full ranking is Predictors.InferencePredictSpec) |
| Predictors.Find | python_bindings.cpp:233-237 | find gives the first position at or after from where the unit occurs, or -1 when there is none |
| Predictors.GrammarHitsMembers | python_bindings.cpp:233-237 | a hit is the id of a listed unit that occurs in the word, and every such unit gives one |
| Predictors.PhoneticHit | python_bindings.cpp:239-241 | the word's phonetic id is added exactly when its code is a known unit |
| Predictors.GrammarHitsSpec | python_bindings.cpp:233-237 | an id is a hit exactly when it is the id of a grammar unit occurring anywhere in the word |
| Predictors.WordIdsLayout | python_bindings.cpp:215-244 | a word's ids are the word and n-gram ids, then its grammar hits, then its phonetic id if any |
| Predictors.GrammarHitsRange | python_bindings.cpp:233-237 | every grammar hit indexes a row of the table |
| Predictors.BaseRange | python_bindings.cpp:224-231 | the word and n-gram ids lie below bucket_offset + bucket_size |
| Predictors.BindingWordInRange | python_bindings.cpp:215-244 | every id a word yields indexes a row of the embedding table |
| Predictors.TokenVectors | python_bindings.cpp:276-282 | one dim-sized vector per token that has ids, at most one per token |
| Predictors.BindingIdsInRange | python_bindings.cpp:266-270 | every id of the text indexes a row of the embedding table |
| Predictors.Representation | python_bindings.cpp:274-286 | the text's representation has dim entries |
| Predictors.BindingPredictSpec | python_bindings.cpp:259-300 | an unsupervised model is an error; a text with no ids gives nothing; otherwise every label is ranked against the representation |
| Predictors.BindingPredict | python_bindings.cpp:259-300 | an unsupervised model is an error, and the only other error is a negative k; a result has at most one pair per label, each for a label of the model (full ranking: Predictors.BindingPredictSpec) |
| Predictors.LoadReady | compact_infer.cpp:18-69 | whatever the compact loader accepts has the buffer sizes the predictor indexes |
| Predictors.CompactNet | compact_infer.cpp:71-98 | the inlined backbone has one embedding row per word read, of dim floats |
| Predictors.Embedding | compact_infer.cpp:71-77 | getEmbedding(id) is the dim floats of row id |
| Predictors.KnownIds | compact_infer.cpp:114-120 | the ids are those of the known words, in order, and are empty exactly when no word is known |
| Predictors.KnownIdsInRange | compact_infer.cpp:114-120 | every kept id is a row of the table |
| Predictors.Aggregate | compact_infer.cpp:90-99 | the aggregate has dim entries |
| Predictors.AggregateSum | compact_infer.cpp:90-99 | the aggregate of two id lists put together is the sum of their aggregates, in either order |
| Predictors.CompactScores | compact_infer.cpp:128-136 | one score per label |
| Predictors.CompactPredictSpec | compact_infer.cpp:109-145 | a text with no known word gives nothing; otherwise every label is ranked by the dot product of its prototype with the aggregate of the known ids |
| Predictors.CompactPredict | compact_infer.cpp:109-145 | only a negative k fails; a result has at most one pair per label, each for a label of the model (full ranking: Predictors.CompactPredictSpec) |


## Left out

- File I/O, streams and console output. A model file is a sequence of typed tokens: ints, length-prefixed strings, floats, bools and int8s. A token of the wrong kind, or an early end, is `Malformed`; the C++ readers would reinterpret the bytes or leave the variables unset.
- Tokens after the last section a reader expects are ignored, as the C++ readers ignore trailing bytes.
- IEEE floating point. Weights and scores are reals, so there is no rounding, overflow to infinity or denormals, and a literal such as `0.01f` is taken as the real 0.01. NaN exists only where a check tests for it (`Floats`, `GlobalConfig`).
- `exp`, `log`, `sigmoid` and the `mt19937` generator are parameters: functions over reals, and sequences of draws in [0, 1).
- Integer products such as `i * dim` and `nwords * dim` are exact. The C++ `int` and `size_t` arithmetic could overflow on very large models.
- Iteration orders of `std::unordered_map` (building the vocabulary, loading grammar units, the trie's children) are parameters or are stated at set level.
- The self-attention sentence encoder (model/sentence_encoder.h) is not part of this model. Its forward pass is a parameter, and only its matrices' layout in the files is modelled.
- The tiny classifier's gradient arithmetic and its lazy `initializeIfNeeded`. The quantization, the pruning schedule, the sparse writer and the id lookup are modelled.
- Float-to-int conversions (`static_cast<int>`) of values outside the `int` range are undefined behaviour in C++. The model only states rounding where the value fits.
- Characters rather than UTF-8 bytes. A character's byte is its code modulo 256, as `static_cast<uint8_t>` gives, and case mapping is ASCII only (the C locale).
- The `Ready`-style shape predicates (`Predictors.Ready`, `Predictors.BindingReady`, `Predictors.CompactReady`, and the size predicates of the heads) state the row counts the C++ relies on without checking. Out-of-bounds reads are undefined behaviour there.
- `SparseMatrix` sparsity, `l2Regularize` and `toDense`, which nothing in the modelled pipeline calls.
- The other hash functions in revisit/core/hashing/hash_function.h, besides `fnv1a`.
- HeadTraining.ClassLoopRun: takes the per-class gradients precomputed. The scores do not change inside the C++ loop, so this is the same computation.
- Negative counts in a file are read as follows:
  - A negative string length fails with `LengthError`, as `std::string(len, ' ')` throws. This holds for every string a C++ loader builds: words and units in all loaders, and labels in Model::load, load_model and the compact loader. loadPretrainedModel skips its labels instead; see the ModelFiles.LoadPretrained line below.
  - A negative float count fails with `Malformed`. This covers a weight block's count, the compact buffers of nwords·dim, dim and nlabels·dim floats, and the dim² blocks of ModelFiles.ReadEncoder. The C++ would hand a wrapped `size_t` to `resize` or `read`.
  - The tiny model's file is only written by the C++ (tiny_model.cpp:324-419). The model's reader for it refuses negative row and pair counts.
  - A negative dim or vocabSize·dim fails with `LengthError`, as the Embeddings and VectorAttention constructors throw. So does a negative labels·dim in the Classifier constructor.
  - Negative word, label, grammar-unit, phonetic-unit and prototype-row counts read zero items, as the C++ `for (i = 0; i < n; i++)` loops do. The same holds for a negative encoder dim in load_model.
- Predictors.Representation, VersionedFiles.LoadModel: load_model reads an attention mode (python_bindings.cpp:95-99) and passes it to `VectorAttention(dim, attentionMode)` (python_bindings.cpp:166). model/attention.h:9 declares only `VectorAttention(int dim)`, and `AttentionMode` is defined nowhere in the code. The mode is kept in the loaded model but no predictor uses it: the attention is the plain gate of model/attention.h.
- ModelFiles.LoadPretrained, ModelFiles.LoadPretrainedFixed: read a GALS file's labels as strings. loadPretrainedModel skips each label with `in.seekg(len, std::ios::cur)` (main.cpp:127-133), and the token model cannot represent a byte offset. When a label length of 0 or more is followed by that many characters, reading the string and skipping it consume the same part of the file. A negative length does not make `seekg` throw: it moves the read position backwards and the load goes on from there. The model refuses such a file with `LengthError` instead (ModelFiles.PretrainedLabelLengthRefused).
- ModelFiles.LoadPretrainedFixed: succeeds on some files the corrected Model::load refuses. Examples are a GALS file with no labels or dim 0, or with a damaged prototype or encoder section. loadPretrainedModel builds no Classifier and stops after the attention block (main.cpp:146-157), so only the converse is stated: where the corrected load succeeds, this loader returns the same header, dictionary and blocks.
- SentenceEncoder(dim, true), which load_model builds before reading the encoder matrices (python_bindings.cpp:180-181), is not checked for its sizes. The sentence encoder is not part of this model.
- Buffer sizes are not checked against the counts the files declare.
- NGramGenerator.Generate, NGramGenerator.Expected, NGramGenerator.ExpectedExact: require min_n >= 0. A negative min_n would pass a negative length to `substr`, which becomes a huge `size_t` and takes the rest of the wrapped word, with `i + n` wrapping as well. Every caller in the modelled code passes positive lengths.
- GrammarUnits.Observe, GrammarUnits.ObserveCounts: require min_len >= 0. With a negative length, subwords/grammar_units.h:67-68 would count the suffix word[i..] once for each negative l. The only inducer the modelled code builds is GrammarUnitInducer(3, 6, 2).
- EmbeddingTables.Init, EmbeddingTables.Table: take bucket_count and dim as naturals. revisit/core/embedding/embedding_table.cc:7-16 takes ints and converts their product with `static_cast<size_t>`, so a negative size would wrap to a huge allocation.
- LayerConfig.TotalSize: states only that the total stays in the `size_t` range. The sum itself is shown through the preset size lemmas.

## Findings

| source | as written | input that shows it | evidently intended | confidence | as-written member | corrected member |
|---|---|---|---|---|---|---|
| inference.cpp:50-77 | the GALS loaders here and in main.cpp:109-134 read the word count right after the header, but main.cpp:455-457 writes the sentence flag there | a supervised model with one word and one label: the flag 0 is taken as the word count, the word list as the labels, and the label list where the embeddings should be | read and skip the sentence flag before the words | not executed | ModelFiles.SupervisedMisread | ModelFiles.LoadPretrainedFixedRoundTrips |
| python_bindings.cpp:113-141 | load_model expects grammar and phonetic sections after the words, which the supervised trainer (main.cpp:447-521) never writes | a supervised model with dim 16, one word and one label: the label count is read as the number of grammar units, and no embedding block is found | the trainer writes a version tag and the grammar and phonetic sections, empty or not | not executed | VersionedFiles.TrainerFileMisread | VersionedFiles.TrainerVersionedLoads |
| tiny_model.cpp:121-126 | grammar units are loaded before `finalize`, so core/dictionary.h:51 places them at `#words + 0` | one word, one grammar unit with id 0 and ten buckets: the grammar unit and n-gram bucket 0 share a row | finalize first, then load grammar units | not executed | Dictionaries.GrammarFirstCollides | Dictionaries.FreezeDisjoint |
| python_bindings.cpp:140-156 | phonetic units are added before `finalize`, while `phonetic_offset` is still 0 | one word and one phonetic unit: both get id 0 | add phonetic units after `finalize` | not executed | Dictionaries.PhoneticFirstCollides | Dictionaries.FreezeDisjoint |
| core/dictionary.h:80-84 | `finalize` fixes `phonetic_offset` from the grammar units present at that moment, so grammar units loaded later overlap the phonetic range | finalize, then load one grammar unit, then add one phonetic unit: both get the same id | phonetic ids above every grammar id whatever the order | not executed | Dictionaries.FinalizeThenLoadCollides | Dictionaries.FreezeDisjoint |
| heads/classify.h:24-38 | the member initialiser `prototypes(classes, d)` allocates before the size checks run | classes -1 and d 8: the allocation fails with `std::length_error` instead of the intended `invalid_argument` | check the sizes before allocating | not executed | ClassifierHeads.NegativeClassesLengthError | ClassifierHeads.New |

=== FILE: ascii.dfy ===
/**
 * The <cctype> classification and case mapping the engine relies on, in
 * the "C" locale: only ASCII letters and digits are classified, and a
 * character is a byte, so `static_cast<uint8_t>(c)` is its code modulo 256.
 */
module Ascii {

  predicate IsUpper(c: char) { 'A' <= c <= 'Z' }
  predicate IsLower(c: char) { 'a' <= c <= 'z' }
  predicate IsDigit(c: char) { '0' <= c <= '9' }

  /** std::isalnum */
  predicate IsAlnum(c: char) { IsUpper(c) || IsLower(c) || IsDigit(c) }

  /** std::isspace: space, \t, \n, \v, \f, \r */
  predicate IsSpace(c: char) { c == ' ' || 9 <= c as int <= 13 }

  /** std::tolower */
  function ToLower(c: char): (r: char)
    ensures IsUpper(c) ==> IsLower(r) && r as int == c as int + 32
    ensures !IsUpper(c) ==> r == c
  {
    if IsUpper(c) then (c as int + 32) as char else c
  }

  /** std::toupper */
  function ToUpper(c: char): (r: char)
    ensures IsLower(c) ==> IsUpper(r) && r as int + 32 == c as int
    ensures !IsLower(c) ==> r == c
  {
    if IsLower(c) then (c as int - 32) as char else c
  }

  function LowerAll(s: string): (r: string)
    ensures |r| == |s| && forall i :: 0 <= i < |s| ==> r[i] == ToLower(s[i])
  {
    if |s| == 0 then [] else LowerAll(s[..|s| - 1]) + [ToLower(s[|s| - 1])]
  }

  /** Two strings that differ at most in the case of ASCII letters. */
  predicate SameUpToCase(a: string, b: string) {
    |a| == |b| && forall i :: 0 <= i < |a| ==> ToLower(a[i]) == ToLower(b[i])
  }

  /** Lower-case equality and upper-case equality coincide. */
  lemma CaseAgree(a: char, b: char)
    ensures ToLower(a) == ToLower(b) <==> ToUpper(a) == ToUpper(b)
  {
  }

  /** static_cast<uint8_t>(c): the low eight bits of a character's code. */
  function Byte(c: char): bv8
  {
    Bits8(Code(c))
  }

  /** A character's code reduced modulo 256. */
  function Code(c: char): (r: nat)
    ensures r < 256
  {
    c as int % 256
  }

  /** The eight-bit pattern of n < 256, taking off one power of two at a time. */
  function Bits8(n: nat): bv8
    requires n < 256
  {
    var n6 := if n >= 128 then n - 128 else n;
    var n5 := if n6 >= 64 then n6 - 64 else n6;
    var n4 := if n5 >= 32 then n5 - 32 else n5;
    var n3 := if n4 >= 16 then n4 - 16 else n4;
    var n2 := if n3 >= 8 then n3 - 8 else n3;
    var n1 := if n2 >= 4 then n2 - 4 else n2;
    var n0 := if n1 >= 2 then n1 - 2 else n1;
    (if n >= 128 then 0x80 else 0) | (if n6 >= 64 then 0x40 else 0)
    | (if n5 >= 32 then 0x20 else 0) | (if n4 >= 16 then 0x10 else 0)
    | (if n3 >= 8 then 0x08 else 0) | (if n2 >= 4 then 0x04 else 0)
    | (if n1 >= 2 then 0x02 else 0) | (if n0 >= 1 then 0x01 else 0)
  }
}

=== FILE: backbone.dfy ===
/**
 * The shared backbone (model/backbone.h): the representation of a list of
 * subword ids is the SUM of the attention-gated embedding rows, starting
 * from the zero vector. The gate (model/attention.h) multiplies each entry
 * e[i] by sigmoid(w[i] * e[i]); sigmoid is a parameter.
 */
module Backbone {
  import opened Vectors
  import opened VectorSums
  import opened Common

  /** VectorAttention::apply: out[i] = sigmoid(w[i] * e[i]) * e[i]. */
  function Gate(w: Vec, e: Vec, sigmoid: real -> real): (r: Vec)
    requires |w| >= |e|
    ensures |r| == |e|
  {
    seq(|e|, i requires 0 <= i < |e| => sigmoid(w[i] * e[i]) * e[i])
  }

  /** The backbone's state: the embedding matrix, the attention vector and its sigmoid, the output width. */
  datatype Net = Net(emb: Matrix, att: Vec, sigmoid: real -> real, dim: nat)

  /** The widths agree: rows are at least dim wide and gated whole. */
  predicate Valid(n: Net) {
    Vectors.Valid(n.emb) && n.emb.cols >= n.dim && |n.att| >= n.emb.cols
  }

  /** Every id indexes a row: lookup does no bounds check of its own. */
  predicate IdsInRange(n: Net, ids: seq<int>) {
    forall k :: 0 <= k < |ids| ==> 0 <= ids[k] < n.emb.rows
  }

  /** attention.apply(embeddings.lookup(id)). */
  function Contribution(n: Net, id: int): (r: Vec)
    requires Valid(n) && 0 <= id < n.emb.rows
    ensures |r| == n.emb.cols
  {
    Gate(n.att, Row(n.emb, id), n.sigmoid)
  }

  /** The gated rows of the ids, in order, duplicates included. */
  function Contribs(n: Net, ids: seq<int>): (r: seq<Vec>)
    requires Valid(n) && IdsInRange(n, ids)
    ensures |r| == |ids| && AllLong(r, n.dim)
    ensures forall k :: 0 <= k < |ids| ==> r[k] == Contribution(n, ids[k])
  {
    seq(|ids|, k requires 0 <= k < |ids| => Contribution(n, ids[k]))
  }

  /** Backbone::forward: the sum, not the mean, of the gated rows. */
  function Forward(n: Net, ids: seq<int>): (h: Vec)
    requires Valid(n) && IdsInRange(n, ids)
    ensures |h| == n.dim
  {
    Total(Contribs(n, ids), n.dim)
  }

  /** The loop as written: zero h, then h.add(attention.apply(lookup(id))) per id. */
  method ForwardLoop(n: Net, ids: seq<int>) returns (h: Vec)
    requires Valid(n) && IdsInRange(n, ids)
    ensures h == Forward(n, ids)
  {
    h := Zero(Zeros(n.dim));
    var i := 0;
    while i < |ids|
      invariant 0 <= i <= |ids|
      invariant h == Total(Contribs(n, ids[..i]), n.dim)
    {
      var e := Row(n.emb, ids[i]);
      var ae := Gate(n.att, e, n.sigmoid);
      assert Contribs(n, ids[..i + 1])[..i] == Contribs(n, ids[..i]);
      h := Plus(h, ae, 1.0);
      i := i + 1;
    }
    assert ids[..i] == ids;
  }

  /** Entry j of the output is the sum over the ids of entry j of their gated rows. */
  lemma ForwardAt(n: Net, ids: seq<int>, j: nat)
    requires Valid(n) && IdsInRange(n, ids) && j < n.dim
    ensures Forward(n, ids)[j] == Column(Contribs(n, ids), j)
  {
    TotalAt(Contribs(n, ids), n.dim, j);
  }

  /** No ids: the zero vector of length dim. */
  lemma ForwardEmpty(n: Net)
    requires Valid(n)
    ensures Forward(n, []) == Zeros(n.dim)
  {
  }

  /** forward(a ++ b) = forward(a) + forward(b). */
  lemma ForwardAppend(n: Net, a: seq<int>, b: seq<int>)
    requires Valid(n) && IdsInRange(n, a) && IdsInRange(n, b)
    ensures IdsInRange(n, a + b)
    ensures Forward(n, a + b) == Sum2(Forward(n, a), Forward(n, b))
  {
    assert Contribs(n, a + b) == Contribs(n, a) + Contribs(n, b);
    TotalAppend(Contribs(n, a), Contribs(n, b), n.dim);
  }

  /** Reordering the ids leaves the sum as it is. */
  lemma ForwardPermutation(n: Net, a: seq<int>, b: seq<int>)
    requires Valid(n) && IdsInRange(n, a) && IdsInRange(n, b)
    requires multiset(a) == multiset(b)
    ensures Forward(n, a) == Forward(n, b)
  {
    ContribsPermutation(n, a, b);
    TotalPermutation(Contribs(n, a), Contribs(n, b), n.dim);
  }

  lemma {:induction false} ContribsPermutation(n: Net, a: seq<int>, b: seq<int>)
    requires Valid(n) && IdsInRange(n, a) && IdsInRange(n, b)
    requires multiset(a) == multiset(b)
    ensures multiset(Contribs(n, a)) == multiset(Contribs(n, b))
    decreases |a|
  {
    if |a| > 0 {
      assert a[0] in multiset(b);
      var k :| 0 <= k < |b| && b[k] == a[0];
      var rest := b[..k] + b[k + 1..];
      MultisetRemove(a, b, k);
      ContribsPermutation(n, a[1..], rest);
      ContribsStep(n, a, b, k);
    } else {
      assert |multiset(b)| == 0;
    }
  }

  lemma ContribsStep(n: Net, a: seq<int>, b: seq<int>, k: nat)
    requires Valid(n) && IdsInRange(n, a) && IdsInRange(n, b)
    requires |a| > 0 && k < |b| && b[k] == a[0]
    requires IdsInRange(n, b[..k] + b[k + 1..])
    requires multiset(Contribs(n, a[1..])) == multiset(Contribs(n, b[..k] + b[k + 1..]))
    ensures multiset(Contribs(n, a)) == multiset(Contribs(n, b))
  {
    ContribsSplit(n, a, 0);
    ContribsSplit(n, b, k);
    assert a[..0] + a[1..] == a[1..];
  }

  /** Taking the k-th id out takes its gated row out of the multiset. */
  lemma ContribsSplit(n: Net, ids: seq<int>, k: nat)
    requires Valid(n) && IdsInRange(n, ids) && k < |ids|
    ensures IdsInRange(n, ids[..k] + ids[k + 1..])
    ensures multiset(Contribs(n, ids))
         == multiset(Contribs(n, ids[..k] + ids[k + 1..])) + multiset{Contribution(n, ids[k])}
  {
    var c := Contribs(n, ids);
    assert c == c[..k] + [c[k]] + c[k + 1..];
    assert Contribs(n, ids[..k] + ids[k + 1..]) == c[..k] + c[k + 1..];
  }

  /** A repeated id counts as often as it occurs: forward([x, x]) is twice forward([x]). */
  lemma ForwardTwice(n: Net, id: int)
    requires Valid(n) && 0 <= id < n.emb.rows
    ensures Forward(n, [id, id]) == Scaled(Forward(n, [id]), 2.0)
  {
    ForwardAppend(n, [id], [id]);
    assert [id] + [id] == [id, id];
  }
}

=== FILE: batch.dfy ===
/**
 * The loop shared by the three trainBatch* members of the classifier: reject
 * an empty batch or one whose label count differs, train on every example
 * the member's own test accepts, in order, and return the mean loss of the
 * examples trained (0 when there were none). The per-example training call
 * is a parameter: a step from the state before to the loss and the state
 * after.
 */
module Batches {

  /** A loss and the state it leaves behind: one training call, or a whole batch. */
  datatype Outcome<S> = Outcome(loss: real, state: S)

  /** The loop's running totalLoss and validExamples, and the state so far. */
  datatype Pass<S> = Pass(total: real, count: nat, state: S)

  /** The positions of the examples the loop trains on, in order. */
  function Chosen<I>(valid: (I, int) -> bool, inputs: seq<I>, labels: seq<int>): (r: seq<nat>)
    requires |inputs| == |labels|
    ensures forall i :: 0 <= i < |inputs| ==> (i in r <==> valid(inputs[i], labels[i]))
    ensures forall i :: i in r ==> i < |inputs|
    ensures forall a, b :: 0 <= a < b < |r| ==> r[a] < r[b]
    decreases |inputs|
  {
    if |inputs| == 0 then []
    else
      var n := |inputs| - 1;
      var prev := Chosen(valid, inputs[..n], labels[..n]);
      assert forall i :: 0 <= i < n ==> inputs[..n][i] == inputs[i] && labels[..n][i] == labels[i];
      assert forall x :: x in prev ==> x < n;
      if valid(inputs[n], labels[n]) then
        var r := prev + [n];
        assert forall x :: x in r <==> x in prev || x == n;
        assert forall a :: 0 <= a < |prev| ==> r[a] == prev[a] && prev[a] in prev;
        r
      else prev
  }

  /** The loop over the whole batch from s: it trains at most once per example, and nothing at all when it trains no example. */
  function Run<S, I>(step: (S, I, int) -> Outcome<S>, valid: (I, int) -> bool, s: S, inputs: seq<I>, labels: seq<int>): (r: Pass<S>)
    requires |inputs| == |labels|
    ensures r.count <= |inputs|
    ensures r.count == 0 ==> r.total == 0.0 && r.state == s
    decreases |inputs|
  {
    if |inputs| == 0 then Pass(0.0, 0, s)
    else
      var n := |inputs| - 1;
      var p := Run(step, valid, s, inputs[..n], labels[..n]);
      if valid(inputs[n], labels[n]) then
        var o := step(p.state, inputs[n], labels[n]);
        Pass(p.total + o.loss, p.count + 1, o.state)
      else p
  }

  /** validExamples counts exactly the examples the test accepts. */
  lemma {:induction false} RunCount<S, I>(step: (S, I, int) -> Outcome<S>, valid: (I, int) -> bool, s: S, inputs: seq<I>, labels: seq<int>)
    requires |inputs| == |labels|
    ensures Run(step, valid, s, inputs, labels).count == |Chosen(valid, inputs, labels)|
    decreases |inputs|
  {
    if |inputs| > 0 {
      var n := |inputs| - 1;
      RunCount(step, valid, s, inputs[..n], labels[..n]);
    }
  }

  /** When the test rejects every example nothing is trained: no loss, no change. */
  lemma {:induction false} RunNoneChosen<S, I>(step: (S, I, int) -> Outcome<S>, valid: (I, int) -> bool, s: S, inputs: seq<I>, labels: seq<int>)
    requires |inputs| == |labels|
    requires forall i :: 0 <= i < |inputs| ==> !valid(inputs[i], labels[i])
    ensures Run(step, valid, s, inputs, labels) == Pass(0.0, 0, s)
    decreases |inputs|
  {
    if |inputs| > 0 {
      var n := |inputs| - 1;
      assert forall i :: 0 <= i < n ==> inputs[..n][i] == inputs[i] && labels[..n][i] == labels[i];
      RunNoneChosen(step, valid, s, inputs[..n], labels[..n]);
    }
  }

  /**
   * Running over a batch split in two is running over the first part, then
   * over the second from where the first left off, with the totals added.
   */
  lemma {:induction false} RunAppend<S, I>(step: (S, I, int) -> Outcome<S>, valid: (I, int) -> bool, s: S,
                                           a: seq<I>, la: seq<int>, b: seq<I>, lb: seq<int>)
    requires |a| == |la| && |b| == |lb|
    ensures var p := Run(step, valid, s, a, la);
            var q := Run(step, valid, p.state, b, lb);
            Run(step, valid, s, a + b, la + lb) == Pass(p.total + q.total, p.count + q.count, q.state)
    decreases |b|
  {
    if |b| == 0 {
      assert a + b == a && la + lb == la;
    } else {
      var n := |b| - 1;
      var ab, lab := a + b, la + lb;
      var m := |a| + n;
      assert ab[..m] == a + b[..n] && lab[..m] == la + lb[..n];
      assert ab[m] == b[n] && lab[m] == lb[n];
      RunAppend(step, valid, s, a, la, b[..n], lb[..n]);
    }
  }

  /**
   * The state after the loop is reached from s by the accepted examples
   * alone: any property that holds of s and that every step preserves
   * holds of the final state.
   */
  lemma {:induction false} RunPreserves<S, I>(step: (S, I, int) -> Outcome<S>, valid: (I, int) -> bool, s: S,
                                              inputs: seq<I>, labels: seq<int>, inv: S -> bool)
    requires |inputs| == |labels| && inv(s)
    requires forall t: S, i :: 0 <= i < |inputs| && inv(t) && valid(inputs[i], labels[i])
               ==> inv(step(t, inputs[i], labels[i]).state)
    ensures inv(Run(step, valid, s, inputs, labels).state)
    decreases |inputs|
  {
    if |inputs| > 0 {
      var n := |inputs| - 1;
      assert forall i :: 0 <= i < n ==> inputs[..n][i] == inputs[i] && labels[..n][i] == labels[i];
      RunPreserves(step, valid, s, inputs[..n], labels[..n], inv);
    }
  }

  /** totalLoss / validExamples, or 0 when no example was trained. */
  function MeanLoss(total: real, count: nat): (m: real)
    ensures count > 0 ==> m * (count as real) == total
    ensures count == 0 ==> m == 0.0
  {
    if count > 0 then total / (count as real) else 0.0
  }

  /**
   * trainBatch*: an empty batch or a label count that differs returns 0 and
   * trains nothing; otherwise the accepted examples are trained in order and
   * the result is their mean loss.
   */
  function Batch<S, I>(step: (S, I, int) -> Outcome<S>, valid: (I, int) -> bool, s: S, inputs: seq<I>, labels: seq<int>): (r: Outcome<S>)
    ensures |inputs| == 0 || |inputs| != |labels| ==> r == Outcome(0.0, s)
    ensures |inputs| == |labels| ==>
              var n := |Chosen(valid, inputs, labels)|;
              (n > 0 ==> r.loss * (n as real) == Run(step, valid, s, inputs, labels).total)
              && (n == 0 ==> r == Outcome(0.0, s))
  {
    if |inputs| == 0 || |inputs| != |labels| then Outcome(0.0, s)
    else
      var p := Run(step, valid, s, inputs, labels);
      RunCount(step, valid, s, inputs, labels);
      if p.count == 0 then Outcome(0.0, s)
      else Outcome(MeanLoss(p.total, p.count), p.state)
  }

  /** A batch of one accepted example is that example's training call. */
  lemma BatchSingle<S, I>(step: (S, I, int) -> Outcome<S>, valid: (I, int) -> bool, s: S, x: I, target: int)
    requires valid(x, target)
    ensures Batch(step, valid, s, [x], [target]) == step(s, x, target)
  {
    assert [x][..0] == [] && [target][..0] == [];
    var o := step(s, x, target);
    assert Run(step, valid, s, [x], [target]) == Pass(0.0 + o.loss, 1, o.state);
  }

  /** A batch ends in the state of training its two halves one after the other. */
  lemma BatchSplit<S, I>(step: (S, I, int) -> Outcome<S>, valid: (I, int) -> bool, s: S,
                         a: seq<I>, la: seq<int>, b: seq<I>, lb: seq<int>)
    requires |a| == |la| > 0 && |b| == |lb| > 0
    ensures Batch(step, valid, s, a + b, la + lb).state
            == Batch(step, valid, Batch(step, valid, s, a, la).state, b, lb).state
  {
    RunAppend(step, valid, s, a, la, b, lb);
    var p := Run(step, valid, s, a, la);
    var q := Run(step, valid, p.state, b, lb);
    RunCount(step, valid, s, a, la);
    RunCount(step, valid, p.state, b, lb);
    RunCount(step, valid, s, a + b, la + lb);
    if p.count == 0 {
      RunNoneChosen(step, valid, s, a, la);
    }
    if q.count == 0 {
      RunNoneChosen(step, valid, p.state, b, lb);
    }
  }

  /** The loop as written, with an index over the batch. */
  method BatchLoop<S, I>(step: (S, I, int) -> Outcome<S>, valid: (I, int) -> bool, s: S, inputs: seq<I>, labels: seq<int>) returns (r: Outcome<S>)
    ensures r == Batch(step, valid, s, inputs, labels)
  {
    var batchSize := |inputs|;
    if batchSize == 0 || batchSize != |labels| {
      return Outcome(0.0, s);
    }
    var totalLoss := 0.0;
    var validExamples := 0;
    var state := s;
    var i := 0;
    while i < batchSize
      invariant 0 <= i <= batchSize
      invariant Pass(totalLoss, validExamples, state) == Run(step, valid, s, inputs[..i], labels[..i])
    {
      assert inputs[..i + 1][..i] == inputs[..i] && labels[..i + 1][..i] == labels[..i];
      if valid(inputs[i], labels[i]) {
        var o := step(state, inputs[i], labels[i]);
        totalLoss := totalLoss + o.loss;
        validExamples := validExamples + 1;
        state := o.state;
      }
      i := i + 1;
    }
    assert inputs[..i] == inputs && labels[..i] == labels;
    if validExamples > 0 {
      r := Outcome(totalLoss / (validExamples as real), state);
    } else {
      RunCount(step, valid, s, inputs, labels);
      RunNoneChosen(step, valid, s, inputs, labels);
      r := Outcome(0.0, state);
    }
  }
}

=== FILE: char_ngram.dfy ===
/**
 * CharNgrams::extract: the fastText-style character n-gram extractor. The
 * word is wrapped as "<word>", and for every start position the 32-bit
 * FNV-1a hash is extended one byte at a time; each prefix whose length is
 * at least minn (and at most maxn) contributes its hash modulo the bucket
 * count.
 */
module CharNgram {
  import opened Common
  import opened Ascii
  import opened Fnv
  import opened Spans

  const Two32: int := 0x1_0000_0000

  /** The boundary-wrapped word. */
  function Wrap(word: string): (w: string)
    ensures |w| == |word| + 2 && w[0] == '<' && w[|w| - 1] == '>'
    ensures w[1..|w| - 1] == word
  {
    "<" + word + ">"
  }

  /** The bucket counts CharNgrams can hold in its C++ `int bucket` member, and that are not zero. */
  predicate ValidBucket(bucket: int) {
    -0x8000_0000 <= bucket < 0x8000_0000 && bucket != 0
  }

  /**
   * `h % bucket` with a signed `int` bucket: the bucket is converted to
   * uint32 for the remainder, and the remainder is stored back in an `int`.
   * Division by zero is undefined, hence the requires.
   */
  function Reduce(h: bv32, bucket: int): (r: int)
    requires ValidBucket(bucket)
    ensures 0 < bucket ==> 0 <= r < bucket && r == (h as int) % bucket
    ensures -0x8000_0000 <= r < 0x8000_0000
  {
    var u := (h as int) % (bucket % Two32);
    if u < 0x8000_0000 then u else u - Two32
  }

  /** The smallest length that is emitted: n runs from 1, and is kept once n >= minn. */
  function Shortest(minn: int): nat { Max(1, minn) as nat }

  /** The bytes a span covers; every enumerated span fits, so the empty fallback is never used. */
  function Slice(b: seq<bv8>, s: Span): seq<bv8> {
    if s.start + s.len <= |b| then b[s.start..s.start + s.len] else []
  }

  /** The values for a sequence of windows, in order. */
  function Ids(b: seq<bv8>, spans: seq<Span>, bucket: int): (r: seq<int>)
    requires ValidBucket(bucket)
    ensures |r| == |spans|
  {
    if |spans| == 0 then []
    else Ids(b, spans[..|spans| - 1], bucket) + [Reduce(Hash32(Slice(b, spans[|spans| - 1])), bucket)]
  }

  /** The k-th value is the reduced 32-bit hash of the k-th window. */
  lemma {:induction false} IdsAt(b: seq<bv8>, spans: seq<Span>, bucket: int, k: nat)
    requires ValidBucket(bucket) && k < |spans|
    ensures Ids(b, spans, bucket)[k] == Reduce(Hash32(Slice(b, spans[k])), bucket)
  {
    if k < |spans| - 1 {
      IdsAt(b, spans[..|spans| - 1], bucket, k);
    }
  }

  lemma {:induction false} IdsAppend(b: seq<bv8>, s1: seq<Span>, s2: seq<Span>, bucket: int)
    requires ValidBucket(bucket)
    ensures Ids(b, s1 + s2, bucket) == Ids(b, s1, bucket) + Ids(b, s2, bucket)
  {
    if |s2| > 0 {
      var s2' := s2[..|s2| - 1];
      assert (s1 + s2)[..|s1 + s2| - 1] == s1 + s2';
      assert (s1 + s2)[|s1 + s2| - 1] == s2[|s2| - 1];
      IdsAppend(b, s1, s2', bucket);
    } else {
      assert s1 + s2 == s1;
    }
  }

  /** The reference definition: the values of all windows of "<word>", in visiting order. */
  function Expected(word: string, minn: int, maxn: int, bucket: int): seq<int>
    requires ValidBucket(bucket)
  {
    var b := Bytes(Wrap(word));
    Ids(b, AllWindows(|b|, Shortest(minn), maxn), bucket)
  }

  lemma IdsSnoc(b: seq<bv8>, spans: seq<Span>, s: Span, bucket: int)
    requires ValidBucket(bucket)
    ensures Ids(b, spans + [s], bucket) == Ids(b, spans, bucket) + [Reduce(Hash32(Slice(b, s)), bucket)]
  {
    assert (spans + [s])[..|spans|] == spans;
  }

  /** Extending a window by one byte extends its hash by one round. */
  lemma SliceStep(b: seq<bv8>, i: nat, j: nat)
    requires i <= j < |b|
    ensures Slice(b, Span(i, j + 1 - i)) == b[i..j + 1]
    ensures Hash32(b[i..j + 1]) == Step32(Hash32(b[i..j]), b[j])
  {
    assert Slice(b, Span(i, j + 1 - i)) == b[i..j] + [b[j]];
    Hash32Snoc(b[i..j], b[j]);
  }

  /** One more length at a start, once the length reaches minn: its value is appended. */
  lemma LengthKept(b: seq<bv8>, i: nat, j: nat, minn: int, bucket: int)
    requires i <= j < |b| && ValidBucket(bucket) && j - i + 1 >= minn
    ensures Ids(b, Lengths(i, Shortest(minn), j + 1 - i), bucket)
         == Ids(b, Lengths(i, Shortest(minn), j - i), bucket) + [Reduce(Hash32(Slice(b, Span(i, j + 1 - i))), bucket)]
  {
    var n := j + 1 - i;
    assert n - 1 == j - i;
    IdsSnoc(b, Lengths(i, Shortest(minn), n - 1), Span(i, n), bucket);
  }

  /** One more length at a start, still below minn: nothing is appended. */
  lemma LengthSkipped(b: seq<bv8>, i: nat, j: nat, minn: int, bucket: int)
    requires i <= j < |b| && ValidBucket(bucket) && j - i + 1 < minn
    ensures Ids(b, Lengths(i, Shortest(minn), j + 1 - i), bucket) == Ids(b, Lengths(i, Shortest(minn), j - i), bucket)
  {
    LengthsEmpty(i, Shortest(minn), j + 1 - i);
    LengthsEmpty(i, Shortest(minn), j - i);
  }

  /** The inner loop of extract for one start position. */
  method FromStart(b: seq<bv8>, i: nat, minn: int, maxn: int, bucket: int) returns (vals: seq<int>)
    requires i < |b| && ValidBucket(bucket)
    ensures vals == Ids(b, AtStart(|b|, i, Shortest(minn), maxn), bucket)
  {
    var lo := Shortest(minn);
    var h := Offset32;
    vals := [];
    var j := i;
    while j < |b| && j < i + maxn
      invariant i <= j <= |b|
      invariant j <= i + maxn || j == i
      invariant h == Hash32(b[i..j])
      invariant vals == Ids(b, Lengths(i, lo, j - i), bucket)
    {
      SliceStep(b, i, j);
      h := Step32(h, b[j]);
      if j - i + 1 >= minn {
        LengthKept(b, i, j, minn, bucket);
        vals := vals + [Reduce(h, bucket)];
      } else {
        LengthSkipped(b, i, j, minn, bucket);
      }
      j := j + 1;
    }
    var top := Min(maxn, |b| - i);
    if maxn <= 0 {
      LengthsEmpty(i, lo, top);
      LengthsEmpty(i, lo, j - i);
    } else {
      assert j - i == top;
    }
  }

  lemma WindowsStep(b: seq<bv8>, lo: nat, maxn: int, i: nat, bucket: int)
    requires ValidBucket(bucket)
    ensures Ids(b, Windows(|b|, lo, maxn, i + 1), bucket)
         == Ids(b, Windows(|b|, lo, maxn, i), bucket) + Ids(b, AtStart(|b|, i, lo, maxn), bucket)
  {
    IdsAppend(b, Windows(|b|, lo, maxn, i), AtStart(|b|, i, lo, maxn), bucket);
  }

  /** The outer loop of extract, over the bytes of the wrapped word. */
  method ExtractBytes(b: seq<bv8>, minn: int, maxn: int, bucket: int, ngrams: seq<int>) returns (out: seq<int>)
    requires ValidBucket(bucket)
    ensures out == ngrams + Ids(b, AllWindows(|b|, Shortest(minn), maxn), bucket)
  {
    var lo := Shortest(minn);
    out := ngrams;
    var i := 0;
    while i < |b|
      invariant 0 <= i <= |b|
      invariant out == ngrams + Ids(b, Windows(|b|, lo, maxn, i), bucket)
    {
      var vals := FromStart(b, i, minn, maxn, bucket);
      WindowsStep(b, lo, maxn, i, bucket);
      SeqAssoc(ngrams, Ids(b, Windows(|b|, lo, maxn, i), bucket), vals);
      out := out + vals;
      i := i + 1;
    }
  }

  /**
   * CharNgrams::extract. The values are appended to `ngrams`, whose earlier
   * contents are kept.
   */
  method Extract(word: string, minn: int, maxn: int, bucket: int, ngrams: seq<int>) returns (out: seq<int>)
    requires ValidBucket(bucket)
    ensures out == ngrams + Expected(word, minn, maxn, bucket)
  {
    out := ExtractBytes(Bytes(Wrap(word)), minn, maxn, bucket, ngrams);
  }

  /** The value of a window that fits in the string is the reduced hash of its characters' bytes. */
  lemma {:induction false} WindowValue(w: string, all: seq<Span>, bucket: int, k: nat)
    requires ValidBucket(bucket) && k < |all| && all[k].start + all[k].len <= |w|
    ensures Ids(Bytes(w), all, bucket)[k] == Reduce(Hash32(Bytes(Piece(w, all[k]))), bucket)
  {
    var s := all[k];
    var b := Bytes(w);
    assert s.start + s.len <= |b|;
    IdsAt(b, all, bucket, k);
    BytesSlice(w, s.start, s.start + s.len);
    assert Slice(b, s) == Bytes(w[s.start..s.start + s.len]);
  }

  /** Over any string, the value of each enumerated window is the reduced hash of that window. */
  lemma {:induction false} WindowValues(w: string, lo: nat, hi: int, bucket: int)
    requires ValidBucket(bucket)
    ensures var all := AllWindows(|w|, lo, hi);
            var e := Ids(Bytes(w), all, bucket);
            forall k :: 0 <= k < |e| ==>
              && all[k].start + all[k].len <= |w| && lo <= all[k].len <= hi
              && e[k] == Reduce(Hash32(Bytes(Piece(w, all[k]))), bucket)
  {
    var all := AllWindows(|w|, lo, hi);
    AllWindowsFit(|w|, lo, hi);
    forall k | 0 <= k < |all|
      ensures Ids(Bytes(w), all, bucket)[k] == Reduce(Hash32(Bytes(Piece(w, all[k]))), bucket)
    {
      WindowValue(w, all, bucket, k);
    }
  }

  /** Every value is the reduced hash of one window, so for a positive bucket it lies in [0, bucket). */
  lemma {:induction false} ExpectedValues(word: string, minn: int, maxn: int, bucket: int)
    requires ValidBucket(bucket)
    ensures var w := Wrap(word);
            var all := AllWindows(|w|, Shortest(minn), maxn);
            var e := Expected(word, minn, maxn, bucket);
            |e| == |all|
            && forall k :: 0 <= k < |e| ==>
                 && all[k].start + all[k].len <= |w| && Max(1, minn) <= all[k].len <= maxn
                 && e[k] == Reduce(Hash32(Bytes(Piece(w, all[k]))), bucket)
                 && (0 < bucket ==> 0 <= e[k] < bucket)
  {
    var w := Wrap(word);
    assert Expected(word, minn, maxn, bucket) == Ids(Bytes(w), AllWindows(|w|, Shortest(minn), maxn), bucket);
    WindowValues(w, Shortest(minn), maxn, bucket);
  }

  /**
   * One value per (start, length) pair with max(1, minn) <= length <= maxn
   * that fits in "<word>", each pair once, in (start, length) order.
   */
  lemma ExpectedCount(word: string, minn: int, maxn: int, bucket: int)
    requires ValidBucket(bucket)
    ensures |Expected(word, minn, maxn, bucket)| == |WindowSet(|word| + 2, Max(1, minn), maxn)|
  {
    WindowCount(|word| + 2, Shortest(minn), maxn);
  }

  /** With minn > maxn no length qualifies and nothing is emitted. */
  lemma EmptyWhenMinAboveMax(word: string, minn: int, maxn: int, bucket: int)
    requires ValidBucket(bucket) && minn > maxn
    ensures Expected(word, minn, maxn, bucket) == []
  {
    EmptyRange(|word| + 2, Shortest(minn), maxn, |word| + 2);
  }
}

=== FILE: classifier_head.dfy ===
/**
 * The classification head (heads/classify.h): one prototype row per class,
 * scores that are dot products with the backbone's output, a margin taken
 * off the true class, a max-shifted softmax loss, clipped per-class
 * gradients and top-k prediction. exp and log are parameters; the proofs
 * that need their shape say so in their preconditions.
 */
module ClassifierHeads {
  import opened Common
  import opened Vectors
  import opened TopK
  import ET = EmbeddingTables

  /** std::max(lo, std::min(hi, x)). */
  function Clip(x: real, lo: real, hi: real): (r: real)
    requires lo <= hi
    ensures lo <= r <= hi
    ensures lo <= x <= hi ==> r == x
    ensures x < lo ==> r == lo
    ensures x > hi ==> r == hi
  {
    if hi < x then hi else if x < lo then lo else x
  }

  /** The per-class gradient bound. */
  const GradBound: real := 5.0

  /** Bounds of the uniform initialisation in the Matrix constructor. */
  const InitBound: real := 0.1

  /** The transcendental functions the head calls. */
  datatype Math = Math(exp: real -> real, log: real -> real)

  /** exp is positive everywhere, as the real exponential is. */
  ghost predicate PositiveExp(math: Math) {
    forall x :: math.exp(x) > 0.0
  }

  /** The classifier's state; the backbone pointer lives with the trainer. */
  datatype Head = Head(protos: seq<Vec>, numClasses: int, dim: int, lr: real, margin: real)

  predicate Valid(c: Head) {
    c.numClasses > 0 && c.dim > 0 && |c.protos| == c.numClasses
    && forall k :: 0 <= k < |c.protos| ==> |c.protos[k]| == c.dim
  }

  /** Row k of the prototype matrix as the constructor fills it. */
  function InitRow(classes: nat, d: nat, draws: seq<real>, k: nat): (r: Vec)
    requires |draws| == classes * d && k < classes
    ensures |r| == d
  {
    ET.Row(ET.Init(classes, d, InitBound, draws), k)
  }

  /**
   * Classifier(classes, d, bb, lr, margin) with the checks run before any
   * allocation: invalid_argument for a non-positive size or a null
   * backbone. draws are the generator's fractions in [0, 1).
   */
  function New(classes: int, d: int, hasBackbone: bool, lr: real, margin: real, draws: seq<real>): (r: Result<Head>)
    requires classes > 0 && d > 0 ==> |draws| == classes * d
    ensures r.Ok? <==> classes > 0 && d > 0 && hasBackbone
    ensures r.Err? ==> r.error.InvalidArgument?
    ensures r.Ok? ==> Valid(r.value) && r.value.numClasses == classes && r.value.dim == d
                      && r.value.lr == lr && r.value.margin == margin
  {
    if classes <= 0 || d <= 0 then Err(InvalidArgument("size"))
    else if !hasBackbone then Err(InvalidArgument("backbone"))
    else Ok(Head(seq(classes, k requires 0 <= k < classes => InitRow(classes, d, draws, k)), classes, d, lr, margin))
  }

  /**
   * The constructor as written: the member initialiser prototypes(classes, d)
   * allocates a vector of classes * d floats before the body checks the
   * sizes, so a negative product throws std::length_error first.
   */
  function NewAsWritten(classes: int, d: int, hasBackbone: bool, lr: real, margin: real, draws: seq<real>): (r: Result<Head>)
    requires classes > 0 && d > 0 ==> |draws| == classes * d
    ensures classes * d < 0 ==> r == Err(LengthError)
    ensures classes * d >= 0 ==> r == New(classes, d, hasBackbone, lr, margin, draws)
  {
    if classes * d < 0 then Err(LengthError) else New(classes, d, hasBackbone, lr, margin, draws)
  }

  /** One negative size and one positive: length_error, not invalid_argument. */
  lemma NegativeClassesLengthError(draws: seq<real>)
    ensures NewAsWritten(-1, 8, true, 0.05, 0.2, draws) == Err(LengthError)
    ensures New(-1, 8, true, 0.05, 0.2, draws).Err?
    ensures New(-1, 8, true, 0.05, 0.2, draws).error.InvalidArgument?
  {
  }

  /** Every initial prototype entry lies in [-0.1, 0.1]. */
  lemma NewBounds(classes: int, d: int, hasBackbone: bool, lr: real, margin: real, draws: seq<real>, k: nat, j: nat)
    requires classes > 0 && d > 0 && |draws| == classes * d && hasBackbone
    requires forall i :: 0 <= i < |draws| ==> 0.0 <= draws[i] < 1.0
    requires k < classes && j < d
    ensures -InitBound <= New(classes, d, hasBackbone, lr, margin, draws).value.protos[k][j] <= InitBound
  {
    var t := ET.Init(classes, d, InitBound, draws);
    ET.InitBounds(classes, d, InitBound, draws);
    RowFits(k, classes, d);
    assert InitRow(classes, d, draws, k)[j] == t.data[ET.RowOffset(t, k) + j];
  }

  /** prototypes.row(k).dot(h) for every class. */
  function RawScores(c: Head, h: Vec): (r: seq<real>)
    requires Valid(c) && |h| >= c.dim
    ensures |r| == c.numClasses
    ensures forall k :: 0 <= k < c.numClasses ==> r[k] == Dot(c.protos[k], h)
  {
    seq(c.numClasses, k requires 0 <= k < c.numClasses => Dot(c.protos[k], h))
  }

  /** The scores with the margin taken off the true class only. */
  function Scores(c: Head, h: Vec, target: nat): (r: seq<real>)
    requires Valid(c) && |h| >= c.dim && target < c.numClasses
    ensures |r| == c.numClasses
    ensures r[target] == Dot(c.protos[target], h) - c.margin
    ensures forall k :: 0 <= k < c.numClasses && k != target ==> r[k] == Dot(c.protos[k], h)
  {
    var raw := RawScores(c, h);
    raw[target := raw[target] - c.margin]
  }

  /** *std::max_element: the largest score. */
  function MaxOf(s: seq<real>): (m: real)
    requires |s| > 0
    ensures forall k :: 0 <= k < |s| ==> s[k] <= m
    ensures exists k :: 0 <= k < |s| && s[k] == m
  {
    if |s| == 1 then s[0]
    else
      var m := MaxOf(s[..|s| - 1]);
      assert forall k :: 0 <= k < |s| - 1 ==> s[..|s| - 1][k] == s[k];
      if s[|s| - 1] > m then s[|s| - 1] else m
  }

  /** Sum of exp(s - shift) over the scores, left to right. */
  function Denom(math: Math, s: seq<real>, shift: real): real {
    if |s| == 0 then 0.0 else Denom(math, s[..|s| - 1], shift) + math.exp(s[|s| - 1] - shift)
  }

  /** With a positive exp every term is at most the sum. */
  lemma {:induction false} TermBelowDenom(math: Math, s: seq<real>, shift: real, k: nat)
    requires PositiveExp(math) && k < |s|
    ensures 0.0 < math.exp(s[k] - shift) <= Denom(math, s, shift)
    decreases |s|
  {
    var init := s[..|s| - 1];
    DenomPositive(math, init, shift);
    if k < |s| - 1 {
      TermBelowDenom(math, init, shift, k);
      assert init[k] == s[k];
    }
  }

  lemma {:induction false} DenomPositive(math: Math, s: seq<real>, shift: real)
    requires PositiveExp(math)
    ensures Denom(math, s, shift) >= 0.0
    ensures |s| > 0 ==> Denom(math, s, shift) > 0.0
  {
    if |s| > 0 {
      DenomPositive(math, s[..|s| - 1], shift);
    }
  }

  /**
   * With exp positive and exp(0) = 1, the max-shifted denominator is at
   * least 1: the term of the maximum itself is exp(0).
   */
  lemma DenomAtLeastOne(math: Math, s: seq<real>)
    requires |s| > 0
    ensures PositiveExp(math) && math.exp(0.0) == 1.0 ==> Denom(math, s, MaxOf(s)) >= 1.0
  {
    if PositiveExp(math) && math.exp(0.0) == 1.0 {
      var m := MaxOf(s);
      var k :| 0 <= k < |s| && s[k] == m;
      TermBelowDenom(math, s, m, k);
      assert s[k] - m == 0.0;
    }
  }

  /**
   * loss = -s[target] + max + log(denom). With exp positive, exp(0) = 1
   * and log non-negative from 1 on, the loss is non-negative.
   */
  function Loss(math: Math, s: seq<real>, target: nat): (r: real)
    requires target < |s|
    ensures PositiveExp(math) && math.exp(0.0) == 1.0 && (forall x :: x >= 1.0 ==> math.log(x) >= 0.0) ==> r >= 0.0
  {
    var m := MaxOf(s);
    DenomAtLeastOne(math, s);
    -s[target] + m + math.log(Denom(math, s, m))
  }

  /** pk - [k == target] before clipping. */
  function RawGrad(math: Math, s: seq<real>, target: nat, k: nat): real
    requires target < |s| && k < |s| && PositiveExp(math)
  {
    var m := MaxOf(s);
    TermBelowDenom(math, s, m, k);
    var p := math.exp(s[k] - m) / Denom(math, s, m);
    if k == target then p - 1.0 else p
  }

  /** The per-class gradient, clipped to [-5, 5]. */
  function Grad(math: Math, s: seq<real>, target: nat, k: nat): (g: real)
    requires target < |s| && k < |s| && PositiveExp(math)
    ensures -GradBound <= g <= GradBound
  {
    Clip(RawGrad(math, s, target, k), -GradBound, GradBound)
  }

  /**
   * With a positive exp each pk lies in (0, 1], so the unclipped gradient
   * already lies in (-1, 1] and the clip to [-5, 5] never changes it.
   */
  lemma ClipInactive(math: Math, s: seq<real>, target: nat, k: nat)
    requires target < |s| && k < |s| && PositiveExp(math)
    ensures -1.0 < RawGrad(math, s, target, k) <= 1.0
    ensures Grad(math, s, target, k) == RawGrad(math, s, target, k)
  {
    var m := MaxOf(s);
    TermBelowDenom(math, s, m, k);
    FractionWithin(math.exp(s[k] - m), Denom(math, s, m));
  }

  lemma FractionWithin(x: real, y: real)
    requires 0.0 < x <= y
    ensures 0.0 < x / y <= 1.0
  {
  }

  /** The factor -lr * grad every update scales by. */
  function Descent(lr: real, grad: real): real {
    -lr * grad
  }

  /** prototypes.addRow(h * (-lr * grad), k, 1): row k moves against the gradient. */
  function Moved(row: Vec, h: Vec, lr: real, grad: real): (r: Vec)
    requires |h| >= |row|
    ensures |r| == |row|
  {
    Plus(row, Scaled(h, Descent(lr, grad)), 1.0)
  }

  /** The result of one training call: the loss and the new head. */
  datatype Step = Step(loss: real, head: Head)

  /** Every class's clipped gradient, all computed from the scores before any update. */
  function Grads(math: Math, s: seq<real>, target: nat): (g: seq<real>)
    requires target < |s| && PositiveExp(math)
    ensures |g| == |s|
    ensures forall k :: 0 <= k < |s| ==> -GradBound <= g[k] <= GradBound
  {
    seq(|s|, k requires 0 <= k < |s| => Grad(math, s, target, k))
  }

  /** Every row moved against its own gradient. */
  function MovedRows(c: Head, h: Vec, grads: seq<real>): (rows: seq<Vec>)
    requires Valid(c) && |h| >= c.dim && |grads| == c.numClasses
    ensures |rows| == c.numClasses && forall k :: 0 <= k < c.numClasses ==> |rows[k]| == c.dim
  {
    seq(c.numClasses, k requires 0 <= k < c.numClasses => Moved(c.protos[k], h, c.lr, grads[k]))
  }

  /**
   * trainExampleWithVector: out-of-range labels return 0 and change nothing;
   * otherwise every prototype row moves by -lr * grad_k * h, where all the
   * gradients come from the scores before any update.
   */
  function WithVector(c: Head, math: Math, h: Vec, target: int): (r: Step)
    requires Valid(c) && |h| >= c.dim && PositiveExp(math)
    ensures Valid(r.head) && r.head.numClasses == c.numClasses && r.head.dim == c.dim
    ensures r.head.lr == c.lr && r.head.margin == c.margin
    ensures !(0 <= target < c.numClasses) ==> r == Step(0.0, c)
  {
    if target < 0 || target >= c.numClasses then Step(0.0, c)
    else
      var s := Scores(c, h, target);
      Step(Loss(math, s, target), c.(protos := MovedRows(c, h, Grads(math, s, target))))
  }

  /**
   * Row k after trainExampleWithVector is row k plus (-lr * grad_k) * h: the
   * rows move independently, each against the gradient of its own class.
   */
  lemma WithVectorRow(c: Head, math: Math, h: Vec, target: nat, k: nat, j: nat)
    requires Valid(c) && |h| >= c.dim && PositiveExp(math) && target < c.numClasses && k < c.numClasses && j < c.dim
    ensures var g := Grad(math, Scores(c, h, target), target, k);
            WithVector(c, math, h, target).head.protos[k][j] == c.protos[k][j] + h[j] * Descent(c.lr, g)
  {
    var s := Scores(c, h, target);
    var g := Grad(math, s, target, k);
    assert Grads(math, s, target)[k] == g;
    MovedAt(c.protos[k], h, c.lr, g, j);
  }

  /** Entry j of a moved row. */
  lemma MovedAt(row: Vec, h: Vec, lr: real, grad: real, j: nat)
    requires |h| >= |row| && j < |row|
    ensures Moved(row, h, lr, grad)[j] == row[j] + h[j] * Descent(lr, grad)
  {
    var step := Scaled(h, Descent(lr, grad));
    assert step[j] == h[j] * Descent(lr, grad);
  }

  /** Rows 0..k-1 moved, the rest as they were. */
  predicate MovedUpTo(c: Head, h: Vec, grads: seq<real>, rows: seq<Vec>, k: nat)
    requires Valid(c) && |h| >= c.dim && |grads| == c.numClasses && k <= c.numClasses
  {
    |rows| == c.numClasses
    && (forall i :: 0 <= i < k ==> rows[i] == Moved(c.protos[i], h, c.lr, grads[i]))
    && (forall i :: k <= i < c.numClasses ==> rows[i] == c.protos[i])
  }

  /** The loop as written: compute the scores once, then update one row per class. */
  method WithVectorLoop(c: Head, math: Math, h: Vec, target: int) returns (r: Step)
    requires Valid(c) && |h| >= c.dim && PositiveExp(math)
    ensures r == WithVector(c, math, h, target)
  {
    if target < 0 || target >= c.numClasses {
      return Step(0.0, c);
    }
    var s := Scores(c, h, target);
    var loss := Loss(math, s, target);
    ghost var grads := Grads(math, s, target);
    var rows := c.protos;
    var k := 0;
    while k < c.numClasses
      invariant 0 <= k <= c.numClasses
      invariant MovedUpTo(c, h, grads, rows, k)
    {
      var g := Grad(math, s, target, k);
      rows := rows[k := Moved(rows[k], h, c.lr, g)];
      k := k + 1;
    }
    assert rows == MovedRows(c, h, grads);
    r := Step(loss, c.(protos := rows));
  }

  /** The (class, score) pairs before sorting. */
  function ClassScores(c: Head, h: Vec): (r: seq<Scored<int>>)
    requires Valid(c) && |h| >= c.dim
    ensures |r| == c.numClasses
    ensures forall i :: 0 <= i < |r| ==> r[i] == Scored(i, Dot(c.protos[i], h))
  {
    seq(c.numClasses, i requires 0 <= i < c.numClasses => Scored(i, Dot(c.protos[i], h)))
  }

  /** predictTopK(h, k). */
  function PredictTopK(c: Head, h: Vec, k: int): (r: Result<seq<Scored<int>>>)
    requires Valid(c) && |h| >= c.dim
    ensures r.Err? <==> k < 0
  {
    Top(ClassScores(c, h), k)
  }

  /**
   * For k >= 0: min(k, num_classes) pairs, sorted by non-increasing score,
   * each a class id with its own score, and no class left out scores above
   * one kept.
   */
  lemma PredictTopKSpec(c: Head, h: Vec, k: int)
    requires Valid(c) && |h| >= c.dim && k >= 0
    ensures PredictTopK(c, h, k).Ok?
    ensures var r := PredictTopK(c, h, k).value;
            |r| == Min(k, c.numClasses) && SortedDesc(r)
            && forall x :: x in r ==> 0 <= x.key < c.numClasses && x.score == Dot(c.protos[x.key], h)
    ensures var r := PredictTopK(c, h, k).value;
            forall i :: 0 <= i < c.numClasses && Scored(i, Dot(c.protos[i], h)) !in r ==>
              forall y :: y in r ==> Dot(c.protos[i], h) <= y.score
  {
    var all := ClassScores(c, h);
    TopSpec(all, k);
    var r := Top(all, k).value;
    forall x | x in r
      ensures 0 <= x.key < c.numClasses && x.score == Dot(c.protos[x.key], h)
    {
      assert x in multiset(all);
    }
    forall i | 0 <= i < c.numClasses && Scored(i, Dot(c.protos[i], h)) !in r
      ensures forall y :: y in r ==> Dot(c.protos[i], h) <= y.score
    {
      var x := all[i];
      assert x in multiset(all);
      assert x !in multiset(r);
      assert x in multiset(all) - multiset(r);
    }
  }
}

=== FILE: common.dfy ===
/**
 * Shared value types: optional values, results with the error kinds the
 * C++ code signals (exceptions, `false` returns, empty results), and a few
 * integer helpers.
 */
module Common {

  datatype Option<+T> = None | Some(value: T)

  /** The ways an operation of the engine can fail. */
  datatype Error =
    | InvalidArgument(what: string)  // std::invalid_argument
    | LengthError                    // std::length_error from a negative size
    | BadMagic(magic: int)           // a model file with an unknown magic number
    | Malformed                      // a token of the wrong kind, or the stream ran out
    | NotSupervised                  // std::runtime_error("Model is not supervised")

  /** A value or the error that stopped the computation; `:-` propagates the error. */
  datatype Result<+T> = Ok(value: T) | Err(error: Error) {
    predicate IsFailure() { Err? }

    function PropagateFailure<U>(): Result<U>
      requires Err?
    {
      Err(error)
    }

    function Extract(): T
      requires Ok?
    {
      value
    }
  }

  function Min(a: int, b: int): int { if a <= b then a else b }
  function Max(a: int, b: int): int { if a >= b then a else b }

  lemma SeqAssoc<T>(a: seq<T>, b: seq<T>, c: seq<T>)
    ensures (a + b) + c == a + (b + c)
  {
  }

  /**
   * Two orderings of one multiset stay orderings of one multiset after the
   * first element of one is matched with an occurrence in the other.
   */
  lemma MultisetRemove<T>(a: seq<T>, b: seq<T>, k: nat)
    requires |a| > 0 && k < |b| && b[k] == a[0] && multiset(a) == multiset(b)
    ensures multiset(a[1..]) == multiset(b[..k] + b[k + 1..])
  {
    var x := a[0];
    var rest := b[..k] + b[k + 1..];
    assert b == b[..k] + [x] + b[k + 1..];
    assert a == [x] + a[1..];
    assert multiset(b) == multiset(rest) + multiset{x};
    assert multiset(a) == multiset(a[1..]) + multiset{x};
    forall y
      ensures multiset(a[1..])[y] == multiset(rest)[y]
    {
      assert (multiset(a[1..]) + multiset{x})[y] == (multiset(rest) + multiset{x})[y];
    }
  }

  /** Where the first element of a occurs in a reordering b of a. */
  lemma Occurrence<T>(a: seq<T>, b: seq<T>) returns (k: nat)
    requires |a| > 0 && multiset(a) == multiset(b)
    ensures k < |b| && b[k] == a[0]
  {
    assert a[0] in multiset(b);
    k :| 0 <= k < |b| && b[k] == a[0];
  }

  /** f applied to every element, in order. */
  function MapSeq<T, U>(f: T -> U, s: seq<T>): (r: seq<U>)
    ensures |r| == |s| && forall i :: 0 <= i < |s| ==> r[i] == f(s[i])
  {
    seq(|s|, i requires 0 <= i < |s| => f(s[i]))
  }

  /** Taking the k-th element out takes its image out of the multiset of images. */
  lemma MapSplit<T, U>(f: T -> U, s: seq<T>, k: nat)
    requires k < |s|
    ensures multiset(MapSeq(f, s)) == multiset(MapSeq(f, s[..k] + s[k + 1..])) + multiset{f(s[k])}
  {
    var m := MapSeq(f, s);
    assert m == m[..k] + [m[k]] + m[k + 1..];
    assert MapSeq(f, s[..k] + s[k + 1..]) == m[..k] + m[k + 1..];
  }

  /** Reordering the inputs reorders the images: the multiset of images is the same. */
  lemma {:induction false} MapPermutation<T, U>(f: T -> U, a: seq<T>, b: seq<T>)
    requires multiset(a) == multiset(b)
    ensures multiset(MapSeq(f, a)) == multiset(MapSeq(f, b))
    decreases |a|
  {
    if |a| > 0 {
      var k := Occurrence(a, b);
      MultisetRemove(a, b, k);
      MapPermutation(f, a[1..], b[..k] + b[k + 1..]);
      MapMatched(f, a, b, k);
    } else {
      assert |multiset(b)| == 0;
    }
  }

  /** Removing a matched pair from both sides keeps equal multisets of images equal. */
  lemma MapMatched<T, U>(f: T -> U, a: seq<T>, b: seq<T>, k: nat)
    requires |a| > 0 && k < |b| && b[k] == a[0]
    requires multiset(MapSeq(f, a[1..])) == multiset(MapSeq(f, b[..k] + b[k + 1..]))
    ensures multiset(MapSeq(f, a)) == multiset(MapSeq(f, b))
  {
    MapCons(f, a);
    MapSplit(f, b, k);
  }

  lemma MapCons<T, U>(f: T -> U, s: seq<T>)
    requires |s| > 0
    ensures multiset(MapSeq(f, s)) == multiset(MapSeq(f, s[1..])) + multiset{f(s[0])}
  {
    assert MapSeq(f, s) == [f(s[0])] + MapSeq(f, s[1..]);
  }

  lemma MapAppend<T, U>(f: T -> U, a: seq<T>, b: seq<T>)
    ensures MapSeq(f, a + b) == MapSeq(f, a) + MapSeq(f, b)
  {
  }
}

=== FILE: compact_files.dfy ===
/**
 * The compact (GALC) model file: only the embeddings of words seen in
 * training, with no hashed buckets. Layout: magic, dim, the word count and
 * words, the label count and labels, then three float blocks WITHOUT
 * counts (nwords·dim embeddings, dim attention weights, nlabels·dim
 * prototypes) whose sizes follow from the counts read before.
 */
module CompactFiles {
  import opened Common
  import opened Tokens
  import opened ModelFiles

  const MagicCompact: int := 0x47414C43  // "GALC"

  /** What the compact trainer saves: id2word, id2label and the three weight buffers. */
  datatype CompactModel = CompactModel(dim: int, words: seq<string>, labels: seq<string>,
                                       emb: seq<real>, att: seq<real>, protos: seq<real>)

  /** The buffer sizes the trainer allocates: #words rows, one attention row, #labels prototype rows. */
  predicate Shaped(m: CompactModel) {
    && m.dim >= 0
    && |m.emb| == |m.words| * m.dim
    && |m.att| == m.dim
    && |m.protos| == |m.labels| * m.dim
  }

  /** The compact writer. */
  function WriteCompact(m: CompactModel): (t: seq<Token>)
    requires Shaped(m)
    ensures |t| >= 4 && t[0] == I32(MagicCompact) && t[1] == I32(m.dim) && t[2] == I32(|m.words|)
  {
    [I32(MagicCompact)] + ([I32(m.dim)] + (ListTokens(m.words) + (ListTokens(m.labels)
    + (FloatTokens(m.emb) + (FloatTokens(m.att) + FloatTokens(m.protos))))))
  }

  /** word2id[word] = i for the i-th word read: a later copy of a word takes its id. */
  function WordIndex(words: seq<string>): (m: map<string, int>)
    ensures forall w :: w in m <==> w in words
    ensures forall w :: w in m ==> 0 <= m[w] < |words| && words[m[w]] == w
  {
    if |words| == 0 then map[]
    else
      var init := words[..|words| - 1];
      var m := WordIndex(init);
      assert forall w :: w in init ==> w in words;
      assert words == init + [words[|words| - 1]];
      m[words[|words| - 1] := |words| - 1]
  }

  /** With no repeats, word2id gives each word its position. */
  lemma {:induction false} WordIndexPositions(words: seq<string>)
    requires forall i, j :: 0 <= i < j < |words| ==> words[i] != words[j]
    ensures forall i :: 0 <= i < |words| ==> WordIndex(words)[words[i]] == i
  {
    if |words| > 0 {
      var init := words[..|words| - 1];
      WordIndexPositions(init);
      forall i | 0 <= i < |words| - 1
        ensures WordIndex(words)[words[i]] == i
      {
        assert init[i] == words[i] && words[i] != words[|words| - 1];
      }
    }
  }

  /** What CompactModel::load fills in; rows is the word count read. */
  datatype Compact = Compact(dim: int, rows: int, word2id: map<string, int>, labels: seq<string>,
                             emb: seq<real>, att: seq<real>, protos: seq<real>)

  /**
   * CompactModel::load: the magic must be GALC; dim; the words, each mapped
   * to its position; the label count and labels; then nwords·dim, dim and
   * nlabels·dim floats, with the counts as read. A negative word or label
   * count reads no strings; a negative float count is refused, as resize
   * to a wrapped size_t throws.
   */
  function LoadCompact(t: seq<Token>): (r: Result<Compact>)
    ensures |t| > 0 && t[0].I32? && t[0].i != MagicCompact ==> r == Err(BadMagic(t[0].i))
    ensures r.Ok? ==> |t| > 0 && t[0] == I32(MagicCompact)
    ensures r.Ok? ==> var c := r.value;
            && |c.emb| == c.rows * c.dim && |c.att| == c.dim && |c.protos| == |c.labels| * c.dim
            && forall w :: w in c.word2id ==> 0 <= c.word2id[w] < Max(c.rows, 0)
  {
    var magic :- ReadInt(t);
    if magic.value != MagicCompact then Err(BadMagic(magic.value))
    else
      var dim :- ReadInt(magic.rest);
      var nwords :- ReadInt(dim.rest);
      var words :- ReadStrings(nwords.rest, nwords.value);
      var nlabels :- ReadInt(words.rest);
      var labels :- ReadStrings(nlabels.rest, nlabels.value);
      var emb :- ReadFloats(labels.rest, nwords.value * dim.value);
      var att :- ReadFloats(emb.rest, dim.value);
      var protos :- ReadFloats(att.rest, nlabels.value * dim.value);
      CountedRows(nlabels.value, dim.value);
      Ok(Compact(dim.value, nwords.value, WordIndex(words.value), labels.value, emb.value, att.value, protos.value))
  }

  /**
   * A block of n rows of d floats that could be read holds as many floats as
   * the n read strings have rows.
   */
  lemma CountedRows(n: int, d: int)
    requires d >= 0
    ensures n * d >= 0 ==> n * d == Max(n, 0) * d
  {
    if n < 0 && d > 0 {
      assert n * d <= -d;
    }
  }

  /** The tokens after the label list. */
  function Blocks(m: CompactModel): seq<Token> {
    FloatTokens(m.emb) + (FloatTokens(m.att) + FloatTokens(m.protos))
  }

  /** The compact file as its three leading ints, the words, and what follows them. */
  lemma CompactSplit(m: CompactModel)
    requires Shaped(m)
    ensures WriteCompact(m) == [I32(MagicCompact), I32(m.dim), I32(|m.words|)] + (StringsTokens(m.words) + (ListTokens(m.labels) + Blocks(m)))
  {
  }

  /** Each section after the three leading ints read back in turn. */
  lemma CompactSections(m: CompactModel)
    requires Shaped(m)
    ensures var afterWords := ListTokens(m.labels) + Blocks(m);
            && ReadStrings(StringsTokens(m.words) + afterWords, |m.words|) == Ok(Read(m.words, afterWords))
            && ReadInt(afterWords) == Ok(Read(|m.labels|, StringsTokens(m.labels) + Blocks(m)))
            && ReadStrings(StringsTokens(m.labels) + Blocks(m), |m.labels|) == Ok(Read(m.labels, Blocks(m)))
            && ReadFloats(Blocks(m), |m.emb|) == Ok(Read(m.emb, FloatTokens(m.att) + FloatTokens(m.protos)))
            && ReadFloats(FloatTokens(m.att) + FloatTokens(m.protos), |m.att|) == Ok(Read(m.att, FloatTokens(m.protos)))
            && ReadFloats(FloatTokens(m.protos), |m.protos|) == Ok(Read(m.protos, []))
  {
    StringsRoundTrip(m.words, ListTokens(m.labels) + Blocks(m));
    var afterWords := ListTokens(m.labels) + Blocks(m);
    SeqAssoc([I32(|m.labels|)], StringsTokens(m.labels), Blocks(m));
    assert afterWords[1..] == StringsTokens(m.labels) + Blocks(m);
    StringsRoundTrip(m.labels, Blocks(m));
    FloatsRoundTrip(m.emb, FloatTokens(m.att) + FloatTokens(m.protos));
    FloatsRoundTrip(m.att, FloatTokens(m.protos));
    FloatsRoundTrip(m.protos, []);
    assert FloatTokens(m.protos) + [] == FloatTokens(m.protos);
  }

  /** Loading a compact file gives back dim, the words at their ids, the labels and the three buffers. */
  lemma CompactRoundTrip(m: CompactModel)
    requires Shaped(m)
    ensures LoadCompact(WriteCompact(m))
            == Ok(Compact(m.dim, |m.words|, WordIndex(m.words), m.labels, m.emb, m.att, m.protos))
  {
    CompactSplit(m);
    CompactSections(m);
    var t := WriteCompact(m);
    assert t[3..] == StringsTokens(m.words) + (ListTokens(m.labels) + Blocks(m));
    assert ReadInt(t) == Ok(Read(MagicCompact, t[1..]));
    assert ReadInt(t[1..]) == Ok(Read(m.dim, t[2..]));
    assert ReadInt(t[2..]) == Ok(Read(|m.words|, t[3..]));
  }

  /**
   * A negative label count reads no labels, and the nlabels·dim prototype
   * floats it asks for are refused.
   */
  lemma NegativeLabelCount()
    ensures LoadCompact([I32(MagicCompact), I32(1), I32(0), I32(-1), F32(0.5)]) == Err(Malformed)
  {
    var t := [I32(MagicCompact), I32(1), I32(0), I32(-1), F32(0.5)];
    assert ReadStrings(t[4..], -1) == Ok(Read([], t[4..]));
    assert ReadFloats(t[4..], 0) == Ok(Read([], t[4..]));
    assert ReadFloats(t[4..], 1).Ok?;
  }
}

=== FILE: corpus.dfy ===
/**
 * The corpus rules the trainers share (main.cpp, compact_model.cpp,
 * tiny_model.cpp): the label marker, label ids in order of first
 * appearance, the vocabulary built from word counts, the split of a line
 * into its label and its subword ids, the subword ids of the dense
 * models, and the CBOW context window. A corpus is the sequence of its
 * whitespace tokens (Tokenizer.Tokenize(Whitespace, line) per line); the
 * unordered_map iteration order of the word counts is a parameter.
 */
module Corpus {
  import opened Common
  import D = Dictionaries
  import CharNgram
  import Spans

  /** The label-marker test: a token that starts with "__" and is longer than that. */
  predicate IsLabel(w: string) {
    |w| > 2 && w[0] == '_' && w[1] == '_'
  }

  /** A marker is "__" followed by a non-empty name. */
  lemma LabelShape(w: string)
    ensures IsLabel(w) <==> |w| > 2 && w == "__" + w[2..]
  {
    if |w| > 2 && w == "__" + w[2..] {
      assert w[0] == ("__" + w[2..])[0];
    }
  }

  /** id2label after the first pass: every marker once, in order of first appearance. */
  function LabelList(ts: seq<string>): (r: seq<string>)
    ensures D.NoRepeats(r)
    ensures forall w :: w in r <==> w in ts && IsLabel(w)
  {
    if |ts| == 0 then []
    else
      var init := ts[..|ts| - 1];
      var prev := LabelList(init);
      var w := ts[|ts| - 1];
      assert ts == init + [w];
      if IsLabel(w) && w !in prev then prev + [w] else prev
  }

  /** Reading more text never renumbers a label: the old list is a prefix of the new one. */
  lemma {:induction false} LabelsStable(a: seq<string>, b: seq<string>)
    ensures |LabelList(a)| <= |LabelList(a + b)| && LabelList(a + b)[..|LabelList(a)|] == LabelList(a)
    decreases |b|
  {
    if |b| == 0 {
      assert a + b == a;
    } else {
      var init := b[..|b| - 1];
      LabelsStable(a, init);
      assert (a + b)[..|a + b| - 1] == a + init;
    }
  }

  /**
   * Label i was seen before label j whenever i < j: every occurrence of
   * the later label comes after some occurrence of the earlier one.
   */
  lemma {:induction false} LabelsFirstSeen(ts: seq<string>, i: nat, j: nat, l: nat)
    requires i < j < |LabelList(ts)| && l < |ts| && ts[l] == LabelList(ts)[j]
    ensures LabelList(ts)[i] in ts[..l]
  {
    var init := ts[..|ts| - 1];
    var prev := LabelList(init);
    var w := ts[|ts| - 1];
    assert ts == init + [w];
    if j < |prev| {
      if l < |init| {
        LabelsFirstSeen(init, i, j, l);
        assert ts[..l] == init[..l];
      } else {
        assert prev[i] in init;
        assert ts[..l] == init;
      }
    } else {
      assert LabelList(ts)[j] == w && w !in init;
      assert l == |ts| - 1 && ts[..l] == init;
      assert prev[i] in init;
    }
  }

  /** label2id[w]: the label's position; a token never collected reads as 0, as operator[] inserts it so. */
  function LabelIndex(labels: seq<string>, w: string): (id: int)
    ensures 0 <= id && (|labels| > 0 ==> id < |labels|)
    ensures w in labels ==> labels[id] == w
    ensures w !in labels ==> id == 0
  {
    if |labels| == 0 then 0
    else if labels[0] == w then 0
    else if w in labels[1..] then 1 + LabelIndex(labels[1..], w)
    else 0
  }

  /** With each label listed once, the index of the i-th label is i. */
  lemma LabelIndexAt(labels: seq<string>, i: nat)
    requires D.NoRepeats(labels) && i < |labels|
    ensures LabelIndex(labels, labels[i]) == i
  {
    var id := LabelIndex(labels, labels[i]);
    assert labels[id] == labels[i];
  }

  /** A line split into the label it carries, its subword ids, and the state the id function leaves behind. */
  datatype Line<S> = Line(target: int, ids: seq<int>, state: S)

  /**
   * The per-line loop of the trainers: a marker sets the label (the last
   * one wins), any other token appends its subword ids. The id function
   * may carry state (tiny_model.cpp allocates phonetic ids as it goes).
   */
  function SplitLine<S>(labels: seq<string>, subwords: (S, string) -> (seq<int>, S), s: S, ts: seq<string>): (r: Line<S>)
    ensures r.target >= -1
  {
    if |ts| == 0 then Line(-1, [], s)
    else
      var p := SplitLine(labels, subwords, s, ts[..|ts| - 1]);
      var w := ts[|ts| - 1];
      if IsLabel(w) then p.(target := LabelIndex(labels, w))
      else
        var o := subwords(p.state, w);
        Line(p.target, p.ids + o.0, o.1)
  }

  /**
   * When every token yields at least one id, a line yields ids exactly
   * when it holds a token that is not a marker.
   */
  lemma {:induction false} SplitLineIds<S>(labels: seq<string>, subwords: (S, string) -> (seq<int>, S), s: S, ts: seq<string>)
    requires forall st, w :: |subwords(st, w).0| > 0
    ensures |SplitLine(labels, subwords, s, ts).ids| > 0 <==> exists k :: 0 <= k < |ts| && !IsLabel(ts[k])
  {
    if |ts| > 0 {
      var init := ts[..|ts| - 1];
      SplitLineIds(labels, subwords, s, init);
      assert forall k :: 0 <= k < |init| ==> init[k] == ts[k];
    }
  }

  /**
   * Splitting a line in two: the ids of the halves are concatenated, the
   * second half starts from the state the first left, and its label wins
   * when it has one.
   */
  lemma {:induction false} SplitLineAppend<S>(labels: seq<string>, subwords: (S, string) -> (seq<int>, S), s: S, a: seq<string>, b: seq<string>)
    ensures var p := SplitLine(labels, subwords, s, a);
            var q := SplitLine(labels, subwords, p.state, b);
            SplitLine(labels, subwords, s, a + b)
              == Line(if q.target >= 0 then q.target else p.target, p.ids + q.ids, q.state)
    decreases |b|
  {
    var p := SplitLine(labels, subwords, s, a);
    if |b| == 0 {
      assert a + b == a && p.ids + [] == p.ids;
    } else {
      var init := b[..|b| - 1];
      SplitLineAppend(labels, subwords, s, a, init);
      assert (a + b)[..|a + b| - 1] == a + init;
      var q0 := SplitLine(labels, subwords, p.state, init);
      var w := b[|b| - 1];
      if !IsLabel(w) {
        var o := subwords(q0.state, w);
        assert (p.ids + q0.ids) + o.0 == p.ids + (q0.ids + o.0);
      }
    }
  }

  /** The line's label is -1 exactly when it holds no marker, and otherwise the id of its last marker. */
  lemma {:induction false} SplitLineLabel<S>(labels: seq<string>, subwords: (S, string) -> (seq<int>, S), s: S, ts: seq<string>)
    ensures var r := SplitLine(labels, subwords, s, ts);
            (r.target == -1 <==> forall k :: 0 <= k < |ts| ==> !IsLabel(ts[k]))
            && forall k :: 0 <= k < |ts| && IsLabel(ts[k]) && (forall l :: k < l < |ts| ==> !IsLabel(ts[l]))
                 ==> r.target == LabelIndex(labels, ts[k])
  {
    if |ts| > 0 {
      var init := ts[..|ts| - 1];
      SplitLineLabel(labels, subwords, s, init);
      assert forall k :: 0 <= k < |init| ==> init[k] == ts[k];
    }
  }

  /** The trainers train on a line only when it has a label and at least one id. */
  predicate Trains<S>(r: Line<S>) {
    r.target >= 0 && |r.ids| > 0
  }

  /** wordCounts: how often each token the trainer counts occurs. */
  function Counts(ts: seq<string>, counted: string -> bool): (m: multiset<string>)
    ensures forall w :: m[w] == if counted(w) then multiset(ts)[w] else 0
  {
    if |ts| == 0 then multiset{}
    else
      var init := ts[..|ts| - 1];
      assert ts == init + [ts[|ts| - 1]];
      Counts(init, counted) + if counted(ts[|ts| - 1]) then multiset{ts[|ts| - 1]} else multiset{}
  }

  /** A visiting order of the counted words: each exactly once. */
  ghost predicate Listing(order: seq<string>, m: multiset<string>) {
    D.NoRepeats(order) && forall w :: w in order <==> w in m
  }

  /** The words of the listing whose count reaches minCount, in listing order. */
  function Kept(order: seq<string>, m: multiset<string>, minCount: int): (r: seq<string>)
    ensures forall w :: w in r <==> w in order && m[w] >= minCount
    ensures D.NoRepeats(order) ==> D.NoRepeats(r)
  {
    if |order| == 0 then []
    else
      var init := order[..|order| - 1];
      var w := order[|order| - 1];
      assert order == init + [w];
      assert D.NoRepeats(order) ==> D.NoRepeats(init) && w !in init;
      Kept(init, m, minCount) + if m[w] >= minCount then [w] else []
  }

  /**
   * The vocabulary loop: addWord for each counted word, in map order, whose
   * count reaches minCount. It keeps the word tables inverse and touches
   * nothing else; from an empty dictionary, a word is known exactly when
   * it is a counted token occurring at least minCount times, and ids follow
   * the map order.
   */
  function BuildVocabulary(d: D.Dictionary, ts: seq<string>, counted: string -> bool, minCount: int, order: seq<string>): (r: D.Dictionary)
    requires Listing(order, Counts(ts, counted))
    ensures D.WordsValid(d) ==> D.WordsValid(r) && D.SameButWords(d, r)
    ensures d == D.Empty ==>
              && r.id2word == Kept(order, Counts(ts, counted), minCount)
              && forall w :: D.GetWordId(r, w) != -1 <==> w in ts && counted(w) && multiset(ts)[w] >= minCount
  {
    var kept := Kept(order, Counts(ts, counted), minCount);
    if !D.WordsValid(d) then D.AddWords(d, kept)
    else
      D.AddWordsValid(d, kept);
      if d != D.Empty then D.AddWords(d, kept)
      else
        FromEmpty(ts, counted, minCount, order);
        D.AddWords(d, kept)
  }

  /** From an empty dictionary the kept words get ids in order, and nothing else is known. */
  lemma FromEmpty(ts: seq<string>, counted: string -> bool, minCount: int, order: seq<string>)
    requires Listing(order, Counts(ts, counted))
    ensures var kept := Kept(order, Counts(ts, counted), minCount);
            var r := D.AddWords(D.Empty, kept);
            && r.id2word == kept
            && forall w :: D.GetWordId(r, w) != -1 <==> w in ts && counted(w) && multiset(ts)[w] >= minCount
  {
    var kept := Kept(order, Counts(ts, counted), minCount);
    D.AddWordsIds(kept);
    D.DedupNoRepeats(kept);
  }

  /** The counting test of buildDictionary: anything not starting with '_'. */
  predicate NoUnderscore(w: string) {
    !(|w| > 0 && w[0] == '_')
  }

  /** buildDictionary followed by finalize(bucket), as trainCBOW does. */
  function CbowVocabulary(ts: seq<string>, minCount: int, bucket: int, order: seq<string>): D.Dictionary
    requires Listing(order, Counts(ts, NoUnderscore))
  {
    D.Finalize(BuildVocabulary(D.Empty, ts, NoUnderscore, minCount, order), bucket)
  }

  /** The vocabulary of trainSupervised: every non-marker token counted, then finalize(bucket). */
  function SupervisedVocabulary(ts: seq<string>, minCount: int, bucket: int, order: seq<string>): D.Dictionary
    requires Listing(order, Counts(ts, w => !IsLabel(w)))
  {
    D.Finalize(BuildVocabulary(D.Empty, ts, w => !IsLabel(w), minCount, order), bucket)
  }

  /**
   * The two vocabularies differ on tokens like "_x" or "__": buildDictionary
   * drops them, trainSupervised keeps them once they are frequent enough.
   */
  lemma VocabulariesDiffer(ts: seq<string>, minCount: int, bucket: int, o1: seq<string>, o2: seq<string>, w: string)
    requires Listing(o1, Counts(ts, NoUnderscore)) && Listing(o2, Counts(ts, w => !IsLabel(w)))
    requires w in ts && |w| > 0 && w[0] == '_' && !IsLabel(w) && multiset(ts)[w] >= minCount
    ensures D.GetWordId(CbowVocabulary(ts, minCount, bucket, o1), w) == -1
    ensures D.GetWordId(SupervisedVocabulary(ts, minCount, bucket, o2), w) != -1
  {
  }

  /** compact_model.cpp: every non-marker token is added, whatever its count, then finalize(0). */
  function CompactVocabulary(ts: seq<string>, order: seq<string>): (d: D.Dictionary)
    requires Listing(order, Counts(ts, w => !IsLabel(w)))
  {
    D.Finalize(D.AddWords(D.Empty, order), 0)
  }

  /**
   * The compact vocabulary knows exactly the non-marker tokens, and its id
   * space is the words alone: the embedding table has #words rows.
   */
  lemma CompactVocabularyWords(ts: seq<string>, order: seq<string>)
    requires Listing(order, Counts(ts, w => !IsLabel(w)))
    ensures var d := CompactVocabulary(ts, order);
            && D.WordsValid(d) && d.id2word == order
            && D.TotalSize(d) == |d.id2word|
            && forall w :: D.GetWordId(d, w) != -1 <==> w in ts && !IsLabel(w)
  {
    var d0 := D.AddWords(D.Empty, order);
    D.AddWordsIds(order);
    D.DedupNoRepeats(order);
    var m := Counts(ts, w => !IsLabel(w));
    forall w
      ensures D.GetWordId(d0, w) != -1 <==> w in ts && !IsLabel(w)
    {
      assert w in order <==> m[w] > 0;
    }
  }

  /** The compact trainer's ids for a token: its word id when known, nothing else. */
  function CompactIds(d: D.Dictionary, w: string): (ids: seq<int>)
    ensures D.WordsValid(d) ==> forall k :: 0 <= k < |ids| ==> 0 <= ids[k] < |d.id2word|
    ensures |ids| <= 1 && (D.WordsValid(d) ==> (|ids| == 1 <==> w in d.word2id))
  {
    var id := D.GetWordId(d, w);
    if id >= 0 then [id] else []
  }

  /** The n-gram rows: bucket_offset + hash for each hash, in order. */
  function NgramIds(d: D.Dictionary, hashes: seq<int>): (ids: seq<int>)
    ensures |ids| == |hashes| && forall k :: 0 <= k < |hashes| ==> ids[k] == D.GetCharNgramId(d, hashes[k])
  {
    seq(|hashes|, k requires 0 <= k < |hashes| => D.GetCharNgramId(d, hashes[k]))
  }

  /**
   * getSubwordIds of main.cpp and inference.cpp: the word id when known,
   * then one row per character n-gram of the word.
   */
  function SubwordIds(d: D.Dictionary, minn: int, maxn: int, bucket: int, w: string): (ids: seq<int>)
    requires CharNgram.ValidBucket(bucket)
    ensures D.WordsValid(d) ==> |ids| == (if w in d.word2id then 1 else 0) + |Spans.WindowSet(|w| + 2, Max(1, minn), maxn)|
    ensures D.WordsValid(d) && w in d.word2id ==> ids[0] == d.word2id[w]
  {
    CharNgram.ExpectedCount(w, minn, maxn, bucket);
    CompactIds(d, w) + NgramIds(d, CharNgram.Expected(w, minn, maxn, bucket))
  }

  /**
   * In a finalized dictionary the two parts can be told apart: only the
   * first id can be a word id, and it is one exactly when the word is
   * known; every n-gram id lies in the bucket range; there is one per
   * window of the wrapped word.
   */
  lemma SubwordIdsLayout(d: D.Dictionary, minn: int, maxn: int, w: string)
    requires D.BucketsPlaced(d)
    ensures var ids := SubwordIds(d, minn, maxn, d.bucketSize, w);
            && |ids| == (if w in d.word2id then 1 else 0) + |Spans.WindowSet(|w| + 2, Max(1, minn), maxn)|
            && (w in d.word2id ==> ids[0] == D.GetWordId(d, w))
            && forall k :: 0 <= k < |ids| ==>
                 (ids[k] < |d.id2word| <==> k == 0 && w in d.word2id)
                 && (ids[k] >= |d.id2word| ==> ids[k] < d.bucketOffset + d.bucketSize)
  {
    var b := d.bucketSize;
    var hashes := CharNgram.Expected(w, minn, maxn, b);
    CharNgram.ExpectedCount(w, minn, maxn, b);
    HashesInRange(w, minn, maxn, b);
    var head := CompactIds(d, w);
    var tail := NgramIds(d, hashes);
    var ids := head + tail;
    assert forall k :: 0 <= k < |tail| ==> |d.id2word| <= tail[k] < d.bucketOffset + b;
    assert forall k :: |head| <= k < |ids| ==> ids[k] == tail[k - |head|];
  }

  /** Every hash extract emits lies in [0, bucket) for a positive bucket. */
  lemma HashesInRange(w: string, minn: int, maxn: int, b: int)
    requires 0 < b < 0x8000_0000
    ensures forall k :: 0 <= k < |CharNgram.Expected(w, minn, maxn, b)| ==> 0 <= CharNgram.Expected(w, minn, maxn, b)[k] < b
  {
    CharNgram.ExpectedValues(w, minn, maxn, b);
  }

  /** The positions j of a window [lo, hi) other than the centre i, in order. */
  function Window(lo: int, hi: int, i: int): (r: seq<int>)
    ensures forall j :: j in r <==> lo <= j < hi && j != i
    ensures forall k :: 0 <= k < |r| ==> lo <= r[k] < hi
    ensures forall a, b :: 0 <= a < b < |r| ==> r[a] < r[b]
    decreases hi - lo
  {
    if lo >= hi then []
    else
      var rest := Window(lo + 1, hi, i);
      if lo != i then [lo] + rest else rest
  }

  /** The CBOW context of position i among n tokens with window w. */
  function Context(n: int, i: int, w: int): (r: seq<int>)
    ensures forall k :: 0 <= k < |r| ==> 0 <= r[k] < n
  {
    Window(Max(0, i - w), Min(n, i + w + 1), i)
  }

  /** The context is every other position at distance at most w, in increasing order. */
  lemma ContextSpec(n: int, i: int, w: int)
    ensures forall j :: j in Context(n, i, w) <==> 0 <= j < n && j != i && i - w <= j <= i + w
    ensures forall a, b :: 0 <= a < b < |Context(n, i, w)| ==> Context(n, i, w)[a] < Context(n, i, w)[b]
  {
  }

  /** The ids of the tokens at positions js, concatenated in that order. */
  function ContextIds(sub: string -> seq<int>, ts: seq<string>, js: seq<int>): seq<int>
    requires forall k :: 0 <= k < |js| ==> 0 <= js[k] < |ts|
  {
    if |js| == 0 then []
    else ContextIds(sub, ts, js[..|js| - 1]) + sub(ts[js[|js| - 1]])
  }

  /** The context ids are empty exactly when every context token has no ids. */
  lemma {:induction false} ContextIdsEmpty(sub: string -> seq<int>, ts: seq<string>, js: seq<int>)
    requires forall k :: 0 <= k < |js| ==> 0 <= js[k] < |ts|
    ensures |ContextIds(sub, ts, js)| == 0 <==> forall k :: 0 <= k < |js| ==> |sub(ts[js[k]])| == 0
  {
    if |js| > 0 {
      ContextIdsEmpty(sub, ts, js[..|js| - 1]);
    }
  }

  /** Some position within the window around i, other than i, holds a token with ids. */
  predicate ContextHasIds(sub: string -> seq<int>, ts: seq<string>, i: int, window: int) {
    exists j :: 0 <= j < |ts| && j != i && i - window <= j <= i + window && |sub(ts[j])| > 0
  }

  /** The context ids are non-empty exactly when some token within the window has ids. */
  lemma ContextIdsNonEmpty(sub: string -> seq<int>, ts: seq<string>, i: int, window: int)
    ensures |ContextIds(sub, ts, Context(|ts|, i, window))| > 0 <==> ContextHasIds(sub, ts, i, window)
  {
    var js := Context(|ts|, i, window);
    ContextSpec(|ts|, i, window);
    ContextIdsEmpty(sub, ts, js);
    if ContextHasIds(sub, ts, i, window) {
      var j :| 0 <= j < |ts| && j != i && i - window <= j <= i + window && |sub(ts[j])| > 0;
      assert j in js;
      var k :| 0 <= k < |js| && js[k] == j;
    }
    if |ContextIds(sub, ts, js)| > 0 {
      var k :| 0 <= k < |js| && |sub(ts[js[k]])| > 0;
      var j := js[k];
      assert j in js;
      assert 0 <= j < |ts| && j != i && i - window <= j <= i + window && |sub(ts[j])| > 0;
    }
  }

  /** getSubwordIds with the model's settings fixed. */
  function Subwords(d: D.Dictionary, minn: int, maxn: int, bucket: int): string -> seq<int>
    requires CharNgram.ValidBucket(bucket)
  {
    w => SubwordIds(d, minn, maxn, bucket, w)
  }

  /**
   * One position of the CBOW loop: the context ids and the target's word
   * id when an update happens, None otherwise. In a consistent dictionary
   * an update happens exactly when the target is known and some other
   * token within the window has at least one id.
   */
  function CbowStep(d: D.Dictionary, minn: int, maxn: int, bucket: int, window: int, ts: seq<string>, i: nat): (r: Option<(seq<int>, int)>)
    requires CharNgram.ValidBucket(bucket) && i < |ts|
    ensures D.WordsValid(d) ==>
              (r.Some? <==> ts[i] in d.word2id && ContextHasIds(Subwords(d, minn, maxn, bucket), ts, i, window))
    ensures r.Some? ==> r.value.1 == D.GetWordId(d, ts[i]) && r.value.1 >= 0 && |r.value.0| > 0
  {
    ContextIdsNonEmpty(Subwords(d, minn, maxn, bucket), ts, i, window);
    var ids := ContextIds(Subwords(d, minn, maxn, bucket), ts, Context(|ts|, i, window));
    if |ids| == 0 then None
    else
      var target := D.GetWordId(d, ts[i]);
      if target >= 0 then Some((ids, target)) else None
  }
}

=== FILE: dictionary.dfy ===
/**
 * The dictionary of core/dictionary.h. One id space holds four kinds of
 * rows of the embedding table, placed by offsets:
 *   words        [0, #words)
 *   char n-grams [bucket_offset, bucket_offset + bucket_size)
 *   grammar      grammar_offset + the unit's vocabulary id
 *   phonetic     phonetic_offset + the order in which the unit was added
 * The offsets are plain fields set by loadGrammarUnits and finalize, so
 * whether the ranges are disjoint depends on the order of the calls.
 */
module Dictionaries {

  datatype Dictionary = Dictionary(
    word2id: map<string, int>,
    id2word: seq<string>,
    grammar2id: map<string, int>,
    grammarOffset: int,
    phonetic2id: map<string, int>,
    phoneticOffset: int,
    bucketSize: int,
    bucketOffset: int)

  /** A default-constructed dictionary: everything empty, every offset 0. */
  const Empty := Dictionary(map[], [], map[], 0, map[], 0, 0, 0)

  /** word2id and id2word are inverse to each other. */
  predicate WordsValid(d: Dictionary) {
    && (forall w :: w in d.word2id ==> 0 <= d.word2id[w] < |d.id2word| && d.id2word[d.word2id[w]] == w)
    && (forall i :: 0 <= i < |d.id2word| ==> d.id2word[i] in d.word2id && d.word2id[d.id2word[i]] == i)
  }

  /** Everything but the word tables is the same. */
  predicate SameButWords(a: Dictionary, b: Dictionary) {
    a.(word2id := b.word2id, id2word := b.id2word) == b
  }

  /** getWordId: the word's id, or -1. */
  function GetWordId(d: Dictionary, w: string): (id: int)
    ensures WordsValid(d) ==> (id == -1 <==> w !in d.word2id)
    ensures WordsValid(d) && id != -1 ==> 0 <= id < |d.id2word| && d.id2word[id] == w
  {
    if w in d.word2id then d.word2id[w] else -1
  }

  /**
   * addWord: a known word keeps its id and nothing changes; a new word
   * gets the next id, #words.
   */
  function AddWord(d: Dictionary, w: string): (r: (Dictionary, int))
    ensures WordsValid(d) ==> WordsValid(r.0) && GetWordId(r.0, w) == r.1
    ensures w in d.word2id ==> r.0 == d
    ensures w !in d.word2id ==> r.1 == |d.id2word| && r.0.id2word == d.id2word + [w]
    ensures forall v :: v != w ==> GetWordId(r.0, v) == GetWordId(d, v)
    ensures SameButWords(d, r.0)
  {
    if w in d.word2id then (d, d.word2id[w])
    else
      var id := |d.id2word|;
      (d.(word2id := d.word2id[w := id], id2word := d.id2word + [w]), id)
  }

  /** Dictionaries with the same word tables agree on every word. */
  lemma SameWords(a: Dictionary, b: Dictionary)
    requires a.word2id == b.word2id && a.id2word == b.id2word
    ensures WordsValid(a) ==> WordsValid(b)
    ensures forall w :: GetWordId(a, w) == GetWordId(b, w)
  {
  }

  /** Adding words one after another. */
  function AddWords(d: Dictionary, ws: seq<string>): Dictionary {
    if |ws| == 0 then d else AddWord(AddWords(d, ws[..|ws| - 1]), ws[|ws| - 1]).0
  }

  /** The words in order of first appearance: the reference for the id order. */
  function Dedup(ws: seq<string>): seq<string> {
    if |ws| == 0 then []
    else
      var init := Dedup(ws[..|ws| - 1]);
      if ws[|ws| - 1] in init then init else init + [ws[|ws| - 1]]
  }

  lemma {:induction false} DedupMembers(ws: seq<string>)
    ensures forall w :: w in Dedup(ws) <==> w in ws
  {
    if |ws| > 0 {
      DedupMembers(ws[..|ws| - 1]);
      assert ws == ws[..|ws| - 1] + [ws[|ws| - 1]];
    }
  }

  /** No word occurs twice. */
  predicate NoRepeats(ws: seq<string>) {
    forall i, j :: 0 <= i < j < |ws| ==> ws[i] != ws[j]
  }

  /** A list without repeats is its own order of first appearance. */
  lemma {:induction false} DedupNoRepeats(ws: seq<string>)
    requires NoRepeats(ws)
    ensures Dedup(ws) == ws
  {
    if |ws| > 0 {
      var init := ws[..|ws| - 1];
      DedupNoRepeats(init);
      DedupMembers(init);
      assert ws[|ws| - 1] !in init;
      assert init + [ws[|ws| - 1]] == ws;
    }
  }

  /** Adding words keeps the word tables inverse and touches nothing else. */
  lemma {:induction false} AddWordsValid(d: Dictionary, ws: seq<string>)
    requires WordsValid(d)
    ensures WordsValid(AddWords(d, ws)) && SameButWords(d, AddWords(d, ws))
  {
    if |ws| > 0 {
      AddWordsValid(d, ws[..|ws| - 1]);
    }
  }

  /** From an empty dictionary, id2word lists the words in order of first appearance. */
  lemma {:induction false} AddWordsOrder(ws: seq<string>)
    ensures AddWords(Empty, ws).id2word == Dedup(ws)
  {
    if |ws| > 0 {
      var init := ws[..|ws| - 1];
      AddWordsOrder(init);
      AddWordsValid(Empty, init);
      var d0 := AddWords(Empty, init);
      assert ws[|ws| - 1] in d0.word2id <==> ws[|ws| - 1] in d0.id2word;
    }
  }

  /** From an empty dictionary, getWordId is -1 exactly for the words never added. */
  lemma {:induction false} AddWordsKnown(ws: seq<string>, w: string)
    ensures GetWordId(AddWords(Empty, ws), w) == -1 <==> w !in ws
  {
    if |ws| > 0 {
      var init := ws[..|ws| - 1];
      AddWordsKnown(init, w);
      AddWordsValid(Empty, init);
      assert ws == init + [ws[|ws| - 1]];
    }
  }

  /**
   * From an empty dictionary, the words get ids 0, 1, 2, ... in order of
   * first appearance, and getWordId is -1 exactly for the words never added.
   */
  lemma AddWordsIds(ws: seq<string>)
    ensures var d := AddWords(Empty, ws);
            && WordsValid(d)
            && d.id2word == Dedup(ws)
            && (forall i :: 0 <= i < |d.id2word| ==> GetWordId(d, Dedup(ws)[i]) == i)
            && (forall w :: GetWordId(d, w) == -1 <==> w !in ws)
            && SameButWords(Empty, d)
  {
    AddWordsValid(Empty, ws);
    AddWordsOrder(ws);
    forall w
      ensures GetWordId(AddWords(Empty, ws), w) == -1 <==> w !in ws
    {
      AddWordsKnown(ws, w);
    }
  }

  /** addWord is idempotent: a second call returns the same id and changes nothing. */
  lemma AddWordTwice(d: Dictionary, w: string)
    requires WordsValid(d)
    ensures var (d1, id1) := AddWord(d, w);
            AddWord(d1, w) == (d1, id1)
  {
  }

  /**
   * getCharNgramId: the hashed bucket placed after the words. Once finalize
   * has placed the buckets, a hash in [0, bucket_size) lands in the bucket
   * range, above every word id.
   */
  function GetCharNgramId(d: Dictionary, hash: int): (r: int)
    ensures BucketsPlaced(d) && 0 <= hash < d.bucketSize ==>
              |d.id2word| <= r < |d.id2word| + d.bucketSize && forall w :: GetWordId(d, w) < r
  {
    d.bucketOffset + hash
  }

  /**
   * loadGrammarUnits: grammar_offset becomes #words + bucket_size as they
   * are now, and each unit's id is that offset plus its vocabulary id;
   * units already present are overwritten.
   */
  function LoadGrammarUnits(d: Dictionary, vocab: map<string, int>): (r: Dictionary)
    ensures r.grammarOffset == |d.id2word| + d.bucketSize
    ensures r.grammar2id.Keys == d.grammar2id.Keys + vocab.Keys
    ensures forall k :: k in vocab ==> r.grammar2id[k] == r.grammarOffset + vocab[k]
    ensures forall k :: k in d.grammar2id && k !in vocab ==> r.grammar2id[k] == d.grammar2id[k]
    ensures r.(grammar2id := d.grammar2id, grammarOffset := d.grammarOffset) == d
  {
    var off := |d.id2word| + d.bucketSize;
    d.(grammarOffset := off, grammar2id := d.grammar2id + map k | k in vocab :: off + vocab[k])
  }

  /**
   * getGrammarId: the unit's id, or -1. When the ranges are laid out, -1
   * means exactly that the unit is unknown, and a known unit's id lies
   * between the n-gram buckets and the phonetic units.
   */
  function GetGrammarId(d: Dictionary, s: string): (r: int)
    ensures IdSpacesDisjoint(d) ==> (r == -1 <==> s !in d.grammar2id)
    ensures IdSpacesDisjoint(d) && r != -1 ==> d.bucketOffset + d.bucketSize <= r < d.phoneticOffset
  {
    if s in d.grammar2id then d.grammar2id[s] else -1
  }

  /**
   * addPhonetic: a known unit keeps its id; a new one gets
   * phonetic_offset + the number of units so far.
   */
  function AddPhonetic(d: Dictionary, p: string): (r: (Dictionary, int))
    ensures GetPhoneticId(r.0, p) == r.1
    ensures p in d.phonetic2id ==> r.0 == d
    ensures p !in d.phonetic2id ==> r.1 == d.phoneticOffset + |d.phonetic2id| && TotalSize(r.0) == TotalSize(d) + 1
    ensures forall q :: q != p ==> GetPhoneticId(r.0, q) == GetPhoneticId(d, q)
    ensures r.0.(phonetic2id := d.phonetic2id) == d
  {
    if p in d.phonetic2id then (d, d.phonetic2id[p])
    else
      var id := d.phoneticOffset + |d.phonetic2id|;
      assert p !in d.phonetic2id.Keys;
      (d.(phonetic2id := d.phonetic2id[p := id]), id)
  }

  /**
   * getPhoneticId: the unit's id, or -1. When the ranges are laid out from
   * a non-negative phonetic offset, -1 means exactly that the unit is
   * unknown, and a known unit's id lies below totalSize.
   */
  function GetPhoneticId(d: Dictionary, p: string): (r: int)
    ensures IdSpacesDisjoint(d) && d.phoneticOffset >= 0 ==> (r == -1 <==> p !in d.phonetic2id)
    ensures IdSpacesDisjoint(d) && p in d.phonetic2id ==> d.phoneticOffset <= r < TotalSize(d)
  {
    if p in d.phonetic2id then d.phonetic2id[p] else -1
  }

  /** addPhonetic is idempotent. */
  lemma AddPhoneticTwice(d: Dictionary, p: string)
    ensures var (d1, id1) := AddPhonetic(d, p);
            AddPhonetic(d1, p) == (d1, id1)
  {
  }

  function AddPhonetics(d: Dictionary, ps: seq<string>): (r: Dictionary)
    ensures r.(phonetic2id := d.phonetic2id) == d
  {
    if |ps| == 0 then d else AddPhonetic(AddPhonetics(d, ps[..|ps| - 1]), ps[|ps| - 1]).0
  }

  /**
   * finalize: the n-gram buckets go right after the words, and the
   * phonetic units after the buckets and the grammar units loaded so far.
   */
  function Finalize(d: Dictionary, bucketSize: int): (r: Dictionary)
    ensures r.bucketOffset == |d.id2word|
    ensures r.phoneticOffset == |d.id2word| + bucketSize + |d.grammar2id|
    ensures r.(bucketSize := d.bucketSize, bucketOffset := d.bucketOffset, phoneticOffset := d.phoneticOffset) == d
  {
    var off := |d.id2word|;
    d.(bucketSize := bucketSize, bucketOffset := off, phoneticOffset := off + bucketSize + |d.grammar2id|)
  }

  /**
   * totalSize: the number of rows the id space needs. With the buckets
   * right after the words and the phonetic units right after the grammar
   * units, that is one row per word, bucket, grammar unit and phonetic unit.
   */
  function TotalSize(d: Dictionary): (r: int)
    ensures d.bucketOffset == |d.id2word| && d.phoneticOffset == d.bucketOffset + d.bucketSize + |d.grammar2id| ==>
              r == |d.id2word| + d.bucketSize + |d.grammar2id| + |d.phonetic2id|
  {
    d.phoneticOffset + |d.phonetic2id|
  }

  /** After finalize(b), the total is #words + b + #grammar + #phonetic. */
  lemma FinalizeTotal(d: Dictionary, b: int)
    ensures TotalSize(Finalize(d, b)) == |d.id2word| + b + |d.grammar2id| + |d.phonetic2id|
  {
  }

  /**
   * After finalize(b), a hash in [0, b) lands in [#words, #words + b),
   * above every word id.
   */
  lemma NgramIdsAfterWords(d: Dictionary, b: int, h: int, w: string)
    requires WordsValid(d) && 0 <= h < b
    ensures var f := Finalize(d, b);
            |d.id2word| <= GetCharNgramId(f, h) < |d.id2word| + b
            && GetWordId(f, w) < GetCharNgramId(f, h)
  {
  }

  /**
   * Finalizing before loading puts every grammar id at or above
   * #words + b, so above every word and n-gram id.
   */
  lemma GrammarAfterFinalize(d: Dictionary, b: int, vocab: map<string, int>, s: string)
    requires WordsValid(d) && s in vocab && vocab[s] >= 0
    ensures var g := LoadGrammarUnits(Finalize(d, b), vocab);
            GetGrammarId(g, s) == |d.id2word| + b + vocab[s]
            && GetGrammarId(g, s) >= |d.id2word| + b
  {
  }

  /** finalize has put the n-gram buckets right after the words, with a positive 32-bit bucket count. */
  predicate BucketsPlaced(d: Dictionary) {
    WordsValid(d) && d.bucketOffset == |d.id2word| && 0 < d.bucketSize < 0x8000_0000
  }

  /** The four id ranges are laid out one after another. */
  predicate IdSpacesDisjoint(d: Dictionary) {
    && WordsValid(d)
    && d.bucketOffset == |d.id2word| && d.bucketSize >= 0
    && (forall g :: g in d.grammar2id ==> d.bucketOffset + d.bucketSize <= d.grammar2id[g] < d.phoneticOffset)
    && (forall p :: p in d.phonetic2id ==> d.phoneticOffset <= d.phonetic2id[p] < TotalSize(d))
  }

  /** In such a dictionary no two kinds of unit share a row. */
  lemma DisjointIds(d: Dictionary, w: string, h: int, g: string, p: string)
    requires IdSpacesDisjoint(d) && w in d.word2id && 0 <= h < d.bucketSize
    requires g in d.grammar2id && p in d.phonetic2id
    ensures var wid, nid, gid, pid := GetWordId(d, w), GetCharNgramId(d, h), GetGrammarId(d, g), GetPhoneticId(d, p);
            wid < nid < gid < pid < TotalSize(d)
  {
  }

  /** Adding phonetic units keeps the ranges apart. */
  lemma AddPhoneticDisjoint(d: Dictionary, p: string)
    requires IdSpacesDisjoint(d)
    ensures IdSpacesDisjoint(AddPhonetic(d, p).0)
  {
  }

  lemma {:induction false} AddPhoneticsDisjoint(d: Dictionary, ps: seq<string>)
    requires IdSpacesDisjoint(d)
    ensures IdSpacesDisjoint(AddPhonetics(d, ps))
  {
    if |ps| > 0 {
      AddPhoneticsDisjoint(d, ps[..|ps| - 1]);
      AddPhoneticDisjoint(AddPhonetics(d, ps[..|ps| - 1]), ps[|ps| - 1]);
    }
  }

  /** Vocabulary ids as the grammar inducer hands them out: 0 .. |vocab| - 1. */
  predicate DenseVocab(vocab: map<string, int>) {
    forall k :: k in vocab ==> 0 <= vocab[k] < |vocab|
  }

  /**
   * The order that keeps the id spaces apart: finalize so that
   * bucket_size is known, load the grammar units, then finalize again so
   * that phonetic_offset counts them.
   */
  function Freeze(d: Dictionary, bucketSize: int, vocab: map<string, int>): Dictionary {
    Finalize(LoadGrammarUnits(Finalize(d, bucketSize), vocab), bucketSize)
  }

  /**
   * Words first, then Freeze, then phonetic units: every word, n-gram,
   * grammar and phonetic id lies in its own range.
   */
  lemma FreezeDisjoint(ws: seq<string>, b: int, vocab: map<string, int>, ps: seq<string>)
    requires b >= 0 && DenseVocab(vocab)
    ensures IdSpacesDisjoint(AddPhonetics(Freeze(AddWords(Empty, ws), b, vocab), ps))
  {
    AddWordsIds(ws);
    var d := Freeze(AddWords(Empty, ws), b, vocab);
    assert d.grammar2id.Keys == vocab.Keys;
    assert |d.grammar2id| == |vocab|;
    AddPhoneticsDisjoint(d, ps);
  }

  /**
   * The order of tiny_model.cpp: grammar units loaded before finalize, when
   * bucket_size is still 0, so grammar ids start at #words and share rows
   * with the n-gram buckets.
   */
  function GrammarFirst(d: Dictionary, bucketSize: int, vocab: map<string, int>): Dictionary {
    Finalize(LoadGrammarUnits(d, vocab), bucketSize)
  }

  /** One word, one grammar unit with id 0, ten buckets: "ab" and bucket 0 get the same row. */
  lemma GrammarFirstCollides()
    ensures var d := GrammarFirst(AddWords(Empty, ["a"]), 10, map["ab" := 0]);
            GetGrammarId(d, "ab") == GetCharNgramId(d, 0) == 1
            && !IdSpacesDisjoint(d)
  {
    OneWord();
    var d0 := AddWords(Empty, ["a"]);
    var d1 := LoadGrammarUnits(d0, map["ab" := 0]);
    assert d1.grammar2id["ab"] == 1;
    var d := Finalize(d1, 10);
    assert d.grammar2id == d1.grammar2id && d.bucketOffset == 1;
  }

  /** The dictionary holding just the word "a". */
  lemma OneWord()
    ensures var d := AddWords(Empty, ["a"]);
            d == Empty.(word2id := map["a" := 0], id2word := ["a"])
  {
    assert ["a"][..0] == [];
  }

  /** One unit added to a dictionary with no phonetic units. */
  lemma OnePhonetic(d: Dictionary, p: string)
    requires d.phonetic2id == map[]
    ensures AddPhonetics(d, [p]) == d.(phonetic2id := map[p := d.phoneticOffset])
  {
    assert [p][..0] == [];
  }

  /**
   * The order of python_bindings.cpp: phonetic units added before finalize,
   * while phonetic_offset is 0, so the first one shares row 0 with the first word.
   */
  function PhoneticFirst(d: Dictionary, ps: seq<string>, bucketSize: int): Dictionary {
    Finalize(AddPhonetics(d, ps), bucketSize)
  }

  lemma PhoneticFirstCollides()
    ensures var d := PhoneticFirst(AddWords(Empty, ["a"]), ["A"], 10);
            GetPhoneticId(d, "A") == GetWordId(d, "a") == 0
            && !IdSpacesDisjoint(d)
  {
    OneWord();
    var d0 := AddWords(Empty, ["a"]);
    OnePhonetic(d0, "A");
    var d1 := AddPhonetics(d0, ["A"]);
    assert d1.phonetic2id == map["A" := 0] && d1.word2id == map["a" := 0];
    var d := Finalize(d1, 10);
    assert d.phonetic2id["A"] == 0 && d.phoneticOffset == 11;
  }

  /**
   * The order of the dictionary unit test: finalize, then load. Grammar ids
   * are placed correctly, but phonetic_offset was fixed before the grammar
   * units arrived, so the first phonetic unit shares a row with grammar id 0.
   */
  function FinalizeThenLoad(d: Dictionary, bucketSize: int, vocab: map<string, int>): Dictionary {
    LoadGrammarUnits(Finalize(d, bucketSize), vocab)
  }

  lemma FinalizeThenLoadCollides()
    ensures var d := AddPhonetics(FinalizeThenLoad(AddWords(Empty, ["a"]), 10, map["ab" := 0]), ["A"]);
            GetPhoneticId(d, "A") == GetGrammarId(d, "ab") == 11
            && !IdSpacesDisjoint(d)
  {
    OneWord();
    var d0 := AddWords(Empty, ["a"]);
    var d1 := FinalizeThenLoad(d0, 10, map["ab" := 0]);
    assert d1.phonetic2id == map[] && d1.phoneticOffset == 11 && d1.grammar2id["ab"] == 11;
    OnePhonetic(d1, "A");
    var d := AddPhonetics(d1, ["A"]);
    assert d.phonetic2id["A"] == 11 && d.grammar2id == d1.grammar2id;
  }
}

=== FILE: embedding_table.dfy ===
/**
 * The hashed-bucket embedding table (revisit/core/embedding/embedding_table.cc):
 * bucket_count rows of dim floats, stored row-major in one block. The
 * random number generator is a parameter: the constructor's draws arrive
 * as a sequence of fractions in [0, 1), one per entry in storage order,
 * and the square root of 1/dim arrives as `bound`.
 */
module EmbeddingTables {
  import opened Vectors

  const FloatBytes: nat := 4

  datatype Table = Table(bucketCount: nat, dim: nat, data: seq<real>)

  predicate Valid(t: Table) {
    |t.data| == t.bucketCount * t.dim
  }

  /** uniform_real_distribution(lo, hi) applied to a fraction u in [0, 1). */
  function Uniform(lo: real, hi: real, u: real): real {
    lo + (hi - lo) * u
  }

  lemma UniformWithin(bound: real, u: real)
    requires bound >= 0.0 && 0.0 <= u < 1.0
    ensures -bound <= Uniform(-bound, bound, u) <= bound
  {
    assert 0.0 <= (2.0 * bound) * u <= 2.0 * bound by {
      ScaleBelowOne(2.0 * bound, u);
    }
  }

  lemma ScaleBelowOne(x: real, u: real)
    requires x >= 0.0 && 0.0 <= u < 1.0
    ensures 0.0 <= x * u <= x
  {
    assert x * u <= x * 1.0;
  }

  /**
   * The constructor: entry k (row k / dim, column k % dim) is the k-th draw
   * scaled into [-bound, bound).
   */
  function Init(bucketCount: nat, dim: nat, bound: real, draws: seq<real>): (t: Table)
    requires |draws| == bucketCount * dim
    ensures Valid(t) && t.bucketCount == bucketCount && t.dim == dim
  {
    Table(bucketCount, dim, seq(bucketCount * dim, k requires 0 <= k < bucketCount * dim => Uniform(-bound, bound, draws[k])))
  }

  /** Every initial value lies in [-sqrt(1/dim), sqrt(1/dim)]. */
  lemma InitBounds(bucketCount: nat, dim: nat, bound: real, draws: seq<real>)
    requires |draws| == bucketCount * dim && bound >= 0.0
    requires forall k :: 0 <= k < |draws| ==> 0.0 <= draws[k] < 1.0
    ensures forall k :: 0 <= k < bucketCount * dim ==> -bound <= Init(bucketCount, dim, bound, draws).data[k] <= bound
  {
    forall k | 0 <= k < bucketCount * dim
      ensures -bound <= Init(bucketCount, dim, bound, draws).data[k] <= bound
    {
      UniformWithin(bound, draws[k]);
    }
  }

  /** row(b) points at offset b * dim. */
  function RowOffset(t: Table, bucket: int): (off: nat)
    requires Valid(t) && 0 <= bucket < t.bucketCount
    ensures off + t.dim <= |t.data|
  {
    RowFits(bucket, t.bucketCount, t.dim);
    bucket * t.dim
  }

  /** The dim floats of row b. */
  function Row(t: Table, bucket: int): (r: Vec)
    requires Valid(t) && 0 <= bucket < t.bucketCount
    ensures |r| == t.dim
    ensures forall j :: 0 <= j < t.dim ==> r[j] == t.data[RowOffset(t, bucket) + j]
  {
    RowFits(bucket, t.bucketCount, t.dim);
    Block(t.data, t.dim, bucket)
  }

  /** Adjacent rows start dim floats apart. */
  lemma AdjacentRows(t: Table, bucket: nat)
    requires Valid(t) && bucket + 1 < t.bucketCount
    ensures RowOffset(t, bucket + 1) == RowOffset(t, bucket) + t.dim
  {
  }

  /** Distinct rows occupy disjoint stretches of the block. */
  lemma RowsDisjoint(t: Table, a: int, b: int)
    requires Valid(t) && 0 <= a < b < t.bucketCount
    ensures RowOffset(t, a) + t.dim <= RowOffset(t, b)
  {
    RowsApart(a, b, t.dim);
  }

  /** memory_bytes: bucket_count * dim * sizeof(float). */
  function MemoryBytes(t: Table): nat {
    t.bucketCount * t.dim * FloatBytes
  }

  /** The reported size is the size of the stored block. */
  lemma MemoryBytesIsBlock(t: Table)
    requires Valid(t)
    ensures MemoryBytes(t) == FloatBytes * |t.data|
  {
  }

  /** The accessors report the constructor's arguments. */
  lemma InitAccessors(bucketCount: nat, dim: nat, bound: real, draws: seq<real>)
    requires |draws| == bucketCount * dim
    ensures Init(bucketCount, dim, bound, draws).bucketCount == bucketCount
    ensures Init(bucketCount, dim, bound, draws).dim == dim
    ensures MemoryBytes(Init(bucketCount, dim, bound, draws)) == bucketCount * dim * 4
  {
  }

  /** A 1000 x 50 table occupies 200000 bytes; its rows 0 and 1 are 10 apart at dim 10. */
  lemma TableExamples(bound: real, draws: seq<real>, draws2: seq<real>)
    requires |draws| == 1000 * 50 && |draws2| == 100 * 10
    ensures MemoryBytes(Init(1000, 50, bound, draws)) == 200000
    ensures RowOffset(Init(100, 10, bound, draws2), 1) - RowOffset(Init(100, 10, bound, draws2), 0) == 10
  {
  }
}

=== FILE: encoder_config.dfy ===
/**
 * core/config/model_config.h and .cc: the ModelConfig struct of the word
 * encoder, its default field values, validate(), which throws
 * std::invalid_argument for the first check that fails, and operator==,
 * which compares fourteen of the seventeen fields.
 */
module EncoderConfig {
  import opened Common
  import opened Floats

  datatype ProjectionMode = Dense | LowRank | SparseProjection | Hybrid
  datatype PrecisionMode = Fp32 | Fp16

  /** The values a uint64_t holds. */
  type U64 = x: int | 0 <= x < 0x1_0000_0000_0000_0000

  datatype ModelConfig = ModelConfig(
    bucketCount: int,
    embeddingDim: int,
    ngramMin: int,
    ngramMax: int,
    usePhonetic: bool,
    phoneticGamma: Float,
    numHeads: int,
    useProjection: bool,
    useResidual: bool,
    epochs: int,
    batchSize: int,
    learningRateAdam: Float,
    learningRateSgd: Float,
    weightDecay: Float,
    projectionMode: ProjectionMode,
    precisionMode: PrecisionMode,
    seed: U64)

  /** The default member initialisers. */
  const Default := ModelConfig(
    200000, 256, 3, 6, true, Num(0.2), 4, true, true,
    10, 64, Num(0.001), Num(0.01), Num(0.0001), Dense, Fp32, 42)

  /** validate(): Ok when it returns normally, else the exception it throws first. */
  function Validate(c: ModelConfig): (r: Result<()>)
    ensures r.Ok? <==> c.bucketCount > 0 && c.embeddingDim > 0 && 0 < c.ngramMin <= c.ngramMax
                       && c.numHeads > 0 && !Less(c.phoneticGamma, Num(0.0))
    ensures r.Err? ==> r.error.InvalidArgument?
    ensures c.bucketCount <= 0 ==> r == Err(InvalidArgument("bucket_count must be >0"))
  {
    if c.bucketCount <= 0 then Err(InvalidArgument("bucket_count must be >0"))
    else if c.embeddingDim <= 0 then Err(InvalidArgument("embedding_dim must be > 0"))
    else if c.ngramMin <= 0 || c.ngramMax < c.ngramMin then Err(InvalidArgument("Invalid ngram range"))
    else if c.numHeads <= 0 then Err(InvalidArgument("num_heads must be > 0"))
    else if Less(c.phoneticGamma, Num(0.0)) then Err(InvalidArgument("phonetic_gamma must be >= 0"))
    else Ok(())
  }

  /** operator==: fourteen fields, the floats compared as floats. */
  predicate Equal(a: ModelConfig, b: ModelConfig) {
    && a.bucketCount == b.bucketCount
    && a.embeddingDim == b.embeddingDim
    && a.ngramMin == b.ngramMin
    && a.ngramMax == b.ngramMax
    && Same(a.phoneticGamma, b.phoneticGamma)
    && a.numHeads == b.numHeads
    && a.useProjection == b.useProjection
    && a.useResidual == b.useResidual
    && a.epochs == b.epochs
    && a.batchSize == b.batchSize
    && Same(a.learningRateAdam, b.learningRateAdam)
    && Same(a.learningRateSgd, b.learningRateSgd)
    && Same(a.weightDecay, b.weightDecay)
    && a.seed == b.seed
  }

  /** No compared float is NaN. */
  predicate NoNaN(c: ModelConfig) {
    c.phoneticGamma.Num? && c.learningRateAdam.Num? && c.learningRateSgd.Num? && c.weightDecay.Num?
  }

  /** operator== is symmetric; it is reflexive exactly on configs without a NaN in a compared float. */
  lemma EqualLaws(a: ModelConfig, b: ModelConfig)
    ensures Equal(a, b) == Equal(b, a)
    ensures Equal(a, a) <==> NoNaN(a)
  {
    SameLaws(a.phoneticGamma, b.phoneticGamma);
    SameLaws(a.learningRateAdam, b.learningRateAdam);
    SameLaws(a.learningRateSgd, b.learningRateSgd);
    SameLaws(a.weightDecay, b.weightDecay);
  }

  /** operator== is transitive. */
  lemma EqualTransitive(a: ModelConfig, b: ModelConfig, c: ModelConfig)
    requires Equal(a, b) && Equal(b, c)
    ensures Equal(a, c)
  {
  }

  /** use_phonetic, projection_mode and precision_mode are not compared. */
  lemma EqualIgnores(a: ModelConfig, phonetic: bool, projection: ProjectionMode, precision: PrecisionMode)
    requires NoNaN(a)
    ensures Equal(a, a.(usePhonetic := phonetic, projectionMode := projection, precisionMode := precision))
  {
  }

  /** Equal configs agree on validate: every field it checks is compared. */
  lemma EqualValidate(a: ModelConfig, b: ModelConfig)
    requires Equal(a, b)
    ensures Validate(a) == Validate(b)
  {
  }

  /** The documented defaults; two default configs compare equal and the default validates. */
  lemma Defaults()
    ensures Default.bucketCount == 200000 && Default.embeddingDim == 256
    ensures Default.ngramMin == 3 && Default.ngramMax == 6 && Default.phoneticGamma == Num(0.2)
    ensures Default.numHeads == 4 && Default.seed == 42
    ensures Equal(Default, Default)
    ensures Validate(Default) == Ok(())
  {
  }
}

=== FILE: floats.dfy ===
/**
 * A C++ float as the configuration code sees it: a number or NaN. Every
 * ordered comparison with NaN is false and NaN == NaN is false, so a
 * range check written as "reject when x < lo" lets NaN through.
 * Infinities and the rounding of float literals are not modelled.
 */
module Floats {

  datatype Float = Num(v: real) | NaN

  /** a < b */
  predicate Less(a: Float, b: Float) {
    a.Num? && b.Num? && a.v < b.v
  }

  /** a <= b */
  predicate AtMost(a: Float, b: Float) {
    a.Num? && b.Num? && a.v <= b.v
  }

  /** a == b with IEEE semantics. */
  predicate Same(a: Float, b: Float) {
    a.Num? && b.Num? && a.v == b.v
  }

  /** Comparison is symmetric, and reflexive exactly on numbers. */
  lemma SameLaws(a: Float, b: Float)
    ensures Same(a, b) == Same(b, a)
    ensures Same(a, a) <==> a.Num?
  {
  }
}

=== FILE: global_config.dfy ===
/**
 * core/config.h: the global Config struct, its default field values and
 * validate(), which checks seven of the fields and ignores the rest.
 */
module GlobalConfig {
  import opened Floats

  datatype Config = Config(
    dim: int,
    charNgramMin: int,
    charNgramMax: int,
    bucketSize: int,
    learningRate: Float,
    epochs: int,
    negativeSamples: int,
    contextWindow: int,
    minWordCount: int,
    useCharNgrams: bool,
    useGrammarUnits: bool,
    usePhonetic: bool,
    useVectorAttention: bool,
    useSentenceEncoder: bool,
    useSparseMatrices: bool,
    useQuantization: bool,
    pruningThreshold: Float,
    l2Lambda: Float,
    dropoutRate: Float,
    gradientClip: Float,
    normalizeEmbeddings: bool,
    useXavierInit: bool,
    useHeInit: bool,
    randomSeed: int)

  /** The default member initialisers. */
  const Default := Config(
    100, 3, 6, 2000000, Num(0.05), 10, 5, 5, 5,
    true, true, true, true, false, false, false, Num(0.0001),
    Num(0.0), Num(0.0), Num(5.0), false, false, false, 42)

  /** validate(): the checks in source order, the first failing one returns false. */
  function Validate(c: Config): (ok: bool)
    ensures ok ==> 1 <= c.dim <= 1000 && 1 <= c.charNgramMin <= c.charNgramMax <= 10 && c.epochs >= 1
    ensures ok && c.learningRate.Num? ==> 0.0 < c.learningRate.v <= 1.0
    ensures ok && c.l2Lambda.Num? ==> c.l2Lambda.v >= 0.0
    ensures ok && c.dropoutRate.Num? ==> 0.0 <= c.dropoutRate.v < 1.0
  {
    if c.dim <= 0 || c.dim > 1000 then false
    else if c.charNgramMin < 1 || c.charNgramMax > 10 then false
    else if c.charNgramMin > c.charNgramMax then false
    else if AtMost(c.learningRate, Num(0.0)) || Less(Num(1.0), c.learningRate) then false
    else if c.epochs <= 0 then false
    else if Less(c.l2Lambda, Num(0.0)) then false
    else if Less(c.dropoutRate, Num(0.0)) || AtMost(Num(1.0), c.dropoutRate) then false
    else true
  }

  /** The ranges validate accepts, for a config whose three checked floats are numbers. */
  predicate InRanges(c: Config)
    requires c.learningRate.Num? && c.l2Lambda.Num? && c.dropoutRate.Num?
  {
    && 1 <= c.dim <= 1000
    && 1 <= c.charNgramMin <= c.charNgramMax <= 10
    && 0.0 < c.learningRate.v <= 1.0
    && c.epochs >= 1
    && c.l2Lambda.v >= 0.0
    && 0.0 <= c.dropoutRate.v < 1.0
  }

  /** With numeric floats, validate holds exactly on the documented ranges. */
  lemma ValidateExact(c: Config)
    requires c.learningRate.Num? && c.l2Lambda.Num? && c.dropoutRate.Num?
    ensures Validate(c) <==> InRanges(c)
  {
  }

  /** A NaN learning rate, L2 strength or dropout rate fails none of the checks. */
  lemma NaNPasses(c: Config)
    requires Validate(c)
    ensures Validate(c.(learningRate := NaN))
    ensures Validate(c.(l2Lambda := NaN))
    ensures Validate(c.(dropoutRate := NaN))
  {
  }

  /** validate reads only dim, the n-gram range, the learning rate, epochs, l2_lambda and dropout_rate. */
  lemma ValidateReads(a: Config, b: Config)
    requires a.dim == b.dim && a.charNgramMin == b.charNgramMin && a.charNgramMax == b.charNgramMax
    requires a.learningRate == b.learningRate && a.epochs == b.epochs
    requires a.l2Lambda == b.l2Lambda && a.dropoutRate == b.dropoutRate
    ensures Validate(a) == Validate(b)
  {
  }

  /** A default-constructed Config validates. */
  lemma DefaultValid()
    ensures Validate(Default)
  {
  }
}

=== FILE: grammar_units.dfy ===
/**
 * Grammar-unit induction: a character trie counts how often each observed
 * substring occurs, and finalize hands out consecutive ids to the nodes
 * whose count reaches the minimum frequency. The trie is modelled as a map
 * from a node's path to its (freq, id); the root is the empty path.
 */
module GrammarUnits {
  import opened Spans

  /** A trie node: how often its path was added, and its id (-1 until collected). */
  datatype Node = Node(freq: int, id: int)

  type Trie = map<string, Node>

  /** A trie that only holds the root. */
  const EmptyTrie: Trie := map["" := Node(0, -1)]

  function Prefixes(s: string): set<string> {
    set i | 0 <= i <= |s| :: s[..i]
  }

  /** Every node's parent path is present too. */
  predicate PrefixClosed(t: Trie) {
    forall k, i :: k in t && 0 <= i <= |k| ==> k[..i] in t
  }

  function Freq(t: Trie, k: string): int {
    if k in t then t[k].freq else 0
  }

  /**
   * GrammarTrie::addSubstring: the path's missing nodes are created with
   * count 0 and id -1, and the count of the node for the whole string goes
   * up by one.
   */
  function AddSubstring(t: Trie, s: string): (r: Trie)
    ensures r.Keys == t.Keys + Prefixes(s) && s in r
    ensures r[s].freq == Freq(t, s) + 1
    ensures forall k :: k in r && k != s ==> r[k].freq == Freq(t, k)
    ensures forall k :: k in t ==> r[k].id == t[k].id
    ensures forall k :: k in r && k !in t ==> r[k].id == -1
  {
    var grown := t + map p | p in Prefixes(s) && p !in t :: Node(0, -1);
    assert s == s[..|s|];
    grown[s := grown[s].(freq := grown[s].freq + 1)]
  }

  lemma AddSubstringClosed(t: Trie, s: string)
    requires PrefixClosed(t)
    ensures PrefixClosed(AddSubstring(t, s))
  {
    var r := AddSubstring(t, s);
    forall k, i | k in r && 0 <= i <= |k|
      ensures k[..i] in r
    {
      if k !in t {
        var j :| 0 <= j <= |s| && k == s[..j];
        assert k[..i] == s[..i];
      }
    }
  }

  /** Adding a list of substrings in order. */
  function AddAll(t: Trie, subs: seq<string>): Trie {
    if |subs| == 0 then t else AddSubstring(AddAll(t, subs[..|subs| - 1]), subs[|subs| - 1])
  }

  /** Each count grows by the number of times its path was added; nothing else changes count. */
  lemma {:induction false} AddAllCounts(t: Trie, subs: seq<string>, k: string)
    ensures Freq(AddAll(t, subs), k) == Freq(t, k) + multiset(subs)[k]
    ensures k in t ==> k in AddAll(t, subs) && AddAll(t, subs)[k].id == t[k].id
    ensures k in AddAll(t, subs) && k !in t ==> AddAll(t, subs)[k].id == -1
  {
    if |subs| > 0 {
      var init := subs[..|subs| - 1];
      AddAllCounts(t, init, k);
      assert subs == init + [subs[|subs| - 1]];
      assert multiset(subs) == multiset(init) + multiset{subs[|subs| - 1]};
    }
  }

  lemma {:induction false} AddAllClosed(t: Trie, subs: seq<string>)
    requires PrefixClosed(t) && "" in t
    ensures PrefixClosed(AddAll(t, subs)) && "" in AddAll(t, subs)
  {
    if |subs| > 0 {
      AddAllClosed(t, subs[..|subs| - 1]);
      AddSubstringClosed(AddAll(t, subs[..|subs| - 1]), subs[|subs| - 1]);
    }
  }

  /** The inducer's settings. */
  datatype Inducer = Inducer(minLen: int, maxLen: int, minFreq: int, trie: Trie)

  function NewInducer(minLen: int, maxLen: int, minFreq: int): Inducer {
    Inducer(minLen, maxLen, minFreq, EmptyTrie)
  }

  /** The substrings observe adds for a word: word[i..i+l) for minLen <= l <= maxLen, by i then l. */
  function Observed(word: string, minLen: nat, maxLen: int): seq<string> {
    Pieces(word, AllWindows(|word|, minLen, maxLen))
  }

  /** GrammarUnitInducer::observe. */
  function Observe(g: Inducer, word: string): (r: Inducer)
    requires g.minLen >= 0
    ensures r.minLen == g.minLen && r.maxLen == g.maxLen && r.minFreq == g.minFreq
  {
    g.(trie := AddAll(g.trie, Observed(word, g.minLen, g.maxLen)))
  }

  /** Every observed substring has a length in [minLen, maxLen] and occurs in the word. */
  lemma ObservedShape(word: string, minLen: nat, maxLen: int, k: nat)
    requires k < |Observed(word, minLen, maxLen)|
    ensures var s := AllWindows(|word|, minLen, maxLen)[k];
            minLen <= s.len <= maxLen && s.start + s.len <= |word|
            && Observed(word, minLen, maxLen)[k] == word[s.start..s.start + s.len]
  {
    var all := AllWindows(|word|, minLen, maxLen);
    AllWindowsExact(|word|, minLen, maxLen, all[k]);
    PiecesAt(word, all, k);
    var s := all[k];
    assert word[s.start..s.start + s.len] == Observed(word, minLen, maxLen)[k];
  }

  /**
   * observe raises the count of each substring of an allowed length by the
   * number of its occurrences and leaves every other count and every id as
   * it was.
   */
  lemma ObserveCounts(g: Inducer, word: string, k: string)
    requires g.minLen >= 0
    ensures Freq(Observe(g, word).trie, k) == Freq(g.trie, k) + multiset(Observed(word, g.minLen, g.maxLen))[k]
    ensures k in g.trie ==> k in Observe(g, word).trie && Observe(g, word).trie[k].id == g.trie[k].id
    ensures multiset(Observed(word, g.minLen, g.maxLen))[k] > 0 ==> g.minLen <= |k| <= g.maxLen
  {
    AddAllCounts(g.trie, Observed(word, g.minLen, g.maxLen), k);
    ObservedLength(word, g.minLen, g.maxLen, k);
  }

  /** Only substrings of an allowed length are observed. */
  lemma ObservedLength(word: string, minLen: nat, maxLen: int, k: string)
    ensures multiset(Observed(word, minLen, maxLen))[k] > 0 ==> minLen <= |k| <= maxLen
  {
    var obs := Observed(word, minLen, maxLen);
    if multiset(obs)[k] > 0 {
      var j :| 0 <= j < |obs| && obs[j] == k;
      ObservedShape(word, minLen, maxLen, j);
    }
  }

  /** The nodes dfs assigns an id to: a non-root path, frequent enough, with no id yet. */
  predicate Eligible(t: Trie, minFreq: int, k: string) {
    k in t && k != "" && t[k].freq >= minFreq && t[k].id == -1
  }

  function EligibleIn(t: Trie, minFreq: int, keys: set<string>): set<string> {
    set k | k in keys && Eligible(t, minFreq, k)
  }

  predicate Distinct(order: seq<string>) {
    forall i, j :: 0 <= i < j < |order| ==> order[i] != order[j]
  }

  datatype Collected = Collected(trie: Trie, vocab: map<string, int>, nextId: int)

  /**
   * GrammarTrie::dfs over the nodes in visiting order. The order of the
   * children comes from an unordered_map, so it is a parameter: any order
   * that lists each node once.
   */
  function Dfs(t: Trie, minFreq: int, order: seq<string>, nextId: int, vocab: map<string, int>): Collected {
    if |order| == 0 then Collected(t, vocab, nextId)
    else
      var k := order[0];
      if Eligible(t, minFreq, k) then
        Dfs(t[k := t[k].(id := nextId)], minFreq, order[1..], nextId + 1, vocab[k := nextId])
      else Dfs(t, minFreq, order[1..], nextId, vocab)
  }

  lemma EligibleOutside(t: Trie, minFreq: int, keys: set<string>, k: string, n: Node)
    requires k !in keys && k in t
    ensures EligibleIn(t[k := n], minFreq, keys) == EligibleIn(t, minFreq, keys)
  {
  }

  function Visited(order: seq<string>): set<string> {
    set k | k in order
  }

  /** Splitting off the first visited node. */
  lemma VisitedSplit(order: seq<string>)
    requires |order| > 0 && Distinct(order)
    ensures Visited(order) == {order[0]} + Visited(order[1..])
    ensures order[0] !in Visited(order[1..]) && Distinct(order[1..])
  {
    forall x | x in Visited(order)
      ensures x == order[0] || x in Visited(order[1..])
    {
      var i :| 0 <= i < |order| && order[i] == x;
      if i > 0 {
        assert order[1..][i - 1] == x;
      }
    }
  }

  /** The eligible visited nodes: the first one if it is eligible, and those visited after it. */
  lemma EligibleSplit(t: Trie, minFreq: int, order: seq<string>)
    requires |order| > 0 && Distinct(order)
    ensures EligibleIn(t, minFreq, Visited(order))
         == (if Eligible(t, minFreq, order[0]) then {order[0]} else {}) + EligibleIn(t, minFreq, Visited(order[1..]))
    ensures order[0] !in EligibleIn(t, minFreq, Visited(order[1..]))
  {
    VisitedSplit(order);
    var lhs := EligibleIn(t, minFreq, Visited(order));
    var rhs := (if Eligible(t, minFreq, order[0]) then {order[0]} else {}) + EligibleIn(t, minFreq, Visited(order[1..]));
    forall x
      ensures x in lhs <==> x in rhs
    {
    }
  }

  /** dfs moves next_id on by one per eligible visited node. */
  lemma {:induction false} DfsNext(t: Trie, minFreq: int, order: seq<string>, nextId: int, vocab: map<string, int>)
    requires Distinct(order)
    ensures Dfs(t, minFreq, order, nextId, vocab).nextId == nextId + |EligibleIn(t, minFreq, Visited(order))|
  {
    if |order| > 0 {
      var k := order[0];
      VisitedSplit(order);
      EligibleSplit(t, minFreq, order);
      if Eligible(t, minFreq, k) {
        var t' := t[k := t[k].(id := nextId)];
        DfsNext(t', minFreq, order[1..], nextId + 1, vocab[k := nextId]);
        EligibleOutside(t, minFreq, Visited(order[1..]), k, t[k].(id := nextId));
      } else {
        DfsNext(t, minFreq, order[1..], nextId, vocab);
      }
    }
  }

  /** dfs keeps every node and count, and changes the id of eligible visited nodes only. */
  lemma {:induction false} DfsTrie(t: Trie, minFreq: int, order: seq<string>, nextId: int, vocab: map<string, int>)
    requires Distinct(order)
    ensures var c := Dfs(t, minFreq, order, nextId, vocab);
            && c.trie.Keys == t.Keys
            && (forall k :: k in t ==> c.trie[k].freq == t[k].freq)
            && (forall k :: k in t && k !in EligibleIn(t, minFreq, Visited(order)) ==> c.trie[k].id == t[k].id)
  {
    if |order| > 0 {
      var k := order[0];
      VisitedSplit(order);
      EligibleSplit(t, minFreq, order);
      if Eligible(t, minFreq, k) {
        var t' := t[k := t[k].(id := nextId)];
        DfsTrie(t', minFreq, order[1..], nextId + 1, vocab[k := nextId]);
        EligibleOutside(t, minFreq, Visited(order[1..]), k, t[k].(id := nextId));
      } else {
        DfsTrie(t, minFreq, order[1..], nextId, vocab);
      }
    }
  }

  /** dfs adds exactly the eligible visited paths to the vocabulary and keeps the other entries. */
  lemma {:induction false} DfsVocab(t: Trie, minFreq: int, order: seq<string>, nextId: int, vocab: map<string, int>)
    requires Distinct(order)
    ensures var c := Dfs(t, minFreq, order, nextId, vocab);
            && c.vocab.Keys == vocab.Keys + EligibleIn(t, minFreq, Visited(order))
            && (forall k :: k in vocab && k !in EligibleIn(t, minFreq, Visited(order)) ==> c.vocab[k] == vocab[k])
  {
    if |order| > 0 {
      var k := order[0];
      VisitedSplit(order);
      EligibleSplit(t, minFreq, order);
      if Eligible(t, minFreq, k) {
        var t' := t[k := t[k].(id := nextId)];
        DfsVocab(t', minFreq, order[1..], nextId + 1, vocab[k := nextId]);
        EligibleOutside(t, minFreq, Visited(order[1..]), k, t[k].(id := nextId));
      } else {
        DfsVocab(t, minFreq, order[1..], nextId, vocab);
      }
    }
  }

  /**
   * An eligible visited node gets an id in [nextId, final next_id),
   * recorded both in the node and in the vocabulary.
   */
  lemma {:induction false} DfsIdOf(t: Trie, minFreq: int, order: seq<string>, nextId: int, vocab: map<string, int>, k: string)
    requires Distinct(order) && k in EligibleIn(t, minFreq, Visited(order))
    ensures var c := Dfs(t, minFreq, order, nextId, vocab);
            k in c.vocab && k in c.trie && nextId <= c.vocab[k] < c.nextId && c.trie[k].id == c.vocab[k]
  {
    var k0 := order[0];
    var rest := order[1..];
    VisitedSplit(order);
    EligibleSplit(t, minFreq, order);
    if Eligible(t, minFreq, k0) {
      var t' := t[k0 := t[k0].(id := nextId)];
      var v' := vocab[k0 := nextId];
      EligibleOutside(t, minFreq, Visited(rest), k0, t[k0].(id := nextId));
      DfsNext(t', minFreq, rest, nextId + 1, v');
      if k == k0 {
        DfsTrie(t', minFreq, rest, nextId + 1, v');
        DfsVocab(t', minFreq, rest, nextId + 1, v');
      } else {
        DfsIdOf(t', minFreq, rest, nextId + 1, v', k);
      }
    } else {
      DfsIdOf(t, minFreq, rest, nextId, vocab, k);
    }
  }

  /** DfsIdOf for every eligible visited node at once. */
  lemma DfsIdRange(t: Trie, minFreq: int, order: seq<string>, nextId: int, vocab: map<string, int>)
    requires Distinct(order)
    ensures var c := Dfs(t, minFreq, order, nextId, vocab);
            forall k :: k in EligibleIn(t, minFreq, Visited(order)) ==>
              k in c.vocab && k in c.trie && nextId <= c.vocab[k] < c.nextId && c.trie[k].id == c.vocab[k]
  {
    forall k | k in EligibleIn(t, minFreq, Visited(order))
      ensures var c := Dfs(t, minFreq, order, nextId, vocab);
              k in c.vocab && k in c.trie && nextId <= c.vocab[k] < c.nextId && c.trie[k].id == c.vocab[k]
    {
      DfsIdOf(t, minFreq, order, nextId, vocab, k);
    }
  }

  /** No two eligible visited nodes share an id. */
  lemma {:induction false} DfsIdsDistinct(t: Trie, minFreq: int, order: seq<string>, nextId: int, vocab: map<string, int>)
    requires Distinct(order)
    ensures var c := Dfs(t, minFreq, order, nextId, vocab);
            var elig := EligibleIn(t, minFreq, Visited(order));
            forall a, b :: a in elig && b in elig && a != b ==> a in c.vocab && b in c.vocab && c.vocab[a] != c.vocab[b]
  {
    if |order| > 0 {
      var k := order[0];
      VisitedSplit(order);
      EligibleSplit(t, minFreq, order);
      if Eligible(t, minFreq, k) {
        var t' := t[k := t[k].(id := nextId)];
        EligibleOutside(t, minFreq, Visited(order[1..]), k, t[k].(id := nextId));
        DfsIdsDistinct(t', minFreq, order[1..], nextId + 1, vocab[k := nextId]);
        FirstIdSmallest(t, minFreq, order, nextId, vocab);
      } else {
        DfsIdsDistinct(t, minFreq, order[1..], nextId, vocab);
      }
    }
  }

  /** An eligible first node gets nextId, and every later eligible node a larger id. */
  lemma FirstIdSmallest(t: Trie, minFreq: int, order: seq<string>, nextId: int, vocab: map<string, int>)
    requires Distinct(order) && |order| > 0 && Eligible(t, minFreq, order[0])
    ensures var c := Dfs(t, minFreq, order, nextId, vocab);
            && order[0] in c.vocab && c.vocab[order[0]] == nextId
            && forall b :: b in EligibleIn(t, minFreq, Visited(order[1..])) ==> b in c.vocab && c.vocab[b] > nextId
  {
    var k := order[0];
    var t' := t[k := t[k].(id := nextId)];
    var v' := vocab[k := nextId];
    VisitedSplit(order);
    EligibleSplit(t, minFreq, order);
    EligibleOutside(t, minFreq, Visited(order[1..]), k, t[k].(id := nextId));
    DfsIdRange(t', minFreq, order[1..], nextId + 1, v');
    DfsVocab(t', minFreq, order[1..], nextId + 1, v');
  }

  /** After dfs no visited node is eligible any more. */
  lemma DfsDone(t: Trie, minFreq: int, order: seq<string>, nextId: int, vocab: map<string, int>)
    requires Distinct(order) && nextId >= 0
    ensures EligibleIn(Dfs(t, minFreq, order, nextId, vocab).trie, minFreq, Visited(order)) == {}
  {
    DfsTrie(t, minFreq, order, nextId, vocab);
    DfsIdRange(t, minFreq, order, nextId, vocab);
  }

  /** A visiting order of the whole trie: every node once. */
  predicate VisitOrder(t: Trie, order: seq<string>) {
    Distinct(order) && Visited(order) == t.Keys
  }

  /**
   * GrammarUnitInducer::finalize: collect with next_id starting at 0. Into
   * an empty vocabulary, from a trie without ids, it puts exactly the
   * non-empty paths whose count reaches minFreq, and their ids are
   * 0 .. |vocab|-1, each used once.
   */
  function Finalize(g: Inducer, order: seq<string>, vocab: map<string, int>): (r: (Inducer, map<string, int>))
    ensures VisitOrder(g.trie, order) && (forall k :: k in g.trie ==> g.trie[k].id == -1) && vocab == map[] ==>
              var v := r.1;
              && (forall k :: k in v <==> k in g.trie && k != "" && g.trie[k].freq >= g.minFreq)
              && (forall k :: k in v ==> 0 <= v[k] < |v.Keys|)
              && (forall a, b :: a in v && b in v && a != b ==> v[a] != v[b])
  {
    var c := Dfs(g.trie, g.minFreq, order, 0, vocab);
    if VisitOrder(g.trie, order) && (forall k :: k in g.trie ==> g.trie[k].id == -1) && vocab == map[] then
      DfsNext(g.trie, g.minFreq, order, 0, map[]);
      DfsVocab(g.trie, g.minFreq, order, 0, map[]);
      DfsIdRange(g.trie, g.minFreq, order, 0, map[]);
      DfsIdsDistinct(g.trie, g.minFreq, order, 0, map[]);
      (g.(trie := c.trie), c.vocab)
    else (g.(trie := c.trie), c.vocab)
  }

  /** A second finalize over the same trie finds nothing left to add. */
  lemma FinalizeTwice(g: Inducer, order: seq<string>, vocab: map<string, int>)
    requires VisitOrder(g.trie, order)
    ensures var (g', v') := Finalize(g, order, vocab);
            Finalize(g', order, v').1 == v'
  {
    var (g', v') := Finalize(g, order, vocab);
    DfsTrie(g.trie, g.minFreq, order, 0, vocab);
    DfsDone(g.trie, g.minFreq, order, 0, vocab);
    NothingEligible(g'.trie, g.minFreq, order, 0, v');
  }

  lemma {:induction false} NothingEligible(t: Trie, minFreq: int, order: seq<string>, nextId: int, vocab: map<string, int>)
    requires EligibleIn(t, minFreq, Visited(order)) == {}
    ensures Dfs(t, minFreq, order, nextId, vocab).vocab == vocab
  {
    if |order| > 0 {
      var k := order[0];
      assert k in Visited(order);
      assert k !in EligibleIn(t, minFreq, Visited(order));
      assert Visited(order[1..]) <= Visited(order);
      NothingEligible(t, minFreq, order[1..], nextId, vocab);
    }
  }

  /** The windows of a six-letter word with lengths 3 to 6, by start then length. */
  lemma SixLetterWindows()
    ensures AllWindows(6, 3, 6) == [Span(0, 3), Span(0, 4), Span(0, 5), Span(0, 6), Span(1, 3), Span(1, 4),
                                    Span(1, 5), Span(2, 3), Span(2, 4), Span(3, 3)]
  {
    assert AtStart(6, 0, 3, 6) == [Span(0, 3), Span(0, 4), Span(0, 5), Span(0, 6)];
    assert AtStart(6, 1, 3, 6) == [Span(1, 3), Span(1, 4), Span(1, 5)];
    assert AtStart(6, 2, 3, 6) == [Span(2, 3), Span(2, 4)];
    assert AtStart(6, 3, 3, 6) == [Span(3, 3)];
    assert AtStart(6, 4, 3, 6) == [] && AtStart(6, 5, 3, 6) == [];
  }

  /** The ten substrings of "cancel" with lengths 3 to 6. */
  const CancelUnits: seq<string> := ["can", "canc", "cance", "cancel", "anc", "ance", "ancel", "nce", "ncel", "cel"]

  lemma CancelObserved()
    ensures Observed("cancel", 3, 6) == CancelUnits
  {
    SixLetterWindows();
    var word := "cancel";
    var w := AllWindows(6, 3, 6);
    forall k | 0 <= k < 10
      ensures Piece(word, w[k]) == CancelUnits[k]
    {
      assert word == ['c', 'a', 'n', 'c', 'e', 'l'];
    }
    PiecesAre(word, w, CancelUnits, 10);
    assert w[..10] == w && CancelUnits[..10] == CancelUnits;
  }

  /** Spans whose pieces are known one by one give those pieces in order. */
  lemma {:induction false} PiecesAre(word: string, w: seq<Span>, units: seq<string>, k: nat)
    requires |w| == |units| && k <= |w|
    requires forall i :: 0 <= i < |w| ==> Piece(word, w[i]) == units[i]
    ensures Pieces(word, w[..k]) == units[..k]
  {
    if k > 0 {
      PiecesAre(word, w, units, k - 1);
      assert w[..k][..k - 1] == w[..k - 1];
      assert units[..k] == units[..k - 1] + [units[k - 1]];
    }
  }

  /** The grammar test's inducer: lengths 3 to 6, minimum count 2, after observing "cancel" three times. */
  const CancelInducer: Inducer := Observe(Observe(Observe(NewInducer(3, 6, 2), "cancel"), "cancel"), "cancel")

  /** Each of the ten substrings is counted three times, every other path not at all. */
  lemma CancelCounts(k: string)
    ensures Freq(CancelInducer.trie, k) == 3 * multiset(CancelUnits)[k]
  {
    var g0 := NewInducer(3, 6, 2);
    var g1 := Observe(g0, "cancel");
    var g2 := Observe(g1, "cancel");
    CancelObserved();
    ObserveCounts(g0, "cancel", k);
    ObserveCounts(g1, "cancel", k);
    ObserveCounts(g2, "cancel", k);
  }

  /** No node of the trie has an id yet. */
  lemma CancelIds(k: string)
    requires k in CancelInducer.trie
    ensures CancelInducer.trie[k].id == -1
  {
    var g0 := NewInducer(3, 6, 2);
    var g1 := Observe(g0, "cancel");
    var g2 := Observe(g1, "cancel");
    CancelObserved();
    AddAllCounts(g0.trie, CancelUnits, k);
    AddAllCounts(g1.trie, CancelUnits, k);
    AddAllCounts(g2.trie, CancelUnits, k);
  }

  /** Every one of the ten has length 3 to 6, so the root is not among them. */
  lemma CancelLengths()
    ensures forall i :: 0 <= i < |CancelUnits| ==> 3 <= |CancelUnits[i]| <= 6
  {
  }

  /** With counts three times the multiplicity, a path reaches count 2 iff it is one of the ten. */
  lemma ThreeEach(t: Trie, k: string)
    requires Freq(t, k) == 3 * multiset(CancelUnits)[k]
    ensures (k in t && k != "" && t[k].freq >= 2) <==> k in CancelUnits
  {
    CancelLengths();
    if k in CancelUnits {
      var i :| 0 <= i < |CancelUnits| && CancelUnits[i] == k;
      assert |k| >= 3;
    }
  }

  /** The ten differ in length or in their second letter. */
  lemma CancelNoRepeats()
    ensures Distinct(CancelUnits)
  {
    var keys := [(3, 'a'), (4, 'a'), (5, 'a'), (6, 'a'), (3, 'n'), (4, 'n'), (5, 'n'), (3, 'c'), (4, 'c'), (3, 'e')];
    forall i | 0 <= i < 10
      ensures (|CancelUnits[i]|, CancelUnits[i][1]) == keys[i]
    {
    }
  }

  /** A list without repeats has as many elements as its set. */
  lemma {:induction false} DistinctCount(s: seq<string>)
    requires Distinct(s)
    ensures |set x | x in s| == |s|
  {
    if |s| > 0 {
      var init := s[..|s| - 1];
      DistinctCount(init);
      assert (set x | x in s) == (set x | x in init) + {s[|s| - 1]};
      assert s[|s| - 1] !in init;
    }
  }

  lemma CancelDistinct(keys: set<string>)
    requires forall k :: k in keys <==> k in CancelUnits
    ensures |keys| == 10
  {
    CancelNoRepeats();
    DistinctCount(CancelUnits);
    assert keys == set x | x in CancelUnits;
  }

  /**
   * finalize on that inducer collects exactly the ten substrings of "cancel"
   * with lengths 3 to 6, each with its own id below 10, whatever order the
   * trie's children are visited in.
   */
  lemma CancelExample(order: seq<string>)
    requires VisitOrder(CancelInducer.trie, order)
    ensures var v := Finalize(CancelInducer, order, map[]).1;
            && (forall k :: k in v <==> k in CancelUnits)
            && (forall k :: k in v ==> 0 <= v[k] < 10)
            && (forall a, b :: a in v && b in v && a != b ==> v[a] != v[b])
  {
    var g := CancelInducer;
    forall k | k in g.trie
      ensures g.trie[k].id == -1
    {
      CancelIds(k);
    }
    forall k
      ensures Freq(g.trie, k) == 3 * multiset(CancelUnits)[k]
    {
      CancelCounts(k);
    }
    CollectsTen(g, order);
  }

  /** finalize over a fresh trie that counts each of the ten three times, with minimum count 2. */
  lemma CollectsTen(g: Inducer, order: seq<string>)
    requires VisitOrder(g.trie, order) && g.minFreq == 2
    requires forall k :: k in g.trie ==> g.trie[k].id == -1
    requires forall k :: Freq(g.trie, k) == 3 * multiset(CancelUnits)[k]
    ensures var v := Finalize(g, order, map[]).1;
            && (forall k :: k in v <==> k in CancelUnits)
            && (forall k :: k in v ==> 0 <= v[k] < 10)
            && (forall a, b :: a in v && b in v && a != b ==> v[a] != v[b])
  {
    var v := Finalize(g, order, map[]).1;
    forall k
      ensures k in v <==> k in CancelUnits
    {
      ThreeEach(g.trie, k);
    }
    CancelDistinct(v.Keys);
  }
}

=== FILE: hashing.dfy ===
/**
 * FNV-1a hashing (Fowler-Noll-Vo, variant 1a) in the two widths the engine
 * uses: 32 bits for the character n-gram buckets and 64 bits for the word
 * encoder's buckets. Each byte is zero-extended and XOR-ed into the state,
 * which is then multiplied by the prime with wrap-around.
 */
module Fnv {
  import opened Ascii

  const Offset64: bv64 := 14695981039346656037
  const Offset32: bv32 := 2166136261

  /** The bytes of a string, one per character (`static_cast<bv8_t>`). */
  function Bytes(s: string): (r: seq<bv8>)
    ensures |r| == |s|
    ensures forall i :: 0 <= i < |s| ==> r[i] == Byte(s[i])
  {
    seq(|s|, i requires 0 <= i < |s| => Byte(s[i]))
  }

  /** The bytes of a substring are the substring of the bytes. */
  lemma BytesSlice(s: string, i: nat, j: nat)
    requires i <= j <= |s|
    ensures Bytes(s)[i..j] == Bytes(s[i..j])
  {
    forall k | 0 <= k < j - i
      ensures Bytes(s)[i..j][k] == Bytes(s[i..j])[k]
    {
    }
  }

  /**
   * One round: XOR in the zero-extended byte, then multiply by the FNV
   * prime modulo 2^64. The prime is written as a literal so that the
   * product is one by a known constant.
   */
  function Step64(h: bv64, b: bv8): bv64 { (h ^ (b as bv64)) * 1099511628211 }

  /** The 32-bit round, with the 32-bit FNV prime. */
  function Step32(h: bv32, b: bv8): bv32 { (h ^ (b as bv32)) * 16777619 }

  /** The reference definition: the offset basis folded with Step64 from the left. */
  function Hash64(s: seq<bv8>): bv64
  {
    if |s| == 0 then Offset64 else Step64(Hash64(s[..|s| - 1]), s[|s| - 1])
  }

  function Hash32(s: seq<bv8>): bv32
  {
    if |s| == 0 then Offset32 else Step32(Hash32(s[..|s| - 1]), s[|s| - 1])
  }

  /** Extending the input by one byte extends the hash by one round. */
  lemma Hash64Snoc(s: seq<bv8>, b: bv8)
    ensures Hash64(s + [b]) == Step64(Hash64(s), b)
  {
    assert (s + [b])[..|s|] == s;
  }

  lemma Hash32Snoc(s: seq<bv8>, b: bv8)
    ensures Hash32(s + [b]) == Step32(Hash32(s), b)
  {
    assert (s + [b])[..|s|] == s;
  }

  /** HashFunction::fnv1a: the 64-bit hash of a string's bytes. */
  method Fnv1a64(str: string) returns (hash: bv64)
    ensures hash == Hash64(Bytes(str))
  {
    var bytes := Bytes(str);
    hash := Offset64;
    var i := 0;
    while i < |bytes|
      invariant 0 <= i <= |bytes|
      invariant hash == Hash64(bytes[..i])
    {
      assert bytes[..i + 1][..i] == bytes[..i];
      hash := Step64(hash, bytes[i]);
      i := i + 1;
    }
    assert bytes[..i] == bytes;
  }

  /** The empty string hashes to the offset basis, which is not zero. */
  lemma EmptyHash()
    ensures Hash64(Bytes("")) == 14695981039346656037
    ensures Hash64(Bytes("")) != 0
  {
  }

  lemma HelloBytes()
    ensures Bytes("hello") == [104, 101, 108, 108, 111]
  {
    assert Code('h') == 104;
    assert Code('e') == 101;
    assert Code('l') == 108;
    assert Code('o') == 111;
  }

  lemma WorldBytes()
    ensures Bytes("world") == [119, 111, 114, 108, 100]
  {
    assert Code('w') == 119;
    assert Code('o') == 111;
    assert Code('r') == 114;
    assert Code('l') == 108;
    assert Code('d') == 100;
  }

  /** The hash of "hello", one round at a time. */
  lemma Hello1()
    ensures Hash64([104]) == 12638197096160295895
  {
    assert [104][..0] == [];
  }

  lemma Hello2()
    ensures Hash64([104, 101]) == 628906390544363382
  {
    Hello1();
    var h := [104, 101];
    assert h[..1] == [104];
    assert Hash64(h) == Step64(Hash64([104]), 101);
  }

  lemma Hello3()
    ensures Hash64([104, 101, 108]) == 3695819328946669870
  {
    Hello2();
    var h := [104, 101, 108];
    assert h[..2] == [104, 101];
    assert Hash64(h) == Step64(Hash64([104, 101]), 108);
  }

  lemma Hello4()
    ensures Hash64([104, 101, 108, 108]) == 763638091547294502
  {
    Hello3();
    var h := [104, 101, 108, 108];
    assert h[..3] == [104, 101, 108];
    assert Hash64(h) == Step64(Hash64([104, 101, 108]), 108);
  }

  lemma Hello5()
    ensures Hash64([104, 101, 108, 108, 111]) == 11831194018420276491
  {
    Hello4();
    var h := [104, 101, 108, 108, 111];
    assert h[..4] == [104, 101, 108, 108];
    assert Hash64(h) == Step64(Hash64([104, 101, 108, 108]), 111);
  }

  /** The hash of "world", one round at a time. */
  lemma World1()
    ensures Hash64([119]) == 12638202593718436950
  {
    assert [119][..0] == [];
  }

  lemma World2()
    ensures Hash64([119, 111]) == 633698062219160795
  {
    World1();
    var h := [119, 111];
    assert h[..1] == [119];
    assert Hash64(h) == Step64(Hash64([119]), 111);
  }

  lemma World3()
    ensures Hash64([119, 111, 114]) == 6824344426266157867
  {
    World2();
    var h := [119, 111, 114];
    assert h[..2] == [119, 111];
    assert Hash64(h) == Step64(Hash64([119, 111]), 114);
  }

  lemma World4()
    ensures Hash64([119, 111, 114, 108]) == 8095489668510396837
  {
    World3();
    var h := [119, 111, 114, 108];
    assert h[..3] == [119, 111, 114];
    assert Hash64(h) == Step64(Hash64([119, 111, 114]), 108);
  }

  lemma World5()
    ensures Hash64([119, 111, 114, 108, 100]) == 5717881983045765875
  {
    World4();
    var h := [119, 111, 114, 108, 100];
    assert h[..4] == [119, 111, 114, 108];
    assert Hash64(h) == Step64(Hash64([119, 111, 114, 108]), 100);
  }

  /** Different inputs may hash differently: "hello" and "world" do. */
  lemma HelloWorldDiffer()
    ensures Hash64(Bytes("hello")) != Hash64(Bytes("world"))
  {
    HelloBytes();
    WorldBytes();
    Hello5();
    World5();
  }
}

=== FILE: head_batches.dfy ===
/**
 * The classifier's three batch members (heads/classify.h): trainBatch over
 * id lists, trainBatchWithVectors over precomputed vectors and
 * trainBatchWithSentences over sentences, each the shared batch loop with
 * its own acceptance test and its own per-example call.
 */
module HeadBatches {
  import opened Vectors
  import opened ClassifierHeads
  import opened HeadTraining
  import opened Batches
  import BB = Backbone

  /** The head and the backbone it trains, as trainBatch leaves them. */
  datatype Learner = Learner(head: Head, net: BB.Net)

  /** trainBatch trains example i when it has ids and its label names a class. */
  predicate AcceptsIds(c: Head, ids: seq<int>, target: int) {
    |ids| > 0 && 0 <= target < c.numClasses
  }

  /**
   * One trainExample call as a batch step. The guard only restates
   * trainExample's own precondition; TrainBatch's contract shows it holds at
   * every step of a batch that starts from a fitting head and backbone.
   */
  function ExampleStep(math: Math, l: Learner, ids: seq<int>, target: int): (o: Outcome<Learner>)
    requires PositiveExp(math)
  {
    if Fits(l.head, l.net) && (0 <= target < l.head.numClasses && |ids| > 0 ==> BB.IdsInRange(l.net, ids)) then
      var t := TrainExample(l.head, l.net, math, ids, target);
      Outcome(t.loss, Learner(t.head, t.net))
    else Outcome(0.0, l)
  }

  /** Every accepted example's ids index rows of the backbone. */
  predicate IdsFit(c: Head, net: BB.Net, batchIds: seq<seq<int>>, labels: seq<int>)
    requires |batchIds| == |labels|
  {
    forall i :: 0 <= i < |batchIds| && AcceptsIds(c, batchIds[i], labels[i]) ==> BB.IdsInRange(net, batchIds[i])
  }

  /** A learner still shaped like the one a batch started from. */
  predicate Keeps(c: Head, net: BB.Net, l: Learner) {
    Fits(l.head, l.net) && SameShape(net, l.net)
    && l.head.numClasses == c.numClasses && l.head.dim == c.dim
    && l.head.lr == c.lr && l.head.margin == c.margin
  }

  /**
   * trainBatch(batch_ids, batch_labels): an empty batch or a label count
   * that differs trains nothing and returns 0; afterwards the head and the
   * backbone still fit each other, with the same sizes, learning rate and
   * margin, because every accepted example finds them in a state
   * trainExample accepts.
   */
  function TrainBatch(c: Head, net: BB.Net, math: Math, batchIds: seq<seq<int>>, labels: seq<int>): (r: Outcome<Learner>)
    requires Fits(c, net) && PositiveExp(math)
    requires |batchIds| == |labels| ==> IdsFit(c, net, batchIds, labels)
    ensures |batchIds| == 0 || |batchIds| != |labels| ==> r == Outcome(0.0, Learner(c, net))
    ensures Keeps(c, net, r.state)
  {
    var step := (l: Learner, ids: seq<int>, target: int) => ExampleStep(math, l, ids, target);
    var valid := (ids: seq<int>, target: int) => AcceptsIds(c, ids, target);
    if |batchIds| != |labels| then Batch(step, valid, Learner(c, net), batchIds, labels)
    else
      StepsKeep(c, net, math, batchIds, labels);
      RunPreserves(step, valid, Learner(c, net), batchIds, labels, (l: Learner) => Keeps(c, net, l));
      Batch(step, valid, Learner(c, net), batchIds, labels)
  }

  /** From a learner shaped like the start, an accepted example takes trainExample's path and keeps the shape. */
  lemma ExampleStepKeeps(c: Head, net: BB.Net, math: Math, l: Learner, ids: seq<int>, target: int)
    requires PositiveExp(math) && Keeps(c, net, l)
    requires AcceptsIds(c, ids, target) ==> BB.IdsInRange(net, ids)
    ensures Fits(l.head, l.net) && (0 <= target < l.head.numClasses && |ids| > 0 ==> BB.IdsInRange(l.net, ids))
    ensures Keeps(c, net, ExampleStep(math, l, ids, target).state)
  {
  }

  /** The step lemma for every example of a batch and every learner shaped like the start. */
  lemma StepsKeep(c: Head, net: BB.Net, math: Math, batchIds: seq<seq<int>>, labels: seq<int>)
    requires PositiveExp(math) && |batchIds| == |labels| && IdsFit(c, net, batchIds, labels)
    ensures forall t: Learner, i :: 0 <= i < |batchIds| && Keeps(c, net, t) && AcceptsIds(c, batchIds[i], labels[i])
              ==> Keeps(c, net, ExampleStep(math, t, batchIds[i], labels[i]).state)
  {
    forall t: Learner, i | 0 <= i < |batchIds| && Keeps(c, net, t) && AcceptsIds(c, batchIds[i], labels[i])
      ensures Keeps(c, net, ExampleStep(math, t, batchIds[i], labels[i]).state)
    {
      ExampleStepKeeps(c, net, math, t, batchIds[i], labels[i]);
    }
  }

  /** Shaped like the start, with embedding row `row` as it was. */
  predicate KeepsRow(c: Head, net: BB.Net, row: nat, l: Learner) {
    Keeps(c, net, l) && Vectors.Valid(net.emb) && row < net.emb.rows && Row(l.net.emb, row) == Row(net.emb, row)
  }

  /** The row-keeping step lemma for every example of a batch whose ids never list the row. */
  lemma StepsKeepRow(c: Head, net: BB.Net, math: Math, batchIds: seq<seq<int>>, labels: seq<int>, row: nat)
    requires PositiveExp(math) && |batchIds| == |labels| && IdsFit(c, net, batchIds, labels)
    requires forall i :: 0 <= i < |batchIds| ==> row !in batchIds[i]
    ensures forall t: Learner, i :: 0 <= i < |batchIds| && KeepsRow(c, net, row, t) && AcceptsIds(c, batchIds[i], labels[i])
              ==> KeepsRow(c, net, row, ExampleStep(math, t, batchIds[i], labels[i]).state)
  {
    forall t: Learner, i | 0 <= i < |batchIds| && KeepsRow(c, net, row, t) && AcceptsIds(c, batchIds[i], labels[i])
      ensures KeepsRow(c, net, row, ExampleStep(math, t, batchIds[i], labels[i]).state)
    {
      ExampleStepKeeps(c, net, math, t, batchIds[i], labels[i]);
      TrainExampleOtherRow(t.head, t.net, math, batchIds[i], labels[i], row);
    }
  }

  /** trainBatch writes no embedding row that no example of the batch lists. */
  lemma TrainBatchOtherRow(c: Head, net: BB.Net, math: Math, batchIds: seq<seq<int>>, labels: seq<int>, row: nat)
    requires Fits(c, net) && PositiveExp(math)
    requires |batchIds| == |labels| ==> IdsFit(c, net, batchIds, labels)
    requires row < net.emb.rows && forall i :: 0 <= i < |batchIds| ==> row !in batchIds[i]
    ensures var l := TrainBatch(c, net, math, batchIds, labels).state;
            Fits(l.head, l.net) && row < l.net.emb.rows && Row(l.net.emb, row) == Row(net.emb, row)
  {
    if |batchIds| == |labels| {
      StepsKeepRow(c, net, math, batchIds, labels, row);
      RunPreserves((l: Learner, ids: seq<int>, target: int) => ExampleStep(math, l, ids, target),
                   (ids: seq<int>, target: int) => AcceptsIds(c, ids, target),
                   Learner(c, net), batchIds, labels, (l: Learner) => KeepsRow(c, net, row, l));
    }
  }

  /** A batch of one accepted example is one trainExample call. */
  lemma TrainBatchSingle(c: Head, net: BB.Net, math: Math, ids: seq<int>, target: int)
    requires Fits(c, net) && PositiveExp(math)
    requires AcceptsIds(c, ids, target) && BB.IdsInRange(net, ids)
    ensures var t := TrainExample(c, net, math, ids, target);
            TrainBatch(c, net, math, [ids], [target]) == Outcome(t.loss, Learner(t.head, t.net))
  {
    BatchSingle((l: Learner, ids: seq<int>, target: int) => ExampleStep(math, l, ids, target),
                (ids: seq<int>, target: int) => AcceptsIds(c, ids, target),
                Learner(c, net), ids, target);
  }

  /** trainBatchWithVectors and trainBatchWithSentences train example i when its label names a class. */
  predicate AcceptsLabel(c: Head, target: int) {
    0 <= target < c.numClasses
  }

  /** One trainExampleWithVector call as a batch step; the guard restates its precondition. */
  function VectorStep(math: Math, c: Head, h: Vec, target: int): (o: Outcome<Head>)
    requires PositiveExp(math)
  {
    if ClassifierHeads.Valid(c) && |h| >= c.dim then
      var st := WithVector(c, math, h, target);
      Outcome(st.loss, st.head)
    else Outcome(0.0, c)
  }

  /** Every accepted example's vector is at least dim wide. */
  predicate VectorsFit(c: Head, hs: seq<Vec>, labels: seq<int>)
    requires |hs| == |labels|
  {
    forall i :: 0 <= i < |hs| && AcceptsLabel(c, labels[i]) ==> |hs[i]| >= c.dim
  }

  /**
   * trainBatchWithVectors(batch_h, batch_labels): an empty batch or a label
   * count that differs trains nothing and returns 0; afterwards the head
   * keeps its sizes, learning rate and margin.
   */
  function TrainBatchWithVectors(c: Head, math: Math, hs: seq<Vec>, labels: seq<int>): (r: Outcome<Head>)
    requires ClassifierHeads.Valid(c) && PositiveExp(math)
    requires |hs| == |labels| ==> VectorsFit(c, hs, labels)
    ensures |hs| == 0 || |hs| != |labels| ==> r == Outcome(0.0, c)
    ensures HeadKeeps(c, r.state)
  {
    var step := (h: Head, x: Vec, target: int) => VectorStep(math, h, x, target);
    var valid := (x: Vec, target: int) => AcceptsLabel(c, target);
    if |hs| != |labels| then Batch(step, valid, c, hs, labels)
    else
      VectorStepsKeep(c, math, hs, labels);
      RunPreserves(step, valid, c, hs, labels, (h: Head) => HeadKeeps(c, h));
      Batch(step, valid, c, hs, labels)
  }

  /** A head shaped like the one a batch started from. */
  predicate HeadKeeps(c: Head, h: Head) {
    ClassifierHeads.Valid(h) && h.numClasses == c.numClasses && h.dim == c.dim && h.lr == c.lr && h.margin == c.margin
  }

  /** The shape-keeping step lemma for every example of a vector batch. */
  lemma VectorStepsKeep(c: Head, math: Math, hs: seq<Vec>, labels: seq<int>)
    requires PositiveExp(math) && |hs| == |labels| && VectorsFit(c, hs, labels)
    ensures forall t: Head, i :: 0 <= i < |hs| && HeadKeeps(c, t) && AcceptsLabel(c, labels[i])
              ==> HeadKeeps(c, VectorStep(math, t, hs[i], labels[i]).state)
  {
  }

  /** A batch of one accepted vector is one trainExampleWithVector call. */
  lemma TrainBatchWithVectorsSingle(c: Head, math: Math, h: Vec, target: int)
    requires ClassifierHeads.Valid(c) && PositiveExp(math) && AcceptsLabel(c, target) && |h| >= c.dim
    ensures var st := WithVector(c, math, h, target);
            TrainBatchWithVectors(c, math, [h], [target]) == Outcome(st.loss, st.head)
  {
    BatchSingle((t: Head, x: Vec, target: int) => VectorStep(math, t, x, target),
                (x: Vec, target: int) => AcceptsLabel(c, target),
                c, h, target);
  }

  /** One sentence of a batch: its word embeddings and each word's subword ids. */
  datatype Sentence = Sentence(embeddings: seq<Vec>, wordIds: seq<seq<int>>)

  /** The head, the backbone and the sentence encoder's state E. */
  datatype SentenceLearner<E> = SentenceLearner(head: Head, net: BB.Net, enc: E)

  /** The sentence encoder's encode and update, which this model does not define. */
  datatype Encoder<!E> = Encoder(encode: (E, seq<Vec>) -> Vec, update: (E, seq<Vec>, Vec, real) -> E)

  /** encode always returns a vector at least dim wide. */
  ghost predicate EncodesWide<E(!new)>(enc: Encoder<E>, dim: int) {
    forall e: E, w: seq<Vec> :: |enc.encode(e, w)| >= dim
  }

  /**
   * One trainExampleWithSentence call as a batch step: encode, train the
   * head and the backbone, then update the encoder with grad_h, the last
   * only when the call gets past its guards. The guard restates the
   * call's precondition.
   */
  function SentenceStep<E(!new)>(math: Math, coder: Encoder<E>, l: SentenceLearner<E>, x: Sentence, target: int): (o: Outcome<SentenceLearner<E>>)
    requires PositiveExp(math)
  {
    var h := coder.encode(l.enc, x.embeddings);
    if Fits(l.head, l.net) && |h| >= l.head.dim
       && (forall i :: 0 <= i < |x.wordIds| ==> RowsBelow(x.wordIds[i], l.net.emb.rows)) then
      var r := WithSentence(l.head, l.net, math, h, |x.embeddings|, x.wordIds, target);
      var enc := if 0 <= target < l.head.numClasses && |x.embeddings| > 0
                 then coder.update(l.enc, x.embeddings, r.gradH, l.head.lr) else l.enc;
      Outcome(r.loss, SentenceLearner(r.head, r.net, enc))
    else Outcome(0.0, l)
  }

  /** trainBatchWithSentences trains example i when its label names a class and it has words. */
  predicate AcceptsSentence(c: Head, x: Sentence, target: int) {
    AcceptsLabel(c, target) && |x.embeddings| > 0
  }

  /** batch_word_ids is read at every index of an accepted sentence, and its ids index rows. */
  predicate SentencesFit(c: Head, net: BB.Net, embeddings: seq<seq<Vec>>, wordIds: seq<seq<seq<int>>>, labels: seq<int>)
    requires |embeddings| == |labels|
  {
    forall i :: 0 <= i < |embeddings| && AcceptsLabel(c, labels[i]) && |embeddings[i]| > 0 ==>
      i < |wordIds| && forall w :: 0 <= w < |wordIds[i]| ==> RowsBelow(wordIds[i][w], net.emb.rows)
  }

  /** The sentences of a batch, pairing each embedding list with its word ids (none past the end of batch_word_ids). */
  function Sentences(embeddings: seq<seq<Vec>>, wordIds: seq<seq<seq<int>>>): (r: seq<Sentence>)
    ensures |r| == |embeddings|
    ensures forall i :: 0 <= i < |r| ==> r[i].embeddings == embeddings[i]
    ensures forall i :: 0 <= i < |r| && i < |wordIds| ==> r[i].wordIds == wordIds[i]
  {
    seq(|embeddings|, i requires 0 <= i < |embeddings| => Sentence(embeddings[i], if i < |wordIds| then wordIds[i] else []))
  }

  /**
   * trainBatchWithSentences(batch_word_embeddings, batch_word_ids, sentEnc,
   * batch_labels): an empty batch or a label count that differs trains
   * nothing and returns 0; afterwards the head and the backbone still fit,
   * with the same sizes, learning rate and margin.
   */
  function TrainBatchWithSentences<E(!new)>(c: Head, net: BB.Net, math: Math, coder: Encoder<E>, enc: E,
                                      embeddings: seq<seq<Vec>>, wordIds: seq<seq<seq<int>>>, labels: seq<int>): (r: Outcome<SentenceLearner<E>>)
    requires Fits(c, net) && PositiveExp(math) && EncodesWide(coder, c.dim)
    requires |embeddings| == |labels| ==> SentencesFit(c, net, embeddings, wordIds, labels)
    ensures |embeddings| == 0 || |embeddings| != |labels| ==> r == Outcome(0.0, SentenceLearner(c, net, enc))
    ensures SentenceKeeps(c, net, r.state)
  {
    var step := (l: SentenceLearner<E>, x: Sentence, target: int) => SentenceStep(math, coder, l, x, target);
    var valid := (x: Sentence, target: int) => AcceptsSentence(c, x, target);
    if |embeddings| != |labels| then Batch(step, valid, SentenceLearner(c, net, enc), Sentences(embeddings, wordIds), labels)
    else
      SentenceStepsKeep(c, net, math, coder, embeddings, wordIds, labels);
      RunPreserves(step, valid, SentenceLearner(c, net, enc), Sentences(embeddings, wordIds), labels,
                   (l: SentenceLearner<E>) => SentenceKeeps(c, net, l));
      Batch(step, valid, SentenceLearner(c, net, enc), Sentences(embeddings, wordIds), labels)
  }

  /** A learner whose head and backbone are shaped like the start. */
  predicate SentenceKeeps<E(!new)>(c: Head, net: BB.Net, l: SentenceLearner<E>) {
    Keeps(c, net, Learner(l.head, l.net))
  }

  /** The shape-keeping step lemma for every sentence of a batch. */
  lemma SentenceStepsKeep<E(!new)>(c: Head, net: BB.Net, math: Math, coder: Encoder<E>,
                             embeddings: seq<seq<Vec>>, wordIds: seq<seq<seq<int>>>, labels: seq<int>)
    requires PositiveExp(math) && EncodesWide(coder, c.dim)
    requires |embeddings| == |labels| && SentencesFit(c, net, embeddings, wordIds, labels)
    ensures var xs := Sentences(embeddings, wordIds);
            forall t: SentenceLearner<E>, i :: 0 <= i < |xs| && SentenceKeeps(c, net, t) && AcceptsSentence(c, xs[i], labels[i])
              ==> SentenceKeeps(c, net, SentenceStep(math, coder, t, xs[i], labels[i]).state)
  {
    var xs := Sentences(embeddings, wordIds);
    forall t: SentenceLearner<E>, i | 0 <= i < |xs| && SentenceKeeps(c, net, t) && AcceptsSentence(c, xs[i], labels[i])
      ensures SentenceKeeps(c, net, SentenceStep(math, coder, t, xs[i], labels[i]).state)
    {
      assert |coder.encode(t.enc, xs[i].embeddings)| >= c.dim;
      assert forall w :: 0 <= w < |xs[i].wordIds| ==> RowsBelow(xs[i].wordIds[w], t.net.emb.rows);
    }
  }

  /** A batch of one accepted sentence is one trainExampleWithSentence call followed by the encoder update. */
  lemma TrainBatchWithSentencesSingle<E(!new)>(c: Head, net: BB.Net, math: Math, coder: Encoder<E>, enc: E,
                                         x: Sentence, target: int)
    requires Fits(c, net) && PositiveExp(math) && EncodesWide(coder, c.dim)
    requires AcceptsSentence(c, x, target) && forall w :: 0 <= w < |x.wordIds| ==> RowsBelow(x.wordIds[w], net.emb.rows)
    ensures var h := coder.encode(enc, x.embeddings);
            var r := WithSentence(c, net, math, h, |x.embeddings|, x.wordIds, target);
            TrainBatchWithSentences(c, net, math, coder, enc, [x.embeddings], [x.wordIds], [target])
            == Outcome(r.loss, SentenceLearner(r.head, r.net, coder.update(enc, x.embeddings, r.gradH, c.lr)))
  {
    assert Sentences([x.embeddings], [x.wordIds]) == [x];
    assert |coder.encode(enc, x.embeddings)| >= c.dim;
    BatchSingle((l: SentenceLearner<E>, x: Sentence, target: int) => SentenceStep(math, coder, l, x, target),
                (x: Sentence, target: int) => AcceptsSentence(c, x, target),
                SentenceLearner(c, net, enc), x, target);
  }
}

=== FILE: head_training.dfy ===
/**
 * Training the classification head together with the backbone
 * (heads/classify.h): trainExample, trainExampleWithSentence and the
 * private backpropToBackbone, which nudges the attention vector and the
 * embedding rows of the listed ids by clipped amounts.
 */
module HeadTraining {
  import opened Common
  import opened Vectors
  import opened VectorSums
  import opened ClassifierHeads
  import BB = Backbone

  /** The attention score is clipped to [-10, 10] before the sigmoid. */
  const ScoreBound: real := 10.0

  /** Each attention and embedding delta is clipped to [-1, 1]. */
  const DeltaBound: real := 1.0

  /** A head and the backbone it trains agree on the width: E.w is indexed id * dim + d. */
  predicate Fits(c: Head, net: BB.Net) {
    ClassifierHeads.Valid(c) && BB.Valid(net) && net.emb.cols == c.dim && net.dim == c.dim
  }

  /** a = sigmoid(clip(w * x)); beyond the clip bounds it no longer moves. */
  function Activation(sigmoid: real -> real, w: real, x: real): (a: real)
    ensures -ScoreBound <= w * x <= ScoreBound ==> a == sigmoid(w * x)
    ensures w * x >= ScoreBound ==> a == sigmoid(ScoreBound)
    ensures w * x <= -ScoreBound ==> a == sigmoid(-ScoreBound)
  {
    sigmoid(Clip(w * x, -ScoreBound, ScoreBound))
  }

  /** grad_att = clip(grad_h[d] * e[d] * a * (1 - a)). */
  function AttDelta(net: BB.Net, e: Vec, gh: Vec, d: nat): (r: real)
    requires d < |e| && d < |net.att| && d < |gh|
    ensures -DeltaBound <= r <= DeltaBound
  {
    var a := Activation(net.sigmoid, net.att[d], e[d]);
    Clip(gh[d] * e[d] * (a * (1.0 - a)), -DeltaBound, DeltaBound)
  }

  /**
   * grad_emb = clip(grad_h[d] * (a + e[d] * da * w[d])), where w[d] is the
   * attention entry AFTER this step's grad_att was added.
   */
  function EmbDelta(net: BB.Net, e: Vec, gh: Vec, d: nat): (r: real)
    requires d < |e| && d < |net.att| && d < |gh|
    ensures -DeltaBound <= r <= DeltaBound
  {
    var a := Activation(net.sigmoid, net.att[d], e[d]);
    var da := a * (1.0 - a);
    var w := net.att[d] + AttDelta(net, e, gh, d);
    Clip(gh[d] * (a + e[d] * da * w), -DeltaBound, DeltaBound)
  }

  /** The backbone with the same shape: only values have moved. */
  predicate SameShape(a: BB.Net, b: BB.Net) {
    BB.Valid(b) && b.emb.rows == a.emb.rows && b.emb.cols == a.emb.cols
    && b.dim == a.dim && |b.att| == |a.att|
  }

  /**
   * The inner loop of backpropToBackbone for one id. e is looked up once;
   * iteration d reads and writes only att[d] and w[id * dim + d], so the
   * iterations do not interact and are written here position by position.
   */
  function BackpropId(net: BB.Net, dim: nat, id: nat, gh: Vec): (r: BB.Net)
    requires BB.Valid(net) && net.emb.cols == dim && id < net.emb.rows && |gh| >= dim
    ensures SameShape(net, r)
  {
    var e := Row(net.emb, id);
    var att := seq(|net.att|, d requires 0 <= d < |net.att| =>
                     if d < dim then net.att[d] + AttDelta(net, e, gh, d) else net.att[d]);
    var deltas := seq(dim, d requires 0 <= d < dim => EmbDelta(net, e, gh, d));
    net.(att := att, emb := AddRow(net.emb, deltas, id, 1.0))
  }

  /** One id moves each attention entry and each entry of its own row by at most 1. */
  lemma BackpropIdBounds(net: BB.Net, dim: nat, id: nat, gh: Vec, d: nat)
    requires BB.Valid(net) && net.emb.cols == dim && id < net.emb.rows && |gh| >= dim && d < dim
    ensures var r := BackpropId(net, dim, id, gh);
            -DeltaBound <= r.att[d] - net.att[d] <= DeltaBound
            && -DeltaBound <= Row(r.emb, id)[d] - Row(net.emb, id)[d] <= DeltaBound
    ensures forall j :: dim <= j < |net.att| ==> BackpropId(net, dim, id, gh).att[j] == net.att[j]
  {
    var e := Row(net.emb, id);
    var deltas := seq(dim, d requires 0 <= d < dim => EmbDelta(net, e, gh, d));
    AddRowTarget(net.emb, deltas, id, 1.0);
  }

  /** One id leaves every other embedding row as it was. */
  lemma BackpropIdOtherRow(net: BB.Net, dim: nat, id: nat, gh: Vec, k: nat)
    requires BB.Valid(net) && net.emb.cols == dim && id < net.emb.rows && |gh| >= dim
    requires k < net.emb.rows && k != id
    ensures Row(BackpropId(net, dim, id, gh).emb, k) == Row(net.emb, k)
  {
    var e := Row(net.emb, id);
    var deltas := seq(dim, d requires 0 <= d < dim => EmbDelta(net, e, gh, d));
    AddRowOtherRow(net.emb, deltas, id, 1.0, k);
  }

  /** Every id is below the number of rows; negative ids are allowed. */
  predicate RowsBelow(ids: seq<int>, rows: nat) {
    forall k :: 0 <= k < |ids| ==> ids[k] < rows
  }

  /** backpropToBackbone(ids, grad_h): the ids in order, negative ones skipped. */
  function Backprop(net: BB.Net, dim: nat, ids: seq<int>, gh: Vec): (r: BB.Net)
    requires BB.Valid(net) && net.emb.cols == dim && |gh| >= dim && RowsBelow(ids, net.emb.rows)
    ensures SameShape(net, r)
  {
    if |ids| == 0 then net
    else
      var init := ids[..|ids| - 1];
      assert RowsBelow(init, net.emb.rows) by {
        assert forall k :: 0 <= k < |init| ==> init[k] == ids[k];
      }
      var prev := Backprop(net, dim, init, gh);
      var id := ids[|ids| - 1];
      if id < 0 then prev else BackpropId(prev, dim, id, gh)
  }

  /** The non-negative ids, in order. */
  function NonNegative(ids: seq<int>): (r: seq<int>)
    ensures |r| <= |ids|
    ensures forall x :: x in r <==> x in ids && x >= 0
  {
    if |ids| == 0 then []
    else
      var init := NonNegative(ids[..|ids| - 1]);
      assert ids == ids[..|ids| - 1] + [ids[|ids| - 1]];
      if ids[|ids| - 1] < 0 then init else init + [ids[|ids| - 1]]
  }

  /** Negative ids change nothing: backprop over the ids is backprop over the non-negative ones. */
  lemma {:induction false} BackpropSkipsNegative(net: BB.Net, dim: nat, ids: seq<int>, gh: Vec)
    requires BB.Valid(net) && net.emb.cols == dim && |gh| >= dim && RowsBelow(ids, net.emb.rows)
    ensures RowsBelow(NonNegative(ids), net.emb.rows)
    ensures Backprop(net, dim, ids, gh) == Backprop(net, dim, NonNegative(ids), gh)
  {
    var nn := NonNegative(ids);
    assert RowsBelow(nn, net.emb.rows) by {
      forall k | 0 <= k < |nn|
        ensures nn[k] < net.emb.rows
      {
        assert nn[k] in ids;
      }
    }
    if |ids| > 0 {
      var init := ids[..|ids| - 1];
      assert RowsBelow(init, net.emb.rows) by {
        assert forall k :: 0 <= k < |init| ==> init[k] == ids[k];
      }
      BackpropSkipsNegative(net, dim, init, gh);
      var x := ids[|ids| - 1];
      if x >= 0 {
        assert nn[..|nn| - 1] == NonNegative(init);
      }
    }
  }

  /** Only the rows of listed ids are written. */
  lemma {:induction false} BackpropOtherRow(net: BB.Net, dim: nat, ids: seq<int>, gh: Vec, k: nat)
    requires BB.Valid(net) && net.emb.cols == dim && |gh| >= dim && RowsBelow(ids, net.emb.rows)
    requires k < net.emb.rows && k !in ids
    ensures Row(Backprop(net, dim, ids, gh).emb, k) == Row(net.emb, k)
  {
    if |ids| > 0 {
      var init := ids[..|ids| - 1];
      assert RowsBelow(init, net.emb.rows) by {
        assert forall j :: 0 <= j < |init| ==> init[j] == ids[j];
      }
      assert k !in init by {
        assert forall j :: 0 <= j < |init| ==> init[j] == ids[j];
      }
      BackpropOtherRow(net, dim, init, gh, k);
      var id := ids[|ids| - 1];
      if id >= 0 {
        BackpropIdOtherRow(Backprop(net, dim, init, gh), dim, id, gh, k);
      }
    }
  }

  /** grad_h for class k: the UPDATED prototype row scaled by -lr * grad_k. */
  function GradH(c: Head, h: Vec, grads: seq<real>, k: nat): (r: Vec)
    requires ClassifierHeads.Valid(c) && |h| >= c.dim && |grads| == c.numClasses && k < c.numClasses
    ensures |r| == c.dim
  {
    Scaled(Moved(c.protos[k], h, c.lr, grads[k]), Descent(c.lr, grads[k]))
  }

  /** Every class's grad_h, in class order. */
  function ClassGradH(c: Head, h: Vec, grads: seq<real>): (r: seq<Vec>)
    requires ClassifierHeads.Valid(c) && |h| >= c.dim && |grads| == c.numClasses
    ensures |r| == c.numClasses && AllLong(r, c.dim)
  {
    seq(c.numClasses, k requires 0 <= k < c.numClasses => GradH(c, h, grads, k))
  }

  /** The prototype rows and the backbone part-way through the class loop. */
  datatype Progress = Progress(rows: seq<Vec>, cur: BB.Net)

  /** The inputs of the class loop, fixed for its duration. */
  predicate LoopReady(c: Head, net: BB.Net, ids: seq<int>, h: Vec, grads: seq<real>)
  {
    Fits(c, net) && RowsBelow(ids, net.emb.rows) && |h| >= c.dim && |grads| == c.numClasses
  }

  /** What one iteration of the class loop needs of the progress so far. */
  predicate StepReady(c: Head, ids: seq<int>, h: Vec, grads: seq<real>, p: Progress, k: nat) {
    k < |grads| && k < |p.rows| && c.dim <= |p.rows[k]| <= |h|
    && BB.Valid(p.cur) && p.cur.emb.cols == c.dim && RowsBelow(ids, p.cur.emb.rows)
  }

  /** Iteration k: move row k against grad_k, then backprop grad_h = the moved row * (-lr * grad_k). */
  function ClassStep(c: Head, ids: seq<int>, h: Vec, grads: seq<real>, p: Progress, k: nat): (r: Progress)
    requires StepReady(c, ids, h, grads, p, k)
    ensures |r.rows| == |p.rows| && r.rows[k] == Moved(p.rows[k], h, c.lr, grads[k])
    ensures forall i :: 0 <= i < |p.rows| && i != k ==> r.rows[i] == p.rows[i]
    ensures SameShape(p.cur, r.cur)
  {
    var rows := p.rows[k := Moved(p.rows[k], h, c.lr, grads[k])];
    var gh := Scaled(Moved(p.rows[k], h, c.lr, grads[k]), Descent(c.lr, grads[k]));
    Progress(rows, Backprop(p.cur, c.dim, ids, gh))
  }

  /** ClassStep written out. */
  lemma ClassStepUnfold(c: Head, ids: seq<int>, h: Vec, grads: seq<real>, p: Progress, k: nat)
    requires StepReady(c, ids, h, grads, p, k)
    ensures ClassStep(c, ids, h, grads, p, k)
            == Progress(p.rows[k := Moved(p.rows[k], h, c.lr, grads[k])],
                        Backprop(p.cur, c.dim, ids, Scaled(Moved(p.rows[k], h, c.lr, grads[k]), Descent(c.lr, grads[k]))))
  {
  }

  /** One iteration writes no embedding row whose id is not listed. */
  lemma ClassStepOtherRow(c: Head, ids: seq<int>, h: Vec, grads: seq<real>, p: Progress, k: nat, row: nat)
    requires StepReady(c, ids, h, grads, p, k)
    requires row < p.cur.emb.rows && row !in ids
    ensures Row(ClassStep(c, ids, h, grads, p, k).cur.emb, row) == Row(p.cur.emb, row)
  {
    ClassStepUnfold(c, ids, h, grads, p, k);
    BackpropOtherRow(p.cur, c.dim, ids, Scaled(Moved(p.rows[k], h, c.lr, grads[k]), Descent(c.lr, grads[k])), row);
  }

  /** ClassStep written out over the rows and backbone as the loop holds them. */
  lemma ClassStepAt(c: Head, ids: seq<int>, h: Vec, grads: seq<real>, rows: seq<Vec>, cur: BB.Net, k: nat, g: real)
    requires StepReady(c, ids, h, grads, Progress(rows, cur), k) && g == grads[k]
    ensures var moved := rows[k := Moved(rows[k], h, c.lr, g)];
            ClassStep(c, ids, h, grads, Progress(rows, cur), k)
            == Progress(moved, Backprop(cur, c.dim, ids, Scaled(moved[k], Descent(c.lr, g))))
  {
    ClassStepUnfold(c, ids, h, grads, Progress(rows, cur), k);
  }

  /**
   * The first k iterations of trainExample's class loop: move row k against
   * its gradient, then backprop grad_h = the moved row * (-lr * grad_k).
   */
  function ClassLoop(c: Head, net: BB.Net, ids: seq<int>, h: Vec, grads: seq<real>, k: nat): (p: Progress)
    requires LoopReady(c, net, ids, h, grads) && k <= c.numClasses
    ensures |p.rows| == c.numClasses && (forall i :: 0 <= i < c.numClasses ==> |p.rows[i]| == c.dim)
    ensures SameShape(net, p.cur)
  {
    if k == 0 then Progress(c.protos, net)
    else ClassStep(c, ids, h, grads, ClassLoop(c, net, ids, h, grads, k - 1), k - 1)
  }

  /** After k iterations rows 0..k-1 have moved once each and the rest are untouched. */
  lemma {:induction false} ClassLoopRows(c: Head, net: BB.Net, ids: seq<int>, h: Vec, grads: seq<real>, k: nat)
    requires LoopReady(c, net, ids, h, grads) && k <= c.numClasses
    ensures MovedUpTo(c, h, grads, ClassLoop(c, net, ids, h, grads, k).rows, k)
  {
    if k > 0 {
      ClassLoopRows(c, net, ids, h, grads, k - 1);
    }
  }

  /** Iteration k backprops exactly the k-th grad_h. */
  lemma ClassLoopGradH(c: Head, net: BB.Net, ids: seq<int>, h: Vec, grads: seq<real>, k: nat)
    requires LoopReady(c, net, ids, h, grads) && k < c.numClasses
    ensures var p := ClassLoop(c, net, ids, h, grads, k);
            BB.Valid(p.cur) && p.cur.emb.cols == c.dim && RowsBelow(ids, p.cur.emb.rows)
            && ClassLoop(c, net, ids, h, grads, k + 1).cur == Backprop(p.cur, c.dim, ids, GradH(c, h, grads, k))
  {
    ClassLoopRows(c, net, ids, h, grads, k);
  }

  /** The class loop writes no embedding row whose id is not listed. */
  lemma {:induction false} ClassLoopOtherRow(c: Head, net: BB.Net, ids: seq<int>, h: Vec, grads: seq<real>, k: nat, row: nat)
    requires LoopReady(c, net, ids, h, grads) && k <= c.numClasses
    requires row < net.emb.rows && row !in ids
    ensures Row(ClassLoop(c, net, ids, h, grads, k).cur.emb, row) == Row(net.emb, row)
  {
    if k > 0 {
      ClassLoopOtherRow(c, net, ids, h, grads, k - 1, row);
      ClassStepOtherRow(c, ids, h, grads, ClassLoop(c, net, ids, h, grads, k - 1), k - 1, row);
    }
  }

  /** The result of trainExample: the loss, the head and the backbone. */
  datatype Trained = Trained(loss: real, head: Head, net: BB.Net)

  /**
   * trainExample(ids, target): an out-of-range label or no ids return 0 and
   * change nothing; otherwise the loss of the margin-adjusted scores of
   * forward(ids), and the class loop run over every class.
   */
  function TrainExample(c: Head, net: BB.Net, math: Math, ids: seq<int>, target: int): (r: Trained)
    requires Fits(c, net) && PositiveExp(math)
    requires 0 <= target < c.numClasses && |ids| > 0 ==> BB.IdsInRange(net, ids)
    ensures Fits(r.head, r.net) && SameShape(net, r.net)
    ensures r.head.numClasses == c.numClasses && r.head.dim == c.dim && r.head.lr == c.lr && r.head.margin == c.margin
    ensures !(0 <= target < c.numClasses) || |ids| == 0 ==> r == Trained(0.0, c, net)
  {
    if target < 0 || target >= c.numClasses || |ids| == 0 then Trained(0.0, c, net)
    else
      var h := BB.Forward(net, ids);
      var s := Scores(c, h, target);
      assert RowsBelow(ids, net.emb.rows);
      var p := ClassLoop(c, net, ids, h, Grads(math, s, target), c.numClasses);
      Trained(Loss(math, s, target), c.(protos := p.rows), p.cur)
  }

  /**
   * The backbone updates do not feed back into the prototypes: trainExample
   * leaves the same prototypes and loss as trainExampleWithVector on forward(ids).
   */
  lemma TrainExampleMatchesVector(c: Head, net: BB.Net, math: Math, ids: seq<int>, target: nat)
    requires Fits(c, net) && PositiveExp(math) && target < c.numClasses && |ids| > 0 && BB.IdsInRange(net, ids)
    ensures var v := WithVector(c, math, BB.Forward(net, ids), target);
            TrainExample(c, net, math, ids, target).head == v.head
            && TrainExample(c, net, math, ids, target).loss == v.loss
  {
    var h := BB.Forward(net, ids);
    var grads := Grads(math, Scores(c, h, target), target);
    assert RowsBelow(ids, net.emb.rows);
    ClassLoopRows(c, net, ids, h, grads, c.numClasses);
    assert ClassLoop(c, net, ids, h, grads, c.numClasses).rows == MovedRows(c, h, grads);
  }

  /** An embedding row whose id is not listed is never written. */
  lemma TrainExampleOtherRow(c: Head, net: BB.Net, math: Math, ids: seq<int>, target: int, k: nat)
    requires Fits(c, net) && PositiveExp(math)
    requires 0 <= target < c.numClasses && |ids| > 0 ==> BB.IdsInRange(net, ids)
    requires k < net.emb.rows && k !in ids
    ensures Row(TrainExample(c, net, math, ids, target).net.emb, k) == Row(net.emb, k)
  {
    if 0 <= target < c.numClasses && |ids| > 0 {
      var h := BB.Forward(net, ids);
      var grads := Grads(math, Scores(c, h, target), target);
      assert RowsBelow(ids, net.emb.rows);
      ClassLoopOtherRow(c, net, ids, h, grads, c.numClasses, k);
    }
  }

  /**
   * The class loop as written: per class, update the row, then backprop its
   * grad_h. The gradients depend only on the scores, which the loop does
   * not change, so they are handed in precomputed.
   */
  method ClassLoopRun(c: Head, net: BB.Net, ids: seq<int>, h: Vec, grads: seq<real>) returns (rows: seq<Vec>, cur: BB.Net)
    requires LoopReady(c, net, ids, h, grads)
    ensures Progress(rows, cur) == ClassLoop(c, net, ids, h, grads, c.numClasses)
  {
    rows := c.protos;
    cur := net;
    var k := 0;
    while k < c.numClasses
      invariant 0 <= k <= c.numClasses
      invariant Progress(rows, cur) == ClassLoop(c, net, ids, h, grads, k)
    {
      var g := grads[k];
      ClassStepAt(c, ids, h, grads, rows, cur, k, g);
      rows := rows[k := Moved(rows[k], h, c.lr, g)];
      var gradH := Scaled(rows[k], Descent(c.lr, g));
      cur := Backprop(cur, c.dim, ids, gradH);
      k := k + 1;
    }
  }

  /** trainExample as written: forward, score, then the class loop. */
  method TrainExampleLoop(c: Head, net: BB.Net, math: Math, ids: seq<int>, target: int) returns (r: Trained)
    requires Fits(c, net) && PositiveExp(math)
    requires 0 <= target < c.numClasses && |ids| > 0 ==> BB.IdsInRange(net, ids)
    ensures r == TrainExample(c, net, math, ids, target)
  {
    if target < 0 || target >= c.numClasses || |ids| == 0 {
      return Trained(0.0, c, net);
    }
    var h := BB.ForwardLoop(net, ids);
    var s := Scores(c, h, target);
    var loss := Loss(math, s, target);
    var grads := Grads(math, s, target);
    assert RowsBelow(ids, net.emb.rows);
    var rows, cur := ClassLoopRun(c, net, ids, h, grads);
    r := Trained(loss, c.(protos := rows), cur);
  }

  /** The result of trainExampleWithSentence, with the gradient handed to the sentence encoder. */
  datatype SentenceTrained = SentenceTrained(loss: real, head: Head, gradH: Vec, net: BB.Net)

  /** Backprop the same grad_h for each word's ids, skipping words without ids. */
  function BackpropWords(net: BB.Net, dim: nat, words: seq<seq<int>>, gh: Vec): (r: BB.Net)
    requires BB.Valid(net) && net.emb.cols == dim && |gh| >= dim
    requires forall i :: 0 <= i < |words| ==> RowsBelow(words[i], net.emb.rows)
    ensures SameShape(net, r)
  {
    if |words| == 0 then net
    else
      var init := words[..|words| - 1];
      assert forall i :: 0 <= i < |init| ==> init[i] == words[i];
      var prev := BackpropWords(net, dim, init, gh);
      var ids := words[|words| - 1];
      if |ids| == 0 then prev else Backprop(prev, dim, ids, gh)
  }

  /**
   * trainExampleWithSentence with the sentence encoder's encode output h
   * given and its update left out: the prototypes move as in
   * trainExampleWithVector, grad_h is the sum of the per-class gradients
   * (each from its updated row), and every word with ids is backpropagated
   * with that one grad_h. An out-of-range label or no words return 0.
   */
  function WithSentence(c: Head, net: BB.Net, math: Math, h: Vec, wordCount: nat, words: seq<seq<int>>, target: int): (r: SentenceTrained)
    requires Fits(c, net) && PositiveExp(math) && |h| >= c.dim
    requires forall i :: 0 <= i < |words| ==> RowsBelow(words[i], net.emb.rows)
    ensures Fits(r.head, r.net) && SameShape(net, r.net) && |r.gradH| == c.dim
    ensures !(0 <= target < c.numClasses) || wordCount == 0 ==> r == SentenceTrained(0.0, c, Zeros(c.dim), net)
    ensures 0 <= target < c.numClasses && wordCount > 0 ==>
              r.head == WithVector(c, math, h, target).head && r.loss == WithVector(c, math, h, target).loss
  {
    if target < 0 || target >= c.numClasses || wordCount == 0 then SentenceTrained(0.0, c, Zeros(c.dim), net)
    else
      var step := WithVector(c, math, h, target);
      var gradH := Total(ClassGradH(c, h, Grads(math, Scores(c, h, target), target)), c.dim);
      SentenceTrained(step.loss, step.head, gradH, BackpropWords(net, c.dim, words, gradH))
  }

  /** Entry j of grad_h sums the classes' updated rows at j, each times -lr * grad_k. */
  lemma WithSentenceGradH(c: Head, net: BB.Net, math: Math, h: Vec, wordCount: nat, words: seq<seq<int>>, target: nat, j: nat)
    requires Fits(c, net) && PositiveExp(math) && |h| >= c.dim
    requires forall i :: 0 <= i < |words| ==> RowsBelow(words[i], net.emb.rows)
    requires target < c.numClasses && wordCount > 0 && j < c.dim
    ensures WithSentence(c, net, math, h, wordCount, words, target).gradH[j]
         == Column(ClassGradH(c, h, Grads(math, Scores(c, h, target), target)), j)
  {
    TotalAt(ClassGradH(c, h, Grads(math, Scores(c, h, target), target)), c.dim, j);
  }
}

=== FILE: layer_config.dfy ===
/**
 * core/model_config.h: the layer switches of a model, the seven
 * component-size estimates and their total, the dependency rule applied
 * after a config file is read, and the ModelConfigs presets.
 *
 * Sizes are size_t: an int product is converted to size_t (a negative
 * value wraps to 2^64 + value), multiplied by sizeof(float) and summed,
 * all modulo 2^64. The int products themselves are taken exact.
 */
module LayerConfig {
  import opened Floats

  const SizeMod: nat := 0x1_0000_0000_0000_0000

  /** Conversion of an int to size_t. */
  function SizeT(x: int): (r: nat)
    ensures r < SizeMod && (0 <= x < SizeMod ==> r == x)
  {
    x % SizeMod
  }

  /** n * sizeof(float) in size_t, for an int count n. */
  function FloatBytes(n: int): (r: nat)
    ensures r < SizeMod && (0 <= n && 4 * n < SizeMod ==> r == 4 * n)
  {
    (SizeT(n) * 4) % SizeMod
  }

  datatype LayerConfig = LayerConfig(
    useWordEmbeddings: bool,
    useCharNgrams: bool,
    useGrammarUnits: bool,
    usePhonetic: bool,
    useVectorAttention: bool,
    useSentenceEncoder: bool,
    usePositionEncoding: bool,
    useSelfAttention: bool,
    dim: int,
    vocabSize: int,
    bucketSize: int,
    minn: int,
    maxn: int,
    numClasses: int,
    useSparseMatrices: bool,
    useQuantization: bool,
    pruningThreshold: Float)

  /** The default member initialisers. */
  const Default := LayerConfig(
    true, true, true, true, true, false, false, false,
    100, 10000, 2000000, 3, 6, 10, true, false, Num(0.0001))

  /** "size /= 4" under quantization, then "size /= 10" under sparse storage. */
  function Reduce(size: nat, quantized: bool, sparse: bool): (r: nat)
    ensures r <= size
    ensures quantized && sparse ==> r == size / 40
    ensures !quantized && !sparse ==> r == size
  {
    var q := if quantized then size / 4 else size;
    if sparse then q / 10 else q
  }

  /** Applying the two divisions in the other order gives the same size. */
  lemma ReduceOrder(size: nat, quantized: bool, sparse: bool)
    ensures Reduce(size, quantized, sparse)
            == (var s := if sparse then size / 10 else size; if quantized then s / 4 else s)
  {
    if quantized && sparse {
      var q, r := size / 40, size % 40;
      assert size == 40 * q + r;
      assert size / 4 == 10 * q + r / 4;
      assert size / 10 == 4 * q + r / 10;
    }
  }

  /** calculateWordEmbeddingsSize */
  function WordEmbeddingsSize(c: LayerConfig): (r: nat)
    ensures !c.useWordEmbeddings ==> r == 0
    ensures r <= FloatBytes(c.vocabSize * c.dim)
  {
    if !c.useWordEmbeddings then 0
    else Reduce(FloatBytes(c.vocabSize * c.dim), c.useQuantization, c.useSparseMatrices)
  }

  /** calculateCharNgramsSize */
  function CharNgramsSize(c: LayerConfig): (r: nat)
    ensures !c.useCharNgrams ==> r == 0
    ensures r <= FloatBytes(c.bucketSize * c.dim)
  {
    if !c.useCharNgrams then 0
    else Reduce(FloatBytes(c.bucketSize * c.dim), c.useQuantization, c.useSparseMatrices)
  }

  /** calculateGrammarSize: an allowance of 100 grammar units. */
  function GrammarSize(c: LayerConfig): (r: nat)
    ensures !c.useGrammarUnits ==> r == 0
    ensures r <= FloatBytes(100 * c.dim)
  {
    if !c.useGrammarUnits then 0
    else Reduce(FloatBytes(100 * c.dim), c.useQuantization, c.useSparseMatrices)
  }

  /** calculatePhoneticSize: an allowance of 50 phonetic units. */
  function PhoneticSize(c: LayerConfig): (r: nat)
    ensures !c.usePhonetic ==> r == 0
    ensures r <= FloatBytes(50 * c.dim)
  {
    if !c.usePhonetic then 0
    else Reduce(FloatBytes(50 * c.dim), c.useQuantization, c.useSparseMatrices)
  }

  /** calculateVectorAttentionSize: dim floats, never reduced. */
  function VectorAttentionSize(c: LayerConfig): (r: nat)
    ensures !c.useVectorAttention ==> r == 0
    ensures c.useVectorAttention && 0 <= c.dim && 4 * c.dim < SizeMod ==> r == 4 * c.dim
  {
    if !c.useVectorAttention then 0 else FloatBytes(c.dim)
  }

  /** calculateSentenceEncoderSize: the Q, K and V matrices when self-attention is on. */
  function SentenceEncoderSize(c: LayerConfig): (r: nat)
    ensures r > 0 ==> c.useSentenceEncoder && c.useSelfAttention
    ensures r <= FloatBytes(3 * c.dim * c.dim)
  {
    if !c.useSentenceEncoder then 0
    else if c.useSelfAttention then Reduce(FloatBytes(3 * c.dim * c.dim), c.useQuantization, c.useSparseMatrices)
    else 0
  }

  /** calculateClassifierSize: num_classes prototypes, reduced by quantization only. */
  function ClassifierSize(c: LayerConfig): (r: nat)
    ensures r <= FloatBytes(c.numClasses * c.dim)
  {
    Reduce(FloatBytes(c.numClasses * c.dim), c.useQuantization, false)
  }

  /** calculateTotalSize: the seven sizes added in size_t. */
  function TotalSize(c: LayerConfig): (r: nat)
    ensures r < SizeMod
  {
    (WordEmbeddingsSize(c) + CharNgramsSize(c) + GrammarSize(c) + PhoneticSize(c)
     + VectorAttentionSize(c) + SentenceEncoderSize(c) + ClassifierSize(c)) % SizeMod
  }

  /** The classifier estimate ignores the sparse-storage switch. */
  lemma ClassifierIgnoresSparsity(c: LayerConfig)
    ensures ClassifierSize(c) == ClassifierSize(c.(useSparseMatrices := !c.useSparseMatrices))
    ensures c.useQuantization ==> ClassifierSize(c) == FloatBytes(c.numClasses * c.dim) / 4
  {
  }

  /** The layer switches alone: the estimates with every layer off leave only the classifier. */
  lemma AllLayersOff(c: LayerConfig)
    requires !c.useWordEmbeddings && !c.useCharNgrams && !c.useGrammarUnits && !c.usePhonetic
    requires !c.useVectorAttention && !c.useSentenceEncoder
    ensures TotalSize(c) == ClassifierSize(c)
  {
    var k := ClassifierSize(c);
    assert WordEmbeddingsSize(c) + CharNgramsSize(c) + GrammarSize(c) + PhoneticSize(c)
           + VectorAttentionSize(c) + SentenceEncoderSize(c) == 0;
    assert 0 <= k < SizeMod;
  }

  /** The rule applied after loading a config file: the sentence encoder needs position encoding and self-attention. */
  function WithDependencies(c: LayerConfig): (r: LayerConfig)
    ensures r.useSentenceEncoder ==> r.usePositionEncoding && r.useSelfAttention
    ensures r.useSentenceEncoder == c.useSentenceEncoder
    ensures !c.useSentenceEncoder ==> r == c
    ensures exists p, s :: r == c.(usePositionEncoding := p, useSelfAttention := s)
  {
    if c.useSentenceEncoder then c.(usePositionEncoding := true, useSelfAttention := true) else c
  }

  /** Applying the rule twice changes nothing more, and afterwards the encoder's size is its Q, K, V estimate exactly when it is on. */
  lemma DependenciesSettle(c: LayerConfig)
    ensures WithDependencies(WithDependencies(c)) == WithDependencies(c)
    ensures var r := WithDependencies(c);
            SentenceEncoderSize(r)
            == if c.useSentenceEncoder then Reduce(FloatBytes(3 * c.dim * c.dim), c.useQuantization, c.useSparseMatrices) else 0
  {
  }

  /** ModelConfigs::minimal */
  function Minimal(): (r: LayerConfig) {
    Default.(useWordEmbeddings := true, useCharNgrams := false, useGrammarUnits := false,
             usePhonetic := false, useVectorAttention := false, useSentenceEncoder := false, dim := 30)
  }

  /** ModelConfigs::compact */
  function Compact(): (r: LayerConfig) {
    Default.(useWordEmbeddings := true, useCharNgrams := true, useGrammarUnits := false,
             usePhonetic := false, useVectorAttention := false, useSentenceEncoder := false, dim := 30,
             useSparseMatrices := true)
  }

  /** ModelConfigs::standard */
  function Standard(): (r: LayerConfig) {
    Default.(useWordEmbeddings := true, useCharNgrams := true, useGrammarUnits := true,
             usePhonetic := true, useVectorAttention := true, useSentenceEncoder := false, dim := 100)
  }

  /** ModelConfigs::full */
  function Full(): (r: LayerConfig) {
    Default.(useWordEmbeddings := true, useCharNgrams := true, useGrammarUnits := true,
             usePhonetic := true, useVectorAttention := true, useSentenceEncoder := true,
             usePositionEncoding := true, useSelfAttention := true, dim := 100)
  }

  /** ModelConfigs::tiny */
  function Tiny(): (r: LayerConfig) {
    Full().(dim := 30, useSparseMatrices := true, pruningThreshold := Num(0.0001))
  }

  /** Which layers each preset turns on, and that every preset already obeys the dependency rule. */
  lemma PresetLayers()
    ensures var m := Minimal();
            m.useWordEmbeddings && !m.useCharNgrams && !m.useGrammarUnits && !m.usePhonetic
            && !m.useVectorAttention && !m.useSentenceEncoder && m.dim == 30
    ensures Tiny() == Full().(dim := 30, useSparseMatrices := true, pruningThreshold := Num(0.0001))
    ensures Tiny().useSentenceEncoder && Tiny().useSelfAttention && Tiny().usePositionEncoding
    ensures forall p :: p in [Minimal(), Compact(), Standard(), Full(), Tiny()] ==> WithDependencies(p) == p
  {
  }

  /** The total size estimate of minimal(), in bytes: 10000 words and 10 classes at dim 30, sparse. */
  lemma MinimalSize()
    ensures TotalSize(Minimal()) == 121200
  {
    var c := Minimal();
    assert WordEmbeddingsSize(c) == 120000;
    assert ClassifierSize(c) == 1200;
  }

  /** The total size estimate of compact(): minimal plus 2000000 n-gram buckets. */
  lemma CompactSize()
    ensures TotalSize(Compact()) == 24121200
  {
    var c := Compact();
    assert WordEmbeddingsSize(c) == 120000;
    assert CharNgramsSize(c) == 24000000;
    assert ClassifierSize(c) == 1200;
  }

  /** The total size estimate of standard(): every layer but the sentence encoder at dim 100. */
  lemma StandardSize()
    ensures TotalSize(Standard()) == 80410400
  {
    var c := Standard();
    assert WordEmbeddingsSize(c) == 400000;
    assert CharNgramsSize(c) == 80000000;
    assert GrammarSize(c) == 4000;
    assert PhoneticSize(c) == 2000;
    assert VectorAttentionSize(c) == 400;
    assert SentenceEncoderSize(c) == 0;
    assert ClassifierSize(c) == 4000;
  }

  /** The total size estimate of full(): standard plus the Q, K, V matrices. */
  lemma FullSize()
    ensures TotalSize(Full()) == 80422400
  {
    var c := Full();
    assert WordEmbeddingsSize(c) == 400000;
    assert CharNgramsSize(c) == 80000000;
    assert GrammarSize(c) == 4000;
    assert PhoneticSize(c) == 2000;
    assert VectorAttentionSize(c) == 400;
    assert SentenceEncoderSize(c) == 12000;
    assert ClassifierSize(c) == 4000;
  }

  /** The total size estimate of tiny(): full at dim 30. */
  lemma TinySize()
    ensures TotalSize(Tiny()) == 24124200
  {
    var c := Tiny();
    assert WordEmbeddingsSize(c) == 120000;
    assert CharNgramsSize(c) == 24000000;
    assert GrammarSize(c) == 1200;
    assert PhoneticSize(c) == 600;
    assert VectorAttentionSize(c) == 120;
    assert SentenceEncoderSize(c) == 1080;
    assert ClassifierSize(c) == 1200;
  }
}

=== FILE: linear_classifier.dfy ===
/**
 * LinearClassifier (core/classifier/linear_classifier.cc): logits are a
 * bias plus a row-major weight matrix times the input, and backward_sgd
 * takes one plain gradient step on the weights and biases, optionally
 * returning the gradient with respect to the input, computed from the
 * weights as they were before the step.
 */
module LinearClassifiers {
  import opened Common
  import opened Vectors
  import opened VectorSums
  import ET = EmbeddingTables

  /**
   * weights_ holds num_classes rows of input_dim floats (row c starts at
   * c * input_dim); the model keeps the rows apart. bias_ has one entry per class.
   */
  datatype Linear = Linear(inputDim: nat, numClasses: nat, rows: seq<Vec>, bias: Vec)

  predicate Valid(m: Linear) {
    |m.rows| == m.numClasses && |m.bias| == m.numClasses
    && forall c :: 0 <= c < |m.rows| ==> |m.rows[c]| == m.inputDim
  }

  /**
   * The constructor: the weights are drawn in storage order, each scaled
   * into [-bound, bound] with bound = sqrt(1 / input_dim), as for an
   * embedding table of num_classes rows; every bias is 0.
   */
  function Init(inputDim: nat, numClasses: nat, bound: real, draws: seq<real>): (m: Linear)
    requires |draws| == numClasses * inputDim
    ensures Valid(m) && m.inputDim == inputDim && m.numClasses == numClasses
    ensures m.bias == Zeros(numClasses)
  {
    var t := ET.Init(numClasses, inputDim, bound, draws);
    Linear(inputDim, numClasses, seq(numClasses, c requires 0 <= c < numClasses => ET.Row(t, c)), Zeros(numClasses))
  }

  /** Every initial weight lies in [-bound, bound]. */
  lemma InitBounds(inputDim: nat, numClasses: nat, bound: real, draws: seq<real>, c: nat, j: nat)
    requires |draws| == numClasses * inputDim && bound >= 0.0
    requires forall k :: 0 <= k < |draws| ==> 0.0 <= draws[k] < 1.0
    requires c < numClasses && j < inputDim
    ensures -bound <= Init(inputDim, numClasses, bound, draws).rows[c][j] <= bound
  {
    var t := ET.Init(numClasses, inputDim, bound, draws);
    ET.InitBounds(numClasses, inputDim, bound, draws);
    assert Init(inputDim, numClasses, bound, draws).rows[c][j] == t.data[ET.RowOffset(t, c) + j];
  }

  /** The score of class c: bias[c] plus row c of the weights dotted with the input. */
  function Logit(m: Linear, x: Vec, c: nat): real
    requires Valid(m) && |x| >= m.inputDim && c < m.numClasses
  {
    m.bias[c] + Dot(m.rows[c], x)
  }

  /** The reference definition of forward: one logit per class. */
  function Forward(m: Linear, x: Vec): (logits: Vec)
    requires Valid(m) && |x| >= m.inputDim
    ensures |logits| == m.numClasses
    ensures forall c :: 0 <= c < m.numClasses ==> logits[c] == Logit(m, x, c)
  {
    seq(m.numClasses, c requires 0 <= c < m.numClasses => Logit(m, x, c))
  }

  /** forward as written, one class at a time. */
  method ForwardLoop(m: Linear, x: Vec) returns (logits: Vec)
    requires Valid(m) && |x| >= m.inputDim
    ensures logits == Forward(m, x)
  {
    logits := [];
    var c := 0;
    while c < m.numClasses
      invariant 0 <= c <= m.numClasses
      invariant |logits| == c
      invariant forall k :: 0 <= k < c ==> logits[k] == Logit(m, x, k)
    {
      var sum := LogitLoop(m, x, c);
      logits := logits + [sum];
      c := c + 1;
    }
  }

  /** The inner loop: sum starts at the bias and adds row[j] * input[j] for each j. */
  method LogitLoop(m: Linear, x: Vec, c: nat) returns (sum: real)
    requires Valid(m) && |x| >= m.inputDim && c < m.numClasses
    ensures sum == Logit(m, x, c)
  {
    var row := m.rows[c];
    sum := m.bias[c];
    var j := 0;
    while j < m.inputDim
      invariant 0 <= j <= m.inputDim
      invariant sum == m.bias[c] + Dot(row[..j], x)
    {
      DotSnoc(row, x, j);
      sum := sum + row[j] * x[j];
      j := j + 1;
    }
    assert row[..j] == row;
  }

  /** A fresh classifier has zero biases, so it maps the zero input to zero logits. */
  lemma FreshZeroInput(m: Linear)
    requires Valid(m) && m.bias == Zeros(m.numClasses)
    ensures Forward(m, Zeros(m.inputDim)) == Zeros(m.numClasses)
  {
    forall c | 0 <= c < m.numClasses
      ensures Logit(m, Zeros(m.inputDim), c) == 0.0
    {
      DotSymmetric(m.rows[c], Zeros(m.inputDim));
      DotZeros(m.inputDim, m.rows[c]);
    }
  }

  /** Row c after its step, W[c][j] -= lr * g[c] * x[j]. */
  function StepRow(m: Linear, x: Vec, g: Vec, lr: real, c: nat): (r: Vec)
    requires Valid(m) && |x| >= m.inputDim && |g| >= m.numClasses && c < m.numClasses
    ensures |r| == m.inputDim
  {
    Plus(m.rows[c], x, -(lr * g[c]))
  }

  /** The biases after their step, bias[c] -= lr * g[c]. */
  function StepBias(bias: Vec, g: Vec, lr: real): (r: Vec)
    requires |g| >= |bias|
    ensures |r| == |bias| && forall c :: 0 <= c < |bias| ==> r[c] == bias[c] - lr * g[c]
  {
    seq(|bias|, c requires 0 <= c < |bias| => bias[c] - lr * g[c])
  }

  /** The classifier after backward_sgd. */
  function Update(m: Linear, x: Vec, g: Vec, lr: real): (r: Linear)
    requires Valid(m) && |x| >= m.inputDim && |g| >= m.numClasses
    ensures Valid(r) && r.inputDim == m.inputDim && r.numClasses == m.numClasses
    ensures forall c :: 0 <= c < m.numClasses ==> r.rows[c] == StepRow(m, x, g, lr, c)
    ensures r.bias == StepBias(m.bias, g, lr)
  {
    m.(rows := seq(m.numClasses, c requires 0 <= c < m.numClasses => StepRow(m, x, g, lr, c)),
       bias := StepBias(m.bias, g, lr))
  }

  /** Row c of the weights, scaled by g[c]: its contribution to the input gradient. */
  function Grads(m: Linear, g: Vec): (r: seq<Vec>)
    requires Valid(m) && |g| >= m.numClasses
    ensures |r| == m.numClasses && AllLong(r, m.inputDim)
    ensures forall c :: 0 <= c < m.numClasses ==> r[c] == Scaled(m.rows[c], g[c])
  {
    seq(m.numClasses, c requires 0 <= c < m.numClasses => Scaled(m.rows[c], g[c]))
  }

  /** dinput: the sum over classes of W[c] * g[c], with the weights before the step. */
  function InputGrad(m: Linear, g: Vec): (r: Vec)
    requires Valid(m) && |g| >= m.numClasses
    ensures |r| == m.inputDim
  {
    Total(Grads(m, g), m.inputDim)
  }

  /**
   * backward_sgd as written. `wantInput` says whether dinput is non-null;
   * when it is not, no input gradient is produced. Each row is read for
   * dinput before it is stepped.
   */
  method BackwardSgd(m: Linear, x: Vec, g: Vec, wantInput: bool, lr: real) returns (r: Linear, dinput: Option<Vec>)
    requires Valid(m) && |x| >= m.inputDim && |g| >= m.numClasses
    ensures r == Update(m, x, g, lr)
    ensures dinput == if wantInput then Some(InputGrad(m, g)) else None
  {
    var rows := m.rows;
    var bias := m.bias;
    var acc := Zeros(m.inputDim);
    var c := 0;
    while c < m.numClasses
      invariant 0 <= c <= m.numClasses
      invariant Stepped(m, x, g, lr, rows, bias, c)
      invariant acc == Total(Grads(m, g)[..c], m.inputDim)
    {
      var gradC := g[c];
      var row := rows[c];
      AccumulateStep(m, g, acc, c);
      acc := Plus(acc, Scaled(row, gradC), 1.0);
      SteppedNext(m, x, g, lr, rows, bias, c);
      rows := rows[c := StepRow(m, x, g, lr, c)];
      bias := bias[c := bias[c] - lr * gradC];
      c := c + 1;
    }
    assert Grads(m, g)[..c] == Grads(m, g);
    SteppedAll(m, x, g, lr, rows, bias);
    r := m.(rows := rows, bias := bias);
    dinput := if wantInput then Some(acc) else None;
  }

  /** dinput[j] += row[j] * grad_c for every j: one more class in the input gradient. */
  lemma AccumulateStep(m: Linear, g: Vec, acc: Vec, c: nat)
    requires Valid(m) && |g| >= m.numClasses && c < m.numClasses
    requires acc == Total(Grads(m, g)[..c], m.inputDim)
    ensures Plus(acc, Scaled(m.rows[c], g[c]), 1.0) == Total(Grads(m, g)[..c + 1], m.inputDim)
  {
    TotalSnoc(Grads(m, g), m.inputDim, c);
  }

  /** The rows and biases below c have taken their step; the others are as they were. */
  predicate Stepped(m: Linear, x: Vec, g: Vec, lr: real, rows: seq<Vec>, bias: Vec, c: nat)
    requires Valid(m) && |x| >= m.inputDim && |g| >= m.numClasses
  {
    c <= m.numClasses && |rows| == m.numClasses && |bias| == m.numClasses
    && (forall k :: 0 <= k < c ==> rows[k] == StepRow(m, x, g, lr, k))
    && (forall k :: 0 <= k < c ==> bias[k] == m.bias[k] - lr * g[k])
    && (forall k :: c <= k < m.numClasses ==> rows[k] == m.rows[k])
    && (forall k :: c <= k < m.numClasses ==> bias[k] == m.bias[k])
  }

  lemma SteppedNext(m: Linear, x: Vec, g: Vec, lr: real, rows: seq<Vec>, bias: Vec, c: nat)
    requires Valid(m) && |x| >= m.inputDim && |g| >= m.numClasses && c < m.numClasses
    requires Stepped(m, x, g, lr, rows, bias, c)
    ensures Stepped(m, x, g, lr, rows[c := StepRow(m, x, g, lr, c)], bias[c := bias[c] - lr * g[c]], c + 1)
  {
  }

  lemma SteppedAll(m: Linear, x: Vec, g: Vec, lr: real, rows: seq<Vec>, bias: Vec)
    requires Valid(m) && |x| >= m.inputDim && |g| >= m.numClasses
    requires Stepped(m, x, g, lr, rows, bias, m.numClasses)
    ensures m.(rows := rows, bias := bias) == Update(m, x, g, lr)
  {
    var after := Update(m, x, g, lr);
    assert rows == after.rows;
    assert bias == after.bias;
  }

  /** Entry j of the input gradient is the sum over classes of W_old[c][j] * g[c]. */
  lemma InputGradAt(m: Linear, g: Vec, j: nat)
    requires Valid(m) && |g| >= m.numClasses && j < m.inputDim
    ensures InputGrad(m, g)[j] == Column(Grads(m, g), j)
    ensures forall c :: 0 <= c < m.numClasses ==> Grads(m, g)[c][j] == m.rows[c][j] * g[c]
  {
    TotalAt(Grads(m, g), m.inputDim, j);
  }

  /** A zero learning rate leaves every weight and bias as it was. */
  lemma ZeroRate(m: Linear, x: Vec, g: Vec)
    requires Valid(m) && |x| >= m.inputDim && |g| >= m.numClasses
    ensures Update(m, x, g, 0.0) == m
  {
    var r := Update(m, x, g, 0.0);
    forall c | 0 <= c < m.numClasses
      ensures r.rows[c] == m.rows[c]
    {
      PlusNoScale(m.rows[c], x);
    }
    assert r.rows == m.rows;
  }

  /**
   * One update on x moves logit c on the same x by exactly
   * -lr * g[c] * (|x|^2 + 1), where |x|^2 sums the first input_dim entries.
   */
  lemma LogitChange(m: Linear, x: Vec, g: Vec, lr: real, c: nat)
    requires Valid(m) && |x| >= m.inputDim && |g| >= m.numClasses && c < m.numClasses
    ensures Logit(Update(m, x, g, lr), x, c)
         == Logit(m, x, c) - lr * g[c] * (Dot(x[..m.inputDim], x[..m.inputDim]) + 1.0)
  {
    var row := m.rows[c];
    var s := -(lr * g[c]);
    var xs := x[..m.inputDim];
    DotPlus(row, x, s, x);
    DotScaled(xs, s, x);
    DotPrefix(xs, x);
    assert x[..|xs|] == xs;
    StepAlgebra(m.bias[c], Dot(row, x), lr, g[c], Dot(xs, xs));
  }

  /** The ring identity behind LogitChange. */
  lemma StepAlgebra(b: real, d: real, lr: real, gc: real, n: real)
    ensures (b - lr * gc) + (d + -(lr * gc) * n) == (b + d) - lr * gc * (n + 1.0)
  {
  }
}

=== FILE: mean_sentence_encoder.dfy ===
/**
 * MeanSentenceEncoder (core/encoder/mean_sentence_encoder.cc): the mean of
 * the word encodings of a sentence's tokens, or zeros for no tokens.
 */
module MeanSentenceEncoders {
  import opened Common
  import opened Vectors
  import opened VectorSums
  import WE = WordEncoders

  /** The word encoder as a total function; it is only applied with a valid encoder. */
  function EncodeWith(e: WE.Encoder): string -> Vec {
    (t: string) => if WE.Valid(e) then WE.Encode(e, t) else []
  }

  /** The word encodings of the tokens, in order. */
  function Encodings(e: WE.Encoder, tokens: seq<string>): (r: seq<Vec>)
    requires WE.Valid(e)
    ensures |r| == |tokens| && AllLong(r, WE.Dim(e))
  {
    MapSeq(EncodeWith(e), tokens)
  }

  /** The k-th encoding is the k-th token's word encoding. */
  lemma EncodingsAt(e: WE.Encoder, tokens: seq<string>, k: nat)
    requires WE.Valid(e) && k < |tokens|
    ensures Encodings(e, tokens)[k] == WE.Encode(e, tokens[k])
  {
  }

  /** MeanSentenceEncoder::encode; dim() is the word encoder's dim. */
  function Encode(e: WE.Encoder, tokens: seq<string>): (out: Vec)
    requires WE.Valid(e)
    ensures |out| == WE.Dim(e)
  {
    Mean(Encodings(e, tokens), WE.Dim(e))
  }

  /**
   * encode as written: zero the output, return early for no tokens, add
   * each word encoding, then multiply by inv = 1 / |tokens|.
   */
  method EncodeLoop(e: WE.Encoder, tokens: seq<string>) returns (out: Vec)
    requires WE.Valid(e)
    ensures out == Encode(e, tokens)
  {
    var dim := WE.Dim(e);
    out := Zeros(dim);
    if |tokens| == 0 {
      return;
    }
    ghost var encs := Encodings(e, tokens);
    var i := 0;
    while i < |tokens|
      invariant 0 <= i <= |tokens|
      invariant out == Total(encs[..i], dim)
    {
      var scratch := WE.EncodeLoop(e, tokens[i]);
      EncodingsAt(e, tokens, i);
      TotalSnoc(encs, dim, i);
      out := Plus(out, scratch, 1.0);
      i := i + 1;
    }
    assert encs[..i] == encs;
    var inv := 1.0 / (|tokens| as real);
    out := Scaled(out, inv);
  }

  /** Entry j is the sum of the tokens' encodings at j divided by their number; 0 with no tokens. */
  lemma EncodeAt(e: WE.Encoder, tokens: seq<string>, j: nat)
    requires WE.Valid(e) && j < WE.Dim(e)
    ensures Encode(e, tokens)[j]
         == if |tokens| > 0 then Column(Encodings(e, tokens), j) / (|tokens| as real) else 0.0
  {
    MeanAt(Encodings(e, tokens), WE.Dim(e), j);
  }

  /** No tokens: the zero vector. */
  lemma NoTokens(e: WE.Encoder)
    requires WE.Valid(e)
    ensures Encode(e, []) == Zeros(WE.Dim(e))
  {
    assert Encodings(e, []) == [];
  }

  /** A one-token sentence encodes as that token's word encoding. */
  lemma SingleToken(e: WE.Encoder, token: string)
    requires WE.Valid(e)
    ensures Encode(e, [token]) == WE.Encode(e, token)
  {
    var v := WE.Encode(e, token);
    EncodingsAt(e, [token], 0);
    assert Encodings(e, [token]) == [v];
    TotalSingle(v, WE.Dim(e));
    assert v[..WE.Dim(e)] == v;
    ScaledTwice(v, 1.0, 1.0);
  }

  /** Reordering the tokens does not change the encoding. */
  lemma TokenPermutation(e: WE.Encoder, a: seq<string>, b: seq<string>)
    requires WE.Valid(e) && multiset(a) == multiset(b)
    ensures Encode(e, a) == Encode(e, b)
  {
    assert |a| == |multiset(a)| == |b|;
    MapPermutation(EncodeWith(e), a, b);
    TotalPermutation(Encodings(e, a), Encodings(e, b), WE.Dim(e));
  }

  /** Saying the sentence twice does not change its mean. */
  lemma Doubled(e: WE.Encoder, tokens: seq<string>)
    requires WE.Valid(e)
    ensures Encode(e, tokens + tokens) == Encode(e, tokens)
  {
    var encs := Encodings(e, tokens);
    MapAppend(EncodeWith(e), tokens, tokens);
    MeanDoubled(encs, WE.Dim(e));
  }

  /** ["test", "test"] encodes as ["test"]. */
  lemma RepeatedToken(e: WE.Encoder, token: string)
    requires WE.Valid(e)
    ensures Encode(e, [token, token]) == Encode(e, [token])
  {
    assert [token, token] == [token] + [token];
    Doubled(e, [token]);
  }
}

=== FILE: model_files.dfy ===
/**
 * The dense (GALD) and supervised (GALS) model files of the trainer, and the
 * two readers of them: the trainer's loader of a pretrained model and the
 * inference tool's loader.
 *
 * GALD: magic, dim, minn, maxn, bucket, the words in id order, the embedding
 * block, the attention block. GALS: the same header, then a sentence-encoder
 * flag, the words, the labels, the embedding, attention and prototype
 * blocks, and, when the flag is set, the encoder's query, key and value
 * matrices. Both readers skip the flag, so they read a GALS file one int out
 * of step; the corrected reader below reads it.
 */
module ModelFiles {
  import opened Common
  import opened Tokens
  import D = Dictionaries
  import CH = ClassifierHeads

  const MagicDense: int := 0x47414C44       // "GALD"
  const MagicSupervised: int := 0x47414C53  // "GALS"

  /** The four ints after the magic. */
  datatype Header = Header(dim: int, minn: int, maxn: int, bucket: int)

  function HeaderTokens(h: Header): seq<Token> {
    [I32(h.dim), I32(h.minn), I32(h.maxn), I32(h.bucket)]
  }

  /** dim, minn, maxn and bucket, read one after another. */
  function ReadHeader(t: seq<Token>): (r: Result<Read<Header>>)
    ensures r.Ok? <==> |t| >= 4 && t[0].I32? && t[1].I32? && t[2].I32? && t[3].I32?
    ensures r.Ok? ==> t[..4] == HeaderTokens(r.value.value) && r.value.rest == t[4..]
  {
    var dim :- ReadInt(t);
    var minn :- ReadInt(dim.rest);
    var maxn :- ReadInt(minn.rest);
    var bucket :- ReadInt(maxn.rest);
    Ok(Read(Header(dim.value, minn.value, maxn.value, bucket.value), bucket.rest))
  }

  lemma HeaderRoundTrip(h: Header, rest: seq<Token>)
    ensures ReadHeader(HeaderTokens(h) + rest) == Ok(Read(h, rest))
  {
    var t := HeaderTokens(h) + rest;
    assert t[..4] == HeaderTokens(h) && t[4..] == rest;
  }

  /** A count, then that many length-prefixed strings. */
  function ListTokens(ss: seq<string>): seq<Token> {
    [I32(|ss|)] + StringsTokens(ss)
  }

  function ReadList(t: seq<Token>): (r: Result<Read<seq<string>>>)
    ensures r.Ok? ==> |t| > 0 && t[0].I32? && |r.value.value| == Max(t[0].i, 0)
  {
    var n :- ReadInt(t);
    ReadStrings(n.rest, n.value)
  }

  lemma ListRoundTrip(ss: seq<string>, rest: seq<Token>)
    ensures ReadList(ListTokens(ss) + rest) == Ok(Read(ss, rest))
  {
    var t := ListTokens(ss) + rest;
    assert t[1..] == StringsTokens(ss) + rest;
    StringsRoundTrip(ss, rest);
  }

  /** The sentence encoder's query, key and value matrices, each dim × dim, row-major. */
  datatype SelfAttention = SelfAttention(dim: int, query: seq<real>, key: seq<real>, value: seq<real>)

  predicate Square(a: SelfAttention) {
    a.dim >= 0 && |a.query| == a.dim * a.dim && |a.key| == a.dim * a.dim && |a.value| == a.dim * a.dim
  }

  /** What the dense trainer saves: the dictionary's id2word and the two weight buffers. */
  datatype DenseModel = DenseModel(header: Header, words: seq<string>, emb: seq<real>, att: seq<real>)

  /** What the supervised trainer saves; the encoder is present iff useSentenceEncoder. */
  datatype SupervisedModel = SupervisedModel(header: Header, words: seq<string>, labels: seq<string>,
                                             emb: seq<real>, att: seq<real>, protos: seq<real>,
                                             encoder: Option<SelfAttention>)

  /** The GALD writer. */
  function WriteDense(m: DenseModel): (t: seq<Token>)
    ensures |t| == 8 + 2 * |m.words| + |m.emb| + |m.att| && t[0] == I32(MagicDense)
    ensures t[1..5] == HeaderTokens(m.header) && t[5] == I32(|m.words|)
  {
    [I32(MagicDense)] + (HeaderTokens(m.header) + (ListTokens(m.words) + (FloatBlock(m.emb) + FloatBlock(m.att))))
  }

  /** The three matrices, dim² floats each, after dim. */
  function EncoderTokens(a: SelfAttention): seq<Token> {
    [I32(a.dim)] + (FloatTokens(a.query) + (FloatTokens(a.key) + FloatTokens(a.value)))
  }

  /** 1 when the sentence encoder is saved, 0 otherwise. */
  function Flag(e: Option<SelfAttention>): int {
    if e.Some? then 1 else 0
  }

  /** The encoder matrices when there is an encoder, nothing otherwise. */
  function EncoderSection(e: Option<SelfAttention>): seq<Token> {
    if e.Some? then EncoderTokens(e.value) else []
  }

  /** The GALS writer. */
  function WriteSupervised(m: SupervisedModel): (t: seq<Token>)
    ensures |t| >= 11 && t[0] == I32(MagicSupervised) && t[1..5] == HeaderTokens(m.header)
    ensures t[5] == I32(if m.encoder.Some? then 1 else 0) && t[6] == I32(|m.words|)
  {
    [I32(MagicSupervised)] + (HeaderTokens(m.header) + ([I32(Flag(m.encoder))]
    + (ListTokens(m.words) + (ListTokens(m.labels)
    + (FloatBlock(m.emb) + (FloatBlock(m.att) + (FloatBlock(m.protos) + EncoderSection(m.encoder))))))))
  }

  /** The dictionary a loader builds: the words added in file order, then finalize(bucket). */
  function Vocabulary(words: seq<string>, bucket: int): (d: D.Dictionary)
    ensures D.WordsValid(d) && d.bucketSize == bucket && d.bucketOffset == |d.id2word|
    ensures forall w :: D.GetWordId(d, w) == -1 <==> w !in words
  {
    D.AddWordsIds(words);
    D.Finalize(D.AddWords(D.Empty, words), bucket)
  }

  /** A list without repeats, such as a saved id2word, comes back with the same ids. */
  lemma VocabularyIds(words: seq<string>, bucket: int)
    requires D.NoRepeats(words)
    ensures var d := Vocabulary(words, bucket);
            d.id2word == words && forall i :: 0 <= i < |words| ==> D.GetWordId(d, words[i]) == i
  {
    D.AddWordsIds(words);
    D.DedupNoRepeats(words);
  }

  /**
   * std::vector<float>(n), through which Matrix(rows, cols) and Vector(dim)
   * allocate: a negative n converts to a huge size_t and throws
   * std::length_error.
   */
  function Allocate(n: int): (r: Result<nat>)
    ensures r.Ok? <==> n >= 0
    ensures r.Ok? ==> r.value == n
    ensures r.Err? ==> r.error == LengthError
  {
    if n < 0 then Err(LengthError) else Ok(n)
  }

  /** The sizes for which Embeddings(vocabSize, dim) and VectorAttention(dim) both allocate. */
  predicate Allocates(vocabSize: int, dim: int) {
    dim >= 0 && vocabSize * dim >= 0
  }

  /**
   * Classifier(labels.size(), dim, backbone) as the supervised loaders build
   * it, with the default lr and margin, followed by the prototype block read
   * over its random rows; zeros stand in for those draws, which the file's
   * floats replace.
   */
  function ReadPrototypes(t: seq<Token>, classes: int, dim: int): (r: Result<Read<seq<real>>>)
    ensures r.Ok? ==> classes > 0 && dim > 0 && ReadFloatBlock(t) == r
    ensures classes * dim < 0 ==> r == Err(LengthError)
    ensures classes * dim >= 0 && !(classes > 0 && dim > 0) ==> r.Err? && r.error.InvalidArgument?
    ensures classes > 0 && dim > 0 ==> r == ReadFloatBlock(t)
  {
    var n := if classes > 0 && dim > 0 then classes * dim else 0;
    var clf :- CH.NewAsWritten(classes, dim, true, 0.05, 0.2, seq(n, _ => 0.0));
    ReadFloatBlock(t)
  }

  /** The sections every loader of a GALD or GALS file reads after the magic. */
  datatype Body = Body(header: Header, flag: int, dict: D.Dictionary, labels: seq<string>,
                       emb: seq<real>, att: seq<real>)

  /**
   * The header; the sentence flag when readsFlag; the words, added in file
   * order; the labels when supervised; finalize(bucket); then
   * Embeddings(totalSize, dim) and its block, and VectorAttention(dim) and
   * its block.
   */
  function ReadBody(t: seq<Token>, supervised: bool, readsFlag: bool): (r: Result<Read<Body>>)
    ensures r.Ok? ==> var b := r.value.value;
            && b.dict.bucketSize == b.header.bucket && Allocates(D.TotalSize(b.dict), b.header.dim)
            && (!supervised ==> b.labels == []) && (!readsFlag ==> b.flag == 0)
  {
    var header :- ReadHeader(t);
    var flag :- if readsFlag then ReadInt(header.rest) else Ok(Read(0, header.rest));
    var words :- ReadList(flag.rest);
    var labels :- if supervised then ReadList(words.rest) else Ok(Read([], words.rest));
    var dict := Vocabulary(words.value, header.value.bucket);
    var embSize :- Allocate(D.TotalSize(dict) * header.value.dim);
    var emb :- ReadFloatBlock(labels.rest);
    var attSize :- Allocate(header.value.dim);
    var att :- ReadFloatBlock(emb.rest);
    Ok(Read(Body(header.value, flag.value, dict, labels.value, emb.value, att.value), att.rest))
  }

  /** The magic: GALS means supervised, GALD unsupervised, anything else fails. */
  function ReadMagic(t: seq<Token>): (r: Result<Read<bool>>)
    ensures |t| > 0 && t[0].I32? && t[0].i != MagicDense && t[0].i != MagicSupervised ==> r == Err(BadMagic(t[0].i))
    ensures r.Ok? ==> |t| > 0 && (t[0] == I32(MagicDense) || t[0] == I32(MagicSupervised)) && r.value.rest == t[1..]
    ensures r.Ok? ==> (r.value.value <==> t[0] == I32(MagicSupervised))
  {
    var magic :- ReadInt(t);
    var supervised := magic.value == MagicSupervised;
    if !supervised && magic.value != MagicDense then Err(BadMagic(magic.value)) else Ok(Read(supervised, magic.rest))
  }

  /** What loadPretrainedModel fills in. */
  datatype Pretrained = Pretrained(header: Header, dict: D.Dictionary, emb: seq<real>, att: seq<real>)

  /**
   * loadPretrainedModel: GALD or GALS magic, then the body with the labels
   * skipped when the magic is GALS. It reads no sentence flag and builds no
   * classifier.
   */
  function LoadPretrained(t: seq<Token>): (r: Result<Pretrained>)
    ensures |t| > 0 && t[0].I32? && t[0].i != MagicDense && t[0].i != MagicSupervised ==> r == Err(BadMagic(t[0].i))
    ensures r.Ok? ==> |t| > 0 && (t[0] == I32(MagicDense) || t[0] == I32(MagicSupervised))
    ensures r.Ok? ==> r.value.dict.bucketSize == r.value.header.bucket
    ensures r.Ok? ==> Allocates(D.TotalSize(r.value.dict), r.value.header.dim)
  {
    var magic :- ReadMagic(t);
    var body :- ReadBody(magic.rest, magic.value, false);
    var b := body.value;
    Ok(Pretrained(b.header, b.dict, b.emb, b.att))
  }

  /** What Model::load fills in; the sentence encoder is never loaded. */
  datatype Loaded = Loaded(header: Header, supervised: bool, dict: D.Dictionary, labels: seq<string>,
                           emb: seq<real>, att: seq<real>, protos: seq<real>, encoder: Option<SelfAttention>)

  /**
   * Model::load: the magic, the body with the labels when supervised, and
   * when supervised Classifier(labels.size(), dim) and the prototype block.
   */
  function Load(t: seq<Token>): (r: Result<Loaded>)
    ensures |t| > 0 && t[0].I32? && t[0].i != MagicDense && t[0].i != MagicSupervised ==> r == Err(BadMagic(t[0].i))
    ensures r.Ok? ==> |t| > 0 && (r.value.supervised <==> t[0] == I32(MagicSupervised))
    ensures r.Ok? && !r.value.supervised ==> r.value.labels == [] && r.value.protos == []
    ensures r.Ok? ==> r.value.encoder.None?
    ensures r.Ok? ==> Allocates(D.TotalSize(r.value.dict), r.value.header.dim)
    ensures r.Ok? && r.value.supervised ==> |r.value.labels| > 0 && r.value.header.dim > 0
  {
    var supervised :- ReadMagic(t);
    var body :- ReadBody(supervised.rest, supervised.value, false);
    var b := body.value;
    var protos :- if supervised.value then ReadPrototypes(body.rest, |b.labels|, b.header.dim)
                  else Ok(Read([], body.rest));
    Ok(Loaded(b.header, supervised.value, b.dict, b.labels, b.emb, b.att, protos.value, None))
  }

  /** The sizes a GALD file's loaders accept: the vocabulary it builds times dim, and dim. */
  predicate DenseFits(m: DenseModel) {
    Allocates(D.TotalSize(Vocabulary(m.words, m.header.bucket)), m.header.dim)
  }

  /** A GALS file also needs Classifier's positive sizes. */
  predicate SupervisedFits(m: SupervisedModel) {
    Allocates(D.TotalSize(Vocabulary(m.words, m.header.bucket)), m.header.dim)
    && |m.labels| > 0 && m.header.dim > 0
  }

  /** A GALD file's body read back, with nothing after it. */
  lemma DenseBody(m: DenseModel)
    requires DenseFits(m)
    ensures var t := WriteDense(m);
            && ReadMagic(t) == Ok(Read(false, t[1..]))
            && ReadBody(t[1..], false, false)
               == Ok(Read(Body(m.header, 0, Vocabulary(m.words, m.header.bucket), [], m.emb, m.att), []))
  {
    DenseSections(m);
  }

  /** Loading a GALD file gives back the header, the words in id order and both blocks. */
  lemma LoadDenseRoundTrip(m: DenseModel)
    requires DenseFits(m)
    ensures Load(WriteDense(m))
            == Ok(Loaded(m.header, false, Vocabulary(m.words, m.header.bucket), [], m.emb, m.att, [], None))
  {
    DenseBody(m);
  }

  /** loadPretrainedModel reads a GALD file back the same way. */
  lemma PretrainedRoundTrip(m: DenseModel)
    requires DenseFits(m)
    ensures LoadPretrained(WriteDense(m))
            == Ok(Pretrained(m.header, Vocabulary(m.words, m.header.bucket), m.emb, m.att))
  {
    DenseBody(m);
  }

  /** Each section of a GALD file read back in turn. */
  lemma DenseSections(m: DenseModel)
    ensures var t := WriteDense(m);
            var afterWords := FloatBlock(m.emb) + FloatBlock(m.att);
            && ReadInt(t) == Ok(Read(MagicDense, t[1..]))
            && ReadHeader(t[1..]) == Ok(Read(m.header, ListTokens(m.words) + afterWords))
            && ReadList(ListTokens(m.words) + afterWords) == Ok(Read(m.words, afterWords))
            && ReadFloatBlock(afterWords) == Ok(Read(m.emb, FloatBlock(m.att)))
            && ReadFloatBlock(FloatBlock(m.att)) == Ok(Read(m.att, []))
  {
    var afterWords := FloatBlock(m.emb) + FloatBlock(m.att);
    HeaderRoundTrip(m.header, ListTokens(m.words) + afterWords);
    ListRoundTrip(m.words, afterWords);
    FloatBlockRoundTrip(m.emb, FloatBlock(m.att));
    FloatBlockRoundTrip(m.att, []);
    assert FloatBlock(m.att) + [] == FloatBlock(m.att);
  }

  /** A supervised model with one word, one label and no sentence encoder. */
  const OneWordOneLabel := SupervisedModel(Header(2, 3, 6, 10), ["a"], ["x"], [], [], [], None)

  /**
   * Both loaders take the sentence flag 0 for the word count, then read the
   * word list as the labels, and stop at the real label list where the
   * embedding floats should be: the file the supervised trainer saves does
   * not load.
   */
  lemma SupervisedMisread()
    ensures Load(WriteSupervised(OneWordOneLabel)) == Err(Malformed)
    ensures LoadPretrained(WriteSupervised(OneWordOneLabel)) == Err(Malformed)
  {
    var tail := MisreadSteps();
  }

  /** The steps of that misreading: no words, the word list as labels, then no float block. */
  lemma MisreadSteps() returns (tail: seq<Token>)
    ensures var t := WriteSupervised(OneWordOneLabel);
            && t[0] == I32(MagicSupervised)
            && ReadHeader(t[1..]) == Ok(Read(OneWordOneLabel.header, t[5..]))
            && ReadList(t[5..]) == Ok(Read([], t[6..]))
            && ReadList(t[6..]) == Ok(Read(["a"], tail))
            && ReadFloatBlock(tail) == Err(Malformed)
  {
    var m := OneWordOneLabel;
    var t := WriteSupervised(m);
    tail := MisreadHeader();
    assert t[6..] == ListTokens(m.words) + tail;
    ListRoundTrip(m.words, tail);
    assert tail[1] == I32(1);
  }

  /** The one-word, one-label file up to its word list: magic, header, and the flag 0. */
  lemma MisreadHeader() returns (tail: seq<Token>)
    ensures tail == ListTokens(["x"]) + (FloatBlock([]) + (FloatBlock([]) + (FloatBlock([]) + [])))
    ensures var t := WriteSupervised(OneWordOneLabel);
            && t[0] == I32(MagicSupervised)
            && ReadHeader(t[1..]) == Ok(Read(OneWordOneLabel.header, t[5..]))
            && t[5..] == [I32(0)] + (ListTokens(["a"]) + tail)
  {
    var m := OneWordOneLabel;
    var t := WriteSupervised(m);
    tail := ListTokens(m.labels) + (FloatBlock([]) + (FloatBlock([]) + (FloatBlock([]) + [])));
    var afterHeader := [I32(0)] + (ListTokens(m.words) + tail);
    assert t[1..] == HeaderTokens(m.header) + afterHeader;
    HeaderRoundTrip(m.header, afterHeader);
  }

  /** The encoder section: dim, then dim² floats for each of query, key and value. */
  function ReadEncoder(t: seq<Token>): (r: Result<Read<SelfAttention>>)
    ensures r.Ok? ==> Square(r.value.value)
  {
    var dim :- ReadInt(t);
    if dim.value < 0 then Err(Malformed)
    else
      var n := dim.value * dim.value;
      var q :- ReadFloats(dim.rest, n);
      var k :- ReadFloats(q.rest, n);
      var v :- ReadFloats(k.rest, n);
      Ok(Read(SelfAttention(dim.value, q.value, k.value, v.value), v.rest))
  }

  lemma EncoderRoundTrip(a: SelfAttention)
    requires Square(a)
    ensures ReadEncoder(EncoderTokens(a)) == Ok(Read(a, []))
  {
    var kv := FloatTokens(a.key) + FloatTokens(a.value);
    var n := a.dim * a.dim;
    assert |a.query| == n && |a.key| == n && |a.value| == n;
    assert ReadInt(EncoderTokens(a)) == Ok(Read(a.dim, FloatTokens(a.query) + kv));
    FloatsRoundTrip(a.query, kv);
    FloatsRoundTrip(a.key, FloatTokens(a.value));
    FloatsRoundTrip(a.value, []);
    assert FloatTokens(a.value) + [] == FloatTokens(a.value);
  }

  /**
   * The loader as the supervised writer's layout demands: the body of a
   * GALS file with its sentence flag, the classifier and prototypes, and
   * the encoder matrices when the flag is 1. A GALD file is read as before.
   */
  function LoadFixed(t: seq<Token>): (r: Result<Loaded>)
    ensures |t| > 0 && t[0].I32? && t[0].i != MagicDense && t[0].i != MagicSupervised ==> r == Err(BadMagic(t[0].i))
    ensures r.Ok? ==> |t| > 0 && (r.value.supervised <==> t[0] == I32(MagicSupervised))
    ensures r.Ok? && !r.value.supervised ==> r.value.labels == [] && r.value.protos == [] && r.value.encoder.None?
    ensures r.Ok? && r.value.encoder.Some? ==> Square(r.value.encoder.value)
    ensures r.Ok? ==> Allocates(D.TotalSize(r.value.dict), r.value.header.dim)
    ensures r.Ok? && r.value.supervised ==> |r.value.labels| > 0 && r.value.header.dim > 0
  {
    var supervised :- ReadMagic(t);
    var body :- ReadBody(supervised.rest, supervised.value, supervised.value);
    var b := body.value;
    var protos :- if supervised.value then ReadPrototypes(body.rest, |b.labels|, b.header.dim)
                  else Ok(Read([], body.rest));
    var encoder :- if b.flag == 1 then ReadEncoder(protos.rest) else Ok(Read(SelfAttention(0, [], [], []), protos.rest));
    Ok(Loaded(b.header, supervised.value, b.dict, b.labels, b.emb, b.att, protos.value,
              if b.flag == 1 then Some(encoder.value) else None))
  }

  /** A GALS file's body read back with its flag, up to the prototype block. */
  lemma SupervisedBody(m: SupervisedModel)
    requires Allocates(D.TotalSize(Vocabulary(m.words, m.header.bucket)), m.header.dim)
    ensures var t := WriteSupervised(m);
            && ReadMagic(t) == Ok(Read(true, t[1..]))
            && ReadBody(t[1..], true, true)
               == Ok(Read(Body(m.header, Flag(m.encoder), Vocabulary(m.words, m.header.bucket), m.labels, m.emb, m.att),
                          FloatBlock(m.protos) + EncoderSection(m.encoder)))
  {
    SupervisedSections(m);
  }

  /** The corrected loader reads a GALS file back completely, encoder included. */
  lemma LoadFixedSupervised(m: SupervisedModel)
    requires SupervisedFits(m) && (m.encoder.Some? ==> Square(m.encoder.value))
    ensures LoadFixed(WriteSupervised(m))
            == Ok(Loaded(m.header, true, Vocabulary(m.words, m.header.bucket), m.labels, m.emb, m.att, m.protos, m.encoder))
  {
    SupervisedBody(m);
    FloatBlockRoundTrip(m.protos, EncoderSection(m.encoder));
    if m.encoder.Some? {
      EncoderRoundTrip(m.encoder.value);
    }
  }

  /** Each section of a GALS file read back in turn, up to the encoder matrices. */
  lemma SupervisedSections(m: SupervisedModel)
    ensures var t := WriteSupervised(m);
            var enc := EncoderSection(m.encoder);
            var afterAtt := FloatBlock(m.protos) + enc;
            var afterEmb := FloatBlock(m.att) + afterAtt;
            var afterLabels := FloatBlock(m.emb) + afterEmb;
            var afterWords := ListTokens(m.labels) + afterLabels;
            var afterFlag := ListTokens(m.words) + afterWords;
            && ReadInt(t) == Ok(Read(MagicSupervised, t[1..]))
            && ReadHeader(t[1..]) == Ok(Read(m.header, [I32(Flag(m.encoder))] + afterFlag))
            && ReadInt([I32(Flag(m.encoder))] + afterFlag) == Ok(Read(Flag(m.encoder), afterFlag))
            && ReadList(afterFlag) == Ok(Read(m.words, afterWords))
            && ReadList(afterWords) == Ok(Read(m.labels, afterLabels))
            && ReadFloatBlock(afterLabels) == Ok(Read(m.emb, afterEmb))
            && ReadFloatBlock(afterEmb) == Ok(Read(m.att, afterAtt))
            && ReadFloatBlock(afterAtt) == Ok(Read(m.protos, enc))
  {
    var enc := EncoderSection(m.encoder);
    var afterAtt := FloatBlock(m.protos) + enc;
    var afterEmb := FloatBlock(m.att) + afterAtt;
    var afterLabels := FloatBlock(m.emb) + afterEmb;
    var afterWords := ListTokens(m.labels) + afterLabels;
    var afterFlag := ListTokens(m.words) + afterWords;
    HeaderRoundTrip(m.header, [I32(Flag(m.encoder))] + afterFlag);
    ListRoundTrip(m.words, afterWords);
    ListRoundTrip(m.labels, afterLabels);
    FloatBlockRoundTrip(m.emb, afterEmb);
    FloatBlockRoundTrip(m.att, afterAtt);
    FloatBlockRoundTrip(m.protos, enc);
  }


  /** On a GALD file the corrected loader agrees with Model::load. */
  lemma LoadFixedDense(m: DenseModel)
    ensures LoadFixed(WriteDense(m)) == Load(WriteDense(m))
  {
  }

  /**
   * loadPretrainedModel, corrected the same way: the body of a GALS file
   * with its sentence flag, and nothing after the attention block.
   */
  function LoadPretrainedFixed(t: seq<Token>): (r: Result<Pretrained>)
    ensures |t| > 0 && t[0].I32? && t[0].i != MagicDense && t[0].i != MagicSupervised ==> r == Err(BadMagic(t[0].i))
    ensures r.Ok? ==> |t| > 0 && (t[0] == I32(MagicDense) || t[0] == I32(MagicSupervised))
    ensures r.Ok? ==> r.value.dict.bucketSize == r.value.header.bucket
    ensures r.Ok? ==> Allocates(D.TotalSize(r.value.dict), r.value.header.dim)
    ensures LoadFixed(t).Ok? ==> var l := LoadFixed(t).value; r == Ok(Pretrained(l.header, l.dict, l.emb, l.att))
  {
    var supervised :- ReadMagic(t);
    var body :- ReadBody(supervised.rest, supervised.value, supervised.value);
    var b := body.value;
    Ok(Pretrained(b.header, b.dict, b.emb, b.att))
  }

  /** The corrected pretrained loader reads both files the trainers save. */
  lemma LoadPretrainedFixedRoundTrips(dense: DenseModel, sup: SupervisedModel)
    requires DenseFits(dense)
    requires Allocates(D.TotalSize(Vocabulary(sup.words, sup.header.bucket)), sup.header.dim)
    ensures LoadPretrainedFixed(WriteDense(dense))
            == Ok(Pretrained(dense.header, Vocabulary(dense.words, dense.header.bucket), dense.emb, dense.att))
    ensures LoadPretrainedFixed(WriteSupervised(sup))
            == Ok(Pretrained(sup.header, Vocabulary(sup.words, sup.header.bucket), sup.emb, sup.att))
  {
    DenseBody(dense);
    SupervisedBody(sup);
  }

  /** Whatever the vocabulary size, a negative dim fails one of the two allocations. */
  lemma NegativeDimAllocation(vocabSize: int, dim: int)
    requires dim < 0
    ensures vocabSize > 0 ==> vocabSize * dim < 0
    ensures !Allocates(vocabSize, dim)
  {
  }

  /** The body of a GALD file whose dim is negative fails with std::length_error. */
  lemma NegativeDimBody(m: DenseModel)
    requires m.header.dim < 0
    ensures var t := WriteDense(m);
            ReadMagic(t) == Ok(Read(false, t[1..])) && ReadBody(t[1..], false, false) == Err(LengthError)
  {
    DenseSections(m);
    NegativeDimAllocation(D.TotalSize(Vocabulary(m.words, m.header.bucket)), m.header.dim);
  }

  /** Every loader refuses a GALD file whose dim is negative, with std::length_error. */
  lemma NegativeDimRefused(m: DenseModel)
    requires m.header.dim < 0
    ensures Load(WriteDense(m)) == Err(LengthError)
    ensures LoadFixed(WriteDense(m)) == Err(LengthError)
    ensures LoadPretrained(WriteDense(m)) == Err(LengthError)
    ensures LoadPretrainedFixed(WriteDense(m)) == Err(LengthError)
  {
    NegativeDimBody(m);
  }

  /**
   * Model::load refuses a GALS file with an empty label list:
   * Classifier(0, dim, ...) throws std::invalid_argument once the embedding
   * and attention blocks are in.
   */
  lemma NoLabelsRefused(h: Header, words: seq<string>, emb: seq<real>, att: seq<real>, rest: seq<Token>)
    requires Allocates(D.TotalSize(Vocabulary(words, h.bucket)), h.dim)
    ensures Load([I32(MagicSupervised)] + (HeaderTokens(h) + (ListTokens(words) + (ListTokens([])
                 + (FloatBlock(emb) + (FloatBlock(att) + rest))))))
            == Err(InvalidArgument("size"))
  {
    var afterEmb := FloatBlock(att) + rest;
    var afterLabels := FloatBlock(emb) + afterEmb;
    var afterWords := ListTokens([]) + afterLabels;
    var afterHeader := ListTokens(words) + afterWords;
    var t := [I32(MagicSupervised)] + (HeaderTokens(h) + afterHeader);
    assert t[1..] == HeaderTokens(h) + afterHeader;
    HeaderRoundTrip(h, afterHeader);
    ListRoundTrip(words, afterWords);
    ListRoundTrip([], afterLabels);
    FloatBlockRoundTrip(emb, afterEmb);
    FloatBlockRoundTrip(att, rest);
    assert ReadBody(t[1..], true, false) == Ok(Read(Body(h, 0, Vocabulary(words, h.bucket), [], emb, att), rest));
  }

  /**
   * The model reads a GALS file's labels as strings in loadPretrainedModel too, so a
   * negative label length is refused with std::length_error; the C++ skips labels with
   * a seek, which a negative length moves backwards without failing.
   */
  lemma PretrainedLabelLengthRefused(h: Header, words: seq<string>, len: int, rest: seq<Token>)
    requires len < 0
    ensures LoadPretrained([I32(MagicSupervised)] + (HeaderTokens(h) + (ListTokens(words) + ([I32(1), I32(len)] + rest))))
            == Err(LengthError)
  {
    var afterWords := [I32(1), I32(len)] + rest;
    var afterHeader := ListTokens(words) + afterWords;
    var t := [I32(MagicSupervised)] + (HeaderTokens(h) + afterHeader);
    assert t[1..] == HeaderTokens(h) + afterHeader;
    HeaderRoundTrip(h, afterHeader);
    ListRoundTrip(words, afterWords);
    assert ReadList(afterWords) == Err(LengthError);
  }

  /** The corrected loader refuses a GALS file whose classifier would have no classes or no width. */
  lemma EmptyClassifierRefused(m: SupervisedModel)
    requires Allocates(D.TotalSize(Vocabulary(m.words, m.header.bucket)), m.header.dim)
    requires m.labels == [] || m.header.dim == 0
    ensures LoadFixed(WriteSupervised(m)).Err?
    ensures LoadFixed(WriteSupervised(m)).error.InvalidArgument?
  {
    SupervisedBody(m);
  }
}

=== FILE: ngram_generator.dfy ===
/**
 * NGramGenerator: the boundary-wrapped n-gram views used by the word
 * encoder. Unlike the hashing extractor it yields the substrings
 * themselves, and lengths start at min_n rather than at 1.
 */
module NGramGenerator {
  import opened Common
  import opened Spans

  /** The generator's configuration; min_n() and max_n() are its fields. */
  datatype Generator = Generator(minN: int, maxN: int)

  /** The boundary-wrapped word. */
  function Wrapped(word: string): (w: string)
    ensures |w| == |word| + 2 && w[0] == '<' && w[|w| - 1] == '>' && w[1..|w| - 1] == word
  {
    "<" + word + ">"
  }

  /** The reference definition: every window of the wrapped word with min_n <= n <= max_n. */
  function Expected(g: Generator, word: string): seq<string>
    requires g.minN >= 0
  {
    var w := Wrapped(word);
    Pieces(w, AllWindows(|w|, g.minN, g.maxN))
  }

  lemma LengthStep(w: string, i: nat, n: nat, lo: nat)
    requires lo <= n && i + n <= |w|
    ensures Pieces(w, Lengths(i, lo, n)) == Pieces(w, Lengths(i, lo, n - 1)) + [w[i..i + n]]
  {
    var s := Span(i, n);
    assert Lengths(i, lo, n) == Lengths(i, lo, n - 1) + [s];
    PiecesSnoc(w, Lengths(i, lo, n - 1), s);
  }

  /**
   * The inner loop for one start position. NGramGenerator::generate's loop test
   * `n <= max_n && i + n <= |w|` is written as `n <= top`.
   */
  method FromStart(w: string, i: nat, minN: nat, maxN: int) returns (out: seq<string>)
    requires i < |w|
    ensures out == Pieces(w, AtStart(|w|, i, minN, maxN))
  {
    var top := Min(maxN, |w| - i);
    out := [];
    var n := minN;
    if top < minN {
      LengthsEmpty(i, minN, top);
      return;
    }
    LengthsEmpty(i, minN, minN - 1);
    while n <= top
      invariant minN <= n <= top + 1
      invariant out == Pieces(w, Lengths(i, minN, n - 1))
    {
      LengthStep(w, i, n, minN);
      out := out + [w[i..i + n]];
      n := n + 1;
    }
  }

  lemma WindowsStep(w: string, lo: nat, hi: int, i: nat)
    ensures Pieces(w, Windows(|w|, lo, hi, i + 1)) == Pieces(w, Windows(|w|, lo, hi, i)) + Pieces(w, AtStart(|w|, i, lo, hi))
  {
    PiecesAppend(w, Windows(|w|, lo, hi, i), AtStart(|w|, i, lo, hi));
  }

  /**
   * NGramGenerator::generate. The wrapped word and the list are both
   * overwritten, so nothing from an earlier call survives.
   */
  method Generate(g: Generator, word: string) returns (wrapped: string, ngrams: seq<string>)
    requires g.minN >= 0
    ensures wrapped == Wrapped(word)
    ensures ngrams == Expected(g, word)
  {
    wrapped := Wrapped(word);
    ngrams := [];
    var i := 0;
    while i < |wrapped|
      invariant 0 <= i <= |wrapped|
      invariant ngrams == Pieces(wrapped, Windows(|wrapped|, g.minN, g.maxN, i))
    {
      var more := FromStart(wrapped, i, g.minN, g.maxN);
      WindowsStep(wrapped, g.minN, g.maxN, i);
      ngrams := ngrams + more;
      i := i + 1;
    }
  }

  /**
   * The n-grams are exactly the substrings wrapped[i..i+n) with
   * min_n <= n <= max_n, each (i, n) once, ordered by i and then by n.
   */
  lemma ExpectedExact(g: Generator, word: string, k: nat)
    requires g.minN >= 0 && k < |Expected(g, word)|
    ensures var w := Wrapped(word);
            var s := AllWindows(|w|, g.minN, g.maxN)[k];
            g.minN <= s.len <= g.maxN && s.start + s.len <= |w|
            && Expected(g, word)[k] == w[s.start..s.start + s.len]
    ensures |Expected(g, word)| == |WindowSet(|word| + 2, g.minN, g.maxN)|
  {
    var w := Wrapped(word);
    var all := AllWindows(|w|, g.minN, g.maxN);
    AllWindowsExact(|w|, g.minN, g.maxN, all[k]);
    PiecesAt(w, all, k);
    WindowCount(|w|, g.minN, g.maxN);
  }

  /** "cat" with n = 3 gives "<ca", "cat", "at>". */
  lemma CatTrigrams()
    ensures Expected(Generator(3, 3), "cat") == ["<ca", "cat", "at>"]
  {
    assert Wrapped("cat") == "<cat>";
    CatWindows();
    CatPieces();
  }

  /** The trigram windows of a five-character string. */
  lemma CatWindows()
    ensures AllWindows(5, 3, 3) == [Span(0, 3), Span(1, 3), Span(2, 3)]
  {
    assert Windows(5, 3, 3, 1) == [Span(0, 3)] by {
      assert Lengths(0, 3, 3) == [Span(0, 3)];
    }
    assert Windows(5, 3, 3, 2) == [Span(0, 3), Span(1, 3)] by {
      assert Lengths(1, 3, 3) == [Span(1, 3)];
    }
    assert Windows(5, 3, 3, 3) == [Span(0, 3), Span(1, 3), Span(2, 3)] by {
      assert Lengths(2, 3, 3) == [Span(2, 3)];
    }
    assert Windows(5, 3, 3, 4) == Windows(5, 3, 3, 3) by {
      LengthsEmpty(3, 3, 2);
    }
    LengthsEmpty(4, 3, 1);
  }

  lemma CatPieces()
    ensures Pieces("<cat>", [Span(0, 3), Span(1, 3), Span(2, 3)]) == ["<ca", "cat", "at>"]
  {
    var w := "<cat>";
    PiecesSnoc(w, [], Span(0, 3));
    PiecesSnoc(w, [Span(0, 3)], Span(1, 3));
    PiecesSnoc(w, [Span(0, 3), Span(1, 3)], Span(2, 3));
    assert w[0..3] == "<ca" && w[1..4] == "cat" && w[2..5] == "at>";
  }

  /** The empty word wraps to "<>", which has no n-gram of length 3 or more. */
  lemma EmptyWordNoNgrams(g: Generator)
    requires g.minN >= 3
    ensures Expected(g, "") == []
  {
    LengthsEmpty(0, g.minN, Min(g.maxN, 2));
    LengthsEmpty(1, g.minN, Min(g.maxN, 1));
    assert Windows(2, g.minN, g.maxN, 1) == [];
    assert AllWindows(2, g.minN, g.maxN) == [];
  }
}

=== FILE: phonetic.dfy ===
/**
 * phoneticEncode: the Soundex-like code used for phonetic subwords. The
 * first character is kept upper-cased; each later character contributes
 * its digit when that digit is not '0' and differs from the digit of the
 * character just before it (vowels included). There is no padding and no
 * truncation to four characters.
 */
module Phonetic {
  import opened Ascii

  /** get_code: the digit class of a character, looked up in lower case. */
  function Code(c: char): (d: char)
    ensures d in "0123456"
  {
    match ToLower(c)
    case 'b' => '1' case 'f' => '1' case 'p' => '1' case 'v' => '1'
    case 'c' => '2' case 'g' => '2' case 'j' => '2' case 'k' => '2'
    case 'q' => '2' case 's' => '2' case 'x' => '2' case 'z' => '2'
    case 'd' => '3' case 't' => '3'
    case 'l' => '4'
    case 'm' => '5' case 'n' => '5'
    case 'r' => '6'
    case _ => '0'
  }

  /** Position i (i >= 1) contributes a digit. */
  predicate Emits(w: string, i: nat)
    requires 1 <= i < |w|
  {
    Code(w[i]) != '0' && Code(w[i]) != Code(w[i - 1])
  }

  /** The reference definition: the digits of positions 1 .. n-1 that emit, in order. */
  function Digits(w: string, n: nat): (r: string)
    requires n <= |w|
    ensures n >= 1 ==> |r| <= n - 1
  {
    if n <= 1 then [] else Digits(w, n - 1) + (if Emits(w, n - 1) then [Code(w[n - 1])] else [])
  }

  function Spec(w: string): string {
    if |w| == 0 then "" else [ToUpper(w[0])] + Digits(w, |w|)
  }

  /** phoneticEncode, as its own loop, with `prev` tracking the previous character's digit. */
  method Encode(w: string) returns (out: string)
    ensures out == Spec(w)
  {
    if |w| == 0 {
      return "";
    }
    out := [ToUpper(w[0])];
    var prev := Code(w[0]);
    var i := 1;
    while i < |w|
      invariant 1 <= i <= |w|
      invariant prev == Code(w[i - 1])
      invariant out == [ToUpper(w[0])] + Digits(w, i)
    {
      var x := Code(w[i]);
      if x != '0' && x != prev {
        out := out + [x];
      }
      prev := x;
      i := i + 1;
    }
  }

  /** Every digit the encoder emits lies in '1'..'6'. */
  lemma {:induction false} DigitsAreDigits(w: string, n: nat)
    requires n <= |w|
    ensures forall k :: 0 <= k < |Digits(w, n)| ==> '1' <= Digits(w, n)[k] <= '6'
  {
    if n > 1 {
      DigitsAreDigits(w, n - 1);
    }
  }

  /** Shape of the code: empty for empty input, else the upper-cased first char then digits. */
  lemma SpecShape(w: string)
    ensures |w| == 0 <==> Spec(w) == ""
    ensures |w| > 0 ==> Spec(w)[0] == ToUpper(w[0]) && |Spec(w)| <= |w|
    ensures forall k :: 1 <= k < |Spec(w)| ==> '1' <= Spec(w)[k] <= '6'
  {
    if |w| > 0 {
      var d := Digits(w, |w|);
      DigitsAreDigits(w, |w|);
      assert Spec(w) == [ToUpper(w[0])] + d;
      forall k | 1 <= k < |Spec(w)|
        ensures '1' <= Spec(w)[k] <= '6'
      {
        assert Spec(w)[k] == d[k - 1];
      }
    }
  }

  /**
   * A digit appears for position i exactly when that position emits: the
   * digits are the emitting positions' codes, counted one for one.
   */
  lemma {:induction false} DigitsExtend(w: string, n: nat)
    requires 1 <= n < |w|
    ensures Emits(w, n) ==> Digits(w, n + 1) == Digits(w, n) + [Code(w[n])]
    ensures !Emits(w, n) ==> Digits(w, n + 1) == Digits(w, n)
  {
  }

  /** Letter case does not matter: the code looks at the lower-cased character. */
  lemma CodeIgnoresCase(a: char, b: char)
    requires ToLower(a) == ToLower(b)
    ensures Code(a) == Code(b)
  {
  }

  lemma {:induction false} DigitsIgnoreCase(a: string, b: string, n: nat)
    requires SameUpToCase(a, b) && n <= |a|
    ensures Digits(a, n) == Digits(b, n)
  {
    if n > 1 {
      DigitsIgnoreCase(a, b, n - 1);
      CodeIgnoresCase(a[n - 1], b[n - 1]);
      CodeIgnoresCase(a[n - 2], b[n - 2]);
    }
  }

  /** Inputs that differ only in the case of ASCII letters encode identically. */
  lemma CaseInsensitive(a: string, b: string)
    requires SameUpToCase(a, b)
    ensures Spec(a) == Spec(b)
  {
    if |a| > 0 {
      DigitsIgnoreCase(a, b, |a|);
      CaseAgree(a[0], b[0]);
    }
  }
}

=== FILE: phonetic_encoder.dfy ===
/**
 * PhoneticEncoder::encode: the second Soundex-like coder. It differs from
 * phoneticEncode in three ways: the table is looked up on the upper-cased
 * character, the remembered digit changes only when a digit is appended
 * (so a vowel does not separate two equal digits), and the code stops
 * growing at eight characters.
 */
module PhoneticEncoder {
  import opened Ascii
  import Phonetic

  const MaxLength: nat := 8

  /** get_code: the digit class of an upper-case letter; anything else is '0'. */
  function GetCode(c: char): char {
    match c
    case 'B' => '1' case 'F' => '1' case 'P' => '1' case 'V' => '1'
    case 'C' => '2' case 'G' => '2' case 'J' => '2' case 'K' => '2'
    case 'Q' => '2' case 'S' => '2' case 'X' => '2' case 'Z' => '2'
    case 'D' => '3' case 'T' => '3'
    case 'L' => '4'
    case 'M' => '5' case 'N' => '5'
    case 'R' => '6'
    case _ => '0'
  }

  /** Both coders put every character in the same class. */
  lemma SameClasses(c: char)
    ensures GetCode(ToUpper(c)) == Phonetic.Code(c)
  {
  }

  /** The loop of encode from position i, with the code so far and the remembered digit. */
  function EncodeFrom(word: string, i: nat, result: string, prev: char): string
    decreases |word| - i
  {
    if i >= |word| || |result| >= MaxLength then result
    else
      var code := GetCode(ToUpper(word[i]));
      if code != '0' && code != prev then EncodeFrom(word, i + 1, result + [code], code)
      else EncodeFrom(word, i + 1, result, prev)
  }

  /**
   * encode: the code is empty only for the empty word; otherwise it starts
   * with the upper-cased first character, has at most eight characters,
   * its later characters are digits '1'..'6', no two neighbouring digits
   * are equal, and the first digit differs from the first character's class.
   */
  function Encode(word: string): (r: string)
    ensures |word| == 0 <==> r == ""
    ensures |word| > 0 ==> r[0] == ToUpper(word[0])
    ensures |r| <= MaxLength
    ensures forall k :: 1 <= k < |r| ==> '1' <= r[k] <= '6'
    ensures forall k :: 1 <= k < |r| - 1 ==> r[k] != r[k + 1]
    ensures |r| > 1 ==> r[1] != GetCode(ToUpper(word[0]))
  {
    if |word| == 0 then ""
    else
      var first := ToUpper(word[0]);
      assert WellFormed([first], GetCode(first));
      EncodeFromKeeps(word, 1, [first], GetCode(first));
      EncodeFrom(word, 1, [first], GetCode(first))
  }

  /** After the first character: digits in '1'..'6', no two neighbours equal. */
  predicate DigitsOk(result: string) {
    |result| >= 1
    && (forall k :: 1 <= k < |result| ==> '1' <= result[k] <= '6')
    && (forall k :: 1 <= k < |result| - 1 ==> result[k] != result[k + 1])
  }

  /** What the loop keeps: well-formed digits, and the last digit is the remembered one. */
  predicate WellFormed(result: string, prev: char) {
    DigitsOk(result) && (|result| > 1 ==> result[|result| - 1] == prev)
  }

  lemma {:induction false} EncodeFromKeeps(word: string, i: nat, result: string, prev: char)
    requires WellFormed(result, prev) && |result| <= MaxLength
    ensures var r := EncodeFrom(word, i, result, prev);
            DigitsOk(r) && |result| <= |r| <= MaxLength && r[..|result|] == result
    ensures var r := EncodeFrom(word, i, result, prev);
            |r| > |result| ==> r[|result|] != prev
    decreases |word| - i
  {
    if i < |word| && |result| < MaxLength {
      var code := GetCode(ToUpper(word[i]));
      if code != '0' && code != prev {
        var next := result + [code];
        assert WellFormed(next, code);
        EncodeFromKeeps(word, i + 1, next, code);
        var r := EncodeFrom(word, i + 1, next, code);
        assert r[..|next|][..|result|] == r[..|result|];
      } else {
        EncodeFromKeeps(word, i + 1, result, prev);
      }
    }
  }

  lemma {:induction false} EncodeFromIgnoresCase(a: string, b: string, i: nat, result: string, prev: char)
    requires SameUpToCase(a, b)
    ensures EncodeFrom(a, i, result, prev) == EncodeFrom(b, i, result, prev)
    decreases |a| - i
  {
    if i < |a| && |result| < MaxLength {
      CaseAgree(a[i], b[i]);
      var code := GetCode(ToUpper(a[i]));
      if code != '0' && code != prev {
        EncodeFromIgnoresCase(a, b, i + 1, result + [code], code);
      } else {
        EncodeFromIgnoresCase(a, b, i + 1, result, prev);
      }
    }
  }

  /** Words that differ only in the case of ASCII letters encode identically. */
  lemma CaseInsensitive(a: string, b: string)
    requires SameUpToCase(a, b)
    ensures Encode(a) == Encode(b)
  {
    if |a| > 0 {
      CaseAgree(a[0], b[0]);
      EncodeFromIgnoresCase(a, b, 1, [ToUpper(a[0])], GetCode(ToUpper(a[0])));
    }
  }

  /** "smith" and "smyth" sound alike; "hello" and "world" do not. */
  lemma Examples()
    ensures Encode("smith") == Encode("smyth") == "S53"
    ensures Encode("hello") == "H4" && Encode("world") == "W643"
  {
    Smith();
    Smyth();
    Hello();
    World();
  }

  lemma Smith()
    ensures Encode("smith") == "S53"
  {
  }

  lemma Smyth()
    ensures Encode("smyth") == "S53"
  {
  }

  lemma Hello()
    ensures Encode("hello") == "H4"
  {
  }

  lemma World()
    ensures Encode("world") == "W643"
  {
  }
}

=== FILE: predict.dfy ===
/**
 * The three predictors: the inference tool's (inference.cpp), the Python
 * binding's (python_bindings.cpp) and the compact tool's
 * (compact_infer.cpp). Each splits the text at whitespace, collects ids
 * for its tokens, aggregates them with the backbone sum, scores every
 * label by a dot product with its prototype row, and keeps the k best.
 */
module Predictors {
  import opened Common
  import opened Vectors
  import opened TopK
  import D = Dictionaries
  import Corpus
  import CharNgram
  import Tokenizer
  import Backbone
  import Phonetic
  import Tokens
  import CF = CompactFiles

  // ------------------------------------------------------------ shared

  /** The ids of every token of a text, token after token. */
  function TextIds(sub: string -> seq<int>, ts: seq<string>): (ids: seq<int>)
  {
    if |ts| == 0 then [] else TextIds(sub, ts[..|ts| - 1]) + sub(ts[|ts| - 1])
  }

  /** An id is among a text's ids exactly when it is among the ids of one of its tokens. */
  lemma {:induction false} TextIdsMembers(sub: string -> seq<int>, ts: seq<string>, x: int)
    ensures x in TextIds(sub, ts) <==> exists k :: 0 <= k < |ts| && x in sub(ts[k])
  {
    if |ts| > 0 {
      var init := ts[..|ts| - 1];
      TextIdsMembers(sub, init, x);
      assert forall k :: 0 <= k < |init| ==> init[k] == ts[k];
      if x in sub(ts[|ts| - 1]) {
        assert x in sub(ts[|ts| - 1]);
      }
    }
  }

  /** A text has no ids exactly when none of its tokens has any. */
  lemma {:induction false} TextIdsEmpty(sub: string -> seq<int>, ts: seq<string>)
    ensures TextIds(sub, ts) == [] <==> forall k :: 0 <= k < |ts| ==> sub(ts[k]) == []
  {
    if |ts| > 0 {
      var init := ts[..|ts| - 1];
      TextIdsEmpty(sub, init);
      assert forall k :: 0 <= k < |init| ==> init[k] == ts[k];
    }
  }

  /** Ids that each token keeps within [0, n) stay within [0, n) for the text. */
  lemma {:induction false} TextIdsBelow(sub: string -> seq<int>, ts: seq<string>, n: int)
    requires forall k, j :: 0 <= k < |ts| && 0 <= j < |sub(ts[k])| ==> 0 <= sub(ts[k])[j] < n
    ensures forall j :: 0 <= j < |TextIds(sub, ts)| ==> 0 <= TextIds(sub, ts)[j] < n
  {
    if |ts| > 0 {
      var init := ts[..|ts| - 1];
      assert forall k :: 0 <= k < |init| ==> init[k] == ts[k];
      TextIdsBelow(sub, init, n);
      var last := sub(ts[|ts| - 1]);
      forall j | 0 <= j < |TextIds(sub, ts)|
        ensures 0 <= TextIds(sub, ts)[j] < n
      {
        if j >= |TextIds(sub, init)| {
          assert TextIds(sub, ts)[j] == last[j - |TextIds(sub, init)|];
        }
      }
    }
  }

  /** The (label, score) pairs of every label, sorted, cut to k. */
  function Ranked(labels: seq<string>, scores: seq<real>, k: int): (r: Result<seq<Scored<string>>>)
    requires |scores| == |labels|
    ensures r.Err? <==> k < 0
  {
    Top(seq(|labels|, i requires 0 <= i < |labels| => Scored(labels[i], scores[i])), k)
  }

  /** A successful prediction lists at most one pair per label, each for one of the labels. */
  predicate LabelsOnly(r: Result<seq<Scored<string>>>, labels: seq<string>) {
    r.Ok? ==> |r.value| <= |labels| && forall x :: x in r.value ==> x.key in labels
  }

  /**
   * For k >= 0: min(k, #labels) pairs, sorted by non-increasing score,
   * each a label with its own score, and no label left out scores above a
   * pair kept.
   */
  lemma RankedSpec(labels: seq<string>, scores: seq<real>, k: int)
    requires |scores| == |labels| && k >= 0
    ensures Ranked(labels, scores, k).Ok?
    ensures var r := Ranked(labels, scores, k).value;
            |r| == Min(k, |labels|) && SortedDesc(r)
            && forall x :: x in r ==> exists i :: 0 <= i < |labels| && x == Scored(labels[i], scores[i])
    ensures var r := Ranked(labels, scores, k).value;
            forall i :: 0 <= i < |labels| && Scored(labels[i], scores[i]) !in r ==>
              forall y :: y in r ==> scores[i] <= y.score
  {
    var all := seq(|labels|, i requires 0 <= i < |labels| => Scored(labels[i], scores[i]));
    TopSpec(all, k);
    var r := Top(all, k).value;
    forall x | x in r
      ensures exists i :: 0 <= i < |labels| && x == Scored(labels[i], scores[i])
    {
      assert x in multiset(all);
      var i :| 0 <= i < |all| && all[i] == x;
    }
    forall i | 0 <= i < |labels| && Scored(labels[i], scores[i]) !in r
      ensures forall y :: y in r ==> scores[i] <= y.score
    {
      var x := all[i];
      assert x in multiset(all);
      assert x !in multiset(r);
      assert x in multiset(all) - multiset(r);
    }
  }

  /** Whatever ranking succeeds lists at most one pair per label, each for one of the labels. */
  lemma RankedLabels(labels: seq<string>, scores: seq<real>, k: int)
    requires |scores| == |labels|
    ensures LabelsOnly(Ranked(labels, scores, k), labels)
  {
    if k >= 0 {
      RankedSpec(labels, scores, k);
      var r := Ranked(labels, scores, k).value;
      assert |r| <= |labels|;
      forall x | x in r
        ensures x.key in labels
      {
        var i :| 0 <= i < |labels| && x == Scored(labels[i], scores[i]);
      }
    }
  }

  /** The whitespace tokens of a text, as `iss >> word` yields them. */
  function Words(text: string): seq<string> {
    Tokenizer.Tokenize(Tokenizer.Whitespace, text)
  }

  // --------------------------------------------------- inference tool

  /**
   * What Model::load leaves behind: the dictionary finalized with the
   * bucket read, the backbone, the labels and the prototype matrix.
   */
  datatype Inference = Inference(supervised: bool, dict: D.Dictionary, minn: int, maxn: int,
                                 net: Backbone.Net, labels: seq<string>, protos: Matrix)

  /**
   * The shapes load builds: a finalized dictionary whose n-gram rows fit
   * in the embedding table, a positive bucket, and one prototype row of
   * dim entries per label.
   */
  predicate Ready(m: Inference) {
    && D.BucketsPlaced(m.dict)
    && Backbone.Valid(m.net) && m.dict.bucketOffset + m.dict.bucketSize <= m.net.emb.rows
    && Vectors.Valid(m.protos) && m.protos.rows == |m.labels| && m.protos.cols == m.net.dim
  }

  /** Model::getSubwordIds: the word id if known, then one row per character n-gram. */
  function InferenceIds(m: Inference): string -> seq<int>
    requires Ready(m)
  {
    w => Corpus.SubwordIds(m.dict, m.minn, m.maxn, m.dict.bucketSize, w)
  }

  /** Every id a token yields indexes a row of the embedding table. */
  lemma InferenceIdsInRange(m: Inference, ts: seq<string>)
    requires Ready(m)
    ensures Backbone.IdsInRange(m.net, TextIds(InferenceIds(m), ts))
  {
    var sub := InferenceIds(m);
    forall k, j | 0 <= k < |ts| && 0 <= j < |sub(ts[k])|
      ensures 0 <= sub(ts[k])[j] < m.net.emb.rows
    {
      Corpus.SubwordIdsLayout(m.dict, m.minn, m.maxn, ts[k]);
    }
    TextIdsBelow(sub, ts, m.net.emb.rows);
  }

  /** Every label's score: its prototype row dotted with h. */
  function LabelScores(protos: Matrix, h: Vec): (s: seq<real>)
    requires Vectors.Valid(protos) && |h| >= protos.cols
    ensures |s| == protos.rows
  {
    seq(protos.rows, i requires 0 <= i < protos.rows => Dot(Row(protos, i), h))
  }

  /**
   * Model::predict: nothing when the model is unsupervised or the text
   * yields no ids; otherwise the backbone sum of all the text's ids,
   * scored against every label and cut to the k best.
   */
  function InferencePredict(m: Inference, text: string, k: int): (r: Result<seq<Scored<string>>>)
    requires Ready(m)
    ensures !m.supervised ==> r == Ok([])
    ensures r.Err? ==> k < 0
    ensures LabelsOnly(r, m.labels)
  {
    if !m.supervised then Ok([])
    else
      var ids := TextIds(InferenceIds(m), Words(text));
      if ids == [] then Ok([])
      else
        InferenceIdsInRange(m, Words(text));
        var s := LabelScores(m.protos, Backbone.Forward(m.net, ids));
        RankedLabels(m.labels, s, k);
        Ranked(m.labels, s, k)
  }

  /**
   * The result is empty exactly when the model is unsupervised or no token
   * of the text has an id; otherwise it is the ranking of every label by its
   * prototype's dot product with the backbone sum, which fails for k < 0.
   */
  lemma InferencePredictSpec(m: Inference, text: string, k: int)
    requires Ready(m)
    ensures var ts := Words(text);
            (!m.supervised || forall j :: 0 <= j < |ts| ==> InferenceIds(m)(ts[j]) == []) ==>
              InferencePredict(m, text, k) == Ok([])
    ensures var ts := Words(text);
            var ids := TextIds(InferenceIds(m), ts);
            (m.supervised && exists j :: 0 <= j < |ts| && InferenceIds(m)(ts[j]) != []) ==>
              && ids != [] && Backbone.IdsInRange(m.net, ids)
              && InferencePredict(m, text, k) == Ranked(m.labels, LabelScores(m.protos, Backbone.Forward(m.net, ids)), k)
  {
    TextIdsEmpty(InferenceIds(m), Words(text));
    InferenceIdsInRange(m, Words(text));
  }

  // ---------------------------------------------------- Python binding

  /** u occurs in w starting at j. */
  predicate IsAt(u: string, w: string, j: int) {
    0 <= j && j + |u| <= |w| && w[j..j + |u|] == u
  }

  /** std::string::find(u, from): the first position at or after from where u occurs, or -1 (npos). */
  function Find(u: string, w: string, from: nat): (r: int)
    ensures r == -1 || (from <= r && IsAt(u, w, r))
    ensures r == -1 <==> forall j :: from <= j ==> !IsAt(u, w, j)
    ensures r >= 0 ==> forall j :: from <= j < r ==> !IsAt(u, w, j)
    decreases |w| - from
  {
    if from + |u| > |w| then -1
    else if w[from..from + |u|] == u then from
    else Find(u, w, from + 1)
  }

  /** keys lists every grammar unit once: the order the unordered map yields them. */
  predicate GrammarOrder(d: D.Dictionary, keys: seq<string>) {
    && (forall i, j :: 0 <= i < j < |keys| ==> keys[i] != keys[j])
    && (forall i :: 0 <= i < |keys| ==> keys[i] in d.grammar2id)
    && (forall g :: g in d.grammar2id ==> g in keys)
  }

  /** The ids of the units in keys that occur somewhere in w, in key order. */
  function GrammarHits(d: D.Dictionary, keys: seq<string>, w: string): (ids: seq<int>)
    requires forall i :: 0 <= i < |keys| ==> keys[i] in d.grammar2id
  {
    if |keys| == 0 then []
    else
      var init := keys[..|keys| - 1];
      var g := keys[|keys| - 1];
      GrammarHits(d, init, w) + (if Find(g, w, 0) >= 0 then [d.grammar2id[g]] else [])
  }

  /** A hit is the id of a unit in keys that occurs in w, and every such unit gives one. */
  lemma {:induction false} GrammarHitsMembers(d: D.Dictionary, keys: seq<string>, w: string, x: int)
    requires forall i :: 0 <= i < |keys| ==> keys[i] in d.grammar2id
    ensures x in GrammarHits(d, keys, w) <==>
              exists i, j :: 0 <= i < |keys| && IsAt(keys[i], w, j) && d.grammar2id[keys[i]] == x
  {
    if |keys| > 0 {
      var init := keys[..|keys| - 1];
      var g := keys[|keys| - 1];
      GrammarHitsMembers(d, init, w, x);
      assert forall i :: 0 <= i < |init| ==> init[i] == keys[i];
      if exists i, j :: 0 <= i < |keys| && IsAt(keys[i], w, j) && d.grammar2id[keys[i]] == x {
        var i, j :| 0 <= i < |keys| && IsAt(keys[i], w, j) && d.grammar2id[keys[i]] == x;
        if i == |keys| - 1 {
          assert Find(g, w, 0) >= 0;
        }
      }
      if Find(g, w, 0) >= 0 && x == d.grammar2id[g] {
        var j := Find(g, w, 0);
        assert IsAt(keys[|keys| - 1], w, j);
      }
    }
  }

  /** The Python binding's state after load_model; grammarKeys is the order its unordered map yields. */
  datatype Binding = Binding(supervised: bool, dict: D.Dictionary, minn: int, maxn: int, grammarKeys: seq<string>,
                             net: Backbone.Net, labels: seq<string>, protos: Matrix, useEncoder: bool)

  /** Every grammar and phonetic id names a row in [0, rows): the binding indexes them unchecked. */
  predicate UnitsWithin(d: D.Dictionary, rows: int) {
    && (forall g :: g in d.grammar2id ==> 0 <= d.grammar2id[g] < rows)
    && (forall p :: p in d.phonetic2id ==> 0 <= d.phonetic2id[p] < rows)
  }

  /**
   * As for the inference tool, and every grammar and phonetic id is a row
   * of the table. The ranges need not be apart: load adds the phonetic
   * units before finalize.
   */
  predicate BindingReady(m: Binding) {
    && D.BucketsPlaced(m.dict)
    && GrammarOrder(m.dict, m.grammarKeys)
    && Backbone.Valid(m.net) && m.dict.bucketOffset + m.dict.bucketSize <= m.net.emb.rows
    && UnitsWithin(m.dict, m.net.emb.rows)
    && Vectors.Valid(m.protos) && m.protos.rows == |m.labels| && m.protos.cols == m.net.dim
  }

  /** The phonetic id of a word, when its code is already a unit. */
  function PhoneticHit(d: D.Dictionary, w: string): (ids: seq<int>)
    requires forall p :: p in d.phonetic2id ==> d.phonetic2id[p] >= 0
    ensures |ids| == (if Phonetic.Spec(w) in d.phonetic2id then 1 else 0)
    ensures forall j :: 0 <= j < |ids| ==> ids[j] == d.phonetic2id[Phonetic.Spec(w)]
  {
    var pid := D.GetPhoneticId(d, Phonetic.Spec(w));
    if pid >= 0 then [pid] else []
  }

  /**
   * GLADtoTEXT::getSubwordIds: the word id if known, the n-gram rows, the
   * id of every grammar unit occurring anywhere in the word, then the
   * phonetic id only if that code is already known. It reads the
   * dictionary and never adds to it.
   */
  function WordIds(m: Binding, w: string): (ids: seq<int>)
    requires BindingReady(m)
  {
    Corpus.SubwordIds(m.dict, m.minn, m.maxn, m.dict.bucketSize, w)
    + (GrammarHits(m.dict, m.grammarKeys, w) + PhoneticHit(m.dict, w))
  }

  /** WordIds as a function of the word alone. */
  function BindingIds(m: Binding): string -> seq<int>
    requires BindingReady(m)
  {
    w => WordIds(m, w)
  }

  /** The grammar hits are the ids of exactly the units occurring somewhere in the word. */
  lemma GrammarHitsSpec(m: Binding, w: string, x: int)
    requires BindingReady(m)
    ensures x in GrammarHits(m.dict, m.grammarKeys, w) <==>
              exists g, j :: g in m.dict.grammar2id && IsAt(g, w, j) && m.dict.grammar2id[g] == x
  {
    GrammarHitsMembers(m.dict, m.grammarKeys, w, x);
    var keys := m.grammarKeys;
    if exists g, j :: g in m.dict.grammar2id && IsAt(g, w, j) && m.dict.grammar2id[g] == x {
      var g, j :| g in m.dict.grammar2id && IsAt(g, w, j) && m.dict.grammar2id[g] == x;
      var i :| 0 <= i < |keys| && keys[i] == g;
      assert IsAt(keys[i], w, j);
    }
  }

  /** A three-part concatenation: where each part sits, and every element within [lo, hi) when each part's are. */
  lemma ThreeParts(a: seq<int>, b: seq<int>, c: seq<int>, lo: int, hi: int)
    ensures var s := a + (b + c);
            && |s| == |a| + |b| + |c| && s[..|a|] == a && s[|a|..|a| + |b|] == b && s[|a| + |b|..] == c
    ensures (forall k :: 0 <= k < |a| ==> lo <= a[k] < hi) && (forall k :: 0 <= k < |b| ==> lo <= b[k] < hi)
            && (forall k :: 0 <= k < |c| ==> lo <= c[k] < hi) ==>
              forall k :: 0 <= k < |a + (b + c)| ==> lo <= (a + (b + c))[k] < hi
  {
    var s := a + (b + c);
    assert s[|a| + |b|..] == c;
    if (forall k :: 0 <= k < |a| ==> lo <= a[k] < hi) && (forall k :: 0 <= k < |b| ==> lo <= b[k] < hi)
       && (forall k :: 0 <= k < |c| ==> lo <= c[k] < hi) {
      forall k | 0 <= k < |s|
        ensures lo <= s[k] < hi
      {
        if k < |a| {
          assert s[k] == a[k];
        } else if k < |a| + |b| {
          assert s[k] == b[k - |a|];
        } else {
          assert s[k] == c[k - |a| - |b|];
        }
      }
    }
  }

  /**
   * The binding's ids extend the inference tool's: after them come the
   * grammar hits, and last a phonetic id exactly when the word's code is
   * already a unit.
   */
  lemma WordIdsLayout(m: Binding, w: string)
    requires BindingReady(m)
    ensures var base := Corpus.SubwordIds(m.dict, m.minn, m.maxn, m.dict.bucketSize, w);
            var ids := WordIds(m, w);
            var hits := GrammarHits(m.dict, m.grammarKeys, w);
            var code := Phonetic.Spec(w);
            && ids[..|base|] == base
            && ids[|base|..|base| + |hits|] == hits
            && |ids| == |base| + |hits| + (if code in m.dict.phonetic2id then 1 else 0)
            && (code in m.dict.phonetic2id ==> ids[|ids| - 1] == m.dict.phonetic2id[code])
  {
    var code := Phonetic.Spec(w);
    var tail := PhoneticHit(m.dict, w);
    var pid := if code in m.dict.phonetic2id then m.dict.phonetic2id[code] else 0;
    TailLayout(Corpus.SubwordIds(m.dict, m.minn, m.maxn, m.dict.bucketSize, w),
               GrammarHits(m.dict, m.grammarKeys, w), tail, code in m.dict.phonetic2id, pid);
  }

  /** The layout of three concatenated parts whose last holds at most one id. */
  lemma TailLayout(base: seq<int>, hits: seq<int>, tail: seq<int>, present: bool, pid: int)
    requires |tail| == (if present then 1 else 0) && (present ==> tail[0] == pid)
    ensures var ids := base + (hits + tail);
            && ids[..|base|] == base && ids[|base|..|base| + |hits|] == hits
            && |ids| == |base| + |hits| + (if present then 1 else 0)
            && (present ==> ids[|ids| - 1] == pid)
  {
    var ids := base + (hits + tail);
    assert ids[|base|..|base| + |hits|] == hits;
  }

  /** Each grammar hit is the id of a grammar unit, so a row when those are. */
  lemma {:induction false} GrammarHitsRange(d: D.Dictionary, keys: seq<string>, w: string, rows: int)
    requires UnitsWithin(d, rows)
    requires forall i :: 0 <= i < |keys| ==> keys[i] in d.grammar2id
    ensures forall j :: 0 <= j < |GrammarHits(d, keys, w)| ==> 0 <= GrammarHits(d, keys, w)[j] < rows
  {
    if |keys| > 0 {
      GrammarHitsRange(d, keys[..|keys| - 1], w, rows);
    }
  }

  /** The word and n-gram ids lie below the end of the bucket rows. */
  lemma BaseRange(d: D.Dictionary, minn: int, maxn: int, w: string)
    requires D.BucketsPlaced(d)
    ensures var base := Corpus.SubwordIds(d, minn, maxn, d.bucketSize, w);
            forall k :: 0 <= k < |base| ==> 0 <= base[k] < d.bucketOffset + d.bucketSize
  {
    Corpus.SubwordIdsLayout(d, minn, maxn, w);
  }

  /** Every id a word yields indexes a row of the table. */
  lemma BindingWordInRange(m: Binding, w: string)
    requires BindingReady(m)
    ensures Backbone.IdsInRange(m.net, WordIds(m, w))
  {
    var base := Corpus.SubwordIds(m.dict, m.minn, m.maxn, m.dict.bucketSize, w);
    var hits := GrammarHits(m.dict, m.grammarKeys, w);
    var tail := PhoneticHit(m.dict, w);
    BaseRange(m.dict, m.minn, m.maxn, w);
    GrammarHitsRange(m.dict, m.grammarKeys, w, m.net.emb.rows);
    ThreeParts(base, hits, tail, 0, m.net.emb.rows);
    assert WordIds(m, w) == base + (hits + tail);
  }

  /** The backbone sum of each token that has ids, in order. */
  function TokenVectors(m: Binding, ts: seq<string>): (vs: seq<Vec>)
    requires BindingReady(m)
    ensures |vs| <= |ts|
    ensures forall i :: 0 <= i < |vs| ==> |vs[i]| == m.net.dim
  {
    if |ts| == 0 then []
    else
      var ids := WordIds(m, ts[|ts| - 1]);
      BindingWordInRange(m, ts[|ts| - 1]);
      TokenVectors(m, ts[..|ts| - 1]) + (if ids == [] then [] else [Backbone.Forward(m.net, ids)])
  }

  /** Every id a text yields indexes a row of the table. */
  lemma BindingIdsInRange(m: Binding, ts: seq<string>)
    requires BindingReady(m)
    ensures Backbone.IdsInRange(m.net, TextIds(BindingIds(m), ts))
  {
    var sub := BindingIds(m);
    forall k, j | 0 <= k < |ts| && 0 <= j < |sub(ts[k])|
      ensures 0 <= sub(ts[k])[j] < m.net.emb.rows
    {
      BindingWordInRange(m, ts[k]);
      assert sub(ts[k]) == WordIds(m, ts[k]);
    }
    TextIdsBelow(sub, ts, m.net.emb.rows);
  }

  /** The text's representation: the encoder over the per-token sums, or the sum over all the ids. */
  function Representation(m: Binding, encode: seq<Vec> -> Vec, ts: seq<string>): (h: Vec)
    requires BindingReady(m) && forall vs :: |encode(vs)| == m.net.dim
    ensures |h| == m.net.dim
  {
    if m.useEncoder then encode(TokenVectors(m, ts))
    else
      BindingIdsInRange(m, ts);
      Backbone.Forward(m.net, TextIds(BindingIds(m), ts))
  }

  /**
   * GLADtoTEXT::predict: an unsupervised model throws; a text with no ids
   * gives nothing; otherwise every label is ranked against the text's
   * representation. The sentence encoder is a parameter.
   */
  function BindingPredict(m: Binding, encode: seq<Vec> -> Vec, text: string, k: int): (r: Result<seq<Scored<string>>>)
    requires BindingReady(m) && forall vs :: |encode(vs)| == m.net.dim
    ensures !m.supervised ==> r == Err(NotSupervised)
    ensures r.Err? ==> !m.supervised || k < 0
    ensures LabelsOnly(r, m.labels)
  {
    if !m.supervised then Err(NotSupervised)
    else
      var ts := Words(text);
      if TextIds(BindingIds(m), ts) == [] then Ok([])
      else
        var s := LabelScores(m.protos, Representation(m, encode, ts));
        RankedLabels(m.labels, s, k);
        Ranked(m.labels, s, k)
  }

  /**
   * An unsupervised model is an error, whatever the text; a supervised one
   * gives nothing when no token has an id, and otherwise ranks every label
   * against the representation: min(k, #labels) of them by non-increasing
   * score, none left out above one kept.
   */
  lemma BindingPredictSpec(m: Binding, encode: seq<Vec> -> Vec, text: string, k: int)
    requires BindingReady(m) && forall vs :: |encode(vs)| == m.net.dim
    ensures !m.supervised ==> BindingPredict(m, encode, text, k) == Err(NotSupervised)
    ensures var ts := Words(text);
            (m.supervised && forall j :: 0 <= j < |ts| ==> WordIds(m, ts[j]) == []) ==>
              BindingPredict(m, encode, text, k) == Ok([])
    ensures var ts := Words(text);
            var s := LabelScores(m.protos, Representation(m, encode, ts));
            (m.supervised && k >= 0 && exists j :: 0 <= j < |ts| && WordIds(m, ts[j]) != []) ==>
              && BindingPredict(m, encode, text, k) == Ranked(m.labels, s, k)
              && BindingPredict(m, encode, text, k).Ok?
              && var r := BindingPredict(m, encode, text, k).value;
                 && |r| == Min(k, |m.labels|) && SortedDesc(r)
                 && (forall i :: 0 <= i < |m.labels| && Scored(m.labels[i], s[i]) !in r ==>
                       forall y :: y in r ==> s[i] <= y.score)
  {
    var ts := Words(text);
    TextIdsEmpty(BindingIds(m), ts);
    if m.supervised && k >= 0 && TextIds(BindingIds(m), ts) != [] {
      var s := LabelScores(m.protos, Representation(m, encode, ts));
      assert BindingPredict(m, encode, text, k) == Ranked(m.labels, s, k);
      RankedSpec(m.labels, s, k);
    }
  }

  // -------------------------------------------------------- compact tool

  /**
   * The buffer sizes CompactModel::load reads, with the row count taken as
   * zero when the word count read was negative, and the word ids it assigns.
   */
  predicate CompactReady(c: CF.Compact) {
    && c.dim >= 0
    && |c.emb| == Max(c.rows, 0) * c.dim && |c.att| == c.dim && |c.protos| == |c.labels| * c.dim
    && forall w :: w in c.word2id ==> 0 <= c.word2id[w] < Max(c.rows, 0)
  }

  /** A product of a negative and a non-negative number is never positive. */
  lemma NegativeTimes(a: int, b: int)
    requires a < 0 && b >= 0
    ensures a * b <= 0
  {
  }

  /** Whatever load accepts has those shapes. */
  lemma LoadReady(t: seq<Tokens.Token>)
    ensures CF.LoadCompact(t).Ok? ==> CompactReady(CF.LoadCompact(t).value)
  {
    if CF.LoadCompact(t).Ok? {
      var c := CF.LoadCompact(t).value;
      if c.rows < 0 {
        NegativeTimes(c.rows, c.dim);
      }
    }
  }

  /** The backbone the compact tool inlines: embedding rows of dim floats gated by the attention weights. */
  function CompactNet(c: CF.Compact, sigmoid: real -> real): (n: Backbone.Net)
    requires CompactReady(c)
    ensures Backbone.Valid(n) && n.emb.rows == Max(c.rows, 0) && n.dim == c.dim
  {
    Backbone.Net(Matrix(Max(c.rows, 0), c.dim, c.emb), c.att, sigmoid, c.dim)
  }

  /** getEmbedding(id): the dim floats of row id. */
  function Embedding(c: CF.Compact, id: nat): (e: Vec)
    requires CompactReady(c) && id < c.rows
    ensures |e| == c.dim
    ensures (RowFits(id, c.rows, c.dim); forall j :: 0 <= j < c.dim ==> e[j] == c.emb[id * c.dim + j])
  {
    RowFits(id, c.rows, c.dim);
    Block(c.emb, c.dim, id)
  }

  /** The known words of a text, as their ids, in order; unknown words are dropped. */
  function KnownIds(word2id: map<string, int>, ts: seq<string>): (ids: seq<int>)
    ensures |ids| <= |ts|
    ensures forall x :: x in ids <==> exists k :: 0 <= k < |ts| && ts[k] in word2id && word2id[ts[k]] == x
    ensures ids == [] <==> forall k :: 0 <= k < |ts| ==> ts[k] !in word2id
  {
    if |ts| == 0 then []
    else
      var init := ts[..|ts| - 1];
      var w := ts[|ts| - 1];
      var prev := KnownIds(word2id, init);
      assert forall k :: 0 <= k < |init| ==> init[k] == ts[k];
      prev + (if w in word2id then [word2id[w]] else [])
  }

  /** Every kept id is a row of the table. */
  lemma KnownIdsInRange(c: CF.Compact, sigmoid: real -> real, ts: seq<string>)
    requires CompactReady(c)
    ensures Backbone.IdsInRange(CompactNet(c, sigmoid), KnownIds(c.word2id, ts))
  {
    var ids := KnownIds(c.word2id, ts);
    forall j | 0 <= j < |ids|
      ensures 0 <= ids[j] < Max(c.rows, 0)
    {
      assert ids[j] in ids;
    }
  }

  /**
   * aggregate(ids): the sum, not the mean, of the gated embeddings; entry
   * j is the sum over the ids of sigmoid(att[j] * e[j]) * e[j].
   */
  function Aggregate(c: CF.Compact, sigmoid: real -> real, ids: seq<int>): (h: Vec)
    requires CompactReady(c) && Backbone.IdsInRange(CompactNet(c, sigmoid), ids)
    ensures |h| == c.dim
  {
    Backbone.Forward(CompactNet(c, sigmoid), ids)
  }

  /** The aggregate of two id lists put together is the sum of their aggregates, and word order does not matter. */
  lemma AggregateSum(c: CF.Compact, sigmoid: real -> real, a: seq<int>, b: seq<int>)
    requires CompactReady(c)
    requires Backbone.IdsInRange(CompactNet(c, sigmoid), a) && Backbone.IdsInRange(CompactNet(c, sigmoid), b)
    ensures Backbone.IdsInRange(CompactNet(c, sigmoid), a + b) && Backbone.IdsInRange(CompactNet(c, sigmoid), b + a)
    ensures Aggregate(c, sigmoid, a + b) == Sum2(Aggregate(c, sigmoid, a), Aggregate(c, sigmoid, b))
    ensures Aggregate(c, sigmoid, a + b) == Aggregate(c, sigmoid, b + a)
  {
    var n := CompactNet(c, sigmoid);
    Backbone.ForwardAppend(n, a, b);
    Backbone.ForwardAppend(n, b, a);
    assert multiset(a + b) == multiset(b + a);
    Backbone.ForwardPermutation(n, a + b, b + a);
  }

  /** Each label's score: dot(h, prototype row). */
  function CompactScores(c: CF.Compact, h: Vec): (s: seq<real>)
    requires CompactReady(c) && |h| == c.dim
    ensures |s| == |c.labels|
  {
    var p := Matrix(|c.labels|, c.dim, c.protos);
    seq(|c.labels|, i requires 0 <= i < |c.labels| => Dot(h, Row(p, i)))
  }

  /**
   * CompactModel::predict: the ids of the known words, nothing when there
   * are none, otherwise the ranking of the labels against their aggregate.
   */
  function CompactPredict(c: CF.Compact, sigmoid: real -> real, text: string, k: int): (r: Result<seq<Scored<string>>>)
    requires CompactReady(c)
    ensures r.Err? ==> k < 0
    ensures LabelsOnly(r, c.labels)
  {
    var ids := KnownIds(c.word2id, Words(text));
    if ids == [] then Ok([])
    else
      KnownIdsInRange(c, sigmoid, Words(text));
      var s := CompactScores(c, Aggregate(c, sigmoid, ids));
      RankedLabels(c.labels, s, k);
      Ranked(c.labels, s, k)
  }

  /**
   * Nothing when no word of the text is known; otherwise the ranking of
   * every label by the dot product of its prototype with the aggregate of
   * the known words' ids.
   */
  lemma CompactPredictSpec(c: CF.Compact, sigmoid: real -> real, text: string, k: int)
    requires CompactReady(c)
    ensures var ts := Words(text);
            (forall j :: 0 <= j < |ts| ==> ts[j] !in c.word2id) ==> CompactPredict(c, sigmoid, text, k) == Ok([])
    ensures var ts := Words(text);
            var ids := KnownIds(c.word2id, ts);
            (exists j :: 0 <= j < |ts| && ts[j] in c.word2id) ==>
              && ids != [] && Backbone.IdsInRange(CompactNet(c, sigmoid), ids)
              && CompactPredict(c, sigmoid, text, k) == Ranked(c.labels, CompactScores(c, Aggregate(c, sigmoid, ids)), k)
  {
    KnownIdsInRange(c, sigmoid, Words(text));
  }
}

=== FILE: spans.dfy ===
/**
 * The (start, length) windows that both n-gram enumerators visit: for every
 * start position of a string of a given size, every length in a range that
 * still fits, ordered by start and then by length.
 */
module Spans {
  import opened Common

  /** The substring s[start .. start + len). */
  datatype Span = Span(start: nat, len: nat)

  /** Lexicographic order on (start, len): the order the nested loops visit. */
  predicate Before(a: Span, b: Span) {
    a.start < b.start || (a.start == b.start && a.len < b.len)
  }

  predicate StrictlyOrdered(s: seq<Span>) {
    forall i, j :: 0 <= i < j < |s| ==> Before(s[i], s[j])
  }

  /** A span of a string of length `size` whose length lies in [lo, hi]. */
  predicate Fits(s: Span, size: nat, lo: int, hi: int) {
    lo <= s.len <= hi && s.start + s.len <= size
  }

  /** The spans at `start` with lengths lo, lo+1, ..., hi. */
  function Lengths(start: nat, lo: nat, hi: int): (r: seq<Span>)
    ensures |r| == if hi < lo then 0 else hi - lo + 1
    decreases hi - lo
  {
    if hi < lo then [] else Lengths(start, lo, hi - 1) + [Span(start, hi)]
  }

  /** The k-th span at a start has length lo + k. */
  lemma {:induction false} LengthsAt(start: nat, lo: nat, hi: int, k: nat)
    requires k < |Lengths(start, lo, hi)|
    ensures Lengths(start, lo, hi)[k] == Span(start, lo + k)
    decreases hi - lo
  {
    if k < hi - lo {
      LengthsAt(start, lo, hi - 1, k);
    }
  }

  /** The inner loop at one start: lengths from lo while they are <= hi and fit in `size`. */
  function AtStart(size: nat, start: nat, lo: nat, hi: int): seq<Span> {
    Lengths(start, lo, Min(hi, size - start))
  }

  /** Every window whose start is below `upTo`, in visiting order. */
  function Windows(size: nat, lo: nat, hi: int, upTo: nat): seq<Span> {
    if upTo == 0 then [] else Windows(size, lo, hi, upTo - 1) + AtStart(size, upTo - 1, lo, hi)
  }

  /** All windows of a string of length `size`. */
  function AllWindows(size: nat, lo: nat, hi: int): seq<Span> {
    Windows(size, lo, hi, size)
  }

  /** A span is visited at `start` iff it starts there and fits. */
  lemma AtStartMembers(size: nat, start: nat, lo: nat, hi: int, s: Span)
    ensures s in AtStart(size, start, lo, hi) <==> s.start == start && Fits(s, size, lo, hi)
  {
    var a := AtStart(size, start, lo, hi);
    if s in a {
      var k :| 0 <= k < |a| && a[k] == s;
      LengthsAt(start, lo, Min(hi, size - start), k);
    }
    if s.start == start && Fits(s, size, lo, hi) {
      LengthsAt(start, lo, Min(hi, size - start), s.len - lo);
    }
  }

  /** A span is visited before start `upTo` iff it starts there and fits. */
  lemma {:induction false} WindowsMembers(size: nat, lo: nat, hi: int, upTo: nat, s: Span)
    ensures s in Windows(size, lo, hi, upTo) <==> s.start < upTo && Fits(s, size, lo, hi)
  {
    if upTo > 0 {
      WindowsMembers(size, lo, hi, upTo - 1, s);
      AtStartMembers(size, upTo - 1, lo, hi, s);
    }
  }

  /** The enumeration visits exactly the spans that fit, and each of them once. */
  lemma AllWindowsExact(size: nat, lo: nat, hi: int, s: Span)
    ensures s in AllWindows(size, lo, hi) <==> s.start < size && Fits(s, size, lo, hi)
    ensures StrictlyOrdered(AllWindows(size, lo, hi))
  {
    WindowsMembers(size, lo, hi, size, s);
    WindowsOrdered(size, lo, hi, size);
  }

  /** Every enumerated span fits. */
  lemma {:induction false} AllWindowsFit(size: nat, lo: nat, hi: int)
    ensures forall k :: 0 <= k < |AllWindows(size, lo, hi)| ==> Fits(AllWindows(size, lo, hi)[k], size, lo, hi)
  {
    var all := AllWindows(size, lo, hi);
    forall k | 0 <= k < |all|
      ensures Fits(all[k], size, lo, hi)
    {
      assert all[k] in all;
      WindowsMembers(size, lo, hi, size, all[k]);
    }
  }

  /** Every span visited before start `upTo` starts below `upTo`. */
  lemma {:induction false} WindowsStartBelow(size: nat, lo: nat, hi: int, upTo: nat)
    ensures forall k :: 0 <= k < |Windows(size, lo, hi, upTo)| ==> Windows(size, lo, hi, upTo)[k].start < upTo
  {
    if upTo > 0 {
      WindowsStartBelow(size, lo, hi, upTo - 1);
      var p := Windows(size, lo, hi, upTo - 1);
      var a := AtStart(size, upTo - 1, lo, hi);
      forall k | 0 <= k < |a|
        ensures a[k].start == upTo - 1
      {
        LengthsAt(upTo - 1, lo, Min(hi, size - (upTo - 1)), k);
      }
      assert Windows(size, lo, hi, upTo) == p + a;
    }
  }

  /** The visiting order is strictly increasing in (start, len). */
  lemma {:induction false} WindowsOrdered(size: nat, lo: nat, hi: int, upTo: nat)
    ensures StrictlyOrdered(Windows(size, lo, hi, upTo))
  {
    if upTo > 0 {
      WindowsOrdered(size, lo, hi, upTo - 1);
      WindowsStartBelow(size, lo, hi, upTo - 1);
      var p := Windows(size, lo, hi, upTo - 1);
      var a := AtStart(size, upTo - 1, lo, hi);
      var w := p + a;
      forall i, j | 0 <= i < j < |w|
        ensures Before(w[i], w[j])
      {
        if j < |p| {
          assert w[i] == p[i] && w[j] == p[j];
        } else if i < |p| {
          LengthsAt(upTo - 1, lo, Min(hi, size - (upTo - 1)), j - |p|);
          assert w[i] == p[i] && w[j] == a[j - |p|];
        } else {
          LengthsAt(upTo - 1, lo, Min(hi, size - (upTo - 1)), i - |p|);
          LengthsAt(upTo - 1, lo, Min(hi, size - (upTo - 1)), j - |p|);
          assert w[i] == a[i - |p|] && w[j] == a[j - |p|];
        }
      }
    }
  }

  /** An empty length range visits nothing. */
  lemma {:induction false} EmptyRange(size: nat, lo: nat, hi: int, upTo: nat)
    requires hi < lo
    ensures Windows(size, lo, hi, upTo) == []
  {
    if upTo > 0 {
      EmptyRange(size, lo, hi, upTo - 1);
    }
  }

  lemma LengthsEmpty(start: nat, lo: nat, hi: int)
    requires hi < lo
    ensures Lengths(start, lo, hi) == []
  {
  }

  /** The windows as a set: every (start, len) with lo <= len <= hi that fits in `size`. */
  function WindowSet(size: nat, lo: nat, hi: int): set<Span> {
    set st: nat, ln: nat | st < size && ln <= size && lo <= ln <= hi && st + ln <= size :: Span(st, ln)
  }

  /** A sequence without repetitions has as many elements as its set. */
  lemma {:induction false} DistinctCard(s: seq<Span>)
    requires StrictlyOrdered(s)
    ensures |set x | x in s| == |s|
  {
    if |s| > 0 {
      var t := s[..|s| - 1];
      assert StrictlyOrdered(t);
      DistinctCard(t);
      assert (set x | x in s) == (set x | x in t) + {s[|s| - 1]};
      assert s[|s| - 1] !in t by {
        forall k | 0 <= k < |t|
          ensures t[k] != s[|s| - 1]
        {
          assert Before(s[k], s[|s| - 1]);
        }
      }
    }
  }

  /** The enumeration has exactly as many entries as there are windows. */
  lemma WindowCount(size: nat, lo: nat, hi: int)
    ensures |AllWindows(size, lo, hi)| == |WindowSet(size, lo, hi)|
  {
    var all := AllWindows(size, lo, hi);
    forall s
      ensures s in all <==> s in WindowSet(size, lo, hi)
    {
      AllWindowsExact(size, lo, hi, s);
    }
    assert (set x | x in all) == WindowSet(size, lo, hi);
    AllWindowsExact(size, lo, hi, Span(0, 0));
    DistinctCard(all);
  }

  /** The pieces of `w` a sequence of windows names, in order. */
  function Pieces<T>(w: seq<T>, spans: seq<Span>): (r: seq<seq<T>>)
    ensures |r| == |spans|
  {
    if |spans| == 0 then [] else Pieces(w, spans[..|spans| - 1]) + [Piece(w, spans[|spans| - 1])]
  }

  /** The elements a span covers; every enumerated span fits, so the empty fallback is never used. */
  function Piece<T>(w: seq<T>, s: Span): seq<T> {
    if s.start + s.len <= |w| then w[s.start..s.start + s.len] else []
  }

  lemma {:induction false} PiecesAt<T>(w: seq<T>, spans: seq<Span>, k: nat)
    requires k < |spans| && spans[k].start + spans[k].len <= |w|
    ensures Pieces(w, spans)[k] == w[spans[k].start..spans[k].start + spans[k].len]
  {
    if k < |spans| - 1 {
      PiecesAt(w, spans[..|spans| - 1], k);
    }
  }

  lemma {:induction false} PiecesAppend<T>(w: seq<T>, s1: seq<Span>, s2: seq<Span>)
    ensures Pieces(w, s1 + s2) == Pieces(w, s1) + Pieces(w, s2)
  {
    if |s2| > 0 {
      var s2' := s2[..|s2| - 1];
      assert (s1 + s2)[..|s1 + s2| - 1] == s1 + s2';
      assert (s1 + s2)[|s1 + s2| - 1] == s2[|s2| - 1];
      PiecesAppend(w, s1, s2');
    } else {
      assert s1 + s2 == s1;
    }
  }

  lemma PiecesSnoc<T>(w: seq<T>, spans: seq<Span>, s: Span)
    requires s.start + s.len <= |w|
    ensures Pieces(w, spans + [s]) == Pieces(w, spans) + [w[s.start..s.start + s.len]]
  {
    var all := spans + [s];
    assert all[..|all| - 1] == spans;
    assert all[|all| - 1] == s;
    assert Pieces(w, all) == Pieces(w, spans) + [Piece(w, s)];
  }
}

=== FILE: sparse_matrix.dfy ===
/**
 * SparseMatrix (core/sparse_matrix.h): a map from row to a map from column
 * to value, holding only the entries that are not near zero. The iteration
 * order of the C++ unordered_map is a parameter wherever a result is
 * accumulated over the rows.
 */
module SparseMatrices {
  import opened Vectors
  import opened Common

  /** The float threshold 1e-6f below which set stores nothing. */
  const Eps: real := 0.000001

  function Abs(x: real): real {
    if x < 0.0 then -x else x
  }

  datatype SparseMatrix = SparseMatrix(rows: int, cols: int, data: map<int, map<int, real>>)

  /** SparseMatrix(r, c): no entries. */
  function New(rows: int, cols: int): SparseMatrix {
    SparseMatrix(rows, cols, map[])
  }

  /** No row map is kept once it is empty. */
  predicate NoEmptyRows(m: SparseMatrix) {
    forall i :: i in m.data ==> m.data[i] != map[]
  }

  /** Every stored column is a valid index of a dense row. */
  predicate ColsInRange(m: SparseMatrix) {
    forall i, j :: i in m.data && j in m.data[i] ==> 0 <= j < m.cols
  }

  /**
   * get: the stored value, or 0 for an absent entry. A non-zero read comes
   * from a stored entry, and so from a valid column when every stored
   * column is one.
   */
  function Get(m: SparseMatrix, i: int, j: int): (r: real)
    ensures r != 0.0 ==> i in m.data && j in m.data[i] && m.data[i][j] == r
    ensures r != 0.0 && ColsInRange(m) ==> 0 <= j < m.cols
  {
    if i in m.data && j in m.data[i] then m.data[i][j] else 0.0
  }

  /** What set leaves behind: a near-zero value reads back as 0. */
  function Clean(v: real): real {
    if Abs(v) < Eps then 0.0 else v
  }

  /**
   * set: a near-zero value erases the entry (and its row once empty);
   * any other value is stored.
   */
  function Set(m: SparseMatrix, i: int, j: int, v: real): (r: SparseMatrix)
    ensures Get(r, i, j) == Clean(v)
    ensures forall a, b :: (a != i || b != j) ==> Get(r, a, b) == Get(m, a, b)
    ensures NoEmptyRows(m) ==> NoEmptyRows(r)
    ensures ColsInRange(m) && 0 <= j < m.cols ==> ColsInRange(r)
    ensures r.rows == m.rows && r.cols == m.cols
  {
    if Abs(v) < Eps then
      if i in m.data then
        var row := m.data[i] - {j};
        if row == map[] then
          assert forall b :: b in m.data[i] && b != j ==> b in row;
          m.(data := m.data - {i})
        else m.(data := m.data[i := row])
      else m
    else
      var row := if i in m.data then m.data[i] else map[];
      m.(data := m.data[i := row[j := v]])
  }

  /** add(i, j, v) is set(i, j, get(i, j) + v). */
  function Add(m: SparseMatrix, i: int, j: int, v: real): (r: SparseMatrix)
    ensures Get(r, i, j) == Clean(Get(m, i, j) + v)
    ensures forall a, b :: (a != i || b != j) ==> Get(r, a, b) == Get(m, a, b)
    ensures NoEmptyRows(m) ==> NoEmptyRows(r)
    ensures ColsInRange(m) && 0 <= j < m.cols ==> ColsInRange(r)
    ensures r.rows == m.rows && r.cols == m.cols
  {
    Set(m, i, j, Get(m, i, j) + v)
  }

  /** row(i): a dense vector of length cols, the stored values in place and zeros elsewhere. */
  function Row(m: SparseMatrix, i: int): (r: Vec)
    requires m.cols >= 0
    ensures |r| == m.cols
  {
    var stored := if i in m.data then m.data[i] else map[];
    seq(m.cols, j requires 0 <= j < m.cols => if j in stored then stored[j] else 0.0)
  }

  lemma RowIsGet(m: SparseMatrix, i: int, j: int)
    requires m.cols >= 0 && 0 <= j < m.cols
    ensures Row(m, i)[j] == Get(m, i, j)
  {
  }

  /**
   * One step of addRow's loop: column j, skipped when |g[j]| is at most
   * 1e-6, otherwise adding delta[j] (delta is lr * g, computed up front).
   */
  function AddRowStep(p: SparseMatrix, g: Vec, delta: Vec, i: int, j: nat): (r: SparseMatrix)
    requires j < |g| && j < |delta|
    ensures r.rows == p.rows && r.cols == p.cols
  {
    if Abs(g[j]) > Eps then Add(p, i, j, delta[j]) else p
  }

  /** A step changes entry (i, j) alone, and only when the gradient there is above the threshold. */
  lemma StepGet(p: SparseMatrix, g: Vec, delta: Vec, i: int, j: nat, a: int, b: int)
    requires j < |g| && j < |delta|
    ensures Get(AddRowStep(p, g, delta, i, j), a, b)
         == if a == i && b == j && Abs(g[j]) > Eps then Clean(Get(p, a, b) + delta[j]) else Get(p, a, b)
  {
  }

  /** The first n steps of addRow's loop over the columns. */
  function AddRowUpTo(m: SparseMatrix, g: Vec, delta: Vec, i: int, n: nat): (r: SparseMatrix)
    requires n <= |g| && n <= |delta|
    ensures r.rows == m.rows && r.cols == m.cols
  {
    if n == 0 then m else AddRowStep(AddRowUpTo(m, g, delta, i, n - 1), g, delta, i, n - 1)
  }

  /** addRow(g, i, lr): add lr * g[j] to (i, j) for each column j with |g[j]| > 1e-6. */
  function AddRow(m: SparseMatrix, g: Vec, i: int, lr: real): (r: SparseMatrix)
    requires |g| >= m.cols
    ensures r.rows == m.rows && r.cols == m.cols
  {
    if m.cols <= 0 then m else AddRowUpTo(m, g, Scaled(g, lr), i, m.cols)
  }

  /** Entry (a, b) after the first n columns of addRow's loop. */
  function AfterAddRow(m: SparseMatrix, g: Vec, delta: Vec, i: int, n: nat, a: int, b: int): real
    requires n <= |g| && n <= |delta|
  {
    if a == i && 0 <= b < n && Abs(g[b]) > Eps then Clean(Get(m, a, b) + delta[b]) else Get(m, a, b)
  }

  /**
   * After the first n columns, entry (i, b) for b < n with a gradient
   * above the threshold has had delta[b] added; every other entry, in
   * this row or any other, is as it was.
   */
  lemma {:induction false} AddRowUpToGet(m: SparseMatrix, g: Vec, delta: Vec, i: int, n: nat, a: int, b: int)
    requires n <= |g| && n <= |delta|
    ensures Get(AddRowUpTo(m, g, delta, i, n), a, b) == AfterAddRow(m, g, delta, i, n, a, b)
  {
    if n > 0 {
      var p := AddRowUpTo(m, g, delta, i, n - 1);
      AddRowUpToGet(m, g, delta, i, n - 1, a, b);
      StepGet(p, g, delta, i, n - 1, a, b);
      assert AddRowUpTo(m, g, delta, i, n) == AddRowStep(p, g, delta, i, n - 1);
      if a == i && b == n - 1 {
        assert Get(p, a, b) == Get(m, a, b);
      } else {
        assert AfterAddRow(m, g, delta, i, n, a, b) == AfterAddRow(m, g, delta, i, n - 1, a, b);
      }
    }
  }

  /**
   * After addRow(g, i, lr), entry (i, b) for a column with |g[b]| > 1e-6
   * has had lr * g[b] added (and reads 0 if the sum is near zero); every
   * other entry, in this row or any other, is as it was.
   */
  lemma AddRowGet(m: SparseMatrix, g: Vec, i: int, lr: real, a: int, b: int)
    requires |g| >= m.cols
    ensures Get(AddRow(m, g, i, lr), a, b)
         == if a == i && 0 <= b < m.cols && Abs(g[b]) > Eps then Clean(Get(m, a, b) + g[b] * lr) else Get(m, a, b)
  {
    if m.cols > 0 {
      AddRowUpToGet(m, g, Scaled(g, lr), i, m.cols, a, b);
    }
  }

  lemma {:induction false} AddRowUpToKeeps(m: SparseMatrix, g: Vec, delta: Vec, i: int, n: nat)
    requires n <= |g| && n <= |delta|
    ensures NoEmptyRows(m) ==> NoEmptyRows(AddRowUpTo(m, g, delta, i, n))
    ensures ColsInRange(m) && n <= m.cols ==> ColsInRange(AddRowUpTo(m, g, delta, i, n))
  {
    if n > 0 {
      AddRowUpToKeeps(m, g, delta, i, n - 1);
    }
  }

  /** addRow stores no empty row and no column outside [0, cols). */
  lemma AddRowKeeps(m: SparseMatrix, g: Vec, i: int, lr: real)
    requires |g| >= m.cols
    ensures NoEmptyRows(m) ==> NoEmptyRows(AddRow(m, g, i, lr))
    ensures ColsInRange(m) ==> ColsInRange(AddRow(m, g, i, lr))
  {
    if m.cols > 0 {
      AddRowUpToKeeps(m, g, Scaled(g, lr), i, m.cols);
    }
  }

  /** The dense view of row i after addRow: the dense addRow of core/vector.h, filtered and cleaned. */
  lemma AddRowRow(m: SparseMatrix, g: Vec, i: int, lr: real, j: int)
    requires |g| >= m.cols && 0 <= j < m.cols
    ensures Row(AddRow(m, g, i, lr), i)[j]
         == if Abs(g[j]) > Eps then Clean(Plus(Row(m, i), g, lr)[j]) else Row(m, i)[j]
  {
    AddRowGet(m, g, i, lr, i, j);
    assert g[j] * lr == lr * g[j];
  }

  /** A visiting order of the rows: each stored row exactly once. */
  predicate RowOrder(m: SparseMatrix, order: seq<int>) {
    (forall k, l :: 0 <= k < l < |order| ==> order[k] != order[l])
    && (forall i :: i in m.data ==> i in order)
    && (forall i :: i in order ==> i in m.data)
  }

  predicate AllIn(data: map<int, map<int, real>>, keys: seq<int>) {
    forall k :: 0 <= k < |keys| ==> keys[k] in data
  }

  /** The number of entries of the rows listed. */
  function CountRows(data: map<int, map<int, real>>, keys: seq<int>): nat
    requires AllIn(data, keys)
  {
    if |keys| == 0 then 0 else |data[keys[0]]| + CountRows(data, keys[1..])
  }

  /** The bytes the loop of memoryUsage adds up: 4 + 4 per entry of each row. */
  function BytesRows(data: map<int, map<int, real>>, keys: seq<int>): nat
    requires AllIn(data, keys)
  {
    if |keys| == 0 then 0 else |data[keys[0]]| * (4 + 4) + BytesRows(data, keys[1..])
  }

  /** nonZeroCount over the rows in the order the map yields them. */
  function NonZeroCount(m: SparseMatrix, order: seq<int>): nat
    requires RowOrder(m, order)
  {
    CountRows(m.data, order)
  }

  /** memoryUsage: sizeof(int) + sizeof(float) = 8 bytes per stored entry, so 8 times nonZeroCount. */
  function MemoryUsage(m: SparseMatrix, order: seq<int>): (r: nat)
    requires RowOrder(m, order)
    ensures r == 8 * NonZeroCount(m, order)
  {
    BytesAreEightPerEntry(m.data, order);
    BytesRows(m.data, order)
  }

  lemma {:induction false} BytesAreEightPerEntry(data: map<int, map<int, real>>, keys: seq<int>)
    requires AllIn(data, keys)
    ensures BytesRows(data, keys) == 8 * CountRows(data, keys)
  {
    if |keys| > 0 {
      BytesAreEightPerEntry(data, keys[1..]);
    }
  }

  lemma {:induction false} CountRowsAppend(data: map<int, map<int, real>>, a: seq<int>, b: seq<int>)
    requires AllIn(data, a) && AllIn(data, b)
    ensures AllIn(data, a + b)
    ensures CountRows(data, a + b) == CountRows(data, a) + CountRows(data, b)
  {
    if |a| > 0 {
      assert (a + b)[1..] == a[1..] + b;
      CountRowsAppend(data, a[1..], b);
    } else {
      assert a + b == b;
    }
  }

  /** Taking row b[k] out of the visiting order takes its entries out of the count. */
  lemma CountRowsRemove(data: map<int, map<int, real>>, b: seq<int>, k: nat)
    requires AllIn(data, b) && k < |b|
    ensures AllIn(data, b[..k] + b[k + 1..])
    ensures CountRows(data, b) == |data[b[k]]| + CountRows(data, b[..k] + b[k + 1..])
  {
    var x := b[k];
    CountRowsAppend(data, [x], b[k + 1..]);
    CountRowsAppend(data, b[..k], [x] + b[k + 1..]);
    CountRowsAppend(data, b[..k], b[k + 1..]);
    assert b[..k] + ([x] + b[k + 1..]) == b;
    assert [x][1..] == [];
  }

  /** The count does not depend on the order the rows are visited in. */
  lemma {:induction false} CountRowsPermutation(data: map<int, map<int, real>>, a: seq<int>, b: seq<int>)
    requires AllIn(data, a) && AllIn(data, b)
    requires multiset(a) == multiset(b)
    ensures CountRows(data, a) == CountRows(data, b)
    decreases |a|
  {
    if |a| > 0 {
      assert a[0] in multiset(b);
      var k :| 0 <= k < |b| && b[k] == a[0];
      MultisetRemove(a, b, k);
      CountRowsRemove(data, b, k);
      CountRowsPermutation(data, a[1..], b[..k] + b[k + 1..]);
    } else {
      assert |multiset(b)| == 0;
    }
  }

  lemma DistinctMultiset(a: seq<int>, b: seq<int>)
    requires forall k, l :: 0 <= k < l < |a| ==> a[k] != a[l]
    requires forall k, l :: 0 <= k < l < |b| ==> b[k] != b[l]
    requires forall x :: x in a <==> x in b
    ensures multiset(a) == multiset(b)
  {
    forall x
      ensures multiset(a)[x] == multiset(b)[x]
    {
      DistinctCount(a, x);
      DistinctCount(b, x);
    }
  }

  lemma {:induction false} DistinctCount(a: seq<int>, x: int)
    requires forall k, l :: 0 <= k < l < |a| ==> a[k] != a[l]
    ensures multiset(a)[x] == if x in a then 1 else 0
  {
    if |a| > 0 {
      DistinctCount(a[1..], x);
      assert a == [a[0]] + a[1..];
      assert a[0] !in a[1..];
    }
  }

  /** nonZeroCount is the same whatever order the rows are visited in. */
  lemma NonZeroCountAnyOrder(m: SparseMatrix, o1: seq<int>, o2: seq<int>)
    requires RowOrder(m, o1) && RowOrder(m, o2)
    ensures NonZeroCount(m, o1) == NonZeroCount(m, o2)
  {
    DistinctMultiset(o1, o2);
    OrderAllIn(m, o1);
    OrderAllIn(m, o2);
    CountRowsPermutation(m.data, o1, o2);
  }

  lemma OrderAllIn(m: SparseMatrix, order: seq<int>)
    requires RowOrder(m, order)
    ensures AllIn(m.data, order)
  {
    forall k | 0 <= k < |order|
      ensures order[k] in m.data
    {
      assert order[k] in order;
    }
  }

  /** The entries prune keeps in one row. */
  function KeepAbove(row: map<int, real>, t: real): map<int, real> {
    map j | j in row && !(Abs(row[j]) < t) :: row[j]
  }

  /**
   * prune(t): erase every entry whose magnitude is below t, and every row
   * left empty.
   */
  function Prune(m: SparseMatrix, t: real): (r: SparseMatrix)
    ensures r.rows == m.rows && r.cols == m.cols
    ensures NoEmptyRows(r)
    ensures forall i, j :: i in r.data && j in r.data[i] ==> Abs(r.data[i][j]) >= t
  {
    m.(data := map i | i in m.data && KeepAbove(m.data[i], t) != map[] :: KeepAbove(m.data[i], t))
  }

  /** After prune(t) an entry reads back unchanged if its magnitude is at least t, and 0 otherwise. */
  lemma PruneGet(m: SparseMatrix, t: real, i: int, j: int)
    ensures Get(Prune(m, t), i, j) == if Abs(Get(m, i, j)) < t then 0.0 else Get(m, i, j)
  {
    var r := Prune(m, t);
    if i in m.data && j in m.data[i] && !(Abs(m.data[i][j]) < t) {
      assert j in KeepAbove(m.data[i], t);
    }
  }

  /** prune is idempotent. */
  lemma PruneTwice(m: SparseMatrix, t: real)
    ensures Prune(Prune(m, t), t) == Prune(m, t)
  {
    var r := Prune(m, t);
    forall i | i in r.data
      ensures KeepAbove(r.data[i], t) == r.data[i]
    {
    }
  }

  /** zero: every entry is erased. */
  function Zero(m: SparseMatrix): (r: SparseMatrix)
    ensures forall i, j :: Get(r, i, j) == 0.0
    ensures RowOrder(r, []) && NonZeroCount(r, []) == 0
  {
    m.(data := map[])
  }
}

=== FILE: tiny_files.dfy ===
/**
 * The tiny (GALT) model file written by TinyClassifier::save: magic, dim,
 * minn, maxn, bucket, the three feature flags, the words, the labels, the
 * embedding scale, the number of stored embedding rows, each stored row as
 * its id, its entry count and (column, int8) pairs, the dim attention
 * weights, the prototype scale, and for each label a count followed by
 * (dimension, int8) pairs for the prototype entries above 1e-6.
 *
 * The repository has no reader for this layout; ReadTiny below is a
 * reference reader that follows it field by field, so that the writer's
 * counts can be checked against what it writes.
 */
module TinyFiles {
  import opened Common
  import opened Tokens
  import opened ModelFiles
  import SM = SparseMatrices
  import TinyModel

  const MagicTiny: int := 0x47414C54  // "GALT"

  /** A quantized entry: its column (or prototype dimension) and its int8 value. */
  datatype Entry = Entry(col: int, q: int)

  /** A stored embedding row as written: its id and its quantized entries. */
  datatype Row = Row(id: int, entries: seq<Entry>)

  /** What save reads from the classifier. */
  datatype TinyFile = TinyFile(dim: int, f: TinyModel.Features, words: seq<string>, labels: seq<string>,
                               emb: SM.SparseMatrix, att: seq<real>, protos: SM.SparseMatrix)

  /** The attention layer holds dim weights. */
  predicate Shaped(m: TinyFile) {
    |m.att| == m.dim && m.dim >= 0
  }

  /** s lists every key of the set exactly once. */
  predicate Enumerates(s: seq<int>, keys: set<int>) {
    && (forall k, l :: 0 <= k < l < |s| ==> s[k] != s[l])
    && (forall k :: 0 <= k < |s| ==> s[k] in keys)
    && (forall x :: x in keys ==> x in s)
  }

  /**
   * The order the unordered maps yield: every stored row once, and for
   * each row every stored column once.
   */
  predicate Iteration(m: SM.SparseMatrix, rowOrder: seq<int>, colOrder: map<int, seq<int>>) {
    && SM.RowOrder(m, rowOrder)
    && forall i :: i in m.data ==> i in colOrder && Enumerates(colOrder[i], m.data[i].Keys)
  }

  /** A sequence listing a set once per key is as long as the set is large. */
  lemma {:induction false} EnumeratesCard(s: seq<int>, keys: set<int>)
    requires Enumerates(s, keys)
    ensures |s| == |keys|
  {
    if |s| > 0 {
      var rest := keys - {s[0]};
      forall x | x in rest ensures x in s[1..] {
        var k :| 0 <= k < |s| && s[k] == x;
        assert k != 0;
      }
      EnumeratesCard(s[1..], rest);
    } else {
      assert s == [];
      assert forall x :: x !in keys;
    }
  }

  /** A row order lists as many rows as the matrix stores. */
  lemma RowOrderCard(m: SM.SparseMatrix, rowOrder: seq<int>)
    requires SM.RowOrder(m, rowOrder)
    ensures |rowOrder| == |m.data|
  {
    EnumeratesCard(rowOrder, m.data.Keys);
  }

  // ---------------------------------------------------------------- pairs

  /** (int col, int8 value) pairs, with no count. */
  function PairTokens(es: seq<Entry>): (t: seq<Token>)
    ensures |t| == 2 * |es|
  {
    if |es| == 0 then [] else [I32(es[0].col), I8(es[0].q)] + PairTokens(es[1..])
  }

  /** in.read of one int8. */
  function ReadByte(t: seq<Token>): (r: Result<Read<int>>)
    ensures r.Ok? <==> |t| > 0 && t[0].I8?
    ensures r.Ok? ==> r.value == Read(t[0].q, t[1..])
  {
    if |t| > 0 && t[0].I8? then Ok(Read(t[0].q, t[1..])) else Err(Malformed)
  }

  /** n pairs; a negative count is refused. */
  function ReadPairs(t: seq<Token>, n: int): (r: Result<Read<seq<Entry>>>)
    ensures n < 0 ==> r.Err?
    ensures r.Ok? ==> |r.value.value| == n
    decreases if n < 0 then 0 else n
  {
    if n < 0 then Err(Malformed)
    else if n == 0 then Ok(Read([], t))
    else
      var col :- ReadInt(t);
      var q :- ReadByte(col.rest);
      var more :- ReadPairs(q.rest, n - 1);
      Ok(Read([Entry(col.value, q.value)] + more.value, more.rest))
  }

  /** An int token in front of the rest reads as that int. */
  lemma ReadIntCons(x: int, rest: seq<Token>)
    ensures ReadInt([I32(x)] + rest) == Ok(Read(x, rest))
  {
    assert ([I32(x)] + rest)[1..] == rest;
  }

  lemma ReadByteCons(x: int, rest: seq<Token>)
    ensures ReadByte([I8(x)] + rest) == Ok(Read(x, rest))
  {
    assert ([I8(x)] + rest)[1..] == rest;
  }

  lemma {:induction false} PairsRoundTrip(es: seq<Entry>, rest: seq<Token>)
    ensures ReadPairs(PairTokens(es) + rest, |es|) == Ok(Read(es, rest))
  {
    if |es| > 0 {
      var more := PairTokens(es[1..]) + rest;
      assert [I32(es[0].col), I8(es[0].q)] == [I32(es[0].col)] + [I8(es[0].q)];
      SeqAssoc([I32(es[0].col)] + [I8(es[0].q)], PairTokens(es[1..]), rest);
      SeqAssoc([I32(es[0].col)], [I8(es[0].q)], more);
      ReadIntCons(es[0].col, [I8(es[0].q)] + more);
      ReadByteCons(es[0].q, more);
      PairsRoundTrip(es[1..], rest);
      assert [es[0]] + es[1..] == es;
    } else {
      assert PairTokens(es) + rest == rest;
    }
  }

  // ------------------------------------------------------ embedding rows

  /** A stored row's entries in the map's order, each quantized with scale 0.01. */
  function QuantizeRow(row: map<int, real>, cols: seq<int>): (es: seq<Entry>)
    requires forall k :: 0 <= k < |cols| ==> cols[k] in row
    ensures |es| == |cols|
  {
    seq(|cols|, k requires 0 <= k < |cols| => Entry(cols[k], TinyModel.Quantize(row[cols[k]], TinyModel.Scale)))
  }

  /** Every row listed is stored and has a column order listing only stored columns. */
  predicate Listed(m: SM.SparseMatrix, rows: seq<int>, colOrder: map<int, seq<int>>) {
    forall k :: 0 <= k < |rows| ==>
      rows[k] in m.data && rows[k] in colOrder && Enumerates(colOrder[rows[k]], m.data[rows[k]].Keys)
  }

  /** One stored row: its id, row.second.size(), then its pairs. */
  function EmbRowTokens(m: SM.SparseMatrix, i: int, cols: seq<int>): seq<Token>
    requires i in m.data && Enumerates(cols, m.data[i].Keys)
  {
    [I32(i)] + ([I32(|m.data[i]|)] + PairTokens(QuantizeRow(m.data[i], cols)))
  }

  /** One row reads back as its id and its quantized entries: the count header matches. */
  lemma EmbRowRoundTrip(m: SM.SparseMatrix, i: int, cols: seq<int>, more: seq<Token>)
    requires i in m.data && Enumerates(cols, m.data[i].Keys)
    ensures var t := EmbRowTokens(m, i, cols) + more;
            var u := [I32(|cols|)] + (PairTokens(QuantizeRow(m.data[i], cols)) + more);
            && ReadInt(t) == Ok(Read(i, u))
            && ReadInt(u) == Ok(Read(|cols|, PairTokens(QuantizeRow(m.data[i], cols)) + more))
            && ReadPairs(PairTokens(QuantizeRow(m.data[i], cols)) + more, |cols|) == Ok(Read(QuantizeRow(m.data[i], cols), more))
  {
    var es := QuantizeRow(m.data[i], cols);
    EnumeratesCard(cols, m.data[i].Keys);
    CountedPairs(es, more);
    SeqAssoc([I32(i)], [I32(|es|)] + PairTokens(es), more);
    ReadIntCons(i, ([I32(|es|)] + PairTokens(es)) + more);
  }

  /** A count followed by that many pairs reads back. */
  lemma CountedPairs(es: seq<Entry>, more: seq<Token>)
    ensures ([I32(|es|)] + PairTokens(es)) + more == [I32(|es|)] + (PairTokens(es) + more)
    ensures ReadInt([I32(|es|)] + (PairTokens(es) + more)) == Ok(Read(|es|, PairTokens(es) + more))
    ensures ReadPairs(PairTokens(es) + more, |es|) == Ok(Read(es, more))
  {
    SeqAssoc([I32(|es|)], PairTokens(es), more);
    ReadIntCons(|es|, PairTokens(es) + more);
    PairsRoundTrip(es, more);
  }

  /** The stored rows in the map's order. */
  function EmbTokens(m: SM.SparseMatrix, rows: seq<int>, colOrder: map<int, seq<int>>): seq<Token>
    requires Listed(m, rows, colOrder)
  {
    if |rows| == 0 then []
    else EmbRowTokens(m, rows[0], colOrder[rows[0]]) + EmbTokens(m, rows[1..], colOrder)
  }

  /** The rows as they were written. */
  function EmbRows(m: SM.SparseMatrix, rows: seq<int>, colOrder: map<int, seq<int>>): (r: seq<Row>)
    requires Listed(m, rows, colOrder)
    ensures |r| == |rows|
  {
    if |rows| == 0 then []
    else [Row(rows[0], QuantizeRow(m.data[rows[0]], colOrder[rows[0]]))] + EmbRows(m, rows[1..], colOrder)
  }

  /** The k-th row written is the k-th row of the order, with its entries quantized. */
  lemma {:induction false} EmbRowsAt(m: SM.SparseMatrix, rows: seq<int>, colOrder: map<int, seq<int>>, k: int)
    requires Listed(m, rows, colOrder) && 0 <= k < |rows|
    ensures EmbRows(m, rows, colOrder)[k] == Row(rows[k], QuantizeRow(m.data[rows[k]], colOrder[rows[k]]))
  {
    if k > 0 {
      EmbRowsAt(m, rows[1..], colOrder, k - 1);
    }
  }

  /** n rows, each an id, a count and that many pairs. */
  function ReadRows(t: seq<Token>, n: int): (r: Result<Read<seq<Row>>>)
    ensures n < 0 ==> r.Err?
    ensures r.Ok? ==> |r.value.value| == n
    decreases if n < 0 then 0 else n
  {
    if n < 0 then Err(Malformed)
    else if n == 0 then Ok(Read([], t))
    else
      var id :- ReadInt(t);
      var count :- ReadInt(id.rest);
      var es :- ReadPairs(count.rest, count.value);
      var more :- ReadRows(es.rest, n - 1);
      Ok(Read([Row(id.value, es.value)] + more.value, more.rest))
  }

  /** Each stored row reads back as its id and its quantized entries: the count header matches. */
  lemma {:induction false} EmbRoundTrip(m: SM.SparseMatrix, rows: seq<int>, colOrder: map<int, seq<int>>, rest: seq<Token>)
    requires Listed(m, rows, colOrder)
    ensures ReadRows(EmbTokens(m, rows, colOrder) + rest, |rows|) == Ok(Read(EmbRows(m, rows, colOrder), rest))
  {
    if |rows| > 0 {
      var i := rows[0];
      var more := EmbTokens(m, rows[1..], colOrder) + rest;
      EmbRowRoundTrip(m, i, colOrder[i], more);
      SeqAssoc(EmbRowTokens(m, i, colOrder[i]), EmbTokens(m, rows[1..], colOrder), rest);
      assert Listed(m, rows[1..], colOrder);
      EmbRoundTrip(m, rows[1..], colOrder, rest);
    } else {
      assert EmbTokens(m, rows, colOrder) + rest == rest;
    }
  }

  // ------------------------------------------------------ prototype rows

  /** The first loop of a prototype row: how many of the first n dimensions exceed 1e-6. */
  function Count(p: SM.SparseMatrix, i: int, n: int): (c: nat)
    ensures c <= Max(n, 0)
  {
    if n <= 0 then 0 else Count(p, i, n - 1) + (if SM.Abs(SM.Get(p, i, n - 1)) > SM.Eps then 1 else 0)
  }

  /** The second loop: the dimensions below n whose entry exceeds 1e-6, in increasing order. */
  function WrittenDims(p: SM.SparseMatrix, i: int, n: int): (ds: seq<int>)
    ensures forall d :: d in ds <==> 0 <= d < n && SM.Abs(SM.Get(p, i, d)) > SM.Eps
    ensures forall k, l :: 0 <= k < l < |ds| ==> ds[k] < ds[l]
  {
    if n <= 0 then []
    else
      var prev := WrittenDims(p, i, n - 1);
      assert forall k :: 0 <= k < |prev| ==> prev[k] in prev;
      if SM.Abs(SM.Get(p, i, n - 1)) > SM.Eps then prev + [n - 1] else prev
  }

  /** The count header of a prototype row equals the number of pairs written after it. */
  lemma {:induction false} CountMatchesPairs(p: SM.SparseMatrix, i: int, n: int)
    ensures Count(p, i, n) == |WrittenDims(p, i, n)|
  {
    if n > 0 {
      CountMatchesPairs(p, i, n - 1);
    }
  }

  /** A prototype row's entries as written: each dimension above 1e-6 with its quantized value. */
  function ProtoEntries(p: SM.SparseMatrix, i: int, dim: int): (es: seq<Entry>)
    ensures |es| == |WrittenDims(p, i, dim)|
  {
    var ds := WrittenDims(p, i, dim);
    seq(|ds|, k requires 0 <= k < |ds| => Entry(ds[k], TinyModel.Quantize(SM.Get(p, i, ds[k]), TinyModel.Scale)))
  }

  /** One label row: the count of the first loop, then the pairs of the second. */
  function ProtoRowTokens(p: SM.SparseMatrix, i: int, dim: int): seq<Token> {
    [I32(Count(p, i, dim))] + PairTokens(ProtoEntries(p, i, dim))
  }

  /** Label rows i .. n-1. */
  function ProtoTokens(p: SM.SparseMatrix, i: int, n: int, dim: int): seq<Token>
    decreases n - i
  {
    if i >= n then [] else ProtoRowTokens(p, i, dim) + ProtoTokens(p, i + 1, n, dim)
  }

  /** A label row reads back as its entries: the count header matches the pairs. */
  lemma ProtoRowRoundTrip(p: SM.SparseMatrix, i: int, dim: int, more: seq<Token>)
    ensures var es := ProtoEntries(p, i, dim);
            && ProtoRowTokens(p, i, dim) + more == [I32(|es|)] + (PairTokens(es) + more)
            && ReadInt([I32(|es|)] + (PairTokens(es) + more)) == Ok(Read(|es|, PairTokens(es) + more))
            && ReadPairs(PairTokens(es) + more, |es|) == Ok(Read(es, more))
  {
    CountMatchesPairs(p, i, dim);
    CountedPairs(ProtoEntries(p, i, dim), more);
  }

  /** The prototype rows i .. n-1 as written. */
  function ProtoRows(p: SM.SparseMatrix, i: int, n: int, dim: int): (r: seq<seq<Entry>>)
    ensures |r| == Max(n - i, 0)
    decreases n - i
  {
    if i >= n then [] else [ProtoEntries(p, i, dim)] + ProtoRows(p, i + 1, n, dim)
  }

  /** n rows, each a count and that many pairs. */
  function ReadProtoRows(t: seq<Token>, n: int): (r: Result<Read<seq<seq<Entry>>>>)
    ensures r.Ok? ==> |r.value.value| == Max(n, 0)
    decreases if n < 0 then 0 else n
  {
    if n <= 0 then Ok(Read([], t))
    else
      var count :- ReadInt(t);
      var es :- ReadPairs(count.rest, count.value);
      var more :- ReadProtoRows(es.rest, n - 1);
      Ok(Read([es.value] + more.value, more.rest))
  }

  lemma {:induction false} ProtoRoundTrip(p: SM.SparseMatrix, i: int, n: int, dim: int, rest: seq<Token>)
    ensures ReadProtoRows(ProtoTokens(p, i, n, dim) + rest, n - i) == Ok(Read(ProtoRows(p, i, n, dim), rest))
    decreases n - i
  {
    if i < n {
      var more := ProtoTokens(p, i + 1, n, dim) + rest;
      ProtoRowRoundTrip(p, i, dim, more);
      SeqAssoc(ProtoRowTokens(p, i, dim), ProtoTokens(p, i + 1, n, dim), rest);
      ProtoRoundTrip(p, i + 1, n, dim, rest);
    } else {
      assert ProtoTokens(p, i, n, dim) + rest == rest;
    }
  }

  // ---------------------------------------------------------- the file

  /** Magic, dim, minn, maxn, bucket and the three flags. */
  function HeadTokens(m: TinyFile): seq<Token> {
    [I32(MagicTiny)] + (HeaderTokens(Header(m.dim, m.f.minn, m.f.maxn, m.f.bucket)) + FlagTokens(m.f))
  }

  /** use_char_ngrams, use_grammar, use_phonetic. */
  function FlagTokens(f: TinyModel.Features): seq<Token> {
    [Bool(f.charNgrams), Bool(f.grammar), Bool(f.phonetic)]
  }

  /** The embedding scale, the stored row count and the rows. */
  function EmbSection(m: TinyFile, rowOrder: seq<int>, colOrder: map<int, seq<int>>): seq<Token>
    requires Iteration(m.emb, rowOrder, colOrder)
  {
    [F32(TinyModel.Scale), I32(|m.emb.data|)] + EmbTokens(m.emb, rowOrder, colOrder)
  }

  /** The attention weights, the prototype scale and one row per label. */
  function TailSection(m: TinyFile): seq<Token> {
    FloatTokens(m.att) + ([F32(TinyModel.Scale)] + ProtoTokens(m.protos, 0, |m.labels|, m.dim))
  }

  /**
   * TinyClassifier::save. rowOrder and colOrder are the orders in which
   * the embedding table's unordered maps yield their rows and columns.
   */
  function WriteTiny(m: TinyFile, rowOrder: seq<int>, colOrder: map<int, seq<int>>): (t: seq<Token>)
    requires Shaped(m) && Iteration(m.emb, rowOrder, colOrder)
    ensures |t| > 8 && t[0] == I32(MagicTiny)
  {
    HeadTokens(m) + (ListTokens(m.words) + (ListTokens(m.labels) + (EmbSection(m, rowOrder, colOrder) + TailSection(m))))
  }

  /** What a reader of the layout recovers. */
  datatype Decoded = Decoded(dim: int, f: TinyModel.Features, words: seq<string>, labels: seq<string>,
                             embScale: real, emb: seq<Row>, att: seq<real>, protoScale: real, protos: seq<seq<Entry>>)

  /** The head: magic, then the four ints and three flags. */
  function ReadHead(t: seq<Token>): (r: Result<Read<(int, TinyModel.Features)>>)
    ensures |t| > 0 && t[0].I32? && t[0].i != MagicTiny ==> r == Err(BadMagic(t[0].i))
  {
    var magic :- ReadInt(t);
    if magic.value != MagicTiny then Err(BadMagic(magic.value))
    else
      var h :- ReadHeader(magic.rest);
      var c :- ReadBool(h.rest);
      var g :- ReadBool(c.rest);
      var ph :- ReadBool(g.rest);
      var hd := h.value;
      Ok(Read((hd.dim, TinyModel.Features(c.value, g.value, ph.value, hd.minn, hd.maxn, hd.bucket)), ph.rest))
  }

  /** The embedding section: scale, row count, rows. */
  function ReadEmb(t: seq<Token>): (r: Result<Read<(real, seq<Row>)>>) {
    var scale :- ReadFloat(t);
    var n :- ReadInt(scale.rest);
    var rows :- ReadRows(n.rest, n.value);
    Ok(Read((scale.value, rows.value), rows.rest))
  }

  /** The tail: dim floats, the prototype scale, one row per label. */
  function ReadTail(t: seq<Token>, dim: int, nlabels: int): (r: Result<Read<(seq<real>, real, seq<seq<Entry>>)>>) {
    var att :- ReadFloats(t, dim);
    var scale :- ReadFloat(att.rest);
    var protos :- ReadProtoRows(scale.rest, nlabels);
    Ok(Read((att.value, scale.value, protos.value), protos.rest))
  }

  /** A reader of the GALT layout, section by section in the writer's order. */
  function ReadTiny(t: seq<Token>): (r: Result<Decoded>)
    ensures |t| > 0 && t[0].I32? && t[0].i != MagicTiny ==> r == Err(BadMagic(t[0].i))
    ensures r.Ok? ==> |r.value.protos| == |r.value.labels|
  {
    var head :- ReadHead(t);
    var words :- ReadList(head.rest);
    var labels :- ReadList(words.rest);
    var emb :- ReadEmb(labels.rest);
    var tail :- ReadTail(emb.rest, head.value.0, |labels.value|);
    Ok(Decoded(head.value.0, head.value.1, words.value, labels.value,
               emb.value.0, emb.value.1, tail.value.0, tail.value.1, tail.value.2))
  }

  lemma HeadRoundTrip(m: TinyFile, rest: seq<Token>)
    ensures ReadHead(HeadTokens(m) + rest) == Ok(Read((m.dim, m.f), rest))
  {
    var h := Header(m.dim, m.f.minn, m.f.maxn, m.f.bucket);
    var flags := FlagTokens(m.f) + rest;
    SeqAssoc([I32(MagicTiny)], HeaderTokens(h) + FlagTokens(m.f), rest);
    SeqAssoc(HeaderTokens(h), FlagTokens(m.f), rest);
    ReadIntCons(MagicTiny, HeaderTokens(h) + flags);
    HeaderRoundTrip(h, flags);
    assert flags[1..][1..][1..] == rest;
  }

  lemma EmbSectionRoundTrip(m: TinyFile, rowOrder: seq<int>, colOrder: map<int, seq<int>>, rest: seq<Token>)
    requires Iteration(m.emb, rowOrder, colOrder)
    ensures ReadEmb(EmbSection(m, rowOrder, colOrder) + rest)
            == Ok(Read((TinyModel.Scale, EmbRows(m.emb, rowOrder, colOrder)), rest))
  {
    RowOrderCard(m.emb, rowOrder);
    var rows := EmbTokens(m.emb, rowOrder, colOrder);
    SeqAssoc([F32(TinyModel.Scale), I32(|m.emb.data|)], rows, rest);
    var t := EmbSection(m, rowOrder, colOrder) + rest;
    assert t[1..] == [I32(|m.emb.data|)] + (rows + rest);
    ReadIntCons(|m.emb.data|, rows + rest);
    EmbRoundTrip(m.emb, rowOrder, colOrder, rest);
  }

  lemma TailRoundTrip(m: TinyFile, rest: seq<Token>)
    requires Shaped(m)
    ensures ReadTail(TailSection(m) + rest, m.dim, |m.labels|)
            == Ok(Read((m.att, TinyModel.Scale, ProtoRows(m.protos, 0, |m.labels|, m.dim)), rest))
  {
    var rows := ProtoTokens(m.protos, 0, |m.labels|, m.dim);
    var protos := rows + rest;
    var after := [F32(TinyModel.Scale)] + protos;
    SeqAssoc([F32(TinyModel.Scale)], rows, rest);
    SeqAssoc(FloatTokens(m.att), [F32(TinyModel.Scale)] + rows, rest);
    FloatsRoundTrip(m.att, after);
    assert after[1..] == protos;
    ProtoRoundTrip(m.protos, 0, |m.labels|, m.dim, rest);
  }

  /**
   * Reading a written tiny file gives back the header, the flags, the words
   * and labels, the attention weights, and every stored embedding row and
   * prototype row with exactly the entries written after its count.
   */
  lemma TinyRoundTrip(m: TinyFile, rowOrder: seq<int>, colOrder: map<int, seq<int>>)
    requires Shaped(m) && Iteration(m.emb, rowOrder, colOrder)
    ensures ReadTiny(WriteTiny(m, rowOrder, colOrder))
            == Ok(Decoded(m.dim, m.f, m.words, m.labels, TinyModel.Scale, EmbRows(m.emb, rowOrder, colOrder),
                          m.att, TinyModel.Scale, ProtoRows(m.protos, 0, |m.labels|, m.dim)))
  {
    var tail := TailSection(m);
    var emb := EmbSection(m, rowOrder, colOrder) + tail;
    var labels := ListTokens(m.labels) + emb;
    HeadRoundTrip(m, ListTokens(m.words) + labels);
    ListRoundTrip(m.words, labels);
    ListRoundTrip(m.labels, emb);
    EmbSectionRoundTrip(m, rowOrder, colOrder, tail);
    TailRoundTrip(m, []);
    assert tail + [] == tail;
  }

  /**
   * Every stored embedding entry is written once, in its row, with its
   * column, and dequantizes to within 0.01 of the trained value when that
   * value lies strictly inside (-1.28, 1.28).
   */
  lemma EmbEntriesClose(m: SM.SparseMatrix, rowOrder: seq<int>, colOrder: map<int, seq<int>>, i: int, j: int)
    requires Iteration(m, rowOrder, colOrder)
    requires i in m.data && j in m.data[i] && SM.Abs(m.data[i][j]) < 1.28
    ensures exists k, l :: 0 <= k < |rowOrder| && 0 <= l < |EmbRows(m, rowOrder, colOrder)[k].entries|
              && EmbRows(m, rowOrder, colOrder)[k].id == i
              && var e := EmbRows(m, rowOrder, colOrder)[k].entries[l];
                 e.col == j && SM.Abs(TinyModel.Dequantize(e.q, TinyModel.Scale) - m.data[i][j]) < TinyModel.Scale
  {
    var rows := EmbRows(m, rowOrder, colOrder);
    var k :| 0 <= k < |rowOrder| && rowOrder[k] == i;
    var l :| 0 <= l < |colOrder[i]| && colOrder[i][l] == j;
    EmbRowsAt(m, rowOrder, colOrder, k);
    assert QuantizeRow(m.data[i], colOrder[i])[l] == Entry(j, TinyModel.Quantize(m.data[i][j], TinyModel.Scale));
    assert rows[k].entries[l] == Entry(j, TinyModel.Quantize(m.data[i][j], TinyModel.Scale));
    TinyModel.QuantizeRoundTrip(m.data[i][j], TinyModel.Scale);
  }

  /**
   * A prototype row holds one entry per dimension below dim whose value
   * exceeds 1e-6, in increasing order, and each dequantizes to within
   * 0.01 of the trained value when that value lies inside (-1.28, 1.28).
   */
  lemma ProtoEntriesSpec(p: SM.SparseMatrix, i: int, dim: int, d: int)
    ensures (exists k :: 0 <= k < |ProtoEntries(p, i, dim)| && ProtoEntries(p, i, dim)[k].col == d)
            <==> 0 <= d < dim && SM.Abs(SM.Get(p, i, d)) > SM.Eps
    ensures forall k :: 0 <= k < |ProtoEntries(p, i, dim)| && SM.Abs(SM.Get(p, i, ProtoEntries(p, i, dim)[k].col)) < 1.28
              ==> var e := ProtoEntries(p, i, dim)[k];
                  SM.Abs(TinyModel.Dequantize(e.q, TinyModel.Scale) - SM.Get(p, i, e.col)) < TinyModel.Scale
  {
    var es := ProtoEntries(p, i, dim);
    var ds := WrittenDims(p, i, dim);
    assert forall k :: 0 <= k < |ds| ==> es[k] == Entry(ds[k], TinyModel.Quantize(SM.Get(p, i, ds[k]), TinyModel.Scale));
    if 0 <= d < dim && SM.Abs(SM.Get(p, i, d)) > SM.Eps {
      var k :| 0 <= k < |ds| && ds[k] == d;
      assert es[k].col == d;
    }
    forall k | 0 <= k < |es| && SM.Abs(SM.Get(p, i, es[k].col)) < 1.28
      ensures SM.Abs(TinyModel.Dequantize(es[k].q, TinyModel.Scale) - SM.Get(p, i, es[k].col)) < TinyModel.Scale
    {
      TinyModel.QuantizeRoundTrip(SM.Get(p, i, es[k].col), TinyModel.Scale);
    }
  }
}

=== FILE: tiny_model.dfy ===
/**
 * The tiny classifier (tiny_model.cpp): int8 quantization of the saved
 * weights, the subword ids of a token (word, character n-grams, grammar
 * units, phonetic unit, the last allocated on first sight), the
 * vocabulary it builds, the per-line split used in training, and the
 * pruning schedule. The gradient arithmetic and the lazy random
 * initialisation of embedding rows are not modelled.
 */
module TinyModel {
  import opened Common
  import D = Dictionaries
  import CharNgram
  import Spans
  import Phonetic
  import GrammarUnits
  import SM = SparseMatrices
  import Corpus

  /** The quantization scale save uses for embeddings and prototypes. */
  const Scale: real := 0.01

  /** static_cast<int> of a float: the fraction is dropped, rounding toward zero. */
  function Trunc(x: real): (n: int)
    ensures 0.0 <= x ==> n as real <= x < n as real + 1.0
    ensures x < 0.0 ==> n as real - 1.0 < x <= n as real
  {
    if x >= 0.0 then x.Floor else -((-x).Floor)
  }

  /** quantize: val / scale truncated toward zero, then clamped to the int8 range. */
  function Quantize(val: real, scale: real): (q: int)
    requires scale != 0.0
    ensures -128 <= q <= 127
  {
    Max(-128, Min(127, Trunc(val / scale)))
  }

  /** dequantize: the int8 value times the scale. */
  function Dequantize(q: int, scale: real): real {
    q as real * scale
  }

  /** x / s * s == x. */
  lemma DivMul(x: real, s: real)
    requires s != 0.0
    ensures (x / s) * s == x
  {
  }

  /** Dividing by a positive scale keeps the order. */
  lemma DivMonotone(a: real, b: real, s: real)
    requires s > 0.0 && a <= b
    ensures a / s <= b / s
  {
    DivMul(a, s);
    DivMul(b, s);
    assert (b / s - a / s) * s == b - a;
    PositiveFactor(b / s - a / s, s);
  }

  /** With s > 0, e * s and e have the same sign. */
  lemma PositiveFactor(e: real, s: real)
    requires s > 0.0
    ensures e * s >= 0.0 <==> e >= 0.0
    ensures e * s > 0.0 <==> e > 0.0
  {
  }

  /** A magnitude below one stays below s once scaled by s. */
  lemma ScaledBelow(e: real, s: real)
    requires s > 0.0 && -1.0 < e < 1.0
    ensures -s < e * s < s
  {
    PositiveFactor(1.0 - e, s);
    PositiveFactor(e + 1.0, s);
    assert (1.0 - e) * s == s - e * s;
    assert (e + 1.0) * s == e * s + s;
  }

  /** A value smaller in magnitude than c * s divides by s to something strictly between -c and c. */
  lemma DivBelow(val: real, s: real, c: real)
    requires s > 0.0 && SM.Abs(val) < c * s
    ensures -c < val / s < c
  {
    var x := val / s;
    DivMul(val, s);
    PositiveFactor(c - x, s);
    PositiveFactor(x + c, s);
    assert (c - x) * s == c * s - val;
    assert (x + c) * s == val + c * s;
  }

  /** Truncation toward zero never decreases as its argument grows. */
  lemma TruncMonotone(x: real, y: real)
    requires x <= y
    ensures Trunc(x) <= Trunc(y)
  {
  }

  /** A value smaller in magnitude than the scale quantizes to 0. */
  lemma QuantizeSmall(val: real, scale: real)
    requires scale > 0.0 && SM.Abs(val) < scale
    ensures Quantize(val, scale) == 0
  {
    DivBelow(val, scale, 1.0);
  }

  /** quantize keeps the order of the values it is given. */
  lemma QuantizeMonotone(a: real, b: real, scale: real)
    requires scale > 0.0 && a <= b
    ensures Quantize(a, scale) <= Quantize(b, scale)
  {
    DivMonotone(a, b, scale);
    TruncMonotone(a / scale, b / scale);
  }

  /**
   * Within the representable range the round trip loses less than one
   * scale step: |dequantize(quantize(val, s), s) - val| < s.
   */
  lemma QuantizeRoundTrip(val: real, scale: real)
    requires scale > 0.0 && SM.Abs(val) < 128.0 * scale
    ensures var q := Quantize(val, scale);
            -scale < Dequantize(q, scale) - val < scale
  {
    var x := val / scale;
    DivBelow(val, scale, 128.0);
    var t := Trunc(x);
    assert -127 <= t <= 127;
    assert Quantize(val, scale) == t;
    var e := t as real - x;
    ScaledBelow(e, scale);
    DivMul(val, scale);
    assert e * scale == t as real * scale - x * scale;
    assert Dequantize(Quantize(val, scale), scale) - val == e * scale;
  }

  /** What the tiny classifier was trained with. */
  datatype Features = Features(charNgrams: bool, grammar: bool, phonetic: bool, minn: int, maxn: int, bucket: int)

  /** CharNgrams reduces modulo the bucket size, which must be a nonzero int. */
  predicate Ready(f: Features) {
    f.charNgrams ==> CharNgram.ValidBucket(f.bucket)
  }

  /** The grammar ids of the pieces of w at the given spans, skipping pieces that are not units. */
  function GrammarIds(d: D.Dictionary, w: string, spans: seq<Spans.Span>): (r: seq<int>)
    ensures forall x :: x in r <==> x >= 0 && exists k :: 0 <= k < |spans| && D.GetGrammarId(d, Spans.Piece(w, spans[k])) == x
  {
    if |spans| == 0 then []
    else
      var init := spans[..|spans| - 1];
      var prev := GrammarIds(d, w, init);
      var gid := D.GetGrammarId(d, Spans.Piece(w, spans[|spans| - 1]));
      assert forall k :: 0 <= k < |init| ==> init[k] == spans[k];
      if gid >= 0 then prev + [gid] else prev
  }

  /** The grammar ids of a token: one per window of length 3 to 6 that is a known unit. */
  function TokenGrammarIds(d: D.Dictionary, w: string): seq<int> {
    GrammarIds(d, w, Spans.AllWindows(|w|, 3, 6))
  }

  /**
   * An id is among the token's grammar ids exactly when it is the id of a
   * substring of length 3 to 6.
   */
  lemma TokenGrammarIdsSpec(d: D.Dictionary, w: string, x: int)
    ensures x in TokenGrammarIds(d, w) <==>
              x >= 0 && exists s: Spans.Span :: Spans.Fits(s, |w|, 3, 6) && D.GetGrammarId(d, Spans.Piece(w, s)) == x
  {
    var all := Spans.AllWindows(|w|, 3, 6);
    if x in TokenGrammarIds(d, w) {
      var k :| 0 <= k < |all| && D.GetGrammarId(d, Spans.Piece(w, all[k])) == x;
      Spans.AllWindowsExact(|w|, 3, 6, all[k]);
    }
    if x >= 0 && exists s: Spans.Span :: Spans.Fits(s, |w|, 3, 6) && D.GetGrammarId(d, Spans.Piece(w, s)) == x {
      var s: Spans.Span :| Spans.Fits(s, |w|, 3, 6) && D.GetGrammarId(d, Spans.Piece(w, s)) == x;
      Spans.AllWindowsExact(|w|, 3, 6, s);
      var k :| 0 <= k < |all| && all[k] == s;
    }
  }

  /** The grammar ids read the grammar table alone. */
  lemma {:induction false} GrammarIdsTable(d1: D.Dictionary, d2: D.Dictionary, w: string, spans: seq<Spans.Span>)
    requires d1.grammar2id == d2.grammar2id
    ensures GrammarIds(d1, w, spans) == GrammarIds(d2, w, spans)
  {
    if |spans| > 0 {
      GrammarIdsTable(d1, d2, w, spans[..|spans| - 1]);
    }
  }

  /** The n-gram ids of a token when char n-grams are on. */
  function TokenNgramIds(d: D.Dictionary, f: Features, w: string): seq<int>
    requires Ready(f)
  {
    if f.charNgrams then Corpus.NgramIds(d, CharNgram.Expected(w, f.minn, f.maxn, f.bucket)) else []
  }

  /** The ids before the phonetic one: word id, n-gram ids, grammar ids. */
  function Prefix(d: D.Dictionary, f: Features, w: string): seq<int>
    requires Ready(f)
  {
    Corpus.CompactIds(d, w) + TokenNgramIds(d, f, w) + (if f.grammar then TokenGrammarIds(d, w) else [])
  }

  /** The ids before the phonetic one read the word, bucket and grammar tables alone. */
  lemma PrefixTables(d1: D.Dictionary, d2: D.Dictionary, f: Features, w: string)
    requires Ready(f)
    requires d1.word2id == d2.word2id && d1.bucketOffset == d2.bucketOffset && d1.grammar2id == d2.grammar2id
    ensures Prefix(d1, f, w) == Prefix(d2, f, w)
  {
    GrammarIdsTable(d1, d2, w, Spans.AllWindows(|w|, 3, 6));
    if f.charNgrams {
      NgramIdsTable(d1, d2, CharNgram.Expected(w, f.minn, f.maxn, f.bucket));
    }
  }

  /** The n-gram rows read bucket_offset alone. */
  lemma NgramIdsTable(d1: D.Dictionary, d2: D.Dictionary, hashes: seq<int>)
    requires d1.bucketOffset == d2.bucketOffset
    ensures Corpus.NgramIds(d1, hashes) == Corpus.NgramIds(d2, hashes)
  {
  }

  /**
   * TinyClassifier::getSubwordIds: the word id when known, the n-gram ids,
   * the grammar ids, then the phonetic unit's id, allocated when unseen.
   * Only the phonetic table can change.
   */
  function SubwordIds(d: D.Dictionary, f: Features, w: string): (r: (seq<int>, D.Dictionary))
    requires Ready(f)
    ensures r.1.(phonetic2id := d.phonetic2id) == d
    ensures !f.phonetic ==> r.1 == d
    ensures f.phonetic ==> (Phonetic.Spec(w) in r.1.phonetic2id && |r.0| > 0
                            && r.0[|r.0| - 1] == D.GetPhoneticId(r.1, Phonetic.Spec(w)))
    ensures f.phonetic ==> forall p :: p != Phonetic.Spec(w) ==> D.GetPhoneticId(r.1, p) == D.GetPhoneticId(d, p)
  {
    var ids := Prefix(d, f, w);
    if f.phonetic then
      var phon := Phonetic.Spec(w);
      var pid := D.GetPhoneticId(d, phon);
      if pid >= 0 then (ids + [pid], d)
      else
        var (d1, added) := D.AddPhonetic(d, phon);
        (ids + [added], d1)
    else (ids, d)
  }

  /**
   * The ids come in the order word id, n-gram ids, grammar ids, phonetic
   * id; the parts before the phonetic id depend on the dictionary's word,
   * bucket and grammar tables only.
   */
  lemma SubwordIdsOrder(d: D.Dictionary, f: Features, w: string)
    requires Ready(f)
    ensures var r := SubwordIds(d, f, w);
            r.0 == Corpus.CompactIds(d, w) + TokenNgramIds(d, f, w)
                   + (if f.grammar then TokenGrammarIds(d, w) else [])
                   + (if f.phonetic then [D.GetPhoneticId(r.1, Phonetic.Spec(w))] else [])
  {
  }

  /** A second call for the same token gives the same ids and changes nothing more. */
  lemma SubwordIdsTwice(d: D.Dictionary, f: Features, w: string)
    requires Ready(f)
    ensures var r := SubwordIds(d, f, w);
            SubwordIds(r.1, f, w) == r
  {
    var r := SubwordIds(d, f, w);
    PrefixTables(r.1, d, f, w);
  }

  /** With no features on, a token's ids are its word id alone, if it has one. */
  lemma SubwordIdsWordOnly(d: D.Dictionary, w: string, minn: int, maxn: int, bucket: int)
    requires D.WordsValid(d)
    ensures var r := SubwordIds(d, Features(false, false, false, minn, maxn, bucket), w);
            r.1 == d && (r.0 == [] <==> w !in d.word2id)
            && (w in d.word2id ==> r.0 == [D.GetWordId(d, w)])
  {
  }

  /** getSubwordIds with the model's features fixed, threading the dictionary. */
  function Step(f: Features): (D.Dictionary, string) -> (seq<int>, D.Dictionary)
    requires Ready(f)
  {
    (d: D.Dictionary, w: string) => SubwordIds(d, f, w)
  }

  /**
   * With phonetic units on every token has at least one id, so a line
   * yields ids exactly when it holds a token that is not a marker.
   */
  lemma LineIds(labels: seq<string>, f: Features, d: D.Dictionary, ts: seq<string>)
    requires Ready(f) && f.phonetic
    ensures |Corpus.SplitLine(labels, Step(f), d, ts).ids| > 0 <==> exists k :: 0 <= k < |ts| && !Corpus.IsLabel(ts[k])
  {
    forall s, w ensures |Step(f)(s, w).0| > 0 {
      assert Step(f)(s, w) == SubwordIds(s, f, w);
    }
    Corpus.SplitLineIds(labels, Step(f), d, ts);
  }

  /** The non-marker tokens of the corpus, in order: what the grammar inducer observes. */
  function Words(ts: seq<string>): (r: seq<string>)
    ensures forall w :: w in r <==> w in ts && !Corpus.IsLabel(w)
  {
    if |ts| == 0 then []
    else
      var init := ts[..|ts| - 1];
      assert ts == init + [ts[|ts| - 1]];
      Words(init) + if Corpus.IsLabel(ts[|ts| - 1]) then [] else [ts[|ts| - 1]]
  }

  /** GrammarUnitInducer(3, 6, 2) after observing every word. */
  function Inducer(ws: seq<string>): (g: GrammarUnits.Inducer)
    ensures g.minLen == 3 && g.maxLen == 6 && g.minFreq == 2
  {
    if |ws| == 0 then GrammarUnits.NewInducer(3, 6, 2)
    else GrammarUnits.Observe(Inducer(ws[..|ws| - 1]), ws[|ws| - 1])
  }

  /**
   * The vocabulary of TinyClassifier::train: the non-marker tokens seen at
   * least twice, in map order; the grammar units when grammar units are on
   * and some word was observed (the inducer exists), loaded BEFORE
   * finalize; then finalize with the bucket size, or 0 without n-grams.
   * The trie's visiting order is a parameter. Because the grammar units
   * are loaded while the bucket size is still 0, the grammar unit with
   * vocabulary id v shares its row with n-gram bucket v.
   */
  function Vocabulary(ts: seq<string>, f: Features, order: seq<string>, visit: seq<string>): (r: D.Dictionary)
    requires Corpus.Listing(order, Corpus.Counts(ts, w => !Corpus.IsLabel(w)))
    ensures D.WordsValid(r)
    ensures forall w :: D.GetWordId(r, w) != -1 <==> w in ts && !Corpus.IsLabel(w) && multiset(ts)[w] >= 2
    ensures f.grammar && |Words(ts)| > 0 ==>
              var vocab := GrammarUnits.Finalize(Inducer(Words(ts)), visit, map[]).1;
              forall g :: g in vocab ==> D.GetGrammarId(r, g) == D.GetCharNgramId(r, vocab[g])
  {
    var d := Corpus.BuildVocabulary(D.Empty, ts, w => !Corpus.IsLabel(w), 2, order);
    assert D.WordsValid(D.Empty);
    assert D.WordsValid(d) && d.bucketSize == 0 && d.grammar2id == map[];
    var b := if f.charNgrams then f.bucket else 0;
    if f.grammar && |Words(ts)| > 0 then
      var vocab := GrammarUnits.Finalize(Inducer(Words(ts)), visit, map[]).1;
      GrammarBeforeFinalize(d, vocab, b);
      var r := D.Finalize(D.LoadGrammarUnits(d, vocab), b);
      D.SameWords(d, r);
      r
    else
      var r := D.Finalize(d, b);
      assert r.word2id == d.word2id && r.id2word == d.id2word;
      D.SameWords(d, r);
      r
  }

  /**
   * Grammar units loaded while bucket_size is 0, then finalize: grammar
   * unit g lands on the row of n-gram bucket vocab[g].
   */
  lemma GrammarBeforeFinalize(d: D.Dictionary, vocab: map<string, int>, b: int)
    requires d.bucketSize == 0 && d.grammar2id == map[]
    ensures var r := D.Finalize(D.LoadGrammarUnits(d, vocab), b);
            r.word2id == d.word2id && r.id2word == d.id2word
            && forall g :: g in vocab ==> D.GetGrammarId(r, g) == D.GetCharNgramId(r, vocab[g])
  {
  }

  /** The epochs after which training prunes with 1e-4: every tenth. */
  predicate PrunesAfter(epoch: int) {
    (epoch + 1) % 10 == 0
  }

  /**
   * The epoch loop: a pass over the corpus, then prune(1e-4) of both
   * sparse tables after every tenth epoch, so a run that ends on such an
   * epoch ends with a prune; no epochs leave the state as it was. The pass
   * and the prune are parameters over the model state.
   */
  function Epochs<S(!new)>(pass: (S, int) -> S, prune: (S, real) -> S, s: S, n: int): (r: S)
    ensures n <= 0 ==> r == s
    ensures n > 0 && PrunesAfter(n - 1) ==> exists t :: r == prune(t, 0.0001)
    decreases if n < 0 then 0 else n
  {
    if n <= 0 then s
    else
      var t := pass(Epochs(pass, prune, s, n - 1), n - 1);
      if PrunesAfter(n - 1) then prune(t, 0.0001) else t
  }

  /** TinyClassifier::train's schedule: the epochs, then one last prune with 1e-3. */
  function Train<S(!new)>(pass: (S, int) -> S, prune: (S, real) -> S, s: S, epochs: int): (r: S)
    ensures exists t :: r == prune(t, 0.001)
  {
    prune(Epochs(pass, prune, s, epochs), 0.001)
  }

  /** n copies of x. */
  function Repeat(x: real, n: nat): (r: seq<real>)
    ensures |r| == n && forall k :: 0 <= k < n ==> r[k] == x
  {
    if n == 0 then [] else Repeat(x, n - 1) + [x]
  }

  /** A run that only records the prune thresholds: the passes add nothing. */
  function NoPass(s: seq<real>, e: int): seq<real> {
    s
  }

  function Record(s: seq<real>, t: real): seq<real> {
    s + [t]
  }

  /** Over n >= 0 epochs, pruning with 1e-4 happens n / 10 times. */
  lemma {:induction false} EpochPrunes(n: int)
    requires n >= 0
    ensures Epochs(NoPass, Record, [], n) == Repeat(0.0001, n / 10)
  {
    if n > 0 {
      EpochPrunes(n - 1);
      if n % 10 == 0 {
        assert n / 10 == (n - 1) / 10 + 1;
      } else {
        assert n / 10 == (n - 1) / 10;
      }
    }
  }

  /** The whole schedule: epochs / 10 prunes at 1e-4, then one at 1e-3. */
  lemma PruneSchedule(epochs: int)
    requires epochs >= 0
    ensures Train(NoPass, Record, [], epochs) == Repeat(0.0001, epochs / 10) + [0.001]
  {
    EpochPrunes(epochs);
  }

  /** After training, every entry the sparse table keeps has magnitude at least 1e-3. */
  lemma TrainedEntries(pass: (SM.SparseMatrix, int) -> SM.SparseMatrix, m: SM.SparseMatrix, epochs: int)
    ensures var r := Train(pass, SM.Prune, m, epochs);
            SM.NoEmptyRows(r) && forall i, j :: i in r.data && j in r.data[i] ==> SM.Abs(r.data[i][j]) >= 0.001
  {
  }

  /** Within one row: the higher threshold alone, and nothing it keeps was lost to the lower one. */
  lemma KeepAboveAbsorbs(row: map<int, real>, lo: real, hi: real)
    requires lo <= hi
    ensures SM.KeepAbove(SM.KeepAbove(row, lo), hi) == SM.KeepAbove(row, hi)
    ensures SM.KeepAbove(row, lo) == map[] ==> SM.KeepAbove(row, hi) == map[]
  {
    var kh := SM.KeepAbove(row, hi);
    var kl := SM.KeepAbove(row, lo);
    assert kh.Keys <= kl.Keys;
    if kl == map[] {
      assert kl.Keys == {};
      assert |kh.Keys| == 0;
    }
  }

  /**
   * Prune with a lower threshold, then with a higher one, is the higher
   * prune alone: with no training in between, the epoch prune is subsumed
   * by the final one.
   */
  lemma PruneAbsorbs(m: SM.SparseMatrix, lo: real, hi: real)
    requires lo <= hi
    ensures SM.Prune(SM.Prune(m, lo), hi) == SM.Prune(m, hi)
  {
    var p := SM.Prune(m, lo);
    forall i | i in m.data
      ensures i in p.data ==> SM.KeepAbove(p.data[i], hi) == SM.KeepAbove(m.data[i], hi)
      ensures SM.KeepAbove(m.data[i], hi) != map[] ==> i in p.data
    {
      KeepAboveAbsorbs(m.data[i], lo, hi);
    }
  }
}

=== FILE: tokenizer.dfy ===
/**
 * The two tokenizers of the engine. Both scan the text once and cut it into
 * maximal runs of "kept" characters:
 *   - EnglishTokenizer keeps ASCII letters and digits and lower-cases them;
 *   - the whitespace tokenizer of the command-line tools (`iss >> word`)
 *     keeps every non-space character unchanged.
 */
module Tokenizer {
  import opened Common
  import opened Ascii

  datatype Kind = English | Whitespace

  /** Whether a character belongs to a token. */
  predicate Keep(kind: Kind, c: char) {
    match kind
    case English => IsAlnum(c)
    case Whitespace => !IsSpace(c)
  }

  /** How a kept character appears in its token. */
  function Fold(kind: Kind, c: char): char {
    match kind
    case English => ToLower(c)
    case Whitespace => c
  }

  /** A character that can appear in a token of the given kind. */
  predicate TokenChar(kind: Kind, c: char) {
    match kind
    case English => IsLower(c) || IsDigit(c)
    case Whitespace => !IsSpace(c)
  }

  function MapAll(kind: Kind, s: string): (r: string)
    ensures |r| == |s|
  {
    if |s| == 0 then [] else [Fold(kind, s[0])] + MapAll(kind, s[1..])
  }

  lemma {:induction false} MapAllChars(kind: Kind, s: string)
    requires forall i :: 0 <= i < |s| ==> Keep(kind, s[i])
    ensures forall i :: 0 <= i < |s| ==> TokenChar(kind, MapAll(kind, s)[i])
  {
    if |s| > 0 {
      MapAllChars(kind, s[1..]);
      forall i | 1 <= i < |s|
        ensures TokenChar(kind, MapAll(kind, s)[i])
      {
        assert MapAll(kind, s)[i] == MapAll(kind, s[1..])[i - 1];
      }
    }
  }

  /** Length of the run of kept characters at the front of s. */
  function RunLen(kind: Kind, s: string): (n: nat)
    ensures n <= |s|
    ensures forall i :: 0 <= i < n ==> Keep(kind, s[i])
    ensures n < |s| ==> !Keep(kind, s[n])
  {
    if |s| == 0 || !Keep(kind, s[0]) then 0
    else
      var m := RunLen(kind, s[1..]);
      assert forall i :: 1 <= i < 1 + m ==> s[i] == s[1..][i - 1];
      1 + m
  }

  /**
   * The reference definition: skip what is not kept; a kept character
   * starts a token that takes the whole run of kept characters after it.
   */
  function Runs(kind: Kind, s: string): seq<string>
    decreases |s|
  {
    if |s| == 0 then []
    else if !Keep(kind, s[0]) then Runs(kind, s[1..])
    else
      var n := RunLen(kind, s);
      [MapAll(kind, s[..n])] + Runs(kind, s[n..])
  }

  /**
   * The scan the C++ loop performs: `current` collects the folded kept
   * characters, and a character that is not kept closes a non-empty token.
   */
  function Scan(kind: Kind, s: string, tokens: seq<string>, current: string): seq<string>
    decreases |s|
  {
    if |s| == 0 then (if current == [] then tokens else tokens + [current])
    else if Keep(kind, s[0]) then Scan(kind, s[1..], tokens, current + [Fold(kind, s[0])])
    else if current != [] then Scan(kind, s[1..], tokens + [current], [])
    else Scan(kind, s[1..], tokens, [])
  }

  /** Scanning through a run of kept characters only grows the current token. */
  lemma {:induction false} ScanRun(kind: Kind, s: string, tokens: seq<string>, current: string, k: nat)
    requires k <= RunLen(kind, s)
    ensures Scan(kind, s, tokens, current) == Scan(kind, s[k..], tokens, current + MapAll(kind, s[..k]))
    decreases k
  {
    if k > 0 {
      ScanRun(kind, s[1..], tokens, current + [Fold(kind, s[0])], k - 1) by {
        assert RunLen(kind, s) == 1 + RunLen(kind, s[1..]);
      }
      assert s[1..][k - 1..] == s[k..];
      assert s[..k] == [s[0]] + s[1..][..k - 1];
      assert MapAll(kind, s[..k]) == [Fold(kind, s[0])] + MapAll(kind, s[1..][..k - 1]);
      SeqAssoc(current, [Fold(kind, s[0])], MapAll(kind, s[1..][..k - 1]));
    } else {
      assert s[..0] == [] && s[0..] == s;
      assert current + [] == current;
    }
  }

  /** The scan and the reference definition agree on every text. */
  lemma {:induction false} ScanIsRuns(kind: Kind, s: string, tokens: seq<string>)
    ensures Scan(kind, s, tokens, []) == tokens + Runs(kind, s)
    decreases |s|
  {
    if |s| == 0 {
      assert tokens + [] == tokens;
    } else if !Keep(kind, s[0]) {
      ScanIsRuns(kind, s[1..], tokens);
    } else {
      var n := RunLen(kind, s);
      var tok := MapAll(kind, s[..n]);
      ScanRun(kind, s, tokens, [], n);
      assert [] + tok == tok;
      var rest := s[n..];
      if |rest| == 0 {
        assert Runs(kind, rest) == [];
        assert [tok] + [] == [tok];
      } else {
        assert !Keep(kind, rest[0]);
        ScanIsRuns(kind, rest[1..], tokens + [tok]);
        assert Runs(kind, rest) == Runs(kind, rest[1..]);
        assert (tokens + [tok]) + Runs(kind, rest[1..]) == tokens + ([tok] + Runs(kind, rest[1..]));
      }
    }
  }

  /** ITokenizer::tokenize / main.cpp's tokenize: the token list, built afresh. */
  function Tokenize(kind: Kind, text: string): (r: seq<string>)
    ensures r == Runs(kind, text)
  {
    ScanIsRuns(kind, text, []);
    assert [] + Runs(kind, text) == Runs(kind, text);
    Scan(kind, text, [], [])
  }

  /** EnglishTokenizer::tokenize(text, tokens): the loop over the characters. */
  method TokenizeInto(kind: Kind, text: string) returns (tokens: seq<string>)
    ensures tokens == Runs(kind, text)
  {
    tokens := [];
    var current: string := [];
    var i := 0;
    while i < |text|
      invariant 0 <= i <= |text|
      invariant Scan(kind, text[i..], tokens, current) == Scan(kind, text, [], [])
    {
      var c := text[i];
      assert text[i..][0] == c && text[i..][1..] == text[i + 1..];
      if Keep(kind, c) {
        current := current + [Fold(kind, c)];
      } else if current != [] {
        tokens := tokens + [current];
        current := [];
      }
      i := i + 1;
    }
    assert text[i..] == [];
    if current != [] {
      tokens := tokens + [current];
    }
    ScanIsRuns(kind, text, []);
    assert [] + Runs(kind, text) == Runs(kind, text);
  }

  /** The tokens laid end to end. */
  function Concat(ts: seq<string>): string {
    if |ts| == 0 then [] else ts[0] + Concat(ts[1..])
  }

  /** The kept characters of s, folded, in order. */
  function Kept(kind: Kind, s: string): string {
    if |s| == 0 then []
    else (if Keep(kind, s[0]) then [Fold(kind, s[0])] else []) + Kept(kind, s[1..])
  }

  lemma {:induction false} KeptRun(kind: Kind, s: string, n: nat)
    requires n <= |s| && forall i :: 0 <= i < n ==> Keep(kind, s[i])
    ensures Kept(kind, s) == MapAll(kind, s[..n]) + Kept(kind, s[n..])
  {
    if n > 0 {
      var t := s[1..];
      KeptRun(kind, t, n - 1);
      KeptFront(kind, s);
      MapAllFront(s, n, kind);
      assert t[n - 1..] == s[n..];
      SeqAssoc([Fold(kind, s[0])], MapAll(kind, t[..n - 1]), Kept(kind, s[n..]));
    } else {
      assert s[..0] == [] && s[0..] == s;
    }
  }

  lemma KeptFront(kind: Kind, s: string)
    requires |s| > 0 && Keep(kind, s[0])
    ensures Kept(kind, s) == [Fold(kind, s[0])] + Kept(kind, s[1..])
  {
  }

  lemma MapAllFront(s: string, n: nat, kind: Kind)
    requires 0 < n <= |s|
    ensures MapAll(kind, s[..n]) == [Fold(kind, s[0])] + MapAll(kind, s[1..][..n - 1])
  {
    assert s[..n][1..] == s[1..][..n - 1];
  }

  /** Every token is non-empty and made of token characters only. */
  lemma {:induction false} RunsTokens(kind: Kind, s: string)
    ensures forall j :: 0 <= j < |Runs(kind, s)| ==>
              |Runs(kind, s)[j]| > 0
              && forall i :: 0 <= i < |Runs(kind, s)[j]| ==> TokenChar(kind, Runs(kind, s)[j][i])
    decreases |s|
  {
    if |s| > 0 {
      if !Keep(kind, s[0]) {
        RunsTokens(kind, s[1..]);
      } else {
        var n := RunLen(kind, s);
        RunsTokens(kind, s[n..]);
        MapAllChars(kind, s[..n]);
        var r := Runs(kind, s);
        assert r == [MapAll(kind, s[..n])] + Runs(kind, s[n..]);
        forall j | 1 <= j < |r|
          ensures r[j] == Runs(kind, s[n..])[j - 1]
        {
        }
      }
    }
  }

  /** The tokens laid end to end are the kept characters of the text, folded, in order. */
  lemma {:induction false} RunsConcat(kind: Kind, s: string)
    ensures Concat(Runs(kind, s)) == Kept(kind, s)
    decreases |s|
  {
    if |s| > 0 {
      if !Keep(kind, s[0]) {
        RunsConcat(kind, s[1..]);
        assert Kept(kind, s) == [] + Kept(kind, s[1..]);
      } else {
        var n := RunLen(kind, s);
        RunsConcat(kind, s[n..]);
        KeptRun(kind, s, n);
        var r := Runs(kind, s);
        assert r[0] == MapAll(kind, s[..n]) && r[1..] == Runs(kind, s[n..]);
      }
    }
  }

  /** A text with no kept character gives no tokens. */
  lemma {:induction false} NothingKept(kind: Kind, s: string)
    requires forall i :: 0 <= i < |s| ==> !Keep(kind, s[i])
    ensures Runs(kind, s) == []
    decreases |s|
  {
    if |s| > 0 {
      NothingKept(kind, s[1..]);
    }
  }

  lemma EmptyText(kind: Kind)
    ensures Tokenize(kind, "") == []
  {
  }

  /** A run is exactly as long as its kept characters reach. */
  lemma {:induction false} RunLenIs(kind: Kind, s: string, n: nat)
    requires n <= |s| && (forall i :: 0 <= i < n ==> Keep(kind, s[i])) && (n < |s| ==> !Keep(kind, s[n]))
    ensures RunLen(kind, s) == n
  {
    if n > 0 {
      RunLenIs(kind, s[1..], n - 1);
    }
  }

  lemma {:induction false} MapAllAt(kind: Kind, s: string, i: nat)
    requires i < |s|
    ensures MapAll(kind, s)[i] == Fold(kind, s[i])
  {
    if i > 0 {
      MapAllAt(kind, s[1..], i - 1);
    }
  }

  lemma LowerHello()
    ensures MapAll(English, "Hello") == "hello" && MapAll(English, "hello") == "hello"
  {
    forall i | 0 <= i < 5
      ensures MapAll(English, "Hello")[i] == "hello"[i]
      ensures MapAll(English, "hello")[i] == "hello"[i]
    {
      MapAllAt(English, "Hello", i);
      MapAllAt(English, "hello", i);
    }
  }

  lemma LowerWorld()
    ensures MapAll(English, "world") == "world"
  {
    forall i | 0 <= i < 5
      ensures MapAll(English, "world")[i] == "world"[i]
    {
      MapAllAt(English, "world", i);
    }
  }

  /** Runs(s) unfolded once at a token. */
  lemma RunsAt(kind: Kind, s: string, n: nat)
    requires 0 < n <= |s| && (forall i :: 0 <= i < n ==> Keep(kind, s[i])) && (n < |s| ==> !Keep(kind, s[n]))
    ensures Runs(kind, s) == [MapAll(kind, s[..n])] + Runs(kind, s[n..])
  {
    RunLenIs(kind, s, n);
  }

  /** Leading characters that are not kept are skipped. */
  lemma {:induction false} RunsSkip(kind: Kind, s: string, n: nat)
    requires n <= |s| && forall i :: 0 <= i < n ==> !Keep(kind, s[i])
    ensures Runs(kind, s) == Runs(kind, s[n..])
  {
    if n > 0 {
      RunsSkip(kind, s[1..], n - 1);
      assert s[1..][n - 1..] == s[n..];
    }
  }

  /** A word of kept characters followed by the rest of the text. */
  lemma RunsWord(kind: Kind, w: string, rest: string)
    requires |w| > 0 && (forall i :: 0 <= i < |w| ==> Keep(kind, w[i]))
    requires |rest| > 0 ==> !Keep(kind, rest[0])
    ensures Runs(kind, w + rest) == [MapAll(kind, w)] + Runs(kind, rest)
  {
    var s := w + rest;
    assert s[..|w|] == w && s[|w|..] == rest;
    RunsAt(kind, s, |w|);
  }

  /** Separators in front of the rest of the text are skipped. */
  lemma RunsSeparator(kind: Kind, p: string, rest: string)
    requires forall i :: 0 <= i < |p| ==> !Keep(kind, p[i])
    ensures Runs(kind, p + rest) == Runs(kind, rest)
  {
    var s := p + rest;
    assert s[|p|..] == rest;
    RunsSkip(kind, s, |p|);
  }

  /** "Hello, world!" gives ["hello", "world"]. */
  lemma HelloCommaWorld()
    ensures Tokenize(English, "Hello" + (", " + ("world" + "!"))) == ["hello", "world"]
  {
    LowerHello();
    LowerWorld();
    NothingKept(English, "!");
    RunsWord(English, "world", "!");
    RunsSeparator(English, ", ", "world" + "!");
    RunsWord(English, "Hello", ", " + ("world" + "!"));
  }

  /** "hello    world" gives ["hello", "world"]. */
  lemma HelloSpacesWorld()
    ensures Tokenize(English, "hello" + ("    " + ("world" + ""))) == ["hello", "world"]
  {
    LowerHello();
    LowerWorld();
    RunsWord(English, "world", "");
    RunsSeparator(English, "    ", "world" + "");
    RunsWord(English, "hello", "    " + ("world" + ""));
  }
}

=== FILE: tokens.dfy ===
/**
 * The binary model files as sequences of typed tokens: a 4-byte int, a run
 * of raw characters (the body of a length-prefixed string), a 4-byte
 * float, a 1-byte bool and an int8. A string is written as its length
 * followed by its characters. A reader that finds a token of another kind
 * than the one it reads, or runs out of tokens, fails: where the C++
 * stream would reinterpret bytes or leave a variable unset, the model
 * reports Malformed.
 */
module Tokens {
  import opened Common

  datatype Token = I32(i: int) | Chars(s: string) | F32(f: real) | Bool(b: bool) | I8(q: int)

  /** A value read and the tokens after it. */
  datatype Read<T> = Read(value: T, rest: seq<Token>)

  /** A string: int length, then the characters. */
  function StringTokens(s: string): (r: seq<Token>)
    ensures |r| == 2
  {
    [I32(|s|), Chars(s)]
  }

  /** A list of strings, each length-prefixed, with no count. */
  function StringsTokens(ss: seq<string>): (r: seq<Token>)
    ensures |r| == 2 * |ss|
  {
    if |ss| == 0 then [] else StringsTokens(ss[..|ss| - 1]) + StringTokens(ss[|ss| - 1])
  }

  /** Raw floats, with no count. */
  function FloatTokens(v: seq<real>): (r: seq<Token>)
    ensures |r| == |v| && forall i :: 0 <= i < |v| ==> r[i] == F32(v[i])
  {
    seq(|v|, i requires 0 <= i < |v| => F32(v[i]))
  }

  /** A float block: the count, then the floats. */
  function FloatBlock(v: seq<real>): seq<Token> {
    [I32(|v|)] + FloatTokens(v)
  }

  /** in.read of an int. */
  function ReadInt(t: seq<Token>): (r: Result<Read<int>>)
    ensures r.Ok? <==> |t| > 0 && t[0].I32?
    ensures r.Ok? ==> r.value == Read(t[0].i, t[1..])
  {
    if |t| > 0 && t[0].I32? then Ok(Read(t[0].i, t[1..])) else Err(Malformed)
  }

  /** in.read of a bool. */
  function ReadBool(t: seq<Token>): (r: Result<Read<bool>>)
    ensures r.Ok? <==> |t| > 0 && t[0].Bool?
    ensures r.Ok? ==> r.value == Read(t[0].b, t[1..])
  {
    if |t| > 0 && t[0].Bool? then Ok(Read(t[0].b, t[1..])) else Err(Malformed)
  }

  /** in.read of one float. */
  function ReadFloat(t: seq<Token>): (r: Result<Read<real>>)
    ensures r.Ok? <==> |t| > 0 && t[0].F32?
    ensures r.Ok? ==> r.value == Read(t[0].f, t[1..])
  {
    if |t| > 0 && t[0].F32? then Ok(Read(t[0].f, t[1..])) else Err(Malformed)
  }

  /**
   * std::string s(len, ' '); in.read(&s[0], len). A negative length
   * becomes a huge size_t, which the string constructor rejects.
   */
  function ReadChars(t: seq<Token>, len: int): (r: Result<Read<string>>)
    ensures len < 0 ==> r == Err(LengthError)
    ensures r.Ok? ==> |r.value.value| == len && |t| > 0 && t[0] == Chars(r.value.value) && r.value.rest == t[1..]
  {
    if len < 0 then Err(LengthError)
    else if |t| > 0 && t[0].Chars? && |t[0].s| == len then Ok(Read(t[0].s, t[1..]))
    else Err(Malformed)
  }

  /** A length-prefixed string. */
  function ReadString(t: seq<Token>): (r: Result<Read<string>>)
    ensures r.Ok? ==> |t| >= 2 && t[..2] == StringTokens(r.value.value) && r.value.rest == t[2..]
  {
    match ReadInt(t)
    case Err(e) => Err(e)
    case Ok(n) => ReadChars(n.rest, n.value)
  }

  /** for (i = 0; i < n; i++) read a string: none when n <= 0. */
  function ReadStrings(t: seq<Token>, n: int): (r: Result<Read<seq<string>>>)
    ensures r.Ok? ==> |r.value.value| == (if n < 0 then 0 else n)
    decreases if n < 0 then 0 else n
  {
    if n <= 0 then Ok(Read([], t))
    else
      match ReadStrings(t, n - 1)
      case Err(e) => Err(e)
      case Ok(p) =>
        match ReadString(p.rest)
        case Err(e) => Err(e)
        case Ok(s) => Ok(Read(p.value + [s.value], s.rest))
  }

  /** in.read of n floats into a buffer; a negative count is refused. */
  function ReadFloats(t: seq<Token>, n: int): (r: Result<Read<seq<real>>>)
    ensures n < 0 ==> r.Err?
    ensures r.Ok? ==> |r.value.value| == n && |t| >= n && r.value.rest == t[n..]
    ensures r.Ok? ==> forall i :: 0 <= i < n ==> t[i] == F32(r.value.value[i])
    decreases if n < 0 then 0 else n
  {
    if n < 0 then Err(Malformed)
    else if n == 0 then Ok(Read([], t))
    else
      match ReadFloats(t, n - 1)
      case Err(e) => Err(e)
      case Ok(p) =>
        match ReadFloat(p.rest)
        case Err(e) => Err(e)
        case Ok(f) =>
          assert t[n - 1] == p.rest[0];
          Ok(Read(p.value + [f.value], f.rest))
  }

  /** A float block: the count, then that many floats. */
  function ReadFloatBlock(t: seq<Token>): (r: Result<Read<seq<real>>>)
    ensures r.Ok? ==> |t| > 0 && t[0] == I32(|r.value.value|)
  {
    match ReadInt(t)
    case Err(e) => Err(e)
    case Ok(n) => ReadFloats(n.rest, n.value)
  }

  /** Reading a written string gives it back. */
  lemma StringRoundTrip(s: string, rest: seq<Token>)
    ensures ReadString(StringTokens(s) + rest) == Ok(Read(s, rest))
  {
    var t := StringTokens(s) + rest;
    assert t[1..] == [Chars(s)] + rest && t[2..] == rest;
  }

  /** Reading |ss| written strings gives them back, leaving what follows. */
  lemma {:induction false} StringsRoundTrip(ss: seq<string>, rest: seq<Token>)
    ensures ReadStrings(StringsTokens(ss) + rest, |ss|) == Ok(Read(ss, rest))
  {
    if |ss| > 0 {
      var init, last := ss[..|ss| - 1], ss[|ss| - 1];
      var t := StringsTokens(ss) + rest;
      assert t == StringsTokens(init) + (StringTokens(last) + rest);
      StringsRoundTrip(init, StringTokens(last) + rest);
      StringRoundTrip(last, rest);
      assert ReadStrings(t, |ss| - 1) == Ok(Read(init, StringTokens(last) + rest));
      assert init + [last] == ss;
    } else {
      assert StringsTokens(ss) + rest == rest;
    }
  }

  /** Reading |v| written floats gives them back, leaving what follows. */
  lemma {:induction false} FloatsRoundTrip(v: seq<real>, rest: seq<Token>)
    ensures ReadFloats(FloatTokens(v) + rest, |v|) == Ok(Read(v, rest))
  {
    var t := FloatTokens(v) + rest;
    var r := ReadFloats(t, |v|);
    FloatsRead(t, |v|);
    assert r.Ok?;
    assert r.value.value == v;
    assert r.value.rest == rest;
  }

  /** n floats can be read from a sequence that starts with n float tokens. */
  lemma {:induction false} FloatsRead(t: seq<Token>, n: nat)
    requires n <= |t| && forall i :: 0 <= i < n ==> t[i].F32?
    ensures ReadFloats(t, n).Ok?
  {
    if n > 0 {
      FloatsRead(t, n - 1);
    }
  }

  /** Reading a written float block gives it back. */
  lemma FloatBlockRoundTrip(v: seq<real>, rest: seq<Token>)
    ensures ReadFloatBlock(FloatBlock(v) + rest) == Ok(Read(v, rest))
  {
    var t := FloatBlock(v) + rest;
    assert t[1..] == FloatTokens(v) + rest;
    FloatsRoundTrip(v, rest);
  }
}

=== FILE: topk.dfy ===
/**
 * The top-k step every predict shares: score each label, sort the
 * (label, score) pairs by descending score with std::sort, then
 * resize to k when k is smaller than the number of pairs. std::sort is
 * not stable, so equal scores may come out in any order; the model sorts
 * by insertion, which is one of the orders std::sort may produce, and
 * SortedScoresUnique shows that the sequence of scores is the same
 * whichever order is chosen.
 */
module TopK {
  import opened Common

  /** std::pair<label, float>. */
  datatype Scored<L> = Scored(key: L, score: real)

  /** Non-increasing scores: what the comparator a.second > b.second sorts into. */
  predicate SortedDesc<L>(s: seq<Scored<L>>) {
    forall i, j :: 0 <= i < j < |s| ==> s[i].score >= s[j].score
  }

  /** Every score in s is at most hi. */
  predicate Below<L>(s: seq<Scored<L>>, hi: real) {
    forall i :: 0 <= i < |s| ==> s[i].score <= hi
  }

  /** Place x before the first element it is not below. */
  function Insert<L>(x: Scored<L>, s: seq<Scored<L>>): (r: seq<Scored<L>>)
    ensures |r| == |s| + 1 && multiset(r) == multiset(s) + multiset{x}
  {
    if |s| == 0 then [x]
    else if x.score >= s[0].score then [x] + s
    else
      assert s == [s[0]] + s[1..];
      [s[0]] + Insert(x, s[1..])
  }

  /** Inserting into a descending order keeps it descending. */
  lemma {:induction false} InsertSorted<L>(x: Scored<L>, s: seq<Scored<L>>)
    requires SortedDesc(s)
    ensures SortedDesc(Insert(x, s))
  {
    if |s| > 0 {
      if x.score >= s[0].score {
        ConsSorted(x, s);
      } else {
        var t := s[1..];
        assert SortedDesc(t);
        assert Below(t, s[0].score);
        InsertSorted(x, t);
        InsertBelow(x, t, s[0].score);
        ConsSorted(s[0], Insert(x, t));
      }
    }
  }

  /** Inserting a pair scoring at most hi into pairs scoring at most hi. */
  lemma {:induction false} InsertBelow<L>(x: Scored<L>, s: seq<Scored<L>>, hi: real)
    requires Below(s, hi) && x.score <= hi
    ensures Below(Insert(x, s), hi)
  {
    if |s| > 0 && x.score < s[0].score {
      InsertBelow(x, s[1..], hi);
    }
  }

  /** A descending order stays descending under a head no lower than it. */
  lemma ConsSorted<L>(a: Scored<L>, t: seq<Scored<L>>)
    requires SortedDesc(t) && (|t| > 0 ==> t[0].score <= a.score)
    ensures SortedDesc([a] + t)
  {
    var r := [a] + t;
    forall i, j | 0 <= i < j < |r|
      ensures r[i].score >= r[j].score
    {
      if i == 0 {
        assert r[j] == t[j - 1];
        assert t[0].score >= t[j - 1].score;
      } else {
        assert r[i] == t[i - 1] && r[j] == t[j - 1];
      }
    }
  }

  /** Sort by descending score. */
  function Sort<L>(s: seq<Scored<L>>): (r: seq<Scored<L>>)
    ensures |r| == |s| && SortedDesc(r) && multiset(r) == multiset(s)
  {
    if |s| == 0 then []
    else
      var init := s[..|s| - 1];
      assert s == init + [s[|s| - 1]];
      var sorted := Sort(init);
      InsertSorted(s[|s| - 1], sorted);
      Insert(s[|s| - 1], sorted)
  }

  /**
   * Sort, then resize(k) when k < size. A negative k passes that test and
   * converts to an enormous size_t, so resize throws std::length_error.
   */
  function Top<L>(scored: seq<Scored<L>>, k: int): (r: Result<seq<Scored<L>>>)
    ensures k < 0 <==> r.Err?
    ensures r.Err? ==> r.error == LengthError
  {
    var sorted := Sort(scored);
    if k < |sorted| then (if k < 0 then Err(LengthError) else Ok(sorted[..k])) else Ok(sorted)
  }

  /**
   * For k >= 0 the result holds min(k, n) pairs taken from the input, in
   * non-increasing score order, and no pair left out scores higher than a
   * pair kept.
   */
  lemma TopSpec<L>(scored: seq<Scored<L>>, k: int)
    requires k >= 0
    ensures Top(scored, k).Ok?
    ensures var r := Top(scored, k).value;
            |r| == Min(k, |scored|) && SortedDesc(r) && multiset(r) <= multiset(scored)
    ensures var r := Top(scored, k).value;
            forall x, y :: x in multiset(scored) - multiset(r) && y in r ==> x.score <= y.score
  {
    var sorted := Sort(scored);
    var n := Min(k, |scored|);
    assert sorted[..|sorted|] == sorted;
    assert Top(scored, k) == Ok(sorted[..n]);
    PrefixSpec(sorted, scored, n);
  }

  /** The first n pairs of a descending order of full are the n best of full. */
  lemma PrefixSpec<L>(s: seq<Scored<L>>, full: seq<Scored<L>>, n: nat)
    requires SortedDesc(s) && multiset(s) == multiset(full) && n <= |s|
    ensures SortedDesc(s[..n]) && multiset(s[..n]) <= multiset(full)
    ensures forall x, y :: x in multiset(full) - multiset(s[..n]) && y in s[..n] ==> x.score <= y.score
  {
    assert s == s[..n] + s[n..];
    assert multiset(full) - multiset(s[..n]) == multiset(s[n..]);
    HeadAboveTail(s, n);
  }

  /** In a descending order, everything after position n scores at most everything before it. */
  lemma HeadAboveTail<L>(s: seq<Scored<L>>, n: nat)
    requires SortedDesc(s) && n <= |s|
    ensures forall x, y :: x in multiset(s[n..]) && y in s[..n] ==> x.score <= y.score
  {
    forall x, y | x in multiset(s[n..]) && y in s[..n]
      ensures x.score <= y.score
    {
      var i :| 0 <= i < |s[n..]| && s[n..][i] == x;
      var j :| 0 <= j < n && s[..n][j] == y;
      assert s[n + i] == x && s[j] == y;
    }
  }

  /** The scores of a sequence, in order. */
  function Scores<L>(s: seq<Scored<L>>): (r: seq<real>)
    ensures |r| == |s| && forall i :: 0 <= i < |s| ==> r[i] == s[i].score
  {
    seq(|s|, i requires 0 <= i < |s| => s[i].score)
  }

  /**
   * Any two descending orders of the same pairs agree on their scores
   * position by position: ties may swap labels, but the sequence of scores
   * of every top-k result is fixed.
   */
  lemma {:induction false} SortedScoresUnique<L>(a: seq<Scored<L>>, b: seq<Scored<L>>)
    requires SortedDesc(a) && SortedDesc(b) && multiset(a) == multiset(b)
    ensures Scores(a) == Scores(b)
    decreases |a|
  {
    assert |a| == |multiset(a)| == |b|;
    if |a| > 0 {
      var k := Occurrence(a, b);
      MultisetRemove(a, b, k);
      var rest := b[..k] + b[k + 1..];
      DropKeepsSorted(b, k);
      SortedScoresUnique(a[1..], rest);
      TopScoresMatch(a, b, k);
      DropTopScore(b, k);
      assert Scores(a) == [a[0].score] + Scores(a[1..]);
      assert Scores(b) == [b[0].score] + Scores(b[1..]);
    }
  }

  /** The first elements of two descending orders of the same pairs score the same. */
  lemma TopScoresMatch<L>(a: seq<Scored<L>>, b: seq<Scored<L>>, k: nat)
    requires SortedDesc(a) && SortedDesc(b) && |a| > 0 && multiset(a) == multiset(b)
    requires k < |b| && b[k] == a[0]
    ensures a[0].score == b[0].score
  {
    assert b[0] in multiset(a);
    var i :| 0 <= i < |a| && a[i] == b[0];
    assert a[0].score >= a[i].score;
    assert b[0].score >= b[k].score;
  }

  /** Dropping one element keeps a descending order descending. */
  lemma DropKeepsSorted<L>(s: seq<Scored<L>>, k: nat)
    requires SortedDesc(s) && k < |s|
    ensures SortedDesc(s[..k] + s[k + 1..])
  {
    var t := s[..k] + s[k + 1..];
    forall i, j | 0 <= i < j < |t|
      ensures t[i].score >= t[j].score
    {
      var i' := if i < k then i else i + 1;
      var j' := if j < k then j else j + 1;
      assert t[i] == s[i'] && t[j] == s[j'];
    }
  }

  /**
   * When s[k] scores as high as s[0], dropping s[k] leaves the same scores
   * as dropping s[0]: everything before k ties with s[0].
   */
  lemma DropTopScore<L>(s: seq<Scored<L>>, k: nat)
    requires SortedDesc(s) && k < |s| && s[k].score == s[0].score
    ensures Scores(s[..k] + s[k + 1..]) == Scores(s[1..])
  {
    var t := s[..k] + s[k + 1..];
    forall i | 0 <= i < |t|
      ensures t[i].score == s[1..][i].score
    {
      if i < k {
        assert t[i] == s[i];
        assert s[0].score >= s[i].score >= s[i + 1].score >= s[k].score;
      } else {
        assert t[i] == s[i + 1];
      }
    }
  }

  /** Top-k of any input: the scores come out the same as for any other descending order of it. */
  lemma TopScoresDetermined<L>(scored: seq<Scored<L>>, other: seq<Scored<L>>, k: nat)
    requires SortedDesc(other) && multiset(other) == multiset(scored)
    ensures Top(scored, k).Ok?
    ensures Scores(Top(scored, k).value) == Scores(other[..Min(k, |other|)])
  {
    var sorted := Sort(scored);
    SortedScoresUnique(sorted, other);
    var n := Min(k, |other|);
    assert Scores(sorted[..n]) == Scores(sorted)[..n];
    assert Scores(other[..n]) == Scores(other)[..n];
  }
}

=== FILE: vector.dfy ===
/**
 * Dense vectors and row-major matrices (core/vector.h, core/matrix.h).
 * Floats are modelled as reals: the sums and products below are exact, so
 * the algebraic laws proved here hold of the model, not bit for bit of the
 * float code.
 */
module Vectors {

  type Vec = seq<real>

  /** Vector(n): n zeros. */
  function Zeros(n: nat): (r: Vec)
    ensures |r| == n && forall i :: 0 <= i < n ==> r[i] == 0.0
  {
    seq(n, _ => 0.0)
  }

  /** Vector::zero: the same length, every entry 0. */
  function Zero(v: Vec): (r: Vec)
    ensures r == Zeros(|v|)
  {
    seq(|v|, _ => 0.0)
  }

  /** Vector::add(other, s): v[i] += s * other[i] for every i < |v|; other may be longer. */
  function Plus(v: Vec, other: Vec, s: real): (r: Vec)
    requires |other| >= |v|
    ensures |r| == |v| && forall i :: 0 <= i < |v| ==> r[i] == v[i] + s * other[i]
  {
    seq(|v|, i requires 0 <= i < |v| => v[i] + s * other[i])
  }

  /** Vector::scale(s). */
  function Scaled(v: Vec, s: real): (r: Vec)
    ensures |r| == |v| && forall i :: 0 <= i < |v| ==> r[i] == v[i] * s
  {
    seq(|v|, i requires 0 <= i < |v| => v[i] * s)
  }

  /** Vector::dot: the sum over the receiver's length, left to right. */
  function Dot(v: Vec, other: Vec): real
    requires |other| >= |v|
  {
    if |v| == 0 then 0.0 else Dot(v[..|v| - 1], other) + v[|v| - 1] * other[|v| - 1]
  }

  /** The element-wise sum of two vectors of one length. */
  function Sum2(a: Vec, b: Vec): (r: Vec)
    requires |a| == |b|
    ensures |r| == |a| && forall i :: 0 <= i < |a| ==> r[i] == a[i] + b[i]
  {
    Plus(a, b, 1.0)
  }

  /** Adding with scale 0 changes nothing. */
  lemma PlusNoScale(v: Vec, other: Vec)
    requires |other| >= |v|
    ensures Plus(v, other, 0.0) == v
  {
  }

  /** Adding to zeros with scale 1 copies the prefix of the other vector. */
  lemma PlusFromZeros(n: nat, other: Vec)
    requires |other| >= n
    ensures Plus(Zeros(n), other, 1.0) == other[..n]
  {
  }

  /** Scaling twice is scaling by the product; scaling by 1 changes nothing. */
  lemma ScaledTwice(v: Vec, a: real, b: real)
    ensures Scaled(Scaled(v, a), b) == Scaled(v, a * b)
    ensures Scaled(v, 1.0) == v
  {
    forall i | 0 <= i < |v|
      ensures Scaled(Scaled(v, a), b)[i] == Scaled(v, a * b)[i]
    {
      assert (v[i] * a) * b == v[i] * (a * b);
    }
  }

  /** The dot product of vectors of one length is symmetric. */
  lemma {:induction false} DotSymmetric(v: Vec, w: Vec)
    requires |v| == |w|
    ensures Dot(v, w) == Dot(w, v)
  {
    if |v| > 0 {
      DotPrefix(v[..|v| - 1], w);
      DotPrefix(w[..|w| - 1], v);
      DotSymmetric(v[..|v| - 1], w[..|w| - 1]);
    }
  }

  /** Only the first |v| entries of the other vector matter. */
  lemma {:induction false} DotPrefix(v: Vec, w: Vec)
    requires |w| >= |v|
    ensures Dot(v, w) == Dot(v, w[..|v|])
  {
    if |v| > 0 {
      DotPrefix(v[..|v| - 1], w);
      DotPrefix(v[..|v| - 1], w[..|v|]);
      assert w[..|v|][..|v| - 1] == w[..|v| - 1];
    }
  }

  /** The dot product is linear in the receiver. */
  lemma DotPlus(v: Vec, other: Vec, s: real, u: Vec)
    requires |other| >= |v| && |u| >= |v|
    ensures Dot(Plus(v, other, s), u) == Dot(v, u) + Dot(Scaled(other[..|v|], s), u)
  {
    PlusSplit(v, other, s);
    DotSum2(v, Scaled(other[..|v|], s), u);
  }

  /** Adding a scaled vector is adding its scaled copy. */
  lemma PlusSplit(v: Vec, other: Vec, s: real)
    requires |other| >= |v|
    ensures Plus(v, other, s) == Sum2(v, Scaled(other[..|v|], s))
  {
    var o := other[..|v|];
    forall i | 0 <= i < |v|
      ensures Plus(v, other, s)[i] == Sum2(v, Scaled(o, s))[i]
    {
      Commute(s, o[i]);
    }
  }

  /** The dot product distributes over an element-wise sum. */
  lemma {:induction false} DotSum2(a: Vec, b: Vec, u: Vec)
    requires |a| == |b| && |u| >= |a|
    ensures Dot(Sum2(a, b), u) == Dot(a, u) + Dot(b, u)
  {
    var n := |a|;
    if n > 0 {
      DotSum2(a[..n - 1], b[..n - 1], u);
      assert Sum2(a, b)[..n - 1] == Sum2(a[..n - 1], b[..n - 1]);
      Distribute(a[n - 1], b[n - 1], u[n - 1]);
    }
  }

  lemma Commute(x: real, y: real)
    ensures x * y == y * x
  {
  }

  lemma Distribute(x: real, y: real, z: real)
    ensures (x + y) * z == x * z + y * z
  {
  }

  lemma {:induction false} DotScaled(v: Vec, s: real, u: Vec)
    requires |u| >= |v|
    ensures Dot(Scaled(v, s), u) == s * Dot(v, u)
  {
    if |v| > 0 {
      var n := |v|;
      var pre := v[..n - 1];
      DotScaled(pre, s, u);
      ScaledPrefix(v, s, n - 1);
      assert Dot(Scaled(v, s), u) == Dot(Scaled(pre, s), u) + (v[n - 1] * s) * u[n - 1];
      Factor(Dot(pre, u), v[n - 1], u[n - 1], s);
    }
  }

  lemma ScaledPrefix(v: Vec, s: real, n: nat)
    requires n <= |v|
    ensures Scaled(v, s)[..n] == Scaled(v[..n], s)
  {
    forall i | 0 <= i < n
      ensures Scaled(v, s)[i] == Scaled(v[..n], s)[i]
    {
    }
  }

  /** The ring identity behind one step of DotScaled. */
  lemma Factor(a: real, x: real, y: real, s: real)
    ensures s * a + (x * s) * y == s * (a + x * y)
  {
  }

  lemma {:induction false} DotZeros(n: nat, u: Vec)
    requires |u| >= n
    ensures Dot(Zeros(n), u) == 0.0
  {
    if n > 0 {
      DotZeros(n - 1, u);
      assert Zeros(n)[..n - 1] == Zeros(n - 1);
    }
  }

  /** One more term of the dot product. */
  lemma DotSnoc(v: Vec, other: Vec, j: nat)
    requires j < |v| && |other| >= |v|
    ensures Dot(v[..j + 1], other) == Dot(v[..j], other) + v[j] * other[j]
  {
    assert v[..j + 1][..j] == v[..j];
  }

  /** Vector::dot as written: the accumulating loop computes Dot. */
  method DotLoop(v: Vec, other: Vec) returns (sum: real)
    requires |other| >= |v|
    ensures sum == Dot(v, other)
  {
    sum := 0.0;
    var i := 0;
    while i < |v|
      invariant 0 <= i <= |v|
      invariant sum == Dot(v[..i], other)
    {
      DotSnoc(v, other, i);
      sum := sum + v[i] * other[i];
      i := i + 1;
    }
    assert v[..i] == v;
  }

  /** Row-major layout: row i of a table with `cols` columns starts at i * cols. */
  lemma RowFits(i: nat, rows: nat, cols: nat)
    requires i < rows
    ensures i * cols + cols <= rows * cols
  {
    assert (i + 1) * cols <= rows * cols by {
      MulLe(i + 1, rows, cols);
    }
  }

  lemma MulLe(a: nat, b: nat, c: nat)
    requires a <= b
    ensures a * c <= b * c
  {
  }

  /** Distinct rows occupy disjoint index ranges. */
  lemma RowsApart(i: nat, k: nat, cols: nat)
    requires i < k
    ensures i * cols + cols <= k * cols
  {
    MulLe(i + 1, k, cols);
  }

  /** Row i of a row-major table. */
  function Block(w: seq<real>, cols: nat, i: nat): (r: Vec)
    requires i * cols + cols <= |w|
    ensures |r| == cols && forall j :: 0 <= j < cols ==> r[j] == w[i * cols + j]
  {
    w[i * cols .. i * cols + cols]
  }

  /** A dense matrix of rows x cols floats, row-major. */
  datatype Matrix = Matrix(rows: nat, cols: nat, w: seq<real>)

  predicate Valid(m: Matrix) {
    |m.w| == m.rows * m.cols
  }

  /** Matrix::row(i): w[i*cols .. i*cols+cols). */
  function Row(m: Matrix, i: nat): (r: Vec)
    requires Valid(m) && i < m.rows
    ensures |r| == m.cols
  {
    RowFits(i, m.rows, m.cols);
    Block(m.w, m.cols, i)
  }

  /** Matrix::addRow(g, i, lr): w[i*cols+j] += lr * g[j] for j < cols. */
  function AddRow(m: Matrix, g: Vec, i: nat, lr: real): (r: Matrix)
    requires Valid(m) && i < m.rows && |g| >= m.cols
    ensures Valid(r) && r.rows == m.rows && r.cols == m.cols
  {
    var lo := i * m.cols;
    m.(w := seq(|m.w|, k requires 0 <= k < |m.w| =>
                  if lo <= k < lo + m.cols then m.w[k] + lr * g[k - lo] else m.w[k]))
  }

  /** addRow adds lr * g to row i. */
  lemma AddRowTarget(m: Matrix, g: Vec, i: nat, lr: real)
    requires Valid(m) && i < m.rows && |g| >= m.cols
    ensures Row(AddRow(m, g, i, lr), i) == Plus(Row(m, i), g, lr)
  {
    RowFits(i, m.rows, m.cols);
    var lo := i * m.cols;
    var r := AddRow(m, g, i, lr);
    var before := Row(m, i);
    var after := Row(r, i);
    forall j | 0 <= j < m.cols
      ensures after[j] == Plus(before, g, lr)[j]
    {
      assert after[j] == r.w[lo + j];
      assert before[j] == m.w[lo + j];
    }
  }

  /** addRow leaves every index outside row i as it was. */
  lemma AddRowElsewhere(m: Matrix, g: Vec, i: nat, lr: real, k: int)
    requires Valid(m) && i < m.rows && |g| >= m.cols
    requires 0 <= k < |m.w| && !(i * m.cols <= k < i * m.cols + m.cols)
    ensures AddRow(m, g, i, lr).w[k] == m.w[k]
  {
  }

  /** ... and so every other row. */
  lemma AddRowOtherRow(m: Matrix, g: Vec, i: nat, lr: real, k: nat)
    requires Valid(m) && i < m.rows && |g| >= m.cols && k < m.rows && k != i
    ensures Row(AddRow(m, g, i, lr), k) == Row(m, k)
  {
    var r := AddRow(m, g, i, lr);
    RowFits(k, m.rows, m.cols);
    var lo := k * m.cols;
    if k < i {
      RowsApart(k, i, m.cols);
    } else {
      RowsApart(i, k, m.cols);
    }
    forall j | 0 <= j < m.cols
      ensures Row(r, k)[j] == Row(m, k)[j]
    {
      AddRowElsewhere(m, g, i, lr, lo + j);
    }
  }
}

=== FILE: vector_sum.dfy ===
/**
 * Sums of a sequence of vectors, as the accumulation loops of the backbone,
 * the compact model's aggregate and the sentence encoder compute them:
 * start from zeros and add each vector in turn.
 */
module VectorSums {
  import opened Common
  import opened Vectors

  predicate AllLong(vs: seq<Vec>, dim: nat) {
    forall k :: 0 <= k < |vs| ==> |vs[k]| >= dim
  }

  /** h = zeros(dim); for v in vs: h.add(v). */
  function Total(vs: seq<Vec>, dim: nat): (r: Vec)
    requires AllLong(vs, dim)
    ensures |r| == dim
  {
    if |vs| == 0 then Zeros(dim) else Plus(Total(vs[..|vs| - 1], dim), vs[|vs| - 1], 1.0)
  }

  /** The sum of column j over the vectors, in order. */
  function Column(vs: seq<Vec>, j: nat): real
    requires forall k :: 0 <= k < |vs| ==> j < |vs[k]|
  {
    if |vs| == 0 then 0.0 else Column(vs[..|vs| - 1], j) + vs[|vs| - 1][j]
  }

  /** One more vector adds it to the running total. */
  lemma TotalSnoc(vs: seq<Vec>, dim: nat, i: nat)
    requires AllLong(vs, dim) && i < |vs|
    ensures Total(vs[..i + 1], dim) == Plus(Total(vs[..i], dim), vs[i], 1.0)
  {
    assert vs[..i + 1][..i] == vs[..i];
  }

  /** Entry j of the total is the sum of the vectors' entries j. */
  lemma {:induction false} TotalAt(vs: seq<Vec>, dim: nat, j: nat)
    requires AllLong(vs, dim) && j < dim
    ensures Total(vs, dim)[j] == Column(vs, j)
  {
    if |vs| > 0 {
      TotalAt(vs[..|vs| - 1], dim, j);
    }
  }

  lemma {:induction false} ColumnAppend(a: seq<Vec>, b: seq<Vec>, j: nat)
    requires forall k :: 0 <= k < |a| ==> j < |a[k]|
    requires forall k :: 0 <= k < |b| ==> j < |b[k]|
    ensures Column(a + b, j) == Column(a, j) + Column(b, j)
  {
    if |b| == 0 {
      assert a + b == a;
    } else {
      ColumnAppend(a, b[..|b| - 1], j);
      assert (a + b)[..|a + b| - 1] == a + b[..|b| - 1];
    }
  }

  /** Summing a concatenation is adding the two sums. */
  lemma TotalAppend(a: seq<Vec>, b: seq<Vec>, dim: nat)
    requires AllLong(a, dim) && AllLong(b, dim)
    ensures AllLong(a + b, dim)
    ensures Total(a + b, dim) == Sum2(Total(a, dim), Total(b, dim))
  {
    forall j | 0 <= j < dim
      ensures Total(a + b, dim)[j] == Sum2(Total(a, dim), Total(b, dim))[j]
    {
      TotalAt(a + b, dim, j);
      TotalAt(a, dim, j);
      TotalAt(b, dim, j);
      ColumnAppend(a, b, j);
    }
  }

  lemma ColumnRemove(vs: seq<Vec>, k: nat, j: nat)
    requires k < |vs| && forall t :: 0 <= t < |vs| ==> j < |vs[t]|
    ensures Column(vs, j) == vs[k][j] + Column(vs[..k] + vs[k + 1..], j)
  {
    var x := vs[k];
    ColumnAppend([x], vs[k + 1..], j);
    ColumnAppend(vs[..k], [x] + vs[k + 1..], j);
    ColumnAppend(vs[..k], vs[k + 1..], j);
    assert vs[..k] + ([x] + vs[k + 1..]) == vs;
    assert [x][..0] == [];
  }

  lemma {:induction false} ColumnPermutation(a: seq<Vec>, b: seq<Vec>, j: nat)
    requires forall k :: 0 <= k < |a| ==> j < |a[k]|
    requires forall k :: 0 <= k < |b| ==> j < |b[k]|
    requires multiset(a) == multiset(b)
    ensures Column(a, j) == Column(b, j)
    decreases |a|
  {
    if |a| > 0 {
      var k := Occurrence(a, b);
      MultisetRemove(a, b, k);
      var rest := WideWithout(b, k, j);
      var tail := WideWithout(a, 0, j);
      assert tail == a[1..];
      ColumnPermutation(tail, rest, j);
      ColumnMatched(a, b, k, j);
    } else {
      assert |multiset(b)| == 0;
    }
  }

  /** Removing a matched pair from both sides keeps equal sums equal. */
  lemma ColumnMatched(a: seq<Vec>, b: seq<Vec>, k: nat, j: nat)
    requires |a| > 0 && k < |b| && b[k] == a[0]
    requires forall t :: 0 <= t < |a| ==> j < |a[t]|
    requires forall t :: 0 <= t < |b| ==> j < |b[t]|
    requires Column(a[1..], j) == Column(b[..k] + b[k + 1..], j)
    ensures Column(a, j) == Column(b, j)
  {
    ColumnRemove(b, k, j);
    ColumnRemove(a, 0, j);
    assert a[..0] + a[1..] == a[1..];
  }

  /** Dropping one vector keeps every remaining vector wider than j. */
  lemma WideWithout(vs: seq<Vec>, k: nat, j: nat) returns (rest: seq<Vec>)
    requires k < |vs| && forall t :: 0 <= t < |vs| ==> j < |vs[t]|
    ensures rest == vs[..k] + vs[k + 1..]
    ensures forall t :: 0 <= t < |rest| ==> j < |rest[t]|
  {
    rest := vs[..k] + vs[k + 1..];
    forall t | 0 <= t < |rest|
      ensures j < |rest[t]|
    {
      if t < k {
        assert rest[t] == vs[t];
      } else {
        assert rest[t] == vs[t + 1];
      }
    }
  }

  /** The sum does not depend on the order of the vectors. */
  lemma TotalPermutation(a: seq<Vec>, b: seq<Vec>, dim: nat)
    requires AllLong(a, dim) && AllLong(b, dim)
    requires multiset(a) == multiset(b)
    ensures Total(a, dim) == Total(b, dim)
  {
    forall j | 0 <= j < dim
      ensures Total(a, dim)[j] == Total(b, dim)[j]
    {
      TotalAt(a, dim, j);
      TotalAt(b, dim, j);
      ColumnPermutation(a, b, j);
    }
  }

  /** Summing one vector copies its first dim entries. */
  lemma TotalSingle(v: Vec, dim: nat)
    requires |v| >= dim
    ensures Total([v], dim) == v[..dim]
  {
    assert [v][..0] == [];
    PlusFromZeros(dim, v);
  }

  /** The mean of the rows, or zeros when there are none. */
  function Mean(rows: seq<Vec>, dim: nat): (r: Vec)
    requires AllLong(rows, dim)
    ensures |r| == dim
  {
    if |rows| > 0 then Scaled(Total(rows, dim), 1.0 / (|rows| as real)) else Total(rows, dim)
  }

  /** Entry j of the mean is the sum of the rows' entries j divided by their number, or 0 with no rows. */
  lemma MeanAt(rows: seq<Vec>, dim: nat, j: nat)
    requires AllLong(rows, dim) && j < dim
    ensures Mean(rows, dim)[j] == if |rows| > 0 then Column(rows, j) / (|rows| as real) else 0.0
  {
    TotalAt(rows, dim, j);
    if |rows| == 0 {
      assert Total(rows, dim) == Zeros(dim);
    } else {
      MeanOfSome(rows, dim, j);
    }
  }

  lemma MeanOfSome(rows: seq<Vec>, dim: nat, j: nat)
    requires AllLong(rows, dim) && j < dim && |rows| > 0
    requires Total(rows, dim)[j] == Column(rows, j)
    ensures Mean(rows, dim)[j] == Column(rows, j) / (|rows| as real)
  {
    ScaledEntry(Total(rows, dim), |rows| as real, j, Column(rows, j));
  }

  /** Scaling by 1/n divides each entry by n. */
  lemma ScaledEntry(t: Vec, n: real, j: nat, c: real)
    requires n > 0.0 && j < |t| && t[j] == c
    ensures Scaled(t, 1.0 / n)[j] == c / n
  {
  }

  /** The mean of the rows repeated twice is the mean of the rows. */
  lemma MeanDoubled(rows: seq<Vec>, dim: nat)
    requires AllLong(rows, dim)
    ensures AllLong(rows + rows, dim)
    ensures Mean(rows + rows, dim) == Mean(rows, dim)
  {
    assert AllLong(rows + rows, dim);
    forall j | 0 <= j < dim
      ensures Mean(rows + rows, dim)[j] == Mean(rows, dim)[j]
    {
      MeanAt(rows + rows, dim, j);
      MeanAt(rows, dim, j);
      ColumnAppend(rows, rows, j);
      if |rows| > 0 {
        HalfOfDouble(Column(rows, j), |rows|);
      }
    }
  }

  lemma HalfOfDouble(c: real, n: nat)
    requires n > 0
    ensures (c + c) / ((n + n) as real) == c / (n as real)
  {
  }
}

=== FILE: versioned_files.dfy ===
/**
 * The model file as the Python binding's load_model reads it: an optional
 * version tag after the magic (a first int in 1..10; anything else is the
 * dim of a legacy file), a configuration block from version 2 on, and
 * grammar and phonetic sections after the words. The writer here is the
 * layout that reader expects; the supervised trainer writes another one.
 */
module VersionedFiles {
  import opened Common
  import opened Tokens
  import D = Dictionaries
  import opened ModelFiles

  /** loadModelConfig: six layer flags, then dim, bucket_size, minn and maxn. */
  datatype ConfigBlock = ConfigBlock(useWordEmbeddings: bool, useCharNgrams: bool, useGrammarUnits: bool,
                                     usePhonetic: bool, useVectorAttention: bool, useSentenceEncoder: bool,
                                     dim: int, bucketSize: int, minn: int, maxn: int)

  function ConfigTokens(c: ConfigBlock): seq<Token> {
    [Bool(c.useWordEmbeddings), Bool(c.useCharNgrams), Bool(c.useGrammarUnits),
     Bool(c.usePhonetic), Bool(c.useVectorAttention), Bool(c.useSentenceEncoder),
     I32(c.dim), I32(c.bucketSize), I32(c.minn), I32(c.maxn)]
  }

  function ReadConfig(t: seq<Token>): (r: Result<Read<ConfigBlock>>)
    ensures r.Ok? ==> |t| >= 10 && t[..10] == ConfigTokens(r.value.value) && r.value.rest == t[10..]
  {
    if |t| >= 10 && t[0].Bool? && t[1].Bool? && t[2].Bool? && t[3].Bool? && t[4].Bool? && t[5].Bool?
       && t[6].I32? && t[7].I32? && t[8].I32? && t[9].I32?
    then Ok(Read(ConfigBlock(t[0].b, t[1].b, t[2].b, t[3].b, t[4].b, t[5].b, t[6].i, t[7].i, t[8].i, t[9].i), t[10..]))
    else Err(Malformed)
  }

  lemma ConfigRoundTrip(c: ConfigBlock, rest: seq<Token>)
    ensures ReadConfig(ConfigTokens(c) + rest) == Ok(Read(c, rest))
  {
    var t := ConfigTokens(c) + rest;
    assert t[..10] == ConfigTokens(c) && t[10..] == rest;
  }

  /** A grammar or phonetic section: a count, then (length-prefixed unit, id) pairs. */
  function UnitsTokens(us: seq<(string, int)>): (r: seq<Token>)
    ensures |r| == 3 * |us|
  {
    if |us| == 0 then [] else UnitsTokens(us[..|us| - 1]) + (StringTokens(us[|us| - 1].0) + [I32(us[|us| - 1].1)])
  }

  function ReadUnits(t: seq<Token>, n: int): (r: Result<Read<seq<(string, int)>>>)
    ensures r.Ok? ==> |r.value.value| == Max(n, 0)
    decreases Max(n, 0)
  {
    if n <= 0 then Ok(Read([], t))
    else
      var init :- ReadUnits(t, n - 1);
      var unit :- ReadString(init.rest);
      var id :- ReadInt(unit.rest);
      Ok(Read(init.value + [(unit.value, id.value)], id.rest))
  }

  lemma {:induction false} UnitsRoundTrip(us: seq<(string, int)>, rest: seq<Token>)
    ensures ReadUnits(UnitsTokens(us) + rest, |us|) == Ok(Read(us, rest))
  {
    if |us| > 0 {
      var init, last := us[..|us| - 1], us[|us| - 1];
      var t := UnitsTokens(us) + rest;
      var lastThen := StringTokens(last.0) + ([I32(last.1)] + rest);
      assert t == UnitsTokens(init) + lastThen;
      UnitsRoundTrip(init, lastThen);
      StringRoundTrip(last.0, [I32(last.1)] + rest);
      assert ReadUnits(t, |us| - 1) == Ok(Read(init, lastThen));
      assert init + [last] == us;
    } else {
      assert UnitsTokens(us) + rest == rest;
    }
  }

  /** grammarVocab[unit] = id for each pair in order: a later pair for the same unit wins. */
  function VocabOf(us: seq<(string, int)>): (m: map<string, int>)
    ensures forall k :: k in m <==> exists i :: 0 <= i < |us| && us[i].0 == k
  {
    if |us| == 0 then map[]
    else
      var init := us[..|us| - 1];
      var m := VocabOf(init);
      assert forall i :: 0 <= i < |init| ==> init[i] == us[i];
      m[us[|us| - 1].0 := us[|us| - 1].1]
  }

  /** The units of the pairs; the phonetic ids in the file are read and dropped. */
  function UnitNames(us: seq<(string, int)>): (r: seq<string>)
    ensures |r| == |us| && forall i :: 0 <= i < |us| ==> r[i] == us[i].0
  {
    seq(|us|, i requires 0 <= i < |us| => us[i].0)
  }

  /**
   * The dictionary load_model builds: the words, the grammar units when
   * there are any, the phonetic units, then finalize(bucket).
   */
  function PyDictionary(words: seq<string>, grammar: seq<(string, int)>, phonetic: seq<(string, int)>, bucket: int): (d: D.Dictionary)
    ensures d.bucketSize == bucket && d.id2word == D.Dedup(words)
    ensures grammar == [] ==> d.grammar2id == map[]
  {
    var withWords := D.AddWords(D.Empty, words);
    D.AddWordsIds(words);
    var vocab := VocabOf(grammar);
    var withGrammar := if |vocab| > 0 then D.LoadGrammarUnits(withWords, vocab) else withWords;
    D.Finalize(D.AddPhonetics(withGrammar, UnitNames(phonetic)), bucket)
  }

  /** What load_model fills in. A legacy file has version 1. */
  datatype PyModel = PyModel(supervised: bool, version: int, header: Header, attentionMode: int, dict: D.Dictionary,
                             labels: seq<string>, emb: seq<real>, att: seq<real>, protos: seq<real>,
                             encoder: Option<SelfAttention>)

  /** A first int in 1..10 is taken for a version tag. */
  predicate IsVersionTag(x: int) {
    1 <= x <= 10
  }

  /**
   * The header: a version tag (and from version 2 the configuration block,
   * read and dropped) followed by dim, minn, maxn and bucket, or, for any
   * other first int, the legacy layout in which that int is dim.
   */
  function ReadVersionedHeader(t: seq<Token>): (r: Result<Read<(int, Header)>>)
    ensures r.Ok? ==> |t| > 0 && t[0].I32?
    ensures r.Ok? ==> r.value.value.0 == (if IsVersionTag(t[0].i) then t[0].i else 1)
    ensures r.Ok? && !IsVersionTag(t[0].i) ==> r.value.value.1.dim == t[0].i
  {
    var first :- ReadInt(t);
    if IsVersionTag(first.value) then
      var config :- if first.value >= 2 then ReadConfig(first.rest) else Ok(Read(ConfigBlock(false, false, false, false, false, false, 0, 0, 0, 0), first.rest));
      var header :- ReadHeader(config.rest);
      Ok(Read((first.value, header.value), header.rest))
    else
      var minn :- ReadInt(first.rest);
      var maxn :- ReadInt(minn.rest);
      var bucket :- ReadInt(maxn.rest);
      Ok(Read((1, Header(first.value, minn.value, maxn.value, bucket.value)), bucket.rest))
  }

  /** The encoder matrices: dim, then dim² floats for each; a negative dim reads none. */
  function ReadMatrices(t: seq<Token>): (r: Result<Read<SelfAttention>>)
    ensures r.Ok? && r.value.value.dim >= 0 ==> Square(r.value.value)
  {
    var dim :- ReadInt(t);
    var n := if dim.value <= 0 then 0 else dim.value * dim.value;
    var q :- ReadFloats(dim.rest, n);
    var k :- ReadFloats(q.rest, n);
    var v :- ReadFloats(k.rest, n);
    Ok(Read(SelfAttention(dim.value, q.value, k.value, v.value), v.rest))
  }

  /** What precedes the words: the kind of file, its version, its header and, when supervised, flag and mode. */
  datatype Prelude = Prelude(supervised: bool, version: int, header: Header, flag: int, mode: int)

  /**
   * GALS means supervised and GALD unsupervised; anything else fails. A
   * supervised file carries the sentence flag and, from version 2, the
   * attention mode.
   */
  function ReadPrelude(t: seq<Token>): (r: Result<Read<Prelude>>)
    ensures |t| > 0 && t[0].I32? && t[0].i != MagicDense && t[0].i != MagicSupervised ==> r == Err(BadMagic(t[0].i))
    ensures r.Ok? ==> |t| > 0 && (r.value.value.supervised <==> t[0] == I32(MagicSupervised))
    ensures r.Ok? ==> 1 <= r.value.value.version <= 10
    ensures r.Ok? && !r.value.value.supervised ==> r.value.value.flag == 0 && r.value.value.mode == 0
  {
    var magic :- ReadInt(t);
    var supervised := magic.value == MagicSupervised;
    if !supervised && magic.value != MagicDense then Err(BadMagic(magic.value))
    else
      var header :- ReadVersionedHeader(magic.rest);
      var version := header.value.0;
      var flag :- if supervised then ReadInt(header.rest) else Ok(Read(0, header.rest));
      var mode :- if supervised && version >= 2 then ReadInt(flag.rest) else Ok(Read(0, flag.rest));
      Ok(Read(Prelude(supervised, version, header.value.1, flag.value, mode.value), mode.rest))
  }

  /** The words, the grammar pairs and the phonetic pairs. */
  datatype Units = Units(words: seq<string>, grammar: seq<(string, int)>, phonetic: seq<(string, int)>)

  function ReadUnitSections(t: seq<Token>): (r: Result<Read<Units>>)
    ensures r.Ok? ==> |t| > 0 && t[0].I32? && |r.value.value.words| == Max(t[0].i, 0)
  {
    var words :- ReadList(t);
    var ngrammar :- ReadInt(words.rest);
    var grammar :- ReadUnits(ngrammar.rest, ngrammar.value);
    var nphonetic :- ReadInt(grammar.rest);
    var phonetic :- ReadUnits(nphonetic.rest, nphonetic.value);
    Ok(Read(Units(words.value, grammar.value, phonetic.value), phonetic.rest))
  }

  /** The labels and the weight blocks. */
  datatype Weights = Weights(labels: seq<string>, emb: seq<real>, att: seq<real>, protos: seq<real>, encoder: Option<SelfAttention>)

  /**
   * Labels only when supervised; Embeddings(vocabSize, dim) and its block,
   * VectorAttention(dim, mode) and its block; when supervised
   * Classifier(labels.size(), dim) and the prototypes; the encoder only
   * when asked for.
   */
  function ReadWeights(t: seq<Token>, supervised: bool, useEncoder: bool, vocabSize: int, dim: int): (r: Result<Read<Weights>>)
    ensures r.Ok? && !supervised ==> r.value.value.labels == [] && r.value.value.protos == []
    ensures r.Ok? ==> (r.value.value.encoder.Some? <==> useEncoder)
    ensures r.Ok? ==> Allocates(vocabSize, dim)
    ensures r.Ok? && supervised ==> |r.value.value.labels| > 0 && dim > 0
  {
    var labels :- if supervised then ReadList(t) else Ok(Read([], t));
    var embSize :- Allocate(vocabSize * dim);
    var emb :- ReadFloatBlock(labels.rest);
    var attSize :- Allocate(dim);
    var att :- ReadFloatBlock(emb.rest);
    var protos :- if supervised then ReadPrototypes(att.rest, |labels.value|, dim) else Ok(Read([], att.rest));
    var encoder :- if useEncoder then ReadMatrices(protos.rest) else Ok(Read(SelfAttention(0, [], [], []), protos.rest));
    Ok(Read(Weights(labels.value, emb.value, att.value, protos.value, if useEncoder then Some(encoder.value) else None), encoder.rest))
  }

  /**
   * load_model: the prelude, the words, grammar and phonetic units, then
   * the labels and weights. The encoder is read iff the file is supervised
   * and its sentence flag is 1.
   */
  function LoadModel(t: seq<Token>): (r: Result<PyModel>)
    ensures |t| > 0 && t[0].I32? && t[0].i != MagicDense && t[0].i != MagicSupervised ==> r == Err(BadMagic(t[0].i))
    ensures r.Ok? ==> |t| > 0 && (r.value.supervised <==> t[0] == I32(MagicSupervised))
    ensures r.Ok? && !r.value.supervised ==> r.value.labels == [] && r.value.protos == [] && r.value.encoder.None?
    ensures r.Ok? ==> 1 <= r.value.version <= 10 && r.value.dict.bucketSize == r.value.header.bucket
    ensures r.Ok? ==> Allocates(D.TotalSize(r.value.dict), r.value.header.dim)
    ensures r.Ok? && r.value.supervised ==> |r.value.labels| > 0 && r.value.header.dim > 0
  {
    var p :- ReadPrelude(t);
    var pre := p.value;
    var u :- ReadUnitSections(p.rest);
    var dict := PyDictionary(u.value.words, u.value.grammar, u.value.phonetic, pre.header.bucket);
    var w :- ReadWeights(u.rest, pre.supervised, pre.supervised && pre.flag == 1, D.TotalSize(dict), pre.header.dim);
    Ok(PyModel(pre.supervised, pre.version, pre.header, pre.mode, dict,
               w.value.labels, w.value.emb, w.value.att, w.value.protos, w.value.encoder))
  }

  /** Everything a file in the layout load_model expects holds. */
  datatype VersionedFile = VersionedFile(supervised: bool, tag: Option<int>, config: ConfigBlock, header: Header,
                                         attentionMode: int, words: seq<string>,
                                         grammar: seq<(string, int)>, phonetic: seq<(string, int)>,
                                         labels: seq<string>, emb: seq<real>, att: seq<real>, protos: seq<real>,
                                         encoder: Option<SelfAttention>)

  /** The version load_model will see: the tag, or 1 for a legacy file. */
  function Version(f: VersionedFile): int {
    if f.tag.Some? then f.tag.value else 1
  }

  /** The version tag, and the configuration block from version 2 on. */
  function VersionTokens(f: VersionedFile): seq<Token> {
    if f.tag.Some? then [I32(f.tag.value)] + (if f.tag.value >= 2 then ConfigTokens(f.config) else []) else []
  }

  /** The sentence flag and, from version 2, the attention mode; supervised files only. */
  function ModeTokens(f: VersionedFile): seq<Token> {
    if f.supervised then [I32(Flag(f.encoder))] + (if Version(f) >= 2 then [I32(f.attentionMode)] else []) else []
  }

  /** The layout load_model reads. */
  function WriteVersioned(f: VersionedFile): (t: seq<Token>)
    ensures |t| > 0 && t[0] == I32(if f.supervised then MagicSupervised else MagicDense)
  {
    [I32(if f.supervised then MagicSupervised else MagicDense)]
    + (VersionTokens(f) + (HeaderTokens(f.header) + (ModeTokens(f)
    + (ListTokens(f.words) + ([I32(|f.grammar|)] + (UnitsTokens(f.grammar) + ([I32(|f.phonetic|)] + (UnitsTokens(f.phonetic)
    + ((if f.supervised then ListTokens(f.labels) else [])
    + (FloatBlock(f.emb) + (FloatBlock(f.att) + ((if f.supervised then FloatBlock(f.protos) else [])
    + (if f.supervised then EncoderSection(f.encoder) else [])))))))))))))
  }

  /**
   * A file load_model can tell apart: a tag is a version in 1..10, a legacy
   * dim is outside 1..10, and only a supervised file carries an encoder,
   * with square matrices.
   */
  predicate Readable(f: VersionedFile) {
    && (f.tag.Some? ==> IsVersionTag(f.tag.value))
    && (f.tag.None? ==> !IsVersionTag(f.header.dim))
    && (f.encoder.Some? ==> f.supervised && Square(f.encoder.value))
  }

  /** The vocabulary size load_model computes for a file: totalSize() after finalize. */
  function VocabSize(f: VersionedFile): int {
    D.TotalSize(PyDictionary(f.words, f.grammar, f.phonetic, f.header.bucket))
  }

  /**
   * Sizes the Embeddings, VectorAttention and, when supervised, Classifier
   * constructors accept.
   */
  predicate Fits(f: VersionedFile, vocabSize: int) {
    Allocates(vocabSize, f.header.dim) && (f.supervised ==> |f.labels| > 0 && f.header.dim > 0)
  }

  /** What load_model returns for such a file. */
  function Expected(f: VersionedFile): PyModel {
    PyModel(f.supervised, Version(f), f.header, if f.supervised && Version(f) >= 2 then f.attentionMode else 0,
            PyDictionary(f.words, f.grammar, f.phonetic, f.header.bucket),
            if f.supervised then f.labels else [], f.emb, f.att, if f.supervised then f.protos else [], f.encoder)
  }

  /** The header sections of a readable file read back. */
  lemma VersionedHeaderRoundTrip(f: VersionedFile, rest: seq<Token>)
    requires Readable(f)
    ensures ReadVersionedHeader(VersionTokens(f) + (HeaderTokens(f.header) + rest)) == Ok(Read((Version(f), f.header), rest))
  {
    var after := HeaderTokens(f.header) + rest;
    HeaderRoundTrip(f.header, rest);
    if f.tag.Some? {
      var t := VersionTokens(f) + after;
      if f.tag.value >= 2 {
        assert t == [I32(f.tag.value)] + (ConfigTokens(f.config) + after);
        ConfigRoundTrip(f.config, after);
      } else {
        assert t == [I32(f.tag.value)] + after;
      }
    } else {
      assert VersionTokens(f) + after == after;
    }
  }

  /** The tokens after the header and mode sections. */
  function AfterPrelude(f: VersionedFile): seq<Token> {
    ListTokens(f.words) + ([I32(|f.grammar|)] + (UnitsTokens(f.grammar) + ([I32(|f.phonetic|)] + (UnitsTokens(f.phonetic)
    + AfterUnits(f)))))
  }

  /** The tokens after the phonetic section. */
  function AfterUnits(f: VersionedFile): seq<Token> {
    (if f.supervised then ListTokens(f.labels) else [])
    + (FloatBlock(f.emb) + (FloatBlock(f.att) + ((if f.supervised then FloatBlock(f.protos) else [])
    + (if f.supervised then EncoderSection(f.encoder) else []))))
  }

  lemma WriteVersionedSplit(f: VersionedFile)
    ensures WriteVersioned(f) == [I32(if f.supervised then MagicSupervised else MagicDense)]
                                 + (VersionTokens(f) + (HeaderTokens(f.header) + (ModeTokens(f) + AfterPrelude(f))))
  {
  }

  lemma PreludeRoundTrip(f: VersionedFile)
    requires Readable(f)
    ensures ReadPrelude(WriteVersioned(f))
            == Ok(Read(Prelude(f.supervised, Version(f), f.header, if f.supervised then Flag(f.encoder) else 0,
                               if f.supervised && Version(f) >= 2 then f.attentionMode else 0), AfterPrelude(f)))
  {
    WriteVersionedSplit(f);
    VersionedHeaderRoundTrip(f, ModeTokens(f) + AfterPrelude(f));
    ModeRoundTrip(f, AfterPrelude(f));
  }

  lemma UnitSectionsRoundTrip(f: VersionedFile)
    ensures ReadUnitSections(AfterPrelude(f)) == Ok(Read(Units(f.words, f.grammar, f.phonetic), AfterUnits(f)))
  {
    var afterGrammar := [I32(|f.phonetic|)] + (UnitsTokens(f.phonetic) + AfterUnits(f));
    var afterWords := [I32(|f.grammar|)] + (UnitsTokens(f.grammar) + afterGrammar);
    ListRoundTrip(f.words, afterWords);
    UnitsRoundTrip(f.grammar, afterGrammar);
    UnitsRoundTrip(f.phonetic, AfterUnits(f));
  }

  lemma WeightsRoundTrip(f: VersionedFile, vocabSize: int)
    requires Readable(f) && Fits(f, vocabSize)
    ensures ReadWeights(AfterUnits(f), f.supervised, f.supervised && Flag(f.encoder) == 1, vocabSize, f.header.dim)
            == Ok(Read(Weights(if f.supervised then f.labels else [], f.emb, f.att, if f.supervised then f.protos else [], f.encoder), []))
  {
    if f.supervised {
      SupervisedWeightsRoundTrip(f, vocabSize);
    } else {
      DenseWeightsRoundTrip(f, vocabSize);
    }
  }

  /** A dense file's embeddings and attention read back and end the file. */
  lemma DenseWeightsRoundTrip(f: VersionedFile, vocabSize: int)
    requires Readable(f) && Fits(f, vocabSize) && !f.supervised
    ensures ReadWeights(AfterUnits(f), false, false, vocabSize, f.header.dim) == Ok(Read(Weights([], f.emb, f.att, [], f.encoder), []))
  {
    assert AfterUnits(f) == FloatBlock(f.emb) + (FloatBlock(f.att) + []);
    FloatBlockRoundTrip(f.emb, FloatBlock(f.att) + []);
    FloatBlockRoundTrip(f.att, []);
  }

  /** A supervised file's labels, weights and encoder read back and end the file. */
  lemma SupervisedWeightsRoundTrip(f: VersionedFile, vocabSize: int)
    requires Readable(f) && Fits(f, vocabSize) && f.supervised
    ensures ReadWeights(AfterUnits(f), true, Flag(f.encoder) == 1, vocabSize, f.header.dim)
            == Ok(Read(Weights(f.labels, f.emb, f.att, f.protos, f.encoder), []))
  {
    var enc := EncoderSection(f.encoder);
    var afterAtt := FloatBlock(f.protos) + enc;
    var afterEmb := FloatBlock(f.att) + afterAtt;
    var afterLabels := FloatBlock(f.emb) + afterEmb;
    assert AfterUnits(f) == ListTokens(f.labels) + afterLabels;
    ListRoundTrip(f.labels, afterLabels);
    FloatBlockRoundTrip(f.emb, afterEmb);
    FloatBlockRoundTrip(f.att, afterAtt);
    FloatBlockRoundTrip(f.protos, enc);
    if f.encoder.Some? {
      MatricesRoundTrip(f.encoder.value);
    } else {
      assert enc == [];
    }
  }

  /** load_model reads back every file in its layout. */
  lemma LoadModelRoundTrip(f: VersionedFile)
    requires Readable(f) && Fits(f, VocabSize(f))
    ensures LoadModel(WriteVersioned(f)) == Ok(Expected(f))
  {
    PreludeRoundTrip(f);
    UnitSectionsRoundTrip(f);
    WeightsRoundTrip(f, VocabSize(f));
  }

  /** The weights of a readable file whose dim is negative: one of the two allocations fails. */
  lemma NegativeDimWeights(f: VersionedFile, vocabSize: int)
    requires Readable(f) && f.header.dim < 0
    ensures ReadWeights(AfterUnits(f), f.supervised, f.supervised && Flag(f.encoder) == 1, vocabSize, f.header.dim)
            == Err(LengthError)
  {
    var enc := EncoderSection(f.encoder);
    var afterAtt := (if f.supervised then FloatBlock(f.protos) else []) + (if f.supervised then enc else []);
    var afterEmb := FloatBlock(f.att) + afterAtt;
    var afterLabels := FloatBlock(f.emb) + afterEmb;
    if f.supervised {
      assert AfterUnits(f) == ListTokens(f.labels) + afterLabels;
      ListRoundTrip(f.labels, afterLabels);
    } else {
      assert AfterUnits(f) == afterLabels;
    }
    FloatBlockRoundTrip(f.emb, afterEmb);
    NegativeDimAllocation(vocabSize, f.header.dim);
  }

  /** load_model refuses every readable file whose dim is negative, with std::length_error. */
  lemma LoadModelNegativeDim(f: VersionedFile)
    requires Readable(f) && f.header.dim < 0
    ensures LoadModel(WriteVersioned(f)) == Err(LengthError)
  {
    PreludeRoundTrip(f);
    UnitSectionsRoundTrip(f);
    NegativeDimWeights(f, VocabSize(f));
  }

  /**
   * The weights of a supervised file with no labels or dim 0, once both
   * allocations succeed: Classifier throws std::invalid_argument.
   */
  lemma EmptyClassifierWeights(f: VersionedFile, vocabSize: int)
    requires Readable(f) && f.supervised && Allocates(vocabSize, f.header.dim)
    requires f.labels == [] || f.header.dim == 0
    ensures var w := ReadWeights(AfterUnits(f), true, Flag(f.encoder) == 1, vocabSize, f.header.dim);
            w.Err? && w.error.InvalidArgument?
  {
    var enc := EncoderSection(f.encoder);
    var afterAtt := FloatBlock(f.protos) + enc;
    var afterEmb := FloatBlock(f.att) + afterAtt;
    var afterLabels := FloatBlock(f.emb) + afterEmb;
    assert AfterUnits(f) == ListTokens(f.labels) + afterLabels;
    ListRoundTrip(f.labels, afterLabels);
    FloatBlockRoundTrip(f.emb, afterEmb);
    FloatBlockRoundTrip(f.att, afterAtt);
  }

  /** load_model refuses a supervised file with no labels or dim 0, with std::invalid_argument. */
  lemma LoadModelEmptyClassifier(f: VersionedFile)
    requires Readable(f) && f.supervised && Allocates(VocabSize(f), f.header.dim)
    requires f.labels == [] || f.header.dim == 0
    ensures LoadModel(WriteVersioned(f)).Err?
    ensures LoadModel(WriteVersioned(f)).error.InvalidArgument?
  {
    PreludeRoundTrip(f);
    UnitSectionsRoundTrip(f);
    EmptyClassifierWeights(f, VocabSize(f));
  }

  /** The sentence flag and attention mode read back. */
  lemma ModeRoundTrip(f: VersionedFile, rest: seq<Token>)
    ensures var t := ModeTokens(f) + rest;
            f.supervised ==> ReadInt(t) == Ok(Read(Flag(f.encoder), t[1..]))
    ensures var t := ModeTokens(f) + rest;
            f.supervised && Version(f) >= 2 ==> ReadInt(t[1..]) == Ok(Read(f.attentionMode, rest))
    ensures f.supervised && Version(f) < 2 ==> (ModeTokens(f) + rest)[1..] == rest
    ensures !f.supervised ==> ModeTokens(f) + rest == rest
  {
  }

  lemma MatricesRoundTrip(a: SelfAttention)
    requires Square(a)
    ensures ReadMatrices(EncoderTokens(a)) == Ok(Read(a, []))
  {
    EncoderRoundTrip(a);
  }

  /**
   * A legacy file whose dim lies in 2..10 does not load: its dim is taken
   * for a version tag and its minn for the first flag of a configuration
   * block.
   */
  lemma LegacySmallDimFails(f: VersionedFile)
    requires f.tag.None? && 2 <= f.header.dim <= 10
    ensures LoadModel(WriteVersioned(f)).Err?
  {
    WriteVersionedSplit(f);
    var t := WriteVersioned(f);
    var h := HeaderTokens(f.header) + (ModeTokens(f) + AfterPrelude(f));
    assert t[1..] == h;
    assert h[1] == I32(f.header.minn);
    assert ReadConfig(h[1..]).Err?;
    assert ReadVersionedHeader(h).Err?;
  }

  /** What a successful load reports as version and header is what the header reader makes of the tokens after the magic. */
  lemma LoadedHeader(t: seq<Token>)
    ensures LoadModel(t).Ok? ==>
              && |t| > 0 && ReadVersionedHeader(t[1..]).Ok?
              && LoadModel(t).value.version == ReadVersionedHeader(t[1..]).value.value.0
              && LoadModel(t).value.header == ReadVersionedHeader(t[1..]).value.value.1
  {
    if LoadModel(t).Ok? {
      var p := ReadPrelude(t);
      assert p.Ok? && LoadModel(t).value.header == p.value.value.header && LoadModel(t).value.version == p.value.value.version;
    }
  }

  /** Tokens that start with the tag 1 read, if at all, as version 1 with the next int as dim. */
  lemma TagOneHeader(h: seq<Token>, minn: int)
    requires |h| >= 2 && h[0] == I32(1) && h[1] == I32(minn)
    ensures var v := ReadVersionedHeader(h);
            v.Ok? ==> v.value.value.0 == 1 && v.value.value.1.dim == minn
  {
    var v := ReadVersionedHeader(h);
    if v.Ok? {
      var hd := ReadHeader(h[1..]);
      assert hd.Ok? && v.value.value.1 == hd.value.value;
      assert h[1..][0] == I32(minn);
    }
  }

  /** A legacy file starts with the magic, its dim and its minn. */
  lemma LegacyPrefix(f: VersionedFile)
    requires f.tag.None?
    ensures var t := WriteVersioned(f);
            |t| >= 3 && t[1] == I32(f.header.dim) && t[2] == I32(f.header.minn)
  {
    WriteVersionedSplit(f);
  }

  /** A legacy file whose dim is 1 loads, if at all, with its minn as dim. */
  lemma LegacyDimOneShifts(f: VersionedFile)
    requires f.tag.None? && f.header.dim == 1
    ensures var r := LoadModel(WriteVersioned(f));
            r.Ok? ==> r.value.version == 1 && r.value.header.dim == f.header.minn
  {
    var t := WriteVersioned(f);
    LegacyPrefix(f);
    LoadedHeader(t);
    TagOneHeader(t[1..], f.header.minn);
  }

  /** A supervised model with one word, one label and a legacy dim outside 1..10. */
  const WideOneWordOneLabel := SupervisedModel(Header(16, 3, 6, 10), ["a"], ["x"], [], [], [], None)

  /**
   * The supervised trainer's file does not load here: after the words,
   * load_model takes the label count for the number of grammar units, the
   * label and the embedding count for a grammar pair, the attention count
   * for the phonetic units and the prototype count for the labels, and then
   * finds no embedding block.
   */
  lemma TrainerFileMisread()
    ensures LoadModel(WriteSupervised(WideOneWordOneLabel)) == Err(Malformed)
  {
    var afterFlag := TrainerFilePrelude();
    TrainerFileUnits(afterFlag);
    var dict := PyDictionary(["a"], [("x", 0)], [], 10);
    assert D.TotalSize(dict) * 16 >= 0;
    assert ReadWeights([I32(0)], true, false, D.TotalSize(dict), 16) == Err(Malformed);
  }

  /** The file's prelude reads as a legacy supervised header with flag 0. */
  lemma TrainerFilePrelude() returns (afterFlag: seq<Token>)
    ensures afterFlag == ListTokens(["a"]) + [I32(1), I32(1), Chars("x"), I32(0), I32(0), I32(0)]
    ensures ReadPrelude(WriteSupervised(WideOneWordOneLabel)) == Ok(Read(Prelude(true, 1, WideOneWordOneLabel.header, 0, 0), afterFlag))
  {
    var m := WideOneWordOneLabel;
    var t := WriteSupervised(m);
    var afterWords := [I32(1), I32(1), Chars("x"), I32(0), I32(0), I32(0)];
    assert afterWords == ListTokens(m.labels) + (FloatBlock([]) + (FloatBlock([]) + (FloatBlock([]) + EncoderSection(None))));
    afterFlag := ListTokens(m.words) + afterWords;
    assert t[1..] == HeaderTokens(m.header) + ([I32(0)] + afterFlag);
  }

  /** After the words, the label list and two counts read as one grammar pair and no phonetic units. */
  lemma TrainerFileUnits(afterFlag: seq<Token>)
    requires afterFlag == ListTokens(["a"]) + [I32(1), I32(1), Chars("x"), I32(0), I32(0), I32(0)]
    ensures ReadUnitSections(afterFlag) == Ok(Read(Units(["a"], [("x", 0)], []), [I32(0)]))
  {
    var afterWords := [I32(1), I32(1), Chars("x"), I32(0), I32(0), I32(0)];
    ListRoundTrip(["a"], afterWords);
    var u := afterWords[1..];
    assert ReadUnits(u, 0) == Ok(Read([], u));
    assert u[..2] == StringTokens("x");
    StringRoundTrip("x", u[2..]);
    assert u == StringTokens("x") + u[2..];
    assert ReadString(u) == Ok(Read("x", u[2..]));
    assert ReadInt(u[2..]) == Ok(Read(0, u[3..]));
    assert [] + [("x", 0)] == [("x", 0)];
    assert ReadUnits(u, 1) == Ok(Read([("x", 0)], u[3..]));
  }

  /**
   * The supervised trainer's model in the layout load_model reads: version
   * tag 1, the sentence flag, and empty grammar and phonetic sections
   * between the words and the labels.
   */
  function TrainerVersioned(m: SupervisedModel): VersionedFile {
    VersionedFile(true, Some(1), ConfigBlock(true, true, false, false, true, m.encoder.Some?,
                                             m.header.dim, m.header.bucket, m.header.minn, m.header.maxn),
                  m.header, 0, m.words, [], [], m.labels, m.emb, m.att, m.protos, m.encoder)
  }

  /** Written that way, every model the supervised trainer saves loads with its words, labels and weights. */
  lemma TrainerVersionedLoads(m: SupervisedModel)
    requires m.encoder.Some? ==> Square(m.encoder.value)
    requires D.TotalSize(PyDictionary(m.words, [], [], m.header.bucket)) >= 0 && |m.labels| > 0 && m.header.dim > 0
    ensures LoadModel(WriteVersioned(TrainerVersioned(m)))
            == Ok(PyModel(true, 1, m.header, 0, PyDictionary(m.words, [], [], m.header.bucket),
                          m.labels, m.emb, m.att, m.protos, m.encoder))
  {
    LoadModelRoundTrip(TrainerVersioned(m));
  }
}

=== FILE: word_encoder.dfy ===
/**
 * The subword word encoder (core/encoder/word_encoder.cc): the mean of the
 * embedding rows of a token's boundary-wrapped n-grams, each n-gram hashed
 * with 64-bit FNV-1a into one of bucket_count rows, plus gamma times the
 * row of the token's phonetic code when a phonetic encoder is attached and
 * gamma is positive.
 */
module WordEncoders {
  import opened Vectors
  import opened VectorSums
  import opened Fnv
  import ET = EmbeddingTables
  import NG = NGramGenerator
  import PE = PhoneticEncoder

  /** The encoder's configuration; `phonetic` says whether an encoder pointer was given. */
  datatype Encoder = Encoder(table: ET.Table, gen: NG.Generator, phonetic: bool, bucketCount: int, gamma: real)

  /**
   * What encode needs of its configuration: bucket_count is positive (it
   * divides) and no larger than the table (row() asserts the bound).
   */
  predicate Valid(e: Encoder) {
    ET.Valid(e.table) && 0 < e.bucketCount <= e.table.bucketCount && e.gen.minN >= 0
  }

  /** WordEncoder::dim: the embedding table's width. */
  function Dim(e: Encoder): nat {
    e.table.dim
  }

  /** fnv1a(s) % bucket_count, the row an n-gram or a phonetic code is looked up in. */
  function Bucket(s: string, bucketCount: int): (b: int)
    requires bucketCount > 0
    ensures 0 <= b < bucketCount
  {
    (Hash64(Bytes(s)) as int) % bucketCount
  }

  /** The embedding rows of the given n-grams, in order. */
  function GramRows(e: Encoder, grams: seq<string>): (r: seq<Vec>)
    requires Valid(e)
    ensures |r| == |grams| && AllLong(r, Dim(e))
    ensures forall k :: 0 <= k < |grams| ==> r[k] == ET.Row(e.table, Bucket(grams[k], e.bucketCount))
  {
    seq(|grams|, k requires 0 <= k < |grams| => ET.Row(e.table, Bucket(grams[k], e.bucketCount)))
  }

  /** The phonetic row is added only with an encoder, gamma > 0 and a non-empty code. */
  predicate UsesPhonetic(e: Encoder, token: string) {
    e.phonetic && e.gamma > 0.0 && PE.Encode(token) != ""
  }

  function PhoneticRow(e: Encoder, token: string): (r: Vec)
    requires Valid(e)
    ensures |r| == Dim(e)
  {
    ET.Row(e.table, Bucket(PE.Encode(token), e.bucketCount))
  }

  /** WordEncoder::encode. */
  function Encode(e: Encoder, token: string): (out: Vec)
    requires Valid(e)
    ensures |out| == Dim(e)
  {
    var mean := GramMean(e, token);
    if UsesPhonetic(e, token) then Plus(mean, PhoneticRow(e, token), e.gamma) else mean
  }

  /** The n-gram part of the encoding. */
  function GramMean(e: Encoder, token: string): (r: Vec)
    requires Valid(e)
    ensures |r| == Dim(e)
  {
    Mean(GramRows(e, NG.Expected(e.gen, token)), Dim(e))
  }

  /**
   * With the phonetic row in use, the encoding is the n-gram mean plus
   * gamma times that row (entry j: mean[j] + gamma * row[j], by Plus).
   */
  lemma WithPhonetic(e: Encoder, token: string)
    requires Valid(e) && UsesPhonetic(e, token)
    ensures Encode(e, token) == Plus(GramMean(e, token), PhoneticRow(e, token), e.gamma)
  {
  }

  /** Without a phonetic encoder, or with gamma <= 0, the encoding is the n-gram mean. */
  lemma WithoutPhonetic(e: Encoder, token: string)
    requires Valid(e) && (!e.phonetic || e.gamma <= 0.0)
    ensures Encode(e, token) == GramMean(e, token)
  {
  }

  /** The empty token has no n-gram of length 3 or more and no phonetic code: zeros. */
  lemma EmptyToken(e: Encoder)
    requires Valid(e) && e.gen.minN >= 3
    ensures Encode(e, "") == Zeros(Dim(e))
  {
    NG.EmptyWordNoNgrams(e.gen);
    assert GramRows(e, []) == [];
  }

  /** encode as written: zero the output, sum the rows while counting, scale by 1/count, add the phonetic row. */
  method EncodeLoop(e: Encoder, token: string) returns (out: Vec)
    requires Valid(e)
    ensures out == Encode(e, token)
  {
    var dim := Dim(e);
    out := Zeros(dim);
    var wrapped, grams := NG.Generate(e.gen, token);
    var rows := GramRows(e, grams);
    var count := 0;
    while count < |grams|
      invariant 0 <= count <= |grams|
      invariant out == Total(rows[..count], dim)
    {
      var hash := Fnv1a64(grams[count]);
      var bucket := (hash as int) % e.bucketCount;
      var row := ET.Row(e.table, bucket);
      assert rows[..count + 1][..count] == rows[..count];
      out := Plus(out, row, 1.0);
      count := count + 1;
    }
    assert rows[..count] == rows;
    if count > 0 {
      out := Scaled(out, 1.0 / (count as real));
    }
    if e.phonetic && e.gamma > 0.0 {
      var code := PE.Encode(token);
      if code != "" {
        var hash := Fnv1a64(code);
        var row := ET.Row(e.table, (hash as int) % e.bucketCount);
        out := Plus(out, row, e.gamma);
      }
    }
  }
}
